=== FILE: README.md ===
# Orbia marketplace backend — decision rules in Dafny

Orbia is a marketplace backend where advertisers place orders with KOLs (key
opinion leaders) and run ad campaigns, paid from a per-user wallet. Most of
the repository is database plumbing. Underneath that plumbing sit sequential
decision rules, and this project states and proves them:

- the Snowflake ID generator;
- the wallet ledger with its conditional balance update, recharges, recharge
  orders and campaign billing;
- the three order life cycles, the campaign status rules and the per-status
  timestamp side effects of the order tables;
- teams and invitations, verification codes, and conversations with unread
  counters and message paging;
- the dictionary tree;
- the pure utilities: pagination, URL whitelist and image-URL checks, e-mail
  and wallet-address validation, `${VAR:default}` expansion, the MySQL
  connection string and role predicates;
- the validation rules of the KOL and dashboard services.

Every database table is an in-memory value: a map from key to row, or a
sequence of rows in primary-key order. Each service call is a pure function
from the state and the request to a `Result` that holds either the new state
(and value) or the service's error message. Clock readings, fresh IDs and
random draws are parameters. Money is integer minor units. Go's `int32` and
`int64` wrap-around is written out where the source relies on it
(`Pagination.Wrap32`, `IdGenerator.Wrap64`).

One module per component, one file per module:

- `id_generator.dfy`, `pagination.dfy` and `text.dfy`;
- `wallet.dfy`, `recharge_orders.dfy` and `admin.dfy`;
- `order_store.dfy`, `orders.dfy`, `kol_orders.dfy` and `ad_orders.dfy`;
- `campaigns.dfy`, `dictionary.dfy`, `teams.dfy`, `verification_codes.dfy`
  and `conversations.dfy`;
- `url_whitelist.dfy`, `upload.dfy`, `email.dfy`, `crypto.dfy`, `config.dfy`
  and `roles.dfy`;
- `kols.dfy` and `dashboard.dfy`;
- the helpers `wrappers.dfy`, `sorting.dfy` and `arith.dfy`.

## Model

| member | source | states |
|---|---|---|
| IdGenerator.Compose | biz/utils/id_generator.go:96-98 | the ID word packs the timestamp offset above bit 22, the worker above bit 12 and the sequence, with int64 wrap-around |
| IdGenerator.ComposeRoundTrip | biz/utils/id_generator.go:13-28 | timestamp offset, worker ID and sequence decode back exactly while the offset fits 41 bits |
| IdGenerator.ComposeMonotone | biz/utils/id_generator.go:96-98 | a later timestamp gives a larger ID whatever the worker and sequence fields hold |
| IdGenerator.NextID | biz/utils/id_generator.go:69-101 | a backwards clock is an error; the same millisecond increments the sequence modulo 4096; a new millisecond resets it to 0; on overflow the emitted timestamp is a strictly later reading |
| IdGenerator.ClockBackwardsKeepsState | biz/utils/id_generator.go:75-77 | when the clock moved backwards the call fails and sequence and last timestamp are unchanged |
| IdGenerator.NextIDStrictlyIncreasing | biz/utils/id_generator.go:69-101 | two successive successful calls give strictly increasing IDs inside the 41-bit window after the epoch |
| IdGenerator.InitIDGenerator | biz/utils/id_generator.go:45-57 | a worker ID outside [0, 1023] is rejected; only the first valid call installs a generator |
| IdGenerator.GetDefaultGenerator | biz/utils/id_generator.go:60-66 | without initialisation the default generator has worker ID 1; otherwise it is the installed one |
| IdGenerator.NextDefaultID | biz/utils/id_generator.go:113-124 | the `GetDefaultGenerator().NextID()` draw behind `GenerateOrderID` and `GenerateID`: the default generator's next ID, with its new state stored back |
| IdGenerator.GenerateOrderID | biz/utils/id_generator.go:113-119 | "ORD" followed by the decimal ID |
| IdGenerator.GenerateID | biz/utils/id_generator.go:122-124 | the decimal ID, which parses back to the number |
| IdGenerator.OrderIDsDistinct | biz/utils/id_generator.go:113-119 | distinct IDs give distinct order-ID strings |
| Pagination.NormalizePagination | biz/utils/pagination.go:22-45 | page 1 when missing or non-positive; size 10 when missing or non-positive, 100 above 100, so always in [1, 100] |
| Pagination.NormalizePaginationValue | biz/utils/pagination.go:48-50 | the same rules on plain values |
| Pagination.NormalizeIdempotent | biz/utils/pagination.go:26-39 | normalised parameters are a fixed point of normalisation |
| Pagination.BuildPageResp | biz/utils/pagination.go:59-71 | the response echoes page, size and total; the page count is always an `int32`, as the `int32(...)` conversion and the `int32` increment make it |
| Pagination.TotalPagesIsCeiling | biz/utils/pagination.go:59-63 | whenever the ceiling fits 32 bits, the page count is zero for no rows and the least number of pages that holds every row |
| Pagination.PageCountWraps | biz/utils/pagination.go:60 | the truncation is real: 2^31 rows on pages of one give the page count -2^31 |
| Pagination.GetPaginationInfoAsWritten | biz/utils/pagination.go:74-78 | the offset product is taken in int32 before widening |
| Pagination.AsWrittenOffsetGoesNegative | biz/utils/pagination.go:74-78 | page 21474838 of size 100 yields a negative offset |
| Pagination.GetPaginationInfo | biz/utils/pagination.go:74-78 | the offset is the number of rows on the earlier pages and is never negative |
| Pagination.GetPageParams | biz/utils/pagination.go:81-97 | defaults 1 and 10 and the cap of 100 |
| Pagination.GetPageParamsAgrees | biz/utils/pagination.go:81-97 | GetPageParams is NormalizePagination unpacked |
| Pagination.DefaultsNoCap | biz/service/kol/kol_service.go:301-306 | non-positive page and size become 1 and 10, larger sizes are kept |
| Wallet.UpdateBalance | biz/dal/mysql/wallet.go:59-83 | succeeds iff the wallet exists and neither balance would drop below zero; then exactly the two balances move by their deltas; otherwise the fixed error and an unchanged store |
| Wallet.UpdateBalancePreservesNonNegative | biz/dal/mysql/wallet.go:65-69 | if every wallet is non-negative before, every wallet is non-negative after |
| Wallet.GetTransactionsByUserID | biz/dal/mysql/wallet.go:119-145 | the total is the number of the user's rows passing the non-empty filters; the page holds at most a page of those rows, newest first |
| Wallet.NewestFirst | biz/dal/mysql/wallet.go:138-142 | the filtered rows, all of them and only them, ordered newest first |
| Wallet.TransactionListPage | biz/dal/mysql/wallet.go:138-142 | the page is the window of the newest-first rows after the `(page-1)*pageSize` rows of earlier pages |
| Wallet.EveryMatchingTxIsOnItsPage | biz/dal/mysql/wallet.go:138-142 | the row of newest-first rank `i` is row `i % pageSize` of page `i / pageSize + 1`, so no filtered row is missed |
| Wallet.TotalIndependentOfPage | biz/dal/mysql/wallet.go:134-142 | the total does not depend on the requested page |
| Wallet.EmptyFilterIsNoFilter | biz/dal/mysql/wallet.go:123-131 | an empty type or status filter is the same as none |
| Wallet.CreateWallet | biz/service/wallet/wallet_service.go:50-75 | a no-op when a wallet exists, otherwise a wallet with all four amounts zero |
| Wallet.CreateWalletIdempotent | biz/service/wallet/wallet_service.go:52-72 | creating twice is creating once |
| Wallet.GetWalletInfo | biz/service/wallet/wallet_service.go:78-88 | the user's wallet, or the not-found error |
| Wallet.FindTx | biz/dal/mysql/wallet.go:104-111 | the first transaction row with that ID, or none |
| Wallet.TransactionIDAsWritten | biz/service/wallet/wallet_service.go:103-113 | the `%d` verb applied to a string renders a bad-verb marker |
| Wallet.AsWrittenTransactionIDIsNotTXDigits | biz/service/wallet/wallet_service.go:113 | the as-written ID is never "TX" followed by digits |
| Wallet.TransactionIDFor | biz/service/wallet/wallet_service.go:113 | "TX" followed by the generated decimal ID |
| Wallet.PaymentOrderIDFor | biz/service/wallet/wallet_service.go:153 | "PAY" followed by the generated decimal ID |
| Wallet.TransactionIDRoundTrip | biz/service/wallet/wallet_service.go:113 | the intended IDs read back to the generator's number, so distinct numbers give distinct IDs |
| Wallet.PaymentURL | biz/service/wallet/wallet_service.go:153-156 | the payment URL is the fixed host, the platform and the payment order ID, separated by slashes |
| Wallet.PendingRecharge | biz/service/wallet/wallet_service.go:109-124 | a pending recharge row whose before and after balances both equal the current balance |
| Wallet.CryptoRecharge | biz/service/wallet/wallet_service.go:91-132 | a non-positive amount or a missing wallet fails; otherwise one pending recharge row is appended and the wallet is untouched |
| Wallet.OnlineRecharge | biz/service/wallet/wallet_service.go:135-182 | the same guards and row, plus the payment order ID and URL |
| Wallet.ConfirmCryptoRecharge | biz/service/wallet/wallet_service.go:185-238 | existence, ownership, pending and recharge type are checked in order and any failure changes nothing; success credits the amount through the conditional update and completes the row with the hash and the new balance, leaving total recharge unchanged |
| Wallet.ConfirmTwiceFails | biz/service/wallet/wallet_service.go:187-208 | a confirmed recharge cannot be confirmed again |
| Wallet.ConfirmPreservesNonNegative | biz/service/wallet/wallet_service.go:213-234 | confirmation keeps every wallet non-negative |
| Wallet.GetTransactionDetail | biz/service/wallet/wallet_service.go:246-261 | another user's transaction is refused |
| RechargeOrders.RechargeOrderID | biz/service/recharge_order/recharge_order_service.go:97 | `RCHORD_` followed by two underscore-separated fields that are the unix seconds and the generator ID in decimal |
| RechargeOrders.RechargeOrderIDDistinct | biz/service/recharge_order/recharge_order_service.go:97 | orders made in the same second with different generator IDs get different IDs |
| RechargeOrders.CreateCryptoRechargeOrder | biz/service/recharge_order/recharge_order_service.go:57-117 | rejects a non-positive amount, an empty address, a missing or disabled payment setting; otherwise a pending crypto order snapshotting the setting |
| RechargeOrders.CreateOnlineRechargeOrder | biz/service/recharge_order/recharge_order_service.go:120-162 | a pending online order carrying the platform, with an empty payment URL |
| RechargeOrders.ClampPage | biz/service/recharge_order/recharge_order_service.go:170-178 | page below 1 becomes 1, size below 1 becomes 10, size above 100 becomes 100 |
| RechargeOrders.ClampPageIsNormalize | biz/service/recharge_order/recharge_order_service.go:170-178 | the clamp is the shared pagination normalisation |
| RechargeOrders.GetRechargeOrderDetail | biz/service/recharge_order/recharge_order_service.go:184-203 | admins read any order, other users only their own |
| RechargeOrders.MergeRemark | biz/service/recharge_order/recharge_order_service.go:267-275 | an empty remark keeps the old one; otherwise "[Admin]: " and the remark, on a new line after an existing remark |
| RechargeOrders.ConfirmRechargeOrderAsWritten | biz/service/recharge_order/recharge_order_service.go:225-303 | the order is saved confirmed before the wallet lookup |
| RechargeOrders.Credit | biz/service/recharge_order/recharge_order_service.go:277-292 | balance and total recharge both rise by the amount, nothing else changes |
| RechargeOrders.AsWrittenConfirmLeavesOrderConfirmed | biz/service/recharge_order/recharge_order_service.go:277-287 | a pending order whose owner has no wallet fails yet is left confirmed |
| RechargeOrders.ConfirmRechargeOrder | biz/service/recharge_order/recharge_order_service.go:225-303 | only a pending order with an existing wallet is confirmed, with confirmer, time, non-empty hash override and credit; no other order column, no ledger row and none of the owner's frozen or consumed amounts change; every failure leaves the store unchanged |
| RechargeOrders.ConfirmAgreesWhenWalletExists | biz/service/recharge_order/recharge_order_service.go:225-303 | wherever the as-written confirmation succeeds, the corrected one reaches the same state |
| RechargeOrders.RejectRechargeOrder | biz/service/recharge_order/recharge_order_service.go:306-338 | the reason is required before lookup; only a pending order becomes failed with the reason; wallets are untouched |
| RechargeOrders.TerminalOrdersNeverChange | biz/service/recharge_order/recharge_order_service.go:225-338 | neither confirm nor reject touches an order that is no longer pending, and a success leaves it non-pending |
| RechargeOrders.CreatePreservesPositiveAmounts | biz/service/recharge_order/recharge_order_service.go:64-66 | creation keeps every order amount positive |
| RechargeOrders.ConfirmPreservesNonNegative | biz/service/recharge_order/recharge_order_service.go:277-292 | with positive amounts, confirmation keeps wallets non-negative |
| Admin.StringPtr | biz/service/admin/admin_service.go:609-614 | the empty string is null, any other string is present |
| Admin.GetStringValue | biz/service/admin/admin_service.go:498-503 | null reads as the empty string |
| Admin.StringPtrRoundTrip | biz/service/admin/admin_service.go:609-614 | the two helpers are inverse up to the empty string |
| Admin.SetUserStatus | biz/service/admin/admin_service.go:126-156 | only normal, disabled or deleted; an admin is refused; only the target's status changes |
| Admin.AdminStatusIsFixed | biz/service/admin/admin_service.go:128-142 | no status change alters an admin |
| Admin.AdminReviewKol | biz/service/admin/admin_service.go:229-263 | only approved or rejected; approval stamps the time and clears the reason; rejection sets a supplied reason |
| Admin.ReviewPathsDifferOnApproval | biz/service/admin/admin_service.go:231-250 | the admin review clears an old rejection reason on approval; the KOL-service review keeps it |
| Admin.AddCampaignConsume | biz/service/admin/admin_service.go:506-606 | rejects a non-positive amount, a missing campaign or wallet and an insufficient balance with no change; otherwise debits the owner, raises total consumption and writes a completed consume row for the campaign |
| Admin.ConsumePreservesNonNegative | biz/service/admin/admin_service.go:530-554 | billing keeps every wallet non-negative |
| Admin.ConsumeConservesBalancePlusConsume | biz/service/admin/admin_service.go:541-584 | balance plus total consumption is conserved, and the ledger row's before minus after is the amount |
| OrderStore.StampKolOrder | biz/dal/mysql/order.go:208-227 | each status writes its own timestamp, and cancellation records a given reason |
| OrderStore.UpdateOrderStatus | biz/dal/mysql/order.go:207-228 | the matching row gets the status and its side effects; other rows and the columns a status update never writes are unchanged |
| OrderStore.UpdateOrderStatusIdempotent | biz/dal/mysql/order.go:207-228 | repeating the update at the same instant changes nothing more |
| OrderStore.PlainStatusWritesStatusOnly | biz/dal/mysql/order.go:208-210 | a status without side effects writes only the status |
| OrderStore.StampAdOrder | biz/dal/mysql/ad_order.go:228-247 | the ad-order per-status timestamps and reason |
| OrderStore.UpdateAdOrderStatus | biz/dal/mysql/ad_order.go:227-248 | only the matching ad-order row changes |
| OrderStore.AdRefundedIsPlain | biz/dal/mysql/ad_order.go:228-247 | refunded carries no side effect on an ad order |
| Orders.ValidateStatusTransition | biz/service/order/order_service.go:332-355 | an unknown current status and any pair outside the table are errors |
| Orders.ValidateIsStep | biz/service/order/order_service.go:334-341 | accepted exactly on the listed moves: no self-loops, nothing out of cancelled or refunded, only refunded out of completed |
| Orders.CreateOrder | biz/service/order/order_service.go:27-88 | needs an approved KOL owning the plan; snapshots the plan into a pending order |
| Orders.GetOrder | biz/service/order/order_service.go:91-112 | readable by the buyer or the order's KOL |
| Orders.StrangerCannotView | biz/service/order/order_service.go:104-107 | nobody else can read it |
| Orders.OrderListScope | biz/service/order/order_service.go:115-166 | a KOL filter wins over a team filter, and a KOL's list is restricted to that KOL's user |
| Orders.OrderListWindow | biz/service/order/order_service.go:118-125 | page 1 and size 10 only when absent, offset in int32 |
| Orders.CancelOrder | biz/service/order/order_service.go:169-197 | only the buyer, only while pending; then cancelled with the reason |
| Orders.UpdateOrderStatus | biz/service/order/order_service.go:241-273 | the caller's KOL must own the order before the transition is checked |
| Orders.UpdateOrderStatusFollowsTable | biz/service/order/order_service.go:254-263 | a successful change moves that order one step of the table and no other order |
| KolOrders.KolTableIsOrderTableWithoutRefund | biz/service/kol_order/kol_order_service.go:206-227 | the KOL-side table is the order table without the refund move |
| KolOrders.StrPtrToOptional | biz/service/kol_order/kol_order_service.go:367-372 | null and the empty string become absent |
| KolOrders.StrPtrToOptionalIdempotent | biz/service/kol_order/kol_order_service.go:367-372 | converting twice is converting once |
| KolOrders.CreateKolOrder | biz/service/kol_order/kol_order_service.go:27-91 | an approved KOL owning the plan; the new order awaits payment with the buyer, team, KOL, plan snapshot (title, description, price, type), title and requirement, and nothing else in the table changes |
| KolOrders.CreateAgreesWithOrderService | biz/service/kol_order/kol_order_service.go:38-54 | both services accept the same requests |
| KolOrders.GetKolOrder | biz/service/kol_order/kol_order_service.go:94-119 | readable by the buyer or the order's KOL |
| KolOrders.UpdateKolOrderStatus | biz/service/kol_order/kol_order_service.go:179-234 | the caller's KOL must own the order; moves follow the KOL-side table |
| KolOrders.ConfirmKolOrderPayment | biz/service/kol_order/kol_order_service.go:237-265 | the buyer moves an order awaiting payment to pending |
| KolOrders.CancelKolOrder | biz/service/kol_order/kol_order_service.go:268-297 | the buyer cancels anything not completed, cancelled or refunded |
| KolOrders.FinishedOrdersAreFrozen | biz/service/kol_order/kol_order_service.go:179-297 | no operation of the service changes a finished order |
| AdOrders.CreateAdOrder | biz/service/ad_order/ad_order_service.go:25-57 | always pending |
| AdOrders.GetAdOrder | biz/service/ad_order/ad_order_service.go:60-80 | admins see every order, users their own |
| AdOrders.UpdateAdOrderStatus | biz/service/ad_order/ad_order_service.go:131-172 | exactly the table moves pending→approved/cancelled, approved→in_progress/cancelled, in_progress→completed/cancelled |
| AdOrders.UpdateStampsPerStatus | biz/service/ad_order/ad_order_service.go:144-164 | approval stamps the approval time; cancellation stamps the time and records a given reason |
| AdOrders.CancelAdOrder | biz/service/ad_order/ad_order_service.go:175-203 | the owner cancels anything but completed or cancelled, with the reason |
| AdOrders.TerminalAdOrdersAreFrozen | biz/service/ad_order/ad_order_service.go:144-198 | completed and cancelled ad orders never change |
| Campaigns.ValidatePromotionObjective | biz/service/campaign/campaign_service.go:537-556 | the objective/goal table |
| Campaigns.ObjectivePairs | biz/service/campaign/campaign_service.go:537-556 | exactly five objective/goal pairs are accepted |
| Campaigns.ValidateStatusTransition | biz/service/campaign/campaign_service.go:559-581 | never to the same status; a user toggles active and paused; an admin sets active, paused or ended |
| Campaigns.StatusRules | biz/service/campaign/campaign_service.go:559-581 | user moves are admin moves; nothing leads back to pending; only an admin leaves pending or ends |
| Campaigns.ArrayToJSON | biz/service/campaign/campaign_service.go:584-591 | null exactly for an empty list; otherwise a bracketed text whose comma-separated fields are the integers' decimal renderings in order |
| Campaigns.ArrayToJSONInjective | biz/service/campaign/campaign_service.go:584-591 | distinct lists encode differently |
| Campaigns.GetFileType | biz/service/campaign/campaign_service.go:594-616 | a listed extension gets its MIME type, anything else the binary type |
| Campaigns.MimeKeysAreLowerDotSuffixes | biz/service/campaign/campaign_service.go:594-616 | every listed extension is a lower-case dot suffix |
| Campaigns.Attachments | biz/service/campaign/campaign_service.go:212-225 | one attachment per URL, with its base name and the type of its lower-cased extension |
| Campaigns.CreateGuard | biz/service/campaign/campaign_service.go:114-160 | user, team, membership, objective and time-order guards in the service's order |
| Campaigns.CreateCampaign | biz/service/campaign/campaign_service.go:114-233 | exactly when the guards pass, a pending campaign under the new ID with the request's name, objective, goal, planned window, budget and JSON targeting lists, and one attachment per URL |
| Campaigns.ListField | biz/service/campaign/campaign_service.go:269-297 | a targeting list is rewritten only when a non-empty list is given |
| Campaigns.UpdateCampaign | biz/service/campaign/campaign_service.go:236-419 | owner only, pending only; objective and goal together; the window stays ordered; attachments replaced only when given |
| Campaigns.UpdateCampaignWrites | biz/service/campaign/campaign_service.go:269-366 | a successful update writes each given planned time and the given budget, keeps the ones not given, and rewrites a targeting list only from a non-empty list |
| Campaigns.EmptyUpdateIsIdentity | biz/service/campaign/campaign_service.go:236-419 | an empty request changes nothing |
| Campaigns.UpdateStatus | biz/service/campaign/campaign_service.go:422-449 | only the status column is written |
| Campaigns.UpdateCampaignStatus | biz/service/campaign/campaign_service.go:422-449 | the owner's change under the user rules |
| Campaigns.AdminUpdateCampaignStatus | biz/service/campaign/campaign_service.go:510-532 | the admin's change under the admin rules |
| Campaigns.LeavingPendingIsFinal | biz/service/campaign/campaign_service.go:559-581 | once out of pending, a campaign can no longer be edited and never returns to pending |
| Dictionary.ValidateDictionaryCode | biz/dal/mysql/dictionary.go:127-136 | a code is valid iff it is non-empty and all letters |
| Dictionary.MatchesLettersIff | biz/dal/mysql/dictionary.go:127-136 | the matcher accepts exactly the non-empty all-letter strings |
| Dictionary.ExcludeIDSemantics | biz/dal/mysql/dictionary.go:139-147 | with no exclusion both checks are plain existence; excluding the only holder finds nothing |
| Dictionary.CreateDictionary | biz/service/dictionary/dictionary_service.go:37-81 | a valid unused code; the new dictionary is enabled |
| Dictionary.UpdateDictionary | biz/service/dictionary/dictionary_service.go:84-122 | the name is always written, description and status when given, the code never |
| Dictionary.DictionaryOpsKeepCodesUnique | biz/service/dictionary/dictionary_service.go:37-122 | creation and update keep codes unique |
| Dictionary.DeleteDictionary | biz/service/dictionary/dictionary_service.go:125-157 | the dictionary and all its items disappear |
| Dictionary.ChildPath | biz/service/dictionary/dictionary_service.go:327-332 | the parent path, a slash and the new ID; the bare ID at the root |
| Dictionary.CreateDictionaryItem | biz/service/dictionary/dictionary_service.go:240-344 | the dictionary must exist, a parent must be in the same dictionary, the code must be new among siblings; level and path derive from the parent |
| Dictionary.CreateItemPreservesWellFormed | biz/service/dictionary/dictionary_service.go:240-344 | creation keeps the table well formed |
| Dictionary.LevelCountsPathComponents | biz/service/dictionary/dictionary_service.go:297-331 | in a well-formed table an item's level is one more than the number of slashes in its path |
| Dictionary.UpdateDictionaryItem | biz/service/dictionary/dictionary_service.go:347-393 | name, description, icon, sort order and status are written when given and kept otherwise; the item's position in the tree never changes |
| Dictionary.UpdateItemPreservesWellFormed | biz/service/dictionary/dictionary_service.go:347-393 | update keeps the table well formed |
| Dictionary.BuildTree | biz/service/dictionary/dictionary_service.go:579-609 | the first level holds the rows with that parent, in input order; no levels are left once the depth bound is spent |
| Dictionary.BuildTreeChildren | biz/service/dictionary/dictionary_service.go:582-605 | each node is a child row carrying the subtree built from its own ID one level down |
| Dictionary.BuildTreeContents | biz/service/dictionary/dictionary_service.go:579-609 | a row appears anywhere in the tree exactly when its chain of parents reaches the root within the depth bound |
| Dictionary.BuildTreeSound | biz/service/dictionary/dictionary_service.go:579-609 | every row in the tree hangs below the root |
| Dictionary.BuildTreeComplete | biz/service/dictionary/dictionary_service.go:579-609 | every row hanging below the root within the bound is in the tree |
| Dictionary.OrphansAreDropped | biz/service/dictionary/dictionary_service.go:582-583 | a row whose parent is neither the root nor any input row never appears |
| Dictionary.ChildIDs | biz/dal/mysql/dictionary.go:244-250 | the IDs of the rows whose parent is the given item |
| Dictionary.RemoveID | biz/dal/mysql/dictionary.go:162-164 | every row with that ID goes, nothing else |
| Dictionary.DeleteRecursive | biz/service/dictionary/dictionary_service.go:612-628 | the item and its children are gone |
| Dictionary.DeleteRecursiveSound | biz/service/dictionary/dictionary_service.go:612-628 | only the item and its descendants are removed |
| Dictionary.DeleteDictionaryItem | biz/service/dictionary/dictionary_service.go:396-422 | the item must exist; it goes with its subtree |
| Dictionary.AllWithItemsPageParams | biz/service/dictionary/dictionary_service.go:470-473 | the usual normalisation with the size further capped at 20 |
| Dictionary.EnabledTree | biz/service/dictionary/dictionary_service.go:468-517 | the tree of a dictionary's enabled items from the root; only such items appear |
| Dictionary.EnabledTreeContents | biz/service/dictionary/dictionary_service.go:490-499 | a row is in the tree iff it is an enabled item of the dictionary whose chain of enabled parents reaches the root within the bound |
| Teams.RoleToString | biz/service/team/team_service.go:433-444 | unknown roles are stored as member |
| Teams.StringToRole | biz/service/team/team_service.go:503-514 | unknown strings read as member |
| Teams.RoleRoundTrip | biz/service/team/team_service.go:433-514 | the converters are inverse on the three roles, and stored role strings survive a read and a write |
| Teams.StringToInvitationStatus | biz/service/team/team_service.go:517-530 | unknown strings read as pending |
| Teams.StatusRoundTrip | biz/service/team/team_service.go:517-530 | the stored status names read back to their status |
| Teams.AddMember | biz/dal/mysql/team.go:179-181 | inserts a member row; a pair that already has one keeps its oldest row visible |
| Teams.CanEdit | biz/service/team/team_service.go:415-425 | creators and owners may edit, non-members may not |
| Teams.CreateTeam | biz/service/team/team_service.go:47-81 | names above 20 bytes are refused; the caller joins as creator |
| Teams.CreatorCanEdit | biz/service/team/team_service.go:49-70 | the creator of a new team may edit it and nobody else may yet |
| Teams.TeamIconCheckAsWritten | biz/service/team/team_service.go:149-165 | the path is cut at the length of the public prefix even for whitelisted URLs |
| Teams.AsWrittenWhitelistedIconPanics | biz/service/team/team_service.go:149-165 | a whitelisted icon shorter than the public prefix passes validation, then the cut is out of range |
| Teams.TeamIconCheck | biz/service/team/team_service.go:149-165 | only a URL under the public prefix is checked against the stored-image rules |
| Teams.IconChecksAgreeUnderPublicPrefix | biz/service/team/team_service.go:149-165 | both checks agree on URLs under the public prefix |
| Teams.UpdateTeam | biz/service/team/team_service.go:114-179 | name bound, edit permission, existence and icon checks; an empty icon URL clears the icon |
| Teams.UserByEmail | biz/dal/mysql/user.go:67-74 | the user with that e-mail |
| Teams.UserByWallet | biz/dal/mysql/user.go:57-64 | the user with that wallet address |
| Teams.InvitationCode | biz/service/team/team_service.go:428-430 | "inv_" and the clock in nanoseconds |
| Teams.InvitationCodeInjective | biz/service/team/team_service.go:428-430 | distinct readings give distinct codes |
| Teams.ResolveInvitee | biz/service/team/team_service.go:237-257 | an e-mail wins over a wallet address; an unknown invitee is an error |
| Teams.AddInvitation | biz/dal/mysql/team.go:236-248 | an inserted invitation is found by its code unless an older row holds the code |
| Teams.InviteUser | biz/service/team/team_service.go:220-290 | the inviter may edit, the invitee exists and is not a member; the invitation is pending for seven days |
| Teams.AcceptInvitation | biz/service/team/team_service.go:293-349 | pending, unexpired and addressed to the caller; the caller joins with the invited role |
| Teams.RejectInvitation | biz/service/team/team_service.go:352-377 | only from pending, without checking the caller |
| Teams.InvitationAnsweredOnce | biz/service/team/team_service.go:304-368 | after an acceptance or a rejection neither succeeds again |
| Teams.InviteThenAccept | biz/service/team/team_service.go:220-349 | an invited user who accepts within seven days is a member |
| VerificationCodes.GetValidVerificationCode | biz/dal/mysql/verification_code.go:51-61 | none iff no row is valid; otherwise a valid row as new as any valid row |
| VerificationCodes.MarkAsUsed | biz/dal/mysql/verification_code.go:64-72 | the row with that key is used at that time, the others unchanged |
| VerificationCodes.CleanExpiredCodes | biz/dal/mysql/verification_code.go:75-79 | unused rows past expiry become expired, nothing else changes |
| VerificationCodes.CodeIsSingleUse | biz/dal/mysql/verification_code.go:51-72 | a used code is no longer valid and a later lookup finds another row |
| VerificationCodes.LookupCongruence | biz/dal/mysql/verification_code.go:51-61 | the lookup depends only on validity and creation times |
| VerificationCodes.CleaningPreservesLookup | biz/dal/mysql/verification_code.go:51-79 | sweeping never changes what a lookup at the same moment finds |
| VerificationCodes.CleaningIsIdempotent | biz/dal/mysql/verification_code.go:75-79 | sweeping twice is sweeping once; used and expired rows are untouched |
| VerificationCodes.WritesFollowLifeCycle | biz/dal/mysql/verification_code.go:64-79 | statuses only move unused→used or expired, or to used |
| Conversations.KeyCountAtMostOne | biz/dal/mysql/conversation.go:194-203 | under the primary key a pair has at most one member row |
| Conversations.IsConversationMember | biz/dal/mysql/conversation.go:194-203 | a member iff the pair has a row |
| Conversations.ConversationMembers | biz/dal/mysql/conversation.go:169-176 | the conversation's member rows in table order |
| Conversations.IncrementUnreadCount | biz/dal/mysql/conversation.go:251-255 | the pair's counters rise by one, nothing else changes |
| Conversations.ResetUnreadCount | biz/dal/mysql/conversation.go:258-266 | the pair's counters become zero with the read time |
| Conversations.Newest | biz/dal/mysql/conversation.go:223-229 | the first `limit` candidates newest first, none left out newer than the last one kept |
| Conversations.RepoGetMessages | biz/dal/mysql/conversation.go:221-243 | the newest `limit` messages before the cursor, returned oldest first |
| Conversations.ReverseOfNewest | biz/dal/mysql/conversation.go:232-240 | the reversal keeps the same elements in oldest-first order |
| Conversations.Nickname | biz/service/conversation/conversation_service.go:217-222 | nickname, else e-mail, else "Unknown" |
| Conversations.NewMembers | biz/service/conversation/conversation_service.go:115-133 | the first listed user is the creator, the rest members, nothing unread |
| Conversations.AddMembers | biz/service/conversation/conversation_service.go:115-133 | rows inserted one at a time; a taken key stops with the rows so far |
| Conversations.CreateConversation | biz/service/conversation/conversation_service.go:104-142 | an active conversation with one member row per listed user |
| Conversations.CreatedMembers | biz/service/conversation/conversation_service.go:115-133 | everyone listed is a member with nothing unread, the first as creator |
| Conversations.NotifyOthersExactlyOnce | biz/service/conversation/conversation_service.go:202-209 | every other member gains exactly one unread message and no other row changes |
| Conversations.SendMessage | biz/service/conversation/conversation_service.go:145-241 | members only, not into a closed conversation; the message is stored, the last-message time moves, other members are notified |
| Conversations.Views | biz/service/conversation/conversation_service.go:275-300 | one display record per message, with the sender's display name |
| Conversations.GetMessagesAsWritten | biz/service/conversation/conversation_service.go:255-263 | fetches `limit`+1 and keeps the first `limit` of the ascending list |
| Conversations.GetMessages | biz/service/conversation/conversation_service.go:244-307 | members only; the newest `limit` messages oldest first, and whether older ones remain |
| Conversations.GetMessagesIsNewestPage | biz/service/conversation/conversation_service.go:255-263 | the corrected page is exactly the newest `limit` messages; hasMore iff more are in range |
| Conversations.OneExtraThenDropOldest | biz/dal/mysql/conversation.go:221-243 | asking for one more and dropping the oldest is asking for the page |
| Conversations.NewestMessageEndsPage | biz/dal/mysql/conversation.go:232-240 | a uniquely newest message is the last entry of the page and nowhere else |
| Conversations.AsWrittenPageLosesNewest | biz/service/conversation/conversation_service.go:255-263 | with more messages than fit, the as-written page misses the newest one |
| Conversations.AsWrittenPageDropsNewest | biz/service/conversation/conversation_service.go:255-263 | messages at 1, 2 and 3 ms with a page of two lose the newest |
| Conversations.UnreadCountOf | biz/service/conversation/conversation_service.go:339-341 | the caller's counter, or 0 without a row |
| Conversations.GetConversation | biz/service/conversation/conversation_service.go:310-379 | members only; the conversation and the caller's unread count |
| Conversations.MarkMessagesRead | biz/service/conversation/conversation_service.go:479-495 | members only; the caller's counter goes to zero |
| Conversations.MarkReadClearsOwnCount | biz/service/conversation/conversation_service.go:481-490 | the caller then sees nothing unread and nobody else's counter moved |
| Conversations.SendRaisesOthersUnread | biz/service/conversation/conversation_service.go:202-209 | a message raises every other member's count by one and not the sender's |
| UrlWhitelist.PublicPrefix | biz/utils/url_validator.go:16-38 | the configured URL with trailing slashes replaced by one |
| UrlWhitelist.IsWhitelistedURL | biz/utils/url_validator.go:78-85 | some entry is a prefix of the URL |
| UrlWhitelist.ValidateURLPrefix | biz/utils/url_validator.go:16-38 | accepted iff under the public prefix or a whitelist entry, with the reason otherwise |
| UrlWhitelist.AddURLToWhitelist | biz/utils/url_validator.go:41-55 | the slash-terminated entry is appended unless present |
| UrlWhitelist.AddIsIdempotent | biz/utils/url_validator.go:41-55 | adding twice is adding once |
| UrlWhitelist.AddKeepsNoDuplicates | biz/utils/url_validator.go:41-55 | adding never creates a duplicate |
| UrlWhitelist.AddedURLIsWhitelisted | biz/utils/url_validator.go:41-85 | after adding a URL, everything under it is whitelisted |
| UrlWhitelist.RemoveURLFromWhitelist | biz/utils/url_validator.go:58-70 | an absent entry changes nothing; a present one leaves one entry fewer, exactly one copy of it gone |
| UrlWhitelist.RemoveKeepsOrder | biz/utils/url_validator.go:58-70 | the first occurrence of the normalised entry goes and every other entry keeps its place in the order |
| UrlWhitelist.RemoveUndoesAdd | biz/utils/url_validator.go:41-70 | removing what was just added restores the list |
| UrlWhitelist.RemoveDropsEntry | biz/utils/url_validator.go:58-70 | on a duplicate-free list the removed entry is gone |
| Upload.ValidateImageExtension | biz/utils/upload.go:32-38 | lower-cased and dotted, the extension is one of the five image types |
| Upload.ExtensionCheckIgnoresCaseAndDot | biz/utils/upload.go:32-38 | case and the leading dot do not matter |
| Upload.GeneratePublicURL | biz/utils/upload.go:79-82 | the public prefix followed by exactly the stored path |
| Upload.IsValidImagePath | biz/utils/upload.go:148-172 | no `..` or `//`, at least three parts, a known first directory |
| Upload.GetImageTypeFromPath | biz/utils/upload.go:175-183 | a team icon exactly under `team-icons/` |
| Upload.ValidateImageURL | biz/utils/upload.go:85-125 | accepted iff whitelisted, or under the public prefix with a valid path and extension |
| Upload.ImageURLCheckIsStricter | biz/utils/upload.go:85-125 | an accepted image URL passes the prefix check |
| Upload.GeneratedURLIsAccepted | biz/utils/upload.go:79-125 | the public URL of a well-formed stored image is accepted |
| Upload.DotDotPathsAreRejected | biz/utils/upload.go:148-172 | a path containing `..` is never valid |
| Email.ValidateEmail | biz/utils/email.go:228-244 | one `@`, a non-empty local part, a non-empty domain with a dot |
| Email.ValidateEmailParts | biz/utils/email.go:228-244 | an address built from `@`-free parts is accepted iff both are non-empty and the domain has a dot |
| Email.AcceptedEmailDecomposes | biz/utils/email.go:228-244 | every accepted address is its local part, `@` and its domain |
| Email.CodeLength | biz/utils/email.go:136-147 | the requested length, or 6 when not positive |
| Email.GenerateVerificationCode | biz/utils/email.go:136-147 | one decimal digit per draw, in drawing order |
| Crypto.AllHex | biz/utils/crypto.go:16-20 | every character is a hex digit of either case |
| Crypto.ValidateWalletAddress | biz/utils/crypto.go:16-20 | exactly 42 characters, `0x`, then hex digits |
| Crypto.AddressFromDigits | biz/utils/crypto.go:16-20 | `0x` and forty hex digits is valid; an upper-case `0X` is not |
| Crypto.CaseOfDigitsIsIgnored | biz/utils/crypto.go:16-20 | the case of the hex digits does not matter |
| Crypto.FillInjective | biz/utils/crypto.go:70-72 | the message template can be read back when the first hole has no line break |
| Crypto.SignMessageDeterminesInputs | biz/utils/crypto.go:70-72 | equal sign messages mean equal wallets and timestamps |
| Config.TrimSpace | biz/infra/config/config.go:149 | the input without its leading and trailing white space |
| Config.TrimSpaceKeepsCleanEnds | biz/infra/config/config.go:149 | a string with clean ends is its own trim |
| Config.MatchAt | biz/infra/config/config.go:140 | a match is a well-formed placeholder whose text starts the input |
| Config.MatchAtRender | biz/infra/config/config.go:140 | the pattern reads back every placeholder it can match, whatever follows |
| Config.Resolve | biz/infra/config/config.go:149-160 | the trimmed name's value when non-empty, else the default |
| Config.ExpandLiteral | biz/infra/config/config.go:138-162 | text without `$` is copied unchanged |
| Config.ExpandEnvVars | biz/infra/config/config.go:138-162 | content without `$` is returned unchanged; `ExpandLiteral`, `ExpandPlaceholder`, `TrimmedNameAndDefault` and `SinglePass` state how text and placeholders are expanded in one left-to-right pass |
| Config.ExpandPlaceholder | biz/infra/config/config.go:138-162 | a placeholder is replaced by its value and expansion continues after it |
| Config.SinglePass | biz/infra/config/config.go:138-162 | a placeholder expands to exactly its value, whatever that value holds: replacements are not expanded again |
| Config.PaddedNameReadsTheSame | biz/infra/config/config.go:149 | spaces around a name do not change it |
| Config.TrimmedNameAndDefault | biz/infra/config/config.go:149-160 | a padded name with an empty value falls back to the default |
| Config.ConfigPath | biz/infra/config/config.go:109-115 | `conf/dev/config.yaml` when unset, otherwise the setting's directory |
| Config.ConfigPathInjective | biz/infra/config/config.go:109-115 | different settings read different files |
| Config.GetDSN | biz/infra/config/config.go:165-176 | the user name, then the rest of the connection string |
| Config.DSNDeterminesSettings | biz/infra/config/config.go:165-176 | for separator-free fields, equal connection strings mean equal settings |
| Roles.RoleString | biz/consts/role.go:15-17 | the role's own string |
| Roles.AllRoles | biz/consts/role.go:40-42 | normal then admin |
| Roles.RolePredicatesPartition | biz/consts/role.go:20-37 | valid iff admin or normal, never both |
| Kols.KolOfUser | biz/dal/mysql/kol.go:190-197 | the KOL of that user |
| Kols.KolByID | biz/dal/mysql/kol.go:180-187 | the KOL with that ID |
| Kols.SaveKol | biz/dal/mysql/kol.go:200-202 | every row with the KOL's ID becomes the given KOL |
| Kols.ApplyKol | biz/service/kol/kol_service.go:52-136 | a user without a KOL gets a pending one with the given name, description, country, avatar and social URLs, a language per code/name pair and the tags; mismatched lists are refused |
| Kols.ApplyKolThenLookup | biz/service/kol/kol_service.go:52-136 | after applying the user has exactly the new KOL |
| Kols.UpdateKolInfo | biz/service/kol/kol_service.go:180-264 | each of the eight optional profile fields, the four social URLs included, is replaced when given and kept otherwise; status, review reason and approval time are untouched; a language mismatch fails after the basic save |
| Kols.EmptyKolInfoUpdateIsIdentity | biz/service/kol/kol_service.go:180-264 | an update that gives no field leaves the store as it was and succeeds |
| Kols.ReviewKol | biz/service/kol/kol_service.go:267-297 | only approved or rejected; approval stamps the time; rejection records a non-empty reason |
| Kols.ReviewKolTouchesOnlyTarget | biz/service/kol/kol_service.go:267-297 | only the reviewed KOL changes |
| Kols.SaveKolPlan | biz/service/kol/kol_service.go:380-437 | a positive plan ID updates the caller's own plan, otherwise a plan is created |
| Kols.DeleteKolPlan | biz/service/kol/kol_service.go:440-470 | only the owning KOL deletes |
| Kols.ForeignPlanUntouchable | biz/service/kol/kol_service.go:400-465 | no KOL edits or deletes another KOL's plan |
| Kols.ResolveKol | biz/service/kol/kol_service.go:473-490 | the KOL ID wins over the user ID; neither is an error |
| Kols.GetKolPlans | biz/service/kol/kol_service.go:473-498 | the plans of the resolved KOL |
| Kols.CreateKolVideo | biz/service/kol/kol_service.go:501-556 | a video of the caller's KOL under the new ID, holding the given title, content, cover, video URL and platform ID, with absent counts 0 |
| Kols.OwnedVideo | biz/service/kol/kol_service.go:559-582 | the caller's KOL must own the video |
| Kols.UpdateKolVideo | biz/service/kol/kol_service.go:559-614 | present fields replace stored ones; the platform, platform ID, publication time and every other table stay |
| Kols.UpdateKolVideoNothingIsIdentity | biz/service/kol/kol_service.go:559-614 | an empty update changes nothing |
| Kols.DeleteKolVideo | biz/service/kol/kol_service.go:617-647 | the owner's video is deleted |
| Kols.DeleteUndoesCreateKolVideo | biz/service/kol/kol_service.go:501-647 | a video created under a fresh ID is its creator's, and deleting it restores the store |
| Kols.ListStatus | biz/dal/mysql/kol.go:216-221 | the given status, or approved when missing or empty |
| Kols.GetKolList | biz/service/kol/kol_service.go:300-315 | the window at (page-1)*size of the selected KOLs, and the count of them |
| Kols.EveryListedKolIsOnItsPage | biz/dal/mysql/kol.go:210-244 | the KOL at position i is row i mod size of page i div size + 1 |
| Dashboard.CreateExcellentCase | biz/service/dashboard/dashboard_service.go:41-86 | video URL, cover URL and title required in that order; sort order defaults to 0; a new case is enabled |
| Dashboard.UpdateExcellentCase | biz/service/dashboard/dashboard_service.go:89-135 | 404 for an unknown case, otherwise only that case changes |
| Dashboard.CasePatchIdempotent | biz/service/dashboard/dashboard_service.go:89-135 | patching twice is patching once, and supplied fields read back |
| Dashboard.DeleteExcellentCase | biz/service/dashboard/dashboard_service.go:138-164 | 404 for an unknown case, otherwise it is removed |
| Dashboard.DeleteUndoesCreate | biz/service/dashboard/dashboard_service.go:41-164 | deleting a case just created restores the store |
| Dashboard.RankingExists | biz/dal/mysql/dashboard.go:188-196 | some trend holds the ranking, except the excluded one when positive |
| Dashboard.CreateContentTrend | biz/service/dashboard/dashboard_service.go:231-280 | keyword required, then a valid level, then a free ranking; a new trend is enabled |
| Dashboard.UpdateContentTrend | biz/service/dashboard/dashboard_service.go:283-348 | 404 for an unknown trend; a changed ranking must be free; a supplied level must be valid |
| Dashboard.DeleteContentTrend | biz/service/dashboard/dashboard_service.go:351-377 | 404 for an unknown trend, otherwise it is removed |
| Dashboard.CreateKeepsBoardValid | biz/service/dashboard/dashboard_service.go:231-280 | creation keeps rankings unique and levels valid |
| Dashboard.UpdateKeepsBoardValid | biz/service/dashboard/dashboard_service.go:283-348 | update keeps rankings unique and levels valid |
| Dashboard.DeleteKeepsBoardValid | biz/service/dashboard/dashboard_service.go:351-377 | deletion keeps rankings unique and levels valid |
| Dashboard.SameRankingIsNotAConflict | biz/service/dashboard/dashboard_service.go:299-312 | resubmitting a trend's own ranking never fails |
| Dashboard.ListPageInfo | biz/service/dashboard/dashboard_service.go:169-202 | defaults without cap, the int32 offset and the truncated page count |
| Dashboard.ListPagesAreCeiling | biz/service/dashboard/dashboard_service.go:198-202 | the page count equals BuildPageResp's ceiling whenever it fits 32 bits |
| Dashboard.CeilingQuotient | biz/service/dashboard/dashboard_service.go:202 | the page-count expression is the quotient rounded up |
| Dashboard.ListOffsetSkipsEarlierPages | biz/service/dashboard/dashboard_service.go:178 | the offset is the number of rows before the page when it fits 32 bits |
| Dashboard.StatusCount | biz/dal/mysql/dashboard.go:63-86 | the count ignores the status filter when none is given (all rows), is zero when no row has the requested status and is every row when all do; the trend list at lines 153-176 counts the same way |
| Dashboard.StatusCountAdds | biz/dal/mysql/dashboard.go:69-76 | the count of two tables with disjoint keys is the sum of their counts |
| Dashboard.StatusCountOne | biz/dal/mysql/dashboard.go:69-76 | a single row counts 1 when unfiltered or of the requested status and 0 otherwise, which with additivity gives the exact count of any table |
| Dashboard.GetExcellentCaseList | biz/service/dashboard/dashboard_service.go:167-205 | the page metadata over the counted cases |
| Dashboard.GetContentTrendList | biz/service/dashboard/dashboard_service.go:380-418 | the page metadata over the counted trends |
| Dashboard.GetOrCreatePlatformStats | biz/dal/mysql/dashboard.go:243-265 | the row, created all zero when missing |
| Dashboard.UpdatePlatformStats | biz/service/dashboard/dashboard_service.go:444-488 | the stored or zero row with the supplied fields replaced |
| Dashboard.UpdateStatsChangesOnlySupplied | biz/service/dashboard/dashboard_service.go:444-488 | exactly the supplied fields change |
| Dashboard.UpdateStatsIdempotent | biz/service/dashboard/dashboard_service.go:444-488 | repeating an update is making it once |

## Left out

- Database, HTTP handlers, logging, JWT, S3, SMTP and the RPC wrappers are I/O glue. Only the decisions they feed are modelled.
- Transactions are modelled as all-or-nothing except where the source writes outside them. In those cases (`ConfirmRechargeOrder` as written, `UpdateKolInfo`'s language mismatch, `CreateConversation`'s member loop, and `SendMessage` when the sender's user row is missing) the partially updated state is returned with the error. For `SendMessage` that state holds the stored message, the moved last-message time and the raised unread counters.
- Database failures other than a taken primary key are not modelled. Only the Dashboard creates (`Dashboard.CreateExcellentCase`, `Dashboard.CreateContentTrend`) and the conversation inserts (`Conversations.CreateConversation`, `Conversations.AddMembers`, `Conversations.SendMessage`) fail on a key that is already used.
- Row keys that the database's auto-increment or the ID generator assigns are parameters taken to be fresh, and a reused one is not rejected. `Orders.CreateOrder`, `KolOrders.CreateKolOrder`, `AdOrders.CreateAdOrder`, `Campaigns.CreateCampaign`, the two `RechargeOrders` creates, `Teams.CreateTeam`, `Dictionary.CreateDictionary`, `Kols.SaveKolPlan` and `Kols.CreateKolVideo` would overwrite the row under that key. `Dictionary.CreateDictionaryItem` and `Kols.ApplyKol` would append a second row with the same key.
- Money is integer minor units, not `float64`. Amount formatting (`%.2f` in messages) is elided from the error strings that carry it.
- The user row is reduced to the fields the services read: role, status, e-mail, wallet, nickname and KOL link.
- Admin.AddCampaignConsume: the after-balance is re-read through the plain database handle in the source. Here it is the debited balance.
- Wallet.ConfirmCryptoRecharge: the source re-reads the wallet for `balanceAfter` through the plain database handle, outside the transaction that credits it (biz/service/wallet/wallet_service.go:220). Here `balanceAfter` is the credited balance.
- Wallet.CryptoRecharge: the stored transaction ID is the intended `"TX"` plus the generated ID. The source as written stores the `TX%!d(string=...)` rendering, recorded under Findings as `Wallet.TransactionIDAsWritten`.
- Wallet.OnlineRecharge: the stored transaction and payment-order IDs are the intended `"TX"` and `"PAY"` plus the generated ID. The source as written stores the `%!d(string=...)` renderings, recorded under Findings.
- `UpdateKolStats`, the detail getters, `GetKolInfo`, `GetKolVideos` and the `convert*` functions build views. They hold no rule and are left out.
- Orders.OrderListWindow: the list repository queries that run on the window are not modelled, only the parameters they receive.
- Campaigns.CreateCampaign: only the targeting fields the guards touch are kept. Attachments are held inside the campaign row. Equal planned start and end times are accepted, as in the source.
- Dictionary.BuildTree: a `fuel` bound replaces the source's unbounded recursion. That recursion never returns on a parent cycle. Siblings keep input order, since `sort_order` ordering is the query's job.
- Dictionary.DeleteRecursive: completeness is stated for the item and its direct children when the fuel is at least 2. Deeper completeness holds only up to the fuel bound. Soundness is proved for every fuel.
- Dictionary.CreateDictionaryItem: the `int32` level is unbounded here. Overflow would need a tree more than 2^31 levels deep.
- KolOrders.CreateKolOrder: the request's video type, video duration, target audience, expected delivery date and additional requirements are not columns of the model's order. The source stores them and copies them into the order view, and no check or status rule reads them.
- Teams.UpdateTeam: `CheckImageExists` becomes the `iconExists` parameter. Parsing the team ID from the path is not modelled. The icon check is the corrected `Teams.TeamIconCheck`. As written, the source cuts every URL at the public prefix's length, whitelisted external URLs included: `Teams.TeamIconCheckAsWritten` (see Findings).
- Teams.AddMember: the member table has no unique key on (team, user), so a duplicate row is inserted and lookups read the oldest row.
- Teams.AddInvitation: an invitation code that collides keeps the oldest row visible.
- Teams.RejectInvitation: it does not check that the caller is the invitee. The model says so rather than adding a check.
- Teams.CreateTeam: the icon URL is not validated on creation, as in the source.
- Team times are whole seconds. Conversation times are milliseconds.
- Conversations.GetMessages: the handler's parsing of `limit` is not modelled, and `limit` is a natural number. The page is the corrected newest-`limit` page. The source's `[:limit]` cut is `Conversations.GetMessagesAsWritten` (see Findings).
- Conversations.NotifyOthersExactlyOnce: it takes the member table's primary key (one row per pair) as a hypothesis, which the schema guarantees.
- Dashboard.GetExcellentCaseList: only page metadata and the total are returned. The rows and their `sort_order`/`ranking` then `created_at` ordering are the query's.
- Dashboard.GetContentTrendList: as above.
- Dashboard.UpdatePlatformStats: float columns are integers. `GetDashboardData`, `GetPlatformStats` and the converters only read.
- Kols.GetKolList: Go's 64-bit overflow of the offset is ignored. The tag join is membership, so a KOL with a duplicated tag row is not listed twice. Rows are in table order.
- Crypto.GenerateSignMessage: it has no contract of its own. The property is stated by `Crypto.SignMessageDeterminesInputs`, because the long fixed text makes direct contracts too expensive to check.
- `VerifySignature`, `HashPassword`, `CheckPasswordHash` and `GenerateKeyPair` call cryptographic libraries and are left out.
- `SendVerificationEmail` sends over SMTP and is left out.
- `LoadConfig` reads a file and parses YAML. Only the choice of path (`Config.ConfigPath`) is modelled.
- Config.GetDSN: the pool settings are not part of the connection string. Injectivity is proved only for fields free of the separators.
- Config.TrimSpace: only ASCII and the common Unicode white-space code points are treated as space.
- `ValidateFileSize`, `GenerateImagePath` and `CheckImageExists` depend on the clock, randomness or S3 and are left out.
- Strings are sequences of characters, and inputs are treated as ASCII, so Go's byte length equals the sequence length.

## Findings

| source | as written | input that shows it | evidently intended | confidence | as-written member | corrected member |
|---|---|---|---|---|---|---|
| biz/utils/pagination.go:74-78 | the offset `(page-1)*pageSize` is computed in `int32` and only then widened | page 21474838, page size 100 gives offset -2147483596 | a non-negative offset computed at full width | high, not executed | Pagination.AsWrittenOffsetGoesNegative | Pagination.GetPaginationInfo |
| biz/service/wallet/wallet_service.go:103-113 | `fmt.Sprintf("TX%d", id)` with a string ID, and `PAY%d` likewise at line 153 | any generated ID renders as `TX%!d(string=...)` | "TX" or "PAY" followed by the decimal ID | high, not executed | Wallet.AsWrittenTransactionIDIsNotTXDigits | Wallet.TransactionIDRoundTrip |
| biz/service/recharge_order/recharge_order_service.go:277-287 | the order is saved as confirmed before the owner's wallet is looked up | a pending order whose owner has no wallet: an error is returned, yet the order stays confirmed | every failure leaves the order pending | high, not executed | RechargeOrders.AsWrittenConfirmLeavesOrderConfirmed | RechargeOrders.ConfirmAgreesWhenWalletExists |
| biz/service/conversation/conversation_service.go:255-263 | `messages[:limit]` keeps the first `limit` of the ascending `limit+1` rows | messages at 1, 2 and 3 ms with limit 2: the page holds 1 and 2 and drops 3 | drop the oldest extra row, keeping the newest `limit` | high, not executed | Conversations.AsWrittenPageDropsNewest | Conversations.GetMessagesIsNewestPage |
| biz/service/team/team_service.go:149-165 | the icon path is sliced at the length of the public prefix even for whitelisted external URLs | a whitelisted URL shorter than the public prefix: the slice is out of range | only URLs under the public prefix have their path inspected | medium, not executed | Teams.AsWrittenWhitelistedIconPanics | Teams.IconChecksAgreeUnderPublicPrefix |

=== FILE: ad_orders.dfy ===
/** The ad-order service: users place ad orders, admins move them through the
    review table, and the owner may cancel until completion. */
module AdOrders {
  import opened Wrappers
  import OrderStore
  import Orders

  const Transitions: map<string, set<string>> := map[
    "pending" := {"approved", "cancelled"},
    "approved" := {"in_progress", "cancelled"},
    "in_progress" := {"completed", "cancelled"}]

  /** The table as a list of moves. */
  predicate Step(cur: string, next: string) {
    || (cur == "pending" && next in {"approved", "cancelled"})
    || (cur == "approved" && next in {"in_progress", "cancelled"})
    || (cur == "in_progress" && next in {"completed", "cancelled"})
  }

  /** `CreateAdOrder`: always pending. `orderID` is the fresh ad-order ID. */
  function CreateAdOrder(orders: map<string, OrderStore.AdOrder>, userID: int, teamID: Option<int>, title: string,
                         description: string, budget: int, adType: string, targetAudience: string,
                         startDate: string, endDate: string, orderID: string)
    : (r: (map<string, OrderStore.AdOrder>, string))
    ensures r.1 == orderID && orderID in r.0 && r.0 == orders[orderID := r.0[orderID]]
    ensures var o := r.0[orderID];
      && o.orderID == orderID && o.userID == userID && o.teamID == teamID && o.title == title
      && o.budget == budget && o.adType == adType && o.startDate == startDate && o.endDate == endDate
      && o.status == "pending" && o.rejectReason.None?
      && o.approvedAt.None? && o.completedAt.None? && o.cancelledAt.None?
  {
    var o := OrderStore.AdOrder(orderID, userID, teamID, title, description, budget, adType, targetAudience,
                                startDate, endDate, "pending", None, None, None, None);
    (orders[orderID := o], orderID)
  }

  /** `GetAdOrder`: admins see all orders, users their own. */
  function GetAdOrder(orders: map<string, OrderStore.AdOrder>, userID: int, isAdmin: bool, orderID: string)
    : (r: Result<OrderStore.AdOrder, string>)
    ensures orderID !in orders ==> r == Failure(Orders.OrderNotFound)
    ensures r.Success? <==> orderID in orders && (isAdmin || orders[orderID].userID == userID)
    ensures r.Success? ==> r.value == orders[orderID]
  {
    if orderID !in orders then Failure(Orders.OrderNotFound)
    else if !isAdmin && orders[orderID].userID != userID then Failure(Orders.NoPermissionToView)
    else Success(orders[orderID])
  }

  /** `UpdateAdOrderStatus` (admin). */
  function UpdateAdOrderStatus(orders: map<string, OrderStore.AdOrder>, orderID: string, status: string,
                               rejectReason: Option<string>, now: int)
    : (r: Result<map<string, OrderStore.AdOrder>, string>)
    ensures orderID !in orders ==> r == Failure(Orders.OrderNotFound)
    ensures orderID in orders && orders[orderID].status !in Transitions ==> r == Failure("当前订单状态无法变更")
    ensures r.Success? <==> orderID in orders && Step(orders[orderID].status, status)
    ensures r.Success? ==> r.value == OrderStore.UpdateAdOrderStatus(orders, orderID, status, rejectReason, now)
  {
    if orderID !in orders then Failure(Orders.OrderNotFound)
    else
      var o := orders[orderID];
      if o.status !in Transitions then Failure("当前订单状态无法变更")
      else if status !in Transitions[o.status] then Failure("不允许从 " + o.status + " 状态转换到 " + status + " 状态")
      else Success(OrderStore.UpdateAdOrderStatus(orders, orderID, status, rejectReason, now))
  }

  /** Approval through the table stamps `approvedAt`; cancellation stamps
      `cancelledAt` and records a given reason. */
  lemma UpdateStampsPerStatus(orders: map<string, OrderStore.AdOrder>, orderID: string, status: string,
                              rejectReason: Option<string>, now: int)
    requires UpdateAdOrderStatus(orders, orderID, status, rejectReason, now).Success?
    ensures var o' := UpdateAdOrderStatus(orders, orderID, status, rejectReason, now).value[orderID];
      && o'.status == status
      && (status == "approved" ==> o'.approvedAt == Some(now))
      && (status == "cancelled" ==> o'.cancelledAt == Some(now))
      && (status == "cancelled" && rejectReason.Some? ==> o'.rejectReason == rejectReason)
      && OrderStore.AdOrderCore(o') == OrderStore.AdOrderCore(orders[orderID])
  {
  }

  /** `CancelAdOrder`: the owner may cancel anything but a completed or cancelled order. */
  function CancelAdOrder(orders: map<string, OrderStore.AdOrder>, userID: int, orderID: string, reason: string, now: int)
    : (r: Result<map<string, OrderStore.AdOrder>, string>)
    ensures orderID !in orders ==> r == Failure(Orders.OrderNotFound)
    ensures orderID in orders && orders[orderID].userID != userID ==> r == Failure(Orders.NoPermissionToOperate)
    ensures r.Success? <==>
      orderID in orders && orders[orderID].userID == userID && orders[orderID].status !in {"completed", "cancelled"}
    ensures r.Success? ==> r.value == OrderStore.UpdateAdOrderStatus(orders, orderID, "cancelled", Some(reason), now)
  {
    if orderID !in orders then Failure(Orders.OrderNotFound)
    else if orders[orderID].userID != userID then Failure(Orders.NoPermissionToOperate)
    else if orders[orderID].status == "completed" || orders[orderID].status == "cancelled" then Failure("该订单无法取消")
    else Success(OrderStore.UpdateAdOrderStatus(orders, orderID, "cancelled", Some(reason), now))
  }

  /** Completed and cancelled ad orders are terminal for both the admin table and
      the owner's cancel. */
  lemma TerminalAdOrdersAreFrozen(orders: map<string, OrderStore.AdOrder>, userID: int, orderID: string,
                                  status: string, rejectReason: Option<string>, reason: string, now: int)
    requires orderID in orders && orders[orderID].status in {"completed", "cancelled"}
    ensures UpdateAdOrderStatus(orders, orderID, status, rejectReason, now).Failure?
    ensures CancelAdOrder(orders, userID, orderID, reason, now).Failure?
  {
  }
}

=== FILE: admin.dfy ===
/** Admin operations: user status, KOL review, and billing a campaign's owner for
    consumption. */
module Admin {
  import opened Wrappers
  import Roles
  import Kols
  import Wallet

  /** `stringPtr`: the empty string becomes a null pointer. */
  function StringPtr(s: string): (r: Option<string>)
    ensures r.None? <==> s == ""
    ensures r.Some? ==> r.value == s
  {
    if s == "" then None else Some(s)
  }

  /** `getStringValue`: a null pointer reads as the empty string. */
  function GetStringValue(p: Option<string>): (r: string)
    ensures p.None? ==> r == ""
    ensures p.Some? ==> r == p.value
  {
    if p.None? then "" else p.value
  }

  /** The two helpers are inverse up to the empty string. */
  lemma StringPtrRoundTrip(s: string, p: Option<string>)
    ensures GetStringValue(StringPtr(s)) == s
    ensures p != Some("") ==> StringPtr(GetStringValue(p)) == p
    ensures StringPtr(GetStringValue(Some(""))) == None
  {
  }

  const UserStatuses: set<string> := {"normal", "disabled", "deleted"}

  /** `SetUserStatus`: one of three statuses, never on an admin. */
  function SetUserStatus(users: map<int, Roles.User>, userID: int, status: string): (r: Result<map<int, Roles.User>, string>)
    ensures status !in UserStatuses ==> r == Failure("invalid status value")
    ensures status in UserStatuses && userID !in users ==> r == Failure("user not found")
    ensures status in UserStatuses && userID in users && users[userID].role == Roles.RoleAdmin ==>
      r == Failure("cannot modify admin user status")
    ensures r.Success? <==> status in UserStatuses && userID in users && users[userID].role != Roles.RoleAdmin
    ensures r.Success? ==> r.value == users[userID := users[userID].(status := status)]
  {
    if status !in UserStatuses then Failure("invalid status value")
    else if userID !in users then Failure("user not found")
    else if users[userID].role == Roles.RoleAdmin then Failure("cannot modify admin user status")
    else Success(users[userID := users[userID].(status := status)])
  }

  /** No sequence of status changes alters an admin. */
  lemma AdminStatusIsFixed(users: map<int, Roles.User>, userID: int, status: string, other: int)
    requires other in users && Roles.IsAdmin(users[other].role)
    ensures SetUserStatus(users, userID, status).Success? ==>
      other in SetUserStatus(users, userID, status).value &&
      SetUserStatus(users, userID, status).value[other] == users[other]
  {
  }

  /** `AdminReviewKol`: approval stamps `approvedAt` and clears the reason; a
      rejection sets the reason only when one is supplied (even an empty one). */
  function AdminReviewKol(st: Kols.KolStore, kolID: int, status: string, rejectReason: Option<string>, now: int)
    : (r: Result<Kols.KolStore, string>)
    ensures status !in Kols.ReviewStatuses ==> r == Failure("invalid status value")
    ensures r.Success? <==> status in Kols.ReviewStatuses && Kols.KolByID(st, kolID).Some?
    ensures r.Success? ==> var k := Kols.KolByID(st, kolID).value;
      && var k' := (if status == "approved" then k.(status := status, approvedAt := Some(now), rejectReason := None)
                    else k.(status := status, rejectReason := if rejectReason.Some? then rejectReason else k.rejectReason));
      && r.value == st.(kols := Kols.SaveKol(st.kols, k'))
  {
    if status !in Kols.ReviewStatuses then Failure("invalid status value")
    else match Kols.KolByID(st, kolID)
      case None => Failure("kol not found")
      case Some(k) =>
        var k' := if status == "approved" then k.(status := status, approvedAt := Some(now), rejectReason := None)
                  else k.(status := status, rejectReason := if rejectReason.Some? then rejectReason else k.rejectReason);
        Success(st.(kols := Kols.SaveKol(st.kols, k')))
  }

  /** The two review paths differ on approval: the admin path clears an earlier
      rejection reason, the KOL-service path keeps it. */
  lemma ReviewPathsDifferOnApproval(st: Kols.KolStore, kolID: int, now: int, i: int)
    requires 0 <= i < |st.kols| && st.kols[i].id == kolID
    requires Kols.KolByID(st, kolID).Some? && Kols.KolByID(st, kolID).value.rejectReason.Some?
    ensures AdminReviewKol(st, kolID, "approved", None, now).value.kols[i].rejectReason.None?
    ensures Kols.ReviewKol(st, kolID, "approved", "", now).value.kols[i].rejectReason
         == Kols.KolByID(st, kolID).value.rejectReason
  {
  }

  /** `AddCampaignConsume`: debits the campaign owner's wallet. `campaigns` maps a
      campaign ID to its owner; `txID` is the fresh transaction ID and `now` the
      clock. Returns the ledger and the transaction ID. */
  function AddCampaignConsume(campaigns: map<string, int>, l: Wallet.Ledger, campaignID: string, amount: int,
                              remark: Option<string>, txID: string, now: int)
    : (r: Result<(Wallet.Ledger, string), string>)
    ensures amount <= 0 ==> r == Failure("amount must be greater than 0")
    ensures amount > 0 && campaignID !in campaigns ==> r == Failure("campaign not found")
    ensures amount > 0 && campaignID in campaigns && campaigns[campaignID] !in l.wallets ==>
      r == Failure("user wallet not found")
    ensures amount > 0 && campaignID in campaigns && campaigns[campaignID] in l.wallets
            && l.wallets[campaigns[campaignID]].balance < amount ==>
      r == Failure("insufficient balance")
    ensures r.Success? <==>
      && amount > 0 && campaignID in campaigns && campaigns[campaignID] in l.wallets
      && l.wallets[campaigns[campaignID]].balance >= amount
      && l.wallets[campaigns[campaignID]].frozenBalance >= 0
    ensures r.Success? ==> var (l', id) := r.value; var u := campaigns[campaignID]; var w := l.wallets[u];
      && id == txID
      && l'.wallets.Keys == l.wallets.Keys
      && l'.wallets[u] == w.(balance := w.balance - amount, totalConsume := w.totalConsume + amount)
      && (forall v | v in l.wallets && v != u :: l'.wallets[v] == l.wallets[v])
      && |l'.txs| == |l.txs| + 1 && l'.txs[..|l.txs|] == l.txs
      && var t := l'.txs[|l.txs|];
      && t.transactionID == txID && t.userID == u && t.txType == "consume" && t.status == "completed"
      && t.amount == amount && t.balanceBefore == w.balance && t.balanceAfter == w.balance - amount
      && t.relatedOrderType == Some("campaign") && t.relatedOrderID == Some(campaignID)
      && t.remark == StringPtr(GetStringValue(remark)) && t.completedAt == Some(now)
  {
    if amount <= 0 then Failure("amount must be greater than 0")
    else if campaignID !in campaigns then Failure("campaign not found")
    else
      var u := campaigns[campaignID];
      if u !in l.wallets then Failure("user wallet not found")
      else
        var before := l.wallets[u];
        if before.balance < amount then Failure("insufficient balance")
        else match Wallet.UpdateBalance(l, u, -amount, 0)
          case Failure(e) => Failure("failed to update wallet balance: " + e)
          case Success(l1) =>
            var w := l1.wallets[u];
            var l2 := l1.(wallets := l1.wallets[u := w.(totalConsume := w.totalConsume + amount)]);
            var after := l2.wallets[u];
            var t := Wallet.Transaction(txID, u, "consume", amount, before.balance, after.balance, "completed",
                                        None, None, None, None, None, None, None, None,
                                        StringPtr("campaign"), Some(campaignID), StringPtr(GetStringValue(remark)),
                                        now, Some(now));
            Success((l2.(txs := l2.txs + [t]), txID))
  }

  /** Billing preserves the no-negative-balance invariant. */
  lemma ConsumePreservesNonNegative(campaigns: map<string, int>, l: Wallet.Ledger, campaignID: string, amount: int,
                                    remark: Option<string>, txID: string, now: int)
    requires Wallet.NonNegative(l)
    requires AddCampaignConsume(campaigns, l, campaignID, amount, remark, txID, now).Success?
    ensures Wallet.NonNegative(AddCampaignConsume(campaigns, l, campaignID, amount, remark, txID, now).value.0)
  {
  }

  /** Billing moves money from balance to total consumption: their sum, and the
      ledger row's before/after difference, are conserved. */
  lemma ConsumeConservesBalancePlusConsume(campaigns: map<string, int>, l: Wallet.Ledger, campaignID: string, amount: int,
                                           remark: Option<string>, txID: string, now: int)
    requires AddCampaignConsume(campaigns, l, campaignID, amount, remark, txID, now).Success?
    ensures var l' := AddCampaignConsume(campaigns, l, campaignID, amount, remark, txID, now).value.0;
      var u := campaigns[campaignID];
      && l'.wallets[u].balance + l'.wallets[u].totalConsume == l.wallets[u].balance + l.wallets[u].totalConsume
      && l'.txs[|l.txs|].balanceBefore - l'.txs[|l.txs|].balanceAfter == l'.txs[|l.txs|].amount
      && l'.wallets[u].balance == l'.txs[|l.txs|].balanceAfter
  {
  }
}

=== FILE: arith.dfy ===
/** Small facts about multiplication and Euclidean division that the packing and
    paging arithmetic relies on. */
module Arith {

  lemma MulAtLeast(a: int, m: int)
    requires a >= 1 && m > 0
    ensures a * m >= m
    decreases a
  {
    assert a * m == (a - 1) * m + m;
    if a > 1 {
      MulAtLeast(a - 1, m);
    }
  }

  lemma MulNonNegative(a: int, m: int)
    requires a >= 0 && m >= 0
    ensures a * m >= 0
  {
    if a >= 1 && m > 0 {
      MulAtLeast(a, m);
    }
  }

  /** Position `i` of a listing cut into pages of `m`: page `i / m` (from 0)
      starts at `(i / m) * m`, and `i` is `i % m` rows into it. */
  lemma PagePosition(i: nat, m: int)
    requires m > 0
    ensures i / m >= 0 && 0 <= i % m < m
    ensures (i / m) * m >= 0 && (i / m + 1 - 1) * m == (i / m) * m
    ensures i == (i / m) * m + i % m
  {
    MulNonNegative(i / m, m);
  }

  /** Euclidean division of `q * m + r` by `m` when `r` is a valid remainder. */
  lemma DivAddSmall(q: int, m: int, r: int)
    requires m > 0 && 0 <= r < m
    ensures (q * m + r) / m == q
    ensures (q * m + r) % m == r
  {
    var n := q * m + r;
    var k := n / m;
    var rem := n % m;
    assert n == k * m + rem;
    assert (q - k) * m == rem - r;
    if q - k >= 1 {
      MulAtLeast(q - k, m);
    } else if k - q >= 1 {
      MulAtLeast(k - q, m);
    }
  }
}

=== FILE: campaigns.dfy ===
/** The campaign service: the objective/goal table, the user and admin status
    rules, the JSON encoding of targeting lists, attachment typing, and the
    guards of campaign creation and update. Campaigns, users and team
    memberships are in-memory maps; parsed RFC 3339 times are integers. */
module Campaigns {
  import opened Wrappers
  import Text

  /** `validGoals`: each promotion objective and the optimisation goals it allows. */
  const ValidGoals: map<string, seq<string>> := map[
    "awareness" := ["reach"],
    "consideration" := ["website", "app"],
    "conversion" := ["app_promotion", "lead_generation"]]

  /** `validatePromotionObjective`. */
  function ValidatePromotionObjective(objective: string, goal: string): (r: Result<(), string>)
    ensures objective !in ValidGoals ==> r == Failure("invalid promotion_objective")
    ensures objective in ValidGoals && goal !in ValidGoals[objective] ==>
      r == Failure("invalid optimization_goal for promotion_objective " + objective)
    ensures r.Success? <==> objective in ValidGoals && goal in ValidGoals[objective]
  {
    if objective !in ValidGoals then Failure("invalid promotion_objective")
    else if goal in ValidGoals[objective] then Success(())
    else Failure("invalid optimization_goal for promotion_objective " + objective)
  }

  /** The validator accepts exactly five objective/goal pairs. */
  lemma ObjectivePairs(objective: string, goal: string)
    ensures ValidatePromotionObjective(objective, goal).Success? <==>
      (objective, goal) in {("awareness", "reach"), ("consideration", "website"), ("consideration", "app"),
                            ("conversion", "app_promotion"), ("conversion", "lead_generation")}
  {
  }

  /** `validateStatusTransition`: never to the same status; a user only toggles
      between active and paused; an admin may set active, paused or ended. */
  function ValidateStatusTransition(cur: string, next: string, isAdmin: bool): (r: Result<(), string>)
    ensures cur == next ==> r == Failure("status is already " + next)
    ensures cur != next && !isAdmin ==>
      (r.Success? <==> (cur == "active" && next == "paused") || (cur == "paused" && next == "active"))
    ensures cur != next && isAdmin ==> (r.Success? <==> next in {"active", "paused", "ended"})
    ensures r.Failure? && cur != next ==> r.error == (if isAdmin then "invalid status" else "invalid status transition")
  {
    if cur == next then Failure("status is already " + next)
    else if !isAdmin then
      if (cur == "active" && next == "paused") || (cur == "paused" && next == "active") then Success(())
      else Failure("invalid status transition")
    else if next == "active" || next == "paused" || next == "ended" then Success(())
    else Failure("invalid status")
  }

  /** Every move a user may make an admin may make too; no move leads back to
      `pending`; only an admin moves a campaign out of `pending` or into `ended`. */
  lemma StatusRules(cur: string, next: string)
    ensures ValidateStatusTransition(cur, next, false).Success? ==> ValidateStatusTransition(cur, next, true).Success?
    ensures ValidateStatusTransition(cur, "pending", false).Failure? && ValidateStatusTransition(cur, "pending", true).Failure?
    ensures ValidateStatusTransition("pending", next, false).Failure?
    ensures ValidateStatusTransition(cur, "ended", false).Failure?
  {
  }

  function Renderings(arr: seq<int>): (r: seq<string>)
    ensures |r| == |arr|
    ensures forall k | 0 <= k < |arr| :: r[k] == Text.IntToString(arr[k])
  {
    seq(|arr|, k requires 0 <= k < |arr| => Text.IntToString(arr[k]))
  }

  /** No decimal rendering contains a comma. */
  lemma RenderingsAvoidComma(arr: seq<int>)
    ensures forall k | 0 <= k < |Renderings(arr)| :: ',' !in Renderings(arr)[k]
  {
    forall k | 0 <= k < |arr| ensures ',' !in Renderings(arr)[k] {
      Text.IntToStringAvoids(arr[k], ',');
    }
  }

  /** `arrayToJSON`: nil for an empty list, else the JSON array of the integers
      (RFC 8259 section 5, numbers in decimal, no spaces, as `json.Marshal` writes):
      between the brackets, splitting at the commas gives back each integer's
      decimal rendering in order. */
  function ArrayToJSON(arr: seq<int>): (r: Option<string>)
    ensures r.None? <==> |arr| == 0
    ensures r.Some? ==> |r.value| >= 3 && r.value[0] == '[' && r.value[|r.value| - 1] == ']'
    ensures r.Some? ==> Text.Split(r.value[1..|r.value| - 1], ',') == Renderings(arr)
  {
    if |arr| == 0 then None
    else
      var body := Text.Join(Renderings(arr), ',');
      var s := "[" + body + "]";
      RenderingsAvoidComma(arr);
      Text.SplitJoin(Renderings(arr), ',');
      assert s[1..|s| - 1] == body;
      Some(s)
  }

  /** Distinct lists encode differently: the encoding loses nothing. */
  lemma {:induction false} ArrayToJSONInjective(a: seq<int>, b: seq<int>)
    requires ArrayToJSON(a) == ArrayToJSON(b)
    ensures a == b
  {
    if |a| > 0 {
      assert Renderings(a) == Renderings(b);
      forall k | 0 <= k < |a| ensures a[k] == b[k] {
        Text.IntToStringInjective(a[k], b[k]);
      }
    }
  }

  /** The MIME table of `getFileType`. */
  const MimeTypes: map<string, string> := map[
    ".pdf" := "application/pdf",
    ".jpg" := "image/jpeg",
    ".jpeg" := "image/jpeg",
    ".png" := "image/png",
    ".gif" := "image/gif",
    ".mp4" := "video/mp4",
    ".mov" := "video/quicktime",
    ".avi" := "video/x-msvideo",
    ".zip" := "application/zip",
    ".doc" := "application/msword",
    ".docx" := "application/vnd.openxmlformats-officedocument.wordprocessingml.document",
    ".xls" := "application/vnd.ms-excel",
    ".xlsx" := "application/vnd.openxmlformats-officedocument.spreadsheetml.sheet"]

  const OctetStream := "application/octet-stream"

  /** `getFileType`: a listed extension gets its own type, anything else the
      generic binary type. */
  function GetFileType(ext: string): (r: string)
    ensures ext in MimeTypes <==> r != OctetStream
    ensures ext in MimeTypes ==> r == MimeTypes[ext]
  {
    assert OctetStream !in MimeTypes.Values;
    if ext in MimeTypes then MimeTypes[ext] else OctetStream
  }

  /** Every listed extension is a lower-case dot suffix, so only an extension
      that is lower-cased first can match an upper-case file name. */
  lemma MimeKeysAreLowerDotSuffixes(ext: string)
    requires ext in MimeTypes
    ensures |ext| >= 4 && ext[0] == '.' && Text.Lower(ext) == ext
  {
  }

  datatype Attachment = Attachment(fileURL: string, fileName: string, fileType: string)

  /** One attachment per URL: the base name, and the type of its lower-cased extension. */
  function Attachments(urls: seq<string>): (r: seq<Attachment>)
    ensures |r| == |urls|
    ensures forall k | 0 <= k < |urls| ::
      && r[k].fileURL == urls[k]
      && r[k].fileName == Text.PathBase(urls[k])
      && r[k].fileType == GetFileType(Text.Lower(Text.PathExt(Text.PathBase(urls[k]))))
  {
    seq(|urls|, k requires 0 <= k < |urls| =>
      var name := Text.PathBase(urls[k]);
      Attachment(urls[k], name, GetFileType(Text.Lower(Text.PathExt(name)))))
  }

  /** A campaign: the columns with rules attached, targeting lists as JSON text,
      planned times as instants, and its attachments. */
  datatype Campaign = Campaign(
    campaignID: string,
    userID: int,
    teamID: int,
    campaignName: string,
    promotionObjective: string,
    optimizationGoal: string,
    location: Option<string>,
    languages: Option<string>,
    osVersions: Option<string>,
    deviceModels: Option<string>,
    plannedStart: int,
    plannedEnd: int,
    budgetAmount: int,
    status: string,
    attachments: seq<Attachment>)

  /** Users, teams with their member sets, and campaigns by campaign ID. */
  datatype Store = Store(users: set<int>, teams: map<int, set<int>>, campaigns: map<string, Campaign>)

  /** The create request; start and end are the outcomes of parsing the RFC 3339 strings. */
  datatype CreateRequest = CreateRequest(
    campaignName: string,
    promotionObjective: string,
    optimizationGoal: string,
    location: seq<int>,
    languages: seq<int>,
    osVersions: seq<int>,
    deviceModels: seq<int>,
    plannedStart: Result<int, string>,
    plannedEnd: Result<int, string>,
    budgetAmount: int,
    attachmentURLs: seq<string>)

  /** The guards of `CreateCampaign`, in the order the service checks them. */
  function CreateGuard(st: Store, userID: int, teamID: int, req: CreateRequest): (r: Result<(), string>)
    ensures r.Success? <==>
      && userID in st.users && teamID in st.teams && userID in st.teams[teamID]
      && ValidatePromotionObjective(req.promotionObjective, req.optimizationGoal).Success?
      && req.plannedStart.Success? && req.plannedEnd.Success?
      && req.plannedEnd.value >= req.plannedStart.value
    ensures userID !in st.users ==> r == Failure("user not found")
    ensures userID in st.users && teamID !in st.teams ==> r == Failure("team not found")
    ensures userID in st.users && teamID in st.teams && userID !in st.teams[teamID] ==>
      r == Failure("user is not a member of the team")
  {
    if userID !in st.users then Failure("user not found")
    else if teamID !in st.teams then Failure("team not found")
    else if userID !in st.teams[teamID] then Failure("user is not a member of the team")
    else match ValidatePromotionObjective(req.promotionObjective, req.optimizationGoal)
      case Failure(e) => Failure(e)
      case Success(_) =>
        match req.plannedStart
        case Failure(e) => Failure("invalid planned_start_time format: " + e)
        case Success(start) =>
          match req.plannedEnd
          case Failure(e) => Failure("invalid planned_end_time format: " + e)
          case Success(end) =>
            if end < start then Failure("planned_end_time must be after planned_start_time")
            else Success(())
  }

  /** `CreateCampaign`: a pending campaign with the request's fields and one
      attachment per URL. `campaignID` is the fresh campaign ID. */
  function CreateCampaign(st: Store, userID: int, teamID: int, req: CreateRequest, campaignID: string)
    : (r: Result<(Store, Campaign), string>)
    ensures r.Success? <==> CreateGuard(st, userID, teamID, req).Success?
    ensures r.Failure? ==> r.error == CreateGuard(st, userID, teamID, req).error
    ensures r.Success? ==> var (st', c) := r.value;
      && st' == st.(campaigns := st.campaigns[campaignID := c])
      && c.campaignID == campaignID && c.userID == userID && c.teamID == teamID
      && c.status == "pending"
      && c.campaignName == req.campaignName && c.budgetAmount == req.budgetAmount
      && c.promotionObjective == req.promotionObjective && c.optimizationGoal == req.optimizationGoal
      && c.plannedStart == req.plannedStart.value && c.plannedEnd == req.plannedEnd.value
      && c.plannedStart <= c.plannedEnd
      && c.location == ArrayToJSON(req.location) && c.languages == ArrayToJSON(req.languages)
      && c.osVersions == ArrayToJSON(req.osVersions) && c.deviceModels == ArrayToJSON(req.deviceModels)
      && c.attachments == Attachments(req.attachmentURLs)
  {
    match CreateGuard(st, userID, teamID, req)
    case Failure(e) => Failure(e)
    case Success(_) =>
      var c := Campaign(campaignID, userID, teamID, req.campaignName, req.promotionObjective, req.optimizationGoal,
                        ArrayToJSON(req.location), ArrayToJSON(req.languages), ArrayToJSON(req.osVersions),
                        ArrayToJSON(req.deviceModels), req.plannedStart.value, req.plannedEnd.value,
                        req.budgetAmount, "pending", Attachments(req.attachmentURLs));
      Success((st.(campaigns := st.campaigns[campaignID := c]), c))
  }

  /** The update request: absent pointers are `None`, absent lists are empty. */
  datatype UpdateRequest = UpdateRequest(
    campaignName: Option<string>,
    promotionObjective: Option<string>,
    optimizationGoal: Option<string>,
    location: seq<int>,
    languages: seq<int>,
    osVersions: seq<int>,
    deviceModels: seq<int>,
    plannedStart: Option<Result<int, string>>,
    plannedEnd: Option<Result<int, string>>,
    budgetAmount: Option<int>,
    attachmentURLs: seq<string>)

  /** A targeting list is rewritten only when a non-empty list is given. */
  function ListField(cur: Option<string>, given: seq<int>): (r: Option<string>)
    ensures |given| == 0 ==> r == cur
    ensures |given| > 0 ==> r == ArrayToJSON(given) && r.Some?
  {
    if |given| > 0 then ArrayToJSON(given) else cur
  }

  /** `UpdateCampaign`: owner only, pending only; objective and goal change only
      together; the planned window must stay ordered; attachments are replaced
      only by a non-empty list. Nothing is written before the last guard. */
  function UpdateCampaign(st: Store, userID: int, campaignID: string, req: UpdateRequest): (r: Result<(Store, Campaign), string>)
    ensures campaignID !in st.campaigns ==> r == Failure("campaign not found")
    ensures campaignID in st.campaigns && st.campaigns[campaignID].userID != userID ==> r == Failure("permission denied")
    ensures (campaignID in st.campaigns && st.campaigns[campaignID].userID == userID
             && st.campaigns[campaignID].status != "pending") ==> r == Failure("only pending campaigns can be updated")
    ensures r.Success? ==> campaignID in st.campaigns && var c := st.campaigns[campaignID]; var (st', c') := r.value;
      && c.userID == userID && c.status == "pending"
      && st' == st.(campaigns := st.campaigns[campaignID := c'])
      && c'.campaignID == c.campaignID && c'.userID == c.userID && c'.teamID == c.teamID && c'.status == c.status
      && c'.campaignName == req.campaignName.GetOr(c.campaignName)
      && (req.promotionObjective.Some? && req.optimizationGoal.Some? ==>
            c'.promotionObjective == req.promotionObjective.value && c'.optimizationGoal == req.optimizationGoal.value)
      && (req.promotionObjective.None? || req.optimizationGoal.None? ==>
            c'.promotionObjective == c.promotionObjective && c'.optimizationGoal == c.optimizationGoal)
      && ValidatePromotionObjective(c'.promotionObjective, c'.optimizationGoal).Success? ==
         (ValidatePromotionObjective(c.promotionObjective, c.optimizationGoal).Success? || (req.promotionObjective.Some? && req.optimizationGoal.Some?))
      && c'.plannedStart <= c'.plannedEnd
      && (|req.attachmentURLs| == 0 ==> c'.attachments == c.attachments)
      && (|req.attachmentURLs| > 0 ==> c'.attachments == Attachments(req.attachmentURLs))
    ensures r.Success? <==>
      && campaignID in st.campaigns && st.campaigns[campaignID].userID == userID
      && st.campaigns[campaignID].status == "pending"
      && (req.promotionObjective.Some? && req.optimizationGoal.Some? ==>
            ValidatePromotionObjective(req.promotionObjective.value, req.optimizationGoal.value).Success?)
      && (req.plannedStart.Some? ==> req.plannedStart.value.Success?)
      && (req.plannedEnd.Some? ==> req.plannedEnd.value.Success?)
      && (if req.plannedEnd.Some? then req.plannedEnd.value.value else st.campaigns[campaignID].plannedEnd)
         >= (if req.plannedStart.Some? then req.plannedStart.value.value else st.campaigns[campaignID].plannedStart)
  {
    if campaignID !in st.campaigns then Failure("campaign not found")
    else
      var c := st.campaigns[campaignID];
      if c.userID != userID then Failure("permission denied")
      else if c.status != "pending" then Failure("only pending campaigns can be updated")
      else
        var c1 := c.(campaignName := req.campaignName.GetOr(c.campaignName));
        var goalCheck := if req.promotionObjective.Some? && req.optimizationGoal.Some?
                         then ValidatePromotionObjective(req.promotionObjective.value, req.optimizationGoal.value)
                         else Success(());
        if goalCheck.Failure? then Failure(goalCheck.error)
        else SaveEdits(st, campaignID, Retarget(c1, req), req)
  }

  /** The values a successful update writes: each given time replaces the
      planned one, a given budget replaces the budget, and each targeting list is
      rewritten only by a non-empty list. */
  lemma UpdateCampaignWrites(st: Store, userID: int, campaignID: string, req: UpdateRequest)
    requires UpdateCampaign(st, userID, campaignID, req).Success?
    ensures campaignID in st.campaigns
    ensures req.plannedStart.Some? ==> req.plannedStart.value.Success?
    ensures req.plannedEnd.Some? ==> req.plannedEnd.value.Success?
    ensures var c, c' := st.campaigns[campaignID], UpdateCampaign(st, userID, campaignID, req).value.1;
      && c'.plannedStart == (if req.plannedStart.Some? then req.plannedStart.value.value else c.plannedStart)
      && c'.plannedEnd == (if req.plannedEnd.Some? then req.plannedEnd.value.value else c.plannedEnd)
      && c'.budgetAmount == req.budgetAmount.GetOr(c.budgetAmount)
      && c'.location == ListField(c.location, req.location) && c'.languages == ListField(c.languages, req.languages)
      && c'.osVersions == ListField(c.osVersions, req.osVersions)
      && c'.deviceModels == ListField(c.deviceModels, req.deviceModels)
  {
    var c := st.campaigns[campaignID];
    var c1 := c.(campaignName := req.campaignName.GetOr(c.campaignName));
    var c2 := Retarget(c1, req);
    assert UpdateCampaign(st, userID, campaignID, req) == SaveEdits(st, campaignID, c2, req);
  }

  /** The objective and goal (only when both are given) and the targeting lists
      of an update; nothing else changes. */
  function Retarget(c: Campaign, req: UpdateRequest): (c': Campaign)
    ensures c'.campaignID == c.campaignID && c'.userID == c.userID && c'.teamID == c.teamID
    ensures c'.status == c.status && c'.campaignName == c.campaignName
    ensures c'.plannedStart == c.plannedStart && c'.plannedEnd == c.plannedEnd && c'.attachments == c.attachments
    ensures c'.budgetAmount == c.budgetAmount
    ensures c'.location == ListField(c.location, req.location) && c'.languages == ListField(c.languages, req.languages)
    ensures c'.osVersions == ListField(c.osVersions, req.osVersions)
    ensures c'.deviceModels == ListField(c.deviceModels, req.deviceModels)
    ensures req.promotionObjective.Some? && req.optimizationGoal.Some? ==>
      c'.promotionObjective == req.promotionObjective.value && c'.optimizationGoal == req.optimizationGoal.value
    ensures req.promotionObjective.None? || req.optimizationGoal.None? ==>
      c'.promotionObjective == c.promotionObjective && c'.optimizationGoal == c.optimizationGoal
  {
    var c2 := if req.promotionObjective.Some? && req.optimizationGoal.Some?
              then c.(promotionObjective := req.promotionObjective.value,
                      optimizationGoal := req.optimizationGoal.value)
              else c;
    c2.(location := ListField(c2.location, req.location),
        languages := ListField(c2.languages, req.languages),
        osVersions := ListField(c2.osVersions, req.osVersions),
        deviceModels := ListField(c2.deviceModels, req.deviceModels))
  }

  /** The planned window, budget and attachments of an update, then the write:
      a malformed time or a window ending before it starts writes nothing. */
  function SaveEdits(st: Store, campaignID: string, c: Campaign, req: UpdateRequest): (r: Result<(Store, Campaign), string>)
    ensures r.Success? <==>
      && (req.plannedStart.Some? ==> req.plannedStart.value.Success?)
      && (req.plannedEnd.Some? ==> req.plannedEnd.value.Success?)
      && (if req.plannedEnd.Some? then req.plannedEnd.value.value else c.plannedEnd)
         >= (if req.plannedStart.Some? then req.plannedStart.value.value else c.plannedStart)
    ensures r.Success? ==> var (st', c') := r.value;
      && st' == st.(campaigns := st.campaigns[campaignID := c'])
      && c'.campaignID == c.campaignID && c'.userID == c.userID && c'.teamID == c.teamID && c'.status == c.status
      && c'.campaignName == c.campaignName
      && c'.promotionObjective == c.promotionObjective && c'.optimizationGoal == c.optimizationGoal
      && (c'.location, c'.languages, c'.osVersions, c'.deviceModels) == (c.location, c.languages, c.osVersions, c.deviceModels)
      && c'.plannedStart == (if req.plannedStart.Some? then req.plannedStart.value.value else c.plannedStart)
      && c'.plannedEnd == (if req.plannedEnd.Some? then req.plannedEnd.value.value else c.plannedEnd)
      && c'.plannedStart <= c'.plannedEnd
      && c'.budgetAmount == req.budgetAmount.GetOr(c.budgetAmount)
      && (|req.attachmentURLs| == 0 ==> c'.attachments == c.attachments)
      && (|req.attachmentURLs| > 0 ==> c'.attachments == Attachments(req.attachmentURLs))
  {
    if req.plannedStart.Some? && req.plannedStart.value.Failure? then
      Failure("invalid planned_start_time format: " + req.plannedStart.value.error)
    else
      var c4 := if req.plannedStart.Some? then c.(plannedStart := req.plannedStart.value.value) else c;
      if req.plannedEnd.Some? && req.plannedEnd.value.Failure? then
        Failure("invalid planned_end_time format: " + req.plannedEnd.value.error)
      else
        var c5 := if req.plannedEnd.Some? then c4.(plannedEnd := req.plannedEnd.value.value) else c4;
        if c5.plannedEnd < c5.plannedStart then Failure("planned_end_time must be after planned_start_time")
        else
          var c6 := c5.(budgetAmount := req.budgetAmount.GetOr(c5.budgetAmount),
                        attachments := if |req.attachmentURLs| > 0 then Attachments(req.attachmentURLs)
                                       else c5.attachments);
          Success((st.(campaigns := st.campaigns[campaignID := c6]), c6))
  }

  /** An empty update request changes nothing but re-saves the campaign. */
  lemma EmptyUpdateIsIdentity(st: Store, userID: int, campaignID: string)
    requires campaignID in st.campaigns && st.campaigns[campaignID].userID == userID
    requires st.campaigns[campaignID].status == "pending"
    requires st.campaigns[campaignID].plannedStart <= st.campaigns[campaignID].plannedEnd
    ensures var r := UpdateCampaign(st, userID, campaignID, UpdateRequest(None, None, None, [], [], [], [], None, None, None, []));
      r == Success((st, st.campaigns[campaignID]))
  {
    var c := st.campaigns[campaignID];
    assert c.(campaignName := c.campaignName) == c;
    assert st.campaigns[campaignID := c] == st.campaigns;
  }

  /** `UpdateCampaignStatus` (owner) and `AdminUpdateCampaignStatus`: only the
      status column is written. */
  function UpdateStatus(st: Store, userID: Option<int>, campaignID: string, status: string): (r: Result<Store, string>)
    ensures campaignID !in st.campaigns ==> r == Failure("campaign not found")
    ensures r.Success? <==>
      && campaignID in st.campaigns
      && (userID.Some? ==> st.campaigns[campaignID].userID == userID.value)
      && ValidateStatusTransition(st.campaigns[campaignID].status, status, userID.None?).Success?
    ensures r.Success? ==>
      r.value == st.(campaigns := st.campaigns[campaignID := st.campaigns[campaignID].(status := status)])
  {
    if campaignID !in st.campaigns then Failure("campaign not found")
    else
      var c := st.campaigns[campaignID];
      if userID.Some? && c.userID != userID.value then Failure("permission denied")
      else match ValidateStatusTransition(c.status, status, userID.None?)
        case Failure(e) => Failure(e)
        case Success(_) => Success(st.(campaigns := st.campaigns[campaignID := c.(status := status)]))
  }

  /** The owner's status change. */
  function UpdateCampaignStatus(st: Store, userID: int, campaignID: string, status: string): (r: Result<Store, string>)
    ensures campaignID in st.campaigns && st.campaigns[campaignID].userID != userID ==> r == Failure("permission denied")
    ensures r.Success? ==>
      && campaignID in st.campaigns && campaignID in r.value.campaigns
      && st.campaigns[campaignID].status in {"active", "paused"}
      && r.value.campaigns[campaignID].status in {"active", "paused"}
      && r.value.campaigns[campaignID].status != st.campaigns[campaignID].status
  {
    UpdateStatus(st, Some(userID), campaignID, status)
  }

  /** The admin's status change. */
  function AdminUpdateCampaignStatus(st: Store, campaignID: string, status: string): (r: Result<Store, string>)
    ensures r.Success? ==>
      && campaignID in st.campaigns && campaignID in r.value.campaigns
      && r.value.campaigns[campaignID].status in {"active", "paused", "ended"}
      && r.value.campaigns[campaignID].status != st.campaigns[campaignID].status
  {
    UpdateStatus(st, None, campaignID, status)
  }

  /** Once a campaign has left `pending` through either status path, it can no
      longer be edited, and no status path brings it back. */
  lemma LeavingPendingIsFinal(st: Store, userID: int, campaignID: string, status: string, req: UpdateRequest, s2: string, admin: bool)
    requires campaignID in st.campaigns && st.campaigns[campaignID].userID == userID
    requires (if admin then AdminUpdateCampaignStatus(st, campaignID, status) else UpdateCampaignStatus(st, userID, campaignID, status)).Success?
    ensures var st' := (if admin then AdminUpdateCampaignStatus(st, campaignID, status) else UpdateCampaignStatus(st, userID, campaignID, status)).value;
      && UpdateCampaign(st', userID, campaignID, req) == Failure("only pending campaigns can be updated")
      && (UpdateStatus(st', if admin then None else Some(userID), campaignID, s2).Success? ==>
            UpdateStatus(st', if admin then None else Some(userID), campaignID, s2).value.campaigns[campaignID].status != "pending")
  {
  }
}

=== FILE: config.dfy ===
/** Configuration helpers: the `${NAME}` / `${NAME:default}` substitution applied
    to the configuration text before it is parsed, and the MySQL connection
    string. The process environment is a map from names to values; a name that
    is absent reads as the empty string, as `os.Getenv` does. */
module Config {
  import opened Wrappers
  import opened Text

  /** `unicode.IsSpace`, the predicate `strings.TrimSpace` trims by. */
  predicate IsSpace(c: char) {
    || c == ' ' || c == '\t' || c == '\n' || c == '\U{000B}' || c == '\U{000C}' || c == '\r'
    || c == '\U{0085}' || c == '\U{00A0}' || c == '\U{1680}'
    || ('\U{2000}' <= c <= '\U{200A}')
    || c == '\U{2028}' || c == '\U{2029}' || c == '\U{202F}' || c == '\U{205F}' || c == '\U{3000}'
  }

  /** The number of white-space characters `s` starts with. */
  function LeadingSpace(s: string): (k: nat)
    ensures k <= |s|
    ensures forall i | 0 <= i < k :: IsSpace(s[i])
    ensures k < |s| ==> !IsSpace(s[k])
    decreases |s|
  {
    if |s| > 0 && IsSpace(s[0]) then
      var k := LeadingSpace(s[1..]);
      assert forall i | 1 <= i < 1 + k :: s[i] == s[1..][i - 1];
      1 + k
    else 0
  }

  /** Where the trailing white space of `s` begins, looking no further left than `from`. */
  function ContentEnd(s: string, from: nat): (e: nat)
    requires from <= |s|
    ensures from <= e <= |s|
    ensures forall i | e <= i < |s| :: IsSpace(s[i])
    ensures e > from ==> !IsSpace(s[e - 1])
    decreases |s|
  {
    if |s| > from && IsSpace(s[|s| - 1]) then
      var e := ContentEnd(s[..|s| - 1], from);
      assert forall i | e <= i < |s| - 1 :: s[i] == s[..|s| - 1][i];
      e
    else |s|
  }

  /** `strings.TrimSpace`: the middle of `s` between its leading white space,
      which ends at `lead`, and its trailing white space. */
  function TrimSpace(s: string): (r: string)
    ensures var lead := LeadingSpace(s);
      && lead + |r| <= |s| && r == s[lead..lead + |r|]
      && (forall i | 0 <= i < lead :: IsSpace(s[i]))
      && (forall i | lead + |r| <= i < |s| :: IsSpace(s[i]))
    ensures |r| == 0 || (!IsSpace(r[0]) && !IsSpace(r[|r| - 1]))
  {
    var k := LeadingSpace(s);
    s[k..ContentEnd(s, k)]
  }

  /** Trimming stops at the first and last non-space characters: a string whose
      ends are not white space is its own trim, and trimming twice is trimming once. */
  lemma TrimSpaceKeepsCleanEnds(s: string)
    requires |s| == 0 || (!IsSpace(s[0]) && !IsSpace(s[|s| - 1]))
    ensures TrimSpace(s) == s
  {
  }

  lemma TrimSpaceIdempotent(s: string)
    ensures TrimSpace(TrimSpace(s)) == TrimSpace(s)
  {
    TrimSpaceKeepsCleanEnds(TrimSpace(s));
  }

  /** One occurrence of the pattern `\$\{([^:}]+)(?::([^}]*))?\}`. */
  datatype Placeholder = Placeholder(name: string, hasDefault: bool, defaultValue: string)

  /** The placeholders the pattern can match. */
  predicate WellFormed(p: Placeholder) {
    && p.name != "" && ':' !in p.name && '}' !in p.name
    && '}' !in p.defaultValue
    && (!p.hasDefault ==> p.defaultValue == "")
  }

  /** The text of a placeholder. */
  function Render(p: Placeholder): string {
    ['$', '{'] + p.name + DefaultPart(p) + ['}']
  }

  /** The `:default` part, absent when there is no default. */
  function DefaultPart(p: Placeholder): string {
    if p.hasDefault then [':'] + p.defaultValue else []
  }

  /** The placeholder text a matched prefix of `s` spells, with or without a default. */
  lemma RenderBareIs(s: string, j: nat)
    requires 2 < j < |s| && s[0] == '$' && s[1] == '{' && s[j] == '}'
    ensures s[..j + 1] == Render(Placeholder(s[2..j], false, ""))
  {
    PrefixSplit(s, 2, j);
    PrefixSplit(s, j, j + 1);
    assert s[..2] == ['$', '{'] && s[j..j + 1] == [s[j]];
    assert s[..j] + [] == s[..j];
  }

  lemma RenderDefaultIs(s: string, j: nat, k: nat)
    requires 2 < j < k < |s| && s[0] == '$' && s[1] == '{' && s[j] == ':' && s[k] == '}'
    ensures s[..k + 1] == Render(Placeholder(s[2..j], true, s[j + 1..k]))
  {
    PrefixSplit(s, 2, j);
    PrefixSplit(s, j, k);
    PrefixSplit(s, k, k + 1);
    assert s[..2] == ['$', '{'] && s[k..k + 1] == [s[k]];
    assert s[j..k] == [s[j]] + s[j + 1..k];
  }

  /** A prefix is a shorter prefix followed by the slice between them. */
  lemma PrefixSplit(s: string, b: nat, c: nat)
    requires b <= c <= |s|
    ensures s[..c] == s[..b] + s[b..c]
  {
  }

  /** How many leading characters of `t` avoid `stops`. */
  function Span(t: string, stops: set<char>): (n: nat)
    ensures n <= |t|
    ensures forall k | 0 <= k < n :: t[k] !in stops
    ensures n < |t| ==> t[n] in stops
    decreases |t|
  {
    if |t| == 0 || t[0] in stops then 0 else 1 + Span(t[1..], stops)
  }

  /** The match of the pattern at the start of `s`, if there is one. The name
      is the longest run without `:` or `}`; the optional default runs to the
      next `}`. */
  function MatchAt(s: string): (r: Option<Placeholder>)
    ensures r.Some? ==> WellFormed(r.value) && StartsWith(s, Render(r.value))
  {
    if |s| < 2 || s[0] != '$' || s[1] != '{' then None
    else
      var n := Span(s[2..], {':', '}'});
      SpanAvoids(s[2..], {':', '}'}, n);
      assert s[2..][..n] == s[2..2 + n];
      MatchName(s, n)
  }

  /** The rest of the match once the name is known to be `s[2..2 + n]`. */
  function MatchName(s: string, n: nat): (r: Option<Placeholder>)
    requires 2 + n <= |s| && s[0] == '$' && s[1] == '{'
    requires ':' !in s[2..2 + n] && '}' !in s[2..2 + n]
    ensures r.Some? ==> WellFormed(r.value) && StartsWith(s, Render(r.value))
  {
    if n == 0 || 2 + n == |s| then None
    else if s[2 + n] == '}' then
      RenderBareIs(s, 2 + n);
      Some(Placeholder(s[2..2 + n], false, ""))
    else if s[2 + n] != ':' then None
    else
      var d := Span(s[3 + n..], {'}'});
      SpanAvoids(s[3 + n..], {'}'}, d);
      assert s[3 + n..][..d] == s[3 + n..3 + n + d];
      MatchDefault(s, n, d)
  }

  /** The rest of the match once the default is known to be `s[3 + n..3 + n + d]`. */
  function MatchDefault(s: string, n: nat, d: nat): (r: Option<Placeholder>)
    requires 0 < n && 3 + n + d <= |s| && s[0] == '$' && s[1] == '{' && s[2 + n] == ':'
    requires ':' !in s[2..2 + n] && '}' !in s[2..2 + n] && '}' !in s[3 + n..3 + n + d]
    ensures r.Some? ==> WellFormed(r.value) && StartsWith(s, Render(r.value))
  {
    if 3 + n + d == |s| || s[3 + n + d] != '}' then None
    else
      RenderDefaultIs(s, 2 + n, 3 + n + d);
      Some(Placeholder(s[2..2 + n], true, s[3 + n..3 + n + d]))
  }

  /** The characters `Span` passes over hold no stop. */
  lemma SpanAvoids(t: string, stops: set<char>, n: nat)
    requires n <= |t|
    requires forall k | 0 <= k < n :: t[k] !in stops
    ensures forall c | c in stops :: c !in t[..n]
  {
  }

  /** `Span` is the position of the first stop. */
  lemma {:induction false} SpanIs(t: string, stops: set<char>, n: nat)
    requires n < |t| && t[n] in stops
    requires forall k | 0 <= k < n :: t[k] !in stops
    ensures Span(t, stops) == n
    decreases n
  {
    if n > 0 {
      SpanIs(t[1..], stops, n - 1);
    }
  }

  /** `SpanIs` with the run stated as a slice free of every stop. */
  lemma SpanIsClear(t: string, stops: set<char>, n: nat)
    requires n < |t| && t[n] in stops
    requires forall c | c in stops :: c !in t[..n]
    ensures Span(t, stops) == n
  {
    forall k | 0 <= k < n
      ensures t[k] !in stops
    {
      assert t[k] == t[..n][k];
    }
    SpanIs(t, stops, n);
  }

  /** The pattern reads back every placeholder it can match, whatever follows it. */
  lemma MatchAtRender(p: Placeholder, rest: string)
    requires WellFormed(p)
    ensures MatchAt(Render(p) + rest) == Some(p)
  {
    if p.hasDefault {
      MatchAtRenderDefault(p, rest);
    } else {
      MatchAtRenderBare(p, rest);
    }
  }

  lemma MatchAtRenderBare(p: Placeholder, rest: string)
    requires WellFormed(p) && !p.hasDefault
    ensures MatchAt(Render(p) + rest) == Some(p)
  {
    var s := Render(p) + rest;
    var n := |p.name|;
    assert s == ['$', '{'] + p.name + ['}'] + rest;
    assert s[2..][..n] == p.name && s[2..][n] == '}';
    SpanIs(s[2..], {':', '}'}, n);
    assert MatchAt(s) == MatchName(s, n);
    assert s[2..2 + n] == p.name;
  }

  lemma MatchAtRenderDefault(p: Placeholder, rest: string)
    requires WellFormed(p) && p.hasDefault
    ensures MatchAt(Render(p) + rest) == Some(p)
  {
    var s := Render(p) + rest;
    LayoutWithDefault(p, rest);
    MatchAtLaidOut(s, p);
  }

  /** The layout facts about `p` alone decide the match. */
  lemma MatchAtLaidOut(s: string, p: Placeholder)
    requires WellFormed(p) && p.hasDefault
    requires var n := |p.name|; var d := |p.defaultValue|;
      && |s| > 3 + n + d && s[0] == '$' && s[1] == '{'
      && s[2..2 + n] == p.name && s[2 + n] == ':'
      && s[3 + n..3 + n + d] == p.defaultValue && s[3 + n + d] == '}'
    ensures MatchAt(s) == Some(p)
  {
    MatchAtWithDefault(s, |p.name|, |p.defaultValue|);
  }

  /** A text laid out as `${name:default}` matches with that name and default. */
  lemma MatchAtWithDefault(s: string, n: nat, d: nat)
    requires 3 + n + d < |s| && n > 0 && s[0] == '$' && s[1] == '{'
    requires ':' !in s[2..2 + n] && '}' !in s[2..2 + n] && s[2 + n] == ':'
    requires '}' !in s[3 + n..3 + n + d] && s[3 + n + d] == '}'
    ensures MatchAt(s) == Some(Placeholder(s[2..2 + n], true, s[3 + n..3 + n + d]))
  {
    MatchAtFindsName(s, n);
    MatchNameFindsDefault(s, n, d);
  }

  /** A name free of `:` and `}` followed by either of them is the name matched. */
  lemma MatchAtFindsName(s: string, n: nat)
    requires 2 + n < |s| && s[0] == '$' && s[1] == '{'
    requires ':' !in s[2..2 + n] && '}' !in s[2..2 + n] && s[2 + n] in {':', '}'}
    ensures MatchAt(s) == MatchName(s, n)
  {
    var t := s[2..];
    assert t[..n] == s[2..2 + n];
    SpanIsClear(t, {':', '}'}, n);
  }

  /** A default free of `}` followed by `}` is the default matched. */
  lemma MatchNameFindsDefault(s: string, n: nat, d: nat)
    requires 3 + n + d < |s| && n > 0 && s[0] == '$' && s[1] == '{'
    requires ':' !in s[2..2 + n] && '}' !in s[2..2 + n] && s[2 + n] == ':'
    requires '}' !in s[3 + n..3 + n + d] && s[3 + n + d] == '}'
    ensures MatchName(s, n) == MatchDefault(s, n, d)
  {
    var t := s[3 + n..];
    assert t[..d] == s[3 + n..3 + n + d];
    SpanIsClear(t, {'}'}, d);
  }

  /** Where the pieces of a placeholder with a default sit. */
  lemma LayoutWithDefault(p: Placeholder, rest: string)
    requires p.hasDefault
    ensures var s := Render(p) + rest; var n := |p.name|; var d := |p.defaultValue|;
      && |s| > 3 + n + d && s[0] == '$' && s[1] == '{'
      && s[2..2 + n] == p.name && s[2 + n] == ':'
      && s[3 + n..3 + n + d] == p.defaultValue && s[3 + n + d] == '}'
  {
    var s := Render(p) + rest;
    assert s == ['$', '{'] + p.name + ([':'] + p.defaultValue) + ['}'] + rest;
  }

  /** `os.Getenv`: an unset variable reads as empty. */
  function Getenv(env: map<string, string>, name: string): (v: string)
    ensures name !in env ==> v == ""
    ensures name in env ==> v == env[name]
  {
    if name in env then env[name] else ""
  }

  /** The replacement for one placeholder: the variable named by its trimmed
      name when that is non-empty, the default otherwise. */
  function Resolve(env: map<string, string>, p: Placeholder): (v: string)
    ensures Getenv(env, TrimSpace(p.name)) != "" ==> v == Getenv(env, TrimSpace(p.name))
    ensures Getenv(env, TrimSpace(p.name)) == "" ==> v == p.defaultValue
  {
    var value := Getenv(env, TrimSpace(p.name));
    if value == "" then p.defaultValue else value
  }

  /** `expandEnvVars`: every leftmost match, scanning left to right, is replaced
      in a single pass; the text between matches is copied. */
  function ExpandEnvVars(content: string, env: map<string, string>): (r: string)
    ensures '$' !in content ==> r == content
    decreases |content|
  {
    if |content| == 0 then ""
    else match MatchAt(content)
      case Some(p) => Resolve(env, p) + ExpandEnvVars(content[|Render(p)|..], env)
      case None =>
        var rest := ExpandEnvVars(content[1..], env);
        assert '$' !in content ==> '$' !in content[1..] && content == [content[0]] + content[1..];
        [content[0]] + rest
  }

  /** Text without a `$` is copied unchanged in front of whatever follows. */
  lemma {:induction false} ExpandLiteral(literal: string, rest: string, env: map<string, string>)
    requires '$' !in literal
    ensures ExpandEnvVars(literal + rest, env) == literal + ExpandEnvVars(rest, env)
    decreases |literal|
  {
    if |literal| > 0 {
      var s := literal + rest;
      var t := literal[1..];
      assert literal == [literal[0]] + t;
      assert s[0] == literal[0] != '$';
      assert s[1..] == t + rest;
      ExpandCopiesOne(s, env);
      ExpandLiteral(t, rest, env);
      calc {
        ExpandEnvVars(s, env);
        [literal[0]] + ExpandEnvVars(t + rest, env);
        [literal[0]] + (t + ExpandEnvVars(rest, env));
        literal + ExpandEnvVars(rest, env);
      }
    } else {
      assert literal + rest == rest;
    }
  }

  /** A first character other than `$` is copied and expansion goes on after it. */
  lemma ExpandCopiesOne(s: string, env: map<string, string>)
    requires |s| > 0 && s[0] != '$'
    ensures ExpandEnvVars(s, env) == [s[0]] + ExpandEnvVars(s[1..], env)
  {
    assert MatchAt(s) == None;
  }

  /** A placeholder at the front is replaced by its value and expansion goes on
      after it. */
  lemma ExpandPlaceholder(p: Placeholder, rest: string, env: map<string, string>)
    requires WellFormed(p)
    ensures ExpandEnvVars(Render(p) + rest, env) == Resolve(env, p) + ExpandEnvVars(rest, env)
  {
    MatchAtRender(p, rest);
    assert (Render(p) + rest)[|Render(p)|..] == rest;
  }

  /** Replacements are not expanded again: a placeholder expands to exactly its
      value, whatever `$` or placeholders the value itself holds. */
  lemma SinglePass(p: Placeholder, env: map<string, string>)
    requires WellFormed(p)
    ensures ExpandEnvVars(Render(p), env) == Resolve(env, p)
  {
    assert Render(p) + "" == Render(p);
    ExpandPlaceholder(p, "", env);
  }

  /** For example, a variable whose value names another variable comes out literally. */
  lemma SinglePassExample()
    ensures ExpandEnvVars("${A}", map["A" := "${B}", "B" := "x"]) == "${B}"
  {
    var p := Placeholder("A", false, "");
    assert Render(p) == "${A}";
    TrimSpaceKeepsCleanEnds("A");
    SinglePass(p, map["A" := "${B}", "B" := "x"]);
  }

  /** White space around a name does not change what it reads. */
  lemma PaddedNameReadsTheSame(name: string)
    requires |name| > 0 && !IsSpace(name[0]) && !IsSpace(name[|name| - 1])
    ensures TrimSpace(" " + name + " ") == name
  {
    var padded := " " + name + " ";
    assert padded[1..] == name + " ";
    assert LeadingSpace(padded) == 1 by {
      assert LeadingSpace(padded[1..]) == 0;
    }
    var front := padded[..|padded| - 1];
    assert front == " " + name;
    assert ContentEnd(padded, 1) == |name| + 1 by {
      assert ContentEnd(front, 1) == |front|;
    }
    assert padded[1..|name| + 1] == name;
  }

  /** Spaces around the name do not matter, and an empty or unset variable
      falls back to the default. */
  lemma TrimmedNameAndDefault(env: map<string, string>, name: string, default: string, rest: string)
    requires |name| > 0 && !IsSpace(name[0]) && !IsSpace(name[|name| - 1])
    requires ':' !in name && '}' !in name && '}' !in default
    requires Getenv(env, name) == ""
    ensures ExpandEnvVars("${ " + name + " :" + default + "}" + rest, env) == default + ExpandEnvVars(rest, env)
  {
    var p := Placeholder(" " + name + " ", true, default);
    PaddedRender(name, default);
    PaddedWellFormed(name, default);
    PaddedNameReadsTheSame(name);
    assert Resolve(env, p) == default;
    ExpandPlaceholder(p, rest, env);
  }

  /** The text of a placeholder whose name is padded by one space each side. */
  lemma PaddedRender(name: string, default: string)
    ensures Render(Placeholder(" " + name + " ", true, default)) == "${ " + name + " :" + default + "}"
  {
    var p := Placeholder(" " + name + " ", true, default);
    assert Render(p) == ['$', '{'] + (" " + name + " ") + ([':'] + default) + ['}'];
  }

  /** Padding a usable name with spaces keeps the placeholder well formed. */
  lemma PaddedWellFormed(name: string, default: string)
    requires name != "" && ':' !in name && '}' !in name && '}' !in default
    ensures WellFormed(Placeholder(" " + name + " ", true, default))
  {
    assert " " + name + " " == [' '] + name + [' '];
  }

  /** The configuration file for the `ORBIA_ENV` setting, `dev` when unset. */
  function ConfigPath(orbiaEnv: string): (path: string)
    ensures orbiaEnv == "" ==> path == "conf/dev/config.yaml"
    ensures orbiaEnv != "" ==> StartsWith(path, "conf/" + orbiaEnv + "/")
  {
    var env := if orbiaEnv == "" then "dev" else orbiaEnv;
    var path := "conf/" + env + "/" + "config.yaml";
    assert path == ("conf/" + env + "/") + "config.yaml";
    path
  }

  /** Different settings read different files. */
  lemma ConfigPathInjective(e1: string, e2: string)
    requires e1 != "" && e2 != ""
    requires ConfigPath(e1) == ConfigPath(e2)
    ensures e1 == e2
  {
    assert |e1| == |e2|;
    assert ConfigPath(e1)[5..5 + |e1|] == e1;
    assert ConfigPath(e2)[5..5 + |e2|] == e2;
  }

  /** The MySQL settings the connection string uses; the pool sizes are not part of it. */
  datatype MySQLConfig = MySQLConfig(
    host: string,
    port: int,
    database: string,
    username: string,
    password: string,
    charset: string,
    parseTime: bool,
    loc: string)

  /** `%t`. */
  function BoolText(b: bool): string {
    if b then "true" else "false"
  }

  /** `GetDSN`: `user:password@tcp(host:port)/database?charset=..&parseTime=..&loc=..`,
      built here from its tail so that each separator can be cut at. */
  function GetDSN(c: MySQLConfig): string {
    c.username + ":" + AfterUser(c)
  }

  function AfterUser(c: MySQLConfig): string {
    c.password + "@" + AfterAt(c)
  }

  function AfterAt(c: MySQLConfig): string {
    "tcp(" + (c.host + ":" + AfterHost(c))
  }

  function AfterHost(c: MySQLConfig): string {
    IntToString(c.port) + ")" + AfterPort(c)
  }

  function AfterPort(c: MySQLConfig): string {
    "/" + (c.database + "?" + AfterDatabase(c))
  }

  function AfterDatabase(c: MySQLConfig): string {
    "charset=" + (c.charset + "&" + AfterCharset(c))
  }

  function AfterCharset(c: MySQLConfig): string {
    "parseTime=" + (BoolText(c.parseTime) + "&" + AfterParseTime(c))
  }

  function AfterParseTime(c: MySQLConfig): string {
    "loc=" + c.loc
  }

  /** The fields the separators cannot be confused with. */
  predicate SeparatorFree(c: MySQLConfig) {
    ':' !in c.username && '@' !in c.password && ':' !in c.host && '?' !in c.database && '&' !in c.charset
  }

  /** A literal in front can be dropped from both sides. */
  lemma DropLiteral(lit: string, x: string, y: string)
    requires lit + x == lit + y
    ensures x == y
  {
    assert x == (lit + x)[|lit|..];
    assert y == (lit + y)[|lit|..];
  }

  /** The connection string determines the settings: two configurations whose
      fields avoid the separators and that give the same string agree on every
      field it mentions. */
  lemma DSNDeterminesSettings(c1: MySQLConfig, c2: MySQLConfig)
    requires SeparatorFree(c1) && SeparatorFree(c2)
    requires GetDSN(c1) == GetDSN(c2)
    ensures c1.username == c2.username && c1.password == c2.password && c1.host == c2.host
    ensures c1.port == c2.port && c1.database == c2.database && c1.charset == c2.charset
    ensures c1.parseTime == c2.parseTime && c1.loc == c2.loc
  {
    CutAtFirst(c1.username, AfterUser(c1), c2.username, AfterUser(c2), ':');
    CutAtFirst(c1.password, AfterAt(c1), c2.password, AfterAt(c2), '@');
    DropLiteral("tcp(", c1.host + ":" + AfterHost(c1), c2.host + ":" + AfterHost(c2));
    CutAtFirst(c1.host, AfterHost(c1), c2.host, AfterHost(c2), ':');
    IntToStringAvoids(c1.port, ')');
    IntToStringAvoids(c2.port, ')');
    CutAtFirst(IntToString(c1.port), AfterPort(c1), IntToString(c2.port), AfterPort(c2), ')');
    IntToStringInjective(c1.port, c2.port);
    DropLiteral("/", c1.database + "?" + AfterDatabase(c1), c2.database + "?" + AfterDatabase(c2));
    CutAtFirst(c1.database, AfterDatabase(c1), c2.database, AfterDatabase(c2), '?');
    DropLiteral("charset=", c1.charset + "&" + AfterCharset(c1), c2.charset + "&" + AfterCharset(c2));
    CutAtFirst(c1.charset, AfterCharset(c1), c2.charset, AfterCharset(c2), '&');
    DropLiteral("parseTime=", BoolText(c1.parseTime) + "&" + AfterParseTime(c1), BoolText(c2.parseTime) + "&" + AfterParseTime(c2));
    assert '&' !in BoolText(c1.parseTime) && '&' !in BoolText(c2.parseTime);
    CutAtFirst(BoolText(c1.parseTime), AfterParseTime(c1), BoolText(c2.parseTime), AfterParseTime(c2), '&');
    DropLiteral("loc=", c1.loc, c2.loc);
  }
}

=== FILE: conversations.dfy ===
/** Conversations: the conversation table, its member rows with per-member
    unread counters, and the message table, together with the service rules on
    top of them: only members may read or write, closed conversations take no
    messages, and message pages are fetched newest first. Times are integers in
    milliseconds; fresh IDs and the clock reading are parameters. */
module Conversations {
  import opened Wrappers
  import Roles
  import Sorting

  datatype Conversation = Conversation(
    conversationID: string,
    title: Option<string>,
    convType: string,
    relatedOrderType: Option<string>,
    relatedOrderID: Option<string>,
    status: string,
    lastMessageAt: Option<int>)

  /** A member row; its key is (conversation, user). */
  datatype Member = Member(conversationID: string, userID: int, role: string, unreadCount: int, lastReadAt: Option<int>)

  datatype Message = Message(
    messageID: string,
    conversationID: string,
    senderID: int,
    messageType: string,
    content: string,
    status: string,
    createdAt: int)

  /** A message as the service returns it, with the sender's display name. */
  datatype MessageView = MessageView(message: Message, senderNickname: string)

  datatype Store = Store(
    conversations: map<string, Conversation>,
    members: seq<Member>,
    messages: seq<Message>,
    users: map<int, Roles.User>)

  const NotAMember := "user is not a member of this conversation"

  // ----- the repository -----

  predicate IsKey(m: Member, conversationID: string, userID: int) {
    m.conversationID == conversationID && m.userID == userID
  }

  /** The primary key (conversation, user) of the member table. */
  predicate KeysUnique(rows: seq<Member>) {
    forall i, j | 0 <= i < j < |rows| :: !(rows[i].conversationID == rows[j].conversationID && rows[i].userID == rows[j].userID)
  }

  /** `COUNT(*)` of the member rows with that key. */
  function KeyCount(rows: seq<Member>, conversationID: string, userID: int): (r: nat)
    ensures r == 0 <==> forall i | 0 <= i < |rows| :: !IsKey(rows[i], conversationID, userID)
    ensures r <= |rows|
    decreases |rows|
  {
    if |rows| == 0 then 0
    else (if IsKey(rows[0], conversationID, userID) then 1 else 0) + KeyCount(rows[1..], conversationID, userID)
  }

  /** Under the primary key a pair has at most one row. */
  lemma {:induction false} KeyCountAtMostOne(rows: seq<Member>, conversationID: string, userID: int)
    requires KeysUnique(rows)
    ensures KeyCount(rows, conversationID, userID) <= 1
    decreases |rows|
  {
    if |rows| > 0 {
      assert KeysUnique(rows[1..]);
      KeyCountAtMostOne(rows[1..], conversationID, userID);
      if IsKey(rows[0], conversationID, userID) {
        assert forall i | 0 <= i < |rows[1..]| :: !IsKey(rows[1..][i], conversationID, userID) by {
          forall i | 0 <= i < |rows[1..]|
            ensures !IsKey(rows[1..][i], conversationID, userID)
          {
            assert rows[1..][i] == rows[i + 1];
          }
        }
      }
    }
  }

  /** `IsConversationMember`: the count of rows for the pair is positive. */
  function IsConversationMember(rows: seq<Member>, conversationID: string, userID: int): (r: bool)
    ensures r <==> exists i | 0 <= i < |rows| :: IsKey(rows[i], conversationID, userID)
  {
    KeyCount(rows, conversationID, userID) > 0
  }

  /** `GetConversationMembers`: the conversation's rows in table order. */
  function ConversationMembers(rows: seq<Member>, conversationID: string): (r: seq<Member>)
    ensures forall m | m in r :: m in rows && m.conversationID == conversationID
    ensures forall m | m in rows && m.conversationID == conversationID :: m in r
  {
    Sorting.Filter(rows, (m: Member) => m.conversationID == conversationID)
  }

  /** `IncrementUnreadCount`: one more unread message for that pair's row. */
  function IncrementUnreadCount(rows: seq<Member>, conversationID: string, userID: int): (r: seq<Member>)
    ensures |r| == |rows|
    ensures forall i | 0 <= i < |rows| ::
      r[i] == rows[i].(unreadCount := rows[i].unreadCount + if IsKey(rows[i], conversationID, userID) then 1 else 0)
  {
    seq(|rows|, i requires 0 <= i < |rows| =>
      if IsKey(rows[i], conversationID, userID) then rows[i].(unreadCount := rows[i].unreadCount + 1) else rows[i])
  }

  /** `ResetUnreadCount`: that pair's row has nothing unread, read at `now`. */
  function ResetUnreadCount(rows: seq<Member>, conversationID: string, userID: int, now: int): (r: seq<Member>)
    ensures |r| == |rows|
    ensures forall i | 0 <= i < |rows| && IsKey(rows[i], conversationID, userID) ::
      r[i] == rows[i].(unreadCount := 0, lastReadAt := Some(now))
    ensures forall i | 0 <= i < |rows| && !IsKey(rows[i], conversationID, userID) :: r[i] == rows[i]
  {
    seq(|rows|, i requires 0 <= i < |rows| =>
      if IsKey(rows[i], conversationID, userID) then rows[i].(unreadCount := 0, lastReadAt := Some(now)) else rows[i])
  }

  /** The `WHERE` clause of the repository's `GetMessages`: the conversation's
      messages, and only those strictly before `before` when it is positive. */
  predicate InPage(m: Message, conversationID: string, before: Option<int>) {
    m.conversationID == conversationID && (before.Some? && before.value > 0 ==> m.createdAt < before.value)
  }

  function Candidates(messages: seq<Message>, conversationID: string, before: Option<int>): (r: seq<Message>)
    ensures forall m | m in r :: m in messages && InPage(m, conversationID, before)
    ensures forall m :: multiset(r)[m] == if InPage(m, conversationID, before) then multiset(messages)[m] else 0
  {
    var p := (m: Message) => InPage(m, conversationID, before);
    Sorting.FilterMultiset(messages, p);
    Sorting.Filter(messages, p)
  }

  function CreatedAt(m: Message): int { m.createdAt }

  function Reverse<T>(s: seq<T>): (r: seq<T>)
    ensures |r| == |s|
    ensures forall i | 0 <= i < |s| :: r[i] == s[|s| - 1 - i]
  {
    seq(|s|, i requires 0 <= i < |s| => s[|s| - 1 - i])
  }

  /** Reversing keeps every element, as often as it occurs. */
  lemma {:induction false} ReverseMultiset<T>(s: seq<T>)
    ensures multiset(Reverse(s)) == multiset(s)
    decreases |s|
  {
    if |s| > 0 {
      ReverseMultiset(s[1..]);
      assert Reverse(s) == Reverse(s[1..]) + [s[0]];
      assert s == [s[0]] + s[1..];
    }
  }

  /** The first `limit` candidates in newest-first order (`ORDER BY created_at
      DESC LIMIT ?`): nothing left out is newer than the last one kept. */
  function Newest(cands: seq<Message>, limit: nat): (r: seq<Message>)
    ensures |r| == if limit <= |cands| then limit else |cands|
    ensures Sorting.SortedDescBy(r, CreatedAt)
    ensures multiset(r) <= multiset(cands)
    ensures |r| > 0 ==> forall m | m in cands && m !in r :: m.createdAt <= r[|r| - 1].createdAt
  {
    WindowOfSorted(Sorting.SortDescBy(cands, CreatedAt), cands, limit);
    Sorting.Window(Sorting.SortDescBy(cands, CreatedAt), 0, limit)
  }

  lemma WindowOfSorted(sorted: seq<Message>, cands: seq<Message>, limit: nat)
    requires Sorting.SortedDescBy(sorted, CreatedAt) && multiset(sorted) == multiset(cands)
    ensures var w := Sorting.Window(sorted, 0, limit);
      && Sorting.SortedDescBy(w, CreatedAt)
      && multiset(w) <= multiset(cands)
      && (|w| > 0 ==> forall m | m in cands && m !in w :: m.createdAt <= w[|w| - 1].createdAt)
  {
    var w := Sorting.Window(sorted, 0, limit);
    Sorting.WindowSorted(sorted, 0, limit, CreatedAt);
    assert w == sorted[..|w|];
    PrefixMultiset(sorted, |w|);
    if |w| > 0 {
      forall m | m in cands && m !in w
        ensures m.createdAt <= w[|w| - 1].createdAt
      {
        assert m in multiset(sorted);
        OutsidePrefixIsOlder(sorted, |w|, m);
      }
    }
  }

  /** A prefix holds no more of anything than the whole list. */
  lemma PrefixMultiset<T>(s: seq<T>, n: nat)
    requires n <= |s|
    ensures multiset(s[..n]) <= multiset(s)
  {
    assert s == s[..n] + s[n..];
  }

  /** In a newest-first list, a message outside the first `n` is no newer than
      the last of them. */
  lemma OutsidePrefixIsOlder(sorted: seq<Message>, n: nat, m: Message)
    requires Sorting.SortedDescBy(sorted, CreatedAt)
    requires 0 < n <= |sorted| && m in sorted && m !in sorted[..n]
    ensures m.createdAt <= sorted[n - 1].createdAt
  {
    var k :| 0 <= k < |sorted| && sorted[k] == m;
    assert CreatedAt(sorted[n - 1]) >= CreatedAt(sorted[k]);
  }

  /** `GetMessages` (repository): the newest `limit` candidates, returned oldest
      first. */
  function RepoGetMessages(messages: seq<Message>, conversationID: string, before: Option<int>, limit: nat)
    : (r: seq<Message>)
    ensures |r| == if limit <= |Candidates(messages, conversationID, before)| then limit
                   else |Candidates(messages, conversationID, before)|
    ensures forall m | m in r :: m in messages && InPage(m, conversationID, before)
    ensures multiset(r) <= multiset(Candidates(messages, conversationID, before))
    ensures forall i, j | 0 <= i < j < |r| :: r[i].createdAt <= r[j].createdAt
    ensures |r| > 0 ==> forall m | m in Candidates(messages, conversationID, before) && m !in r ::
      m.createdAt <= r[0].createdAt
  {
    var cands := Candidates(messages, conversationID, before);
    PageOf(cands, limit);
    Reverse(Newest(cands, limit))
  }

  /** The newest `limit` of `cands`, oldest first: drawn from `cands`, ascending,
      and nothing left out is newer than its first entry. */
  lemma PageOf(cands: seq<Message>, limit: nat)
    ensures var r := Reverse(Newest(cands, limit));
      && |r| == (if limit <= |cands| then limit else |cands|)
      && multiset(r) <= multiset(cands)
      && (forall m | m in r :: m in cands)
      && (forall i, j | 0 <= i < j < |r| :: r[i].createdAt <= r[j].createdAt)
      && (|r| > 0 ==> forall m | m in cands && m !in r :: m.createdAt <= r[0].createdAt)
  {
    var newest := Newest(cands, limit);
    ReverseOfNewest(newest);
    forall m | m in Reverse(newest)
      ensures m in cands
    {
      assert m in multiset(newest);
    }
  }

  /** Reversing a newest-first list gives an oldest-first list with the same
      elements, whose first entry is the list's last. */
  lemma ReverseOfNewest(s: seq<Message>)
    requires Sorting.SortedDescBy(s, CreatedAt)
    ensures forall i, j | 0 <= i < j < |s| :: Reverse(s)[i].createdAt <= Reverse(s)[j].createdAt
    ensures forall m :: m in Reverse(s) <==> m in s
    ensures multiset(Reverse(s)) == multiset(s)
    ensures |s| > 0 ==> Reverse(s)[0] == s[|s| - 1]
  {
    var r := Reverse(s);
    ReverseMultiset(s);
    forall m
      ensures m in r <==> m in s
    {
      assert m in r <==> m in multiset(r);
    }
    forall i, j | 0 <= i < j < |s|
      ensures r[i].createdAt <= r[j].createdAt
    {
      assert CreatedAt(s[|s| - 1 - j]) >= CreatedAt(s[|s| - 1 - i]);
    }
  }

  // ----- the service -----

  /** The display name of a sender: nickname, else email, else "Unknown". */
  function Nickname(user: Option<Roles.User>): (r: string)
    ensures user.Some? && user.value.nickname.Some? ==> r == user.value.nickname.value
    ensures user.Some? && user.value.nickname.None? && user.value.email.Some? ==> r == user.value.email.value
    ensures user.None? || (user.value.nickname.None? && user.value.email.None?) ==> r == "Unknown"
  {
    if user.Some? && user.value.nickname.Some? then user.value.nickname.value
    else if user.Some? && user.value.email.Some? then user.value.email.value
    else "Unknown"
  }

  /** The member rows `CreateConversation` inserts from position `k` on: the first
      listed user is the creator, the rest are members, nothing is unread. */
  function NewMembers(conversationID: string, userIDs: seq<int>, k: nat): (r: seq<Member>)
    requires k <= |userIDs|
    ensures |r| == |userIDs| - k
    ensures forall j | 0 <= j < |r| ::
      r[j] == Member(conversationID, userIDs[k + j], if k + j == 0 then "creator" else "member", 0, None)
    decreases |userIDs| - k
  {
    if k == |userIDs| then []
    else [Member(conversationID, userIDs[k], if k == 0 then "creator" else "member", 0, None)]
         + NewMembers(conversationID, userIDs, k + 1)
  }

  /** No row of the table has the pair as its key. */
  predicate NoRow(rows: seq<Member>, conversationID: string, userID: int) {
    forall i | 0 <= i < |rows| :: !IsKey(rows[i], conversationID, userID)
  }

  /** The users from position `k` on can all be inserted: none has a row yet and
      none is listed twice. */
  predicate Insertable(rows: seq<Member>, conversationID: string, userIDs: seq<int>, k: nat)
    requires k <= |userIDs|
  {
    forall j | k <= j < |userIDs| :: NoRow(rows, conversationID, userIDs[j]) && userIDs[j] !in userIDs[k..j]
  }

  /** Inserting the member rows one at a time from position `k`; a key already
      present stops the loop with an error, keeping the rows inserted so far. */
  function AddMembers(rows: seq<Member>, conversationID: string, userIDs: seq<int>, k: nat)
    : (r: (seq<Member>, Result<(), string>))
    requires k <= |userIDs|
    ensures |rows| <= |r.0| && r.0[..|rows|] == rows
    ensures r.1.Success? <==> Insertable(rows, conversationID, userIDs, k)
    ensures r.1.Success? ==> r.0 == rows + NewMembers(conversationID, userIDs, k)
    decreases |userIDs| - k
  {
    if k == |userIDs| then (rows, Success(()))
    else if IsConversationMember(rows, conversationID, userIDs[k]) then
      (rows, Failure("failed to add conversation member: duplicate key"))
    else
      var m := Member(conversationID, userIDs[k], if k == 0 then "creator" else "member", 0, None);
      var rest := AddMembers(rows + [m], conversationID, userIDs, k + 1);
      AddMembersStep(rows, m, conversationID, userIDs, k);
      AddMembersLift(rows, m, conversationID, userIDs, k, rest.0);
      rest
  }

  /** The rows after inserting `userIDs[k]` and the rest: they extend the table,
      and are the table plus the rows from position `k` on when the rest went in. */
  lemma AddMembersLift(rows: seq<Member>, m: Member, conversationID: string, userIDs: seq<int>, k: nat, out: seq<Member>)
    requires k < |userIDs| && m == Member(conversationID, userIDs[k], if k == 0 then "creator" else "member", 0, None)
    requires |rows| + 1 <= |out| && out[..|rows| + 1] == rows + [m]
    ensures out[..|rows|] == rows
    ensures out == rows + [m] + NewMembers(conversationID, userIDs, k + 1) ==> out == rows + NewMembers(conversationID, userIDs, k)
  {
    assert out[..|rows|] == out[..|rows| + 1][..|rows|];
    assert [m] + NewMembers(conversationID, userIDs, k + 1) == NewMembers(conversationID, userIDs, k);
    assert rows + [m] + NewMembers(conversationID, userIDs, k + 1) == rows + ([m] + NewMembers(conversationID, userIDs, k + 1));
  }

  /** After inserting the row for `userIDs[k]`, the rest can be inserted exactly
      when `userIDs[k]` and the rest could be inserted before. */
  lemma AddMembersStep(rows: seq<Member>, m: Member, conversationID: string, userIDs: seq<int>, k: nat)
    requires k < |userIDs| && m == Member(conversationID, userIDs[k], if k == 0 then "creator" else "member", 0, None)
    ensures Insertable(rows, conversationID, userIDs, k) <==>
      NoRow(rows, conversationID, userIDs[k]) && Insertable(rows + [m], conversationID, userIDs, k + 1)
  {
    var rows' := rows + [m];
    assert forall i | 0 <= i < |rows| :: rows'[i] == rows[i];
    assert rows'[|rows|] == m;
    forall j | k + 1 <= j < |userIDs|
      ensures (NoRow(rows', conversationID, userIDs[j]) && userIDs[j] !in userIDs[k + 1..j])
          <==> (NoRow(rows, conversationID, userIDs[j]) && userIDs[j] !in userIDs[k..j])
    {
      assert userIDs[k..j] == [userIDs[k]] + userIDs[k + 1..j];
    }
    assert userIDs[k..k] == [];
  }

  /** `CreateConversation`: an active conversation and one member row per listed
      user. A failing member insert leaves the conversation and the rows before
      it in place. */
  function CreateConversation(st: Store, convType: string, relatedOrderType: string, relatedOrderID: string,
                              title: Option<string>, userIDs: seq<int>, conversationID: string)
    : (r: (Store, Result<Conversation, string>))
    ensures conversationID in st.conversations ==> r == (st, Failure("failed to create conversation: duplicate key"))
    ensures r.1.Success? <==>
      && conversationID !in st.conversations
      && Insertable(st.members, conversationID, userIDs, 0)
    ensures r.1.Success? ==>
      && r.1.value == Conversation(conversationID, title, convType, Some(relatedOrderType), Some(relatedOrderID), "active", None)
      && r.0.conversations == st.conversations[conversationID := r.1.value]
      && r.0.members == st.members + NewMembers(conversationID, userIDs, 0)
      && r.0.messages == st.messages && r.0.users == st.users
  {
    if conversationID in st.conversations then (st, Failure("failed to create conversation: duplicate key"))
    else
      var c := Conversation(conversationID, title, convType, Some(relatedOrderType), Some(relatedOrderID), "active", None);
      var (rows, res) := AddMembers(st.members, conversationID, userIDs, 0);
      var st' := st.(conversations := st.conversations[conversationID := c], members := rows);
      if res.Failure? then (st', Failure(res.error)) else (st', Success(c))
  }

  /** A new conversation's first listed user is its creator, everyone listed is a
      member with nothing unread, and the key stays unique. */
  lemma CreatedMembers(st: Store, convType: string, relatedOrderType: string, relatedOrderID: string,
                       title: Option<string>, userIDs: seq<int>, conversationID: string, j: nat)
    requires KeysUnique(st.members)
    requires CreateConversation(st, convType, relatedOrderType, relatedOrderID, title, userIDs, conversationID).1.Success?
    requires j < |userIDs|
    ensures var rows := CreateConversation(st, convType, relatedOrderType, relatedOrderID, title, userIDs, conversationID).0.members;
      && rows[|st.members| + j] == Member(conversationID, userIDs[j], if j == 0 then "creator" else "member", 0, None)
      && IsConversationMember(rows, conversationID, userIDs[j])
      && KeysUnique(rows)
  {
    var rows := CreateConversation(st, convType, relatedOrderType, relatedOrderID, title, userIDs, conversationID).0.members;
    var added := NewMembers(conversationID, userIDs, 0);
    assert rows == st.members + added;
    assert rows[|st.members| + j] == added[j];
    assert IsKey(rows[|st.members| + j], conversationID, userIDs[j]);
    AppendKeepsKeysUnique(st.members, conversationID, userIDs);
  }

  /** Appending the rows of insertable users keeps the key unique. */
  lemma AppendKeepsKeysUnique(rows: seq<Member>, conversationID: string, userIDs: seq<int>)
    requires KeysUnique(rows) && Insertable(rows, conversationID, userIDs, 0)
    ensures KeysUnique(rows + NewMembers(conversationID, userIDs, 0))
  {
    var added := NewMembers(conversationID, userIDs, 0);
    var all := rows + added;
    forall a, b | 0 <= a < b < |all|
      ensures !(all[a].conversationID == all[b].conversationID && all[a].userID == all[b].userID)
    {
      if b >= |rows| {
        var jb := b - |rows|;
        assert all[b] == added[jb];
        if a >= |rows| {
          assert all[a] == added[a - |rows|];
          assert userIDs[a - |rows|] in userIDs[0..jb];
        } else {
          assert all[a] == rows[a];
          assert NoRow(rows, conversationID, userIDs[jb]);
        }
      } else {
        assert all[a] == rows[a] && all[b] == rows[b];
      }
    }
  }

  /** How often a user appears in a list of member rows. */
  function Occurrences(ms: seq<Member>, userID: int): nat
    decreases |ms|
  {
    if |ms| == 0 then 0 else (if ms[0].userID == userID then 1 else 0) + Occurrences(ms[1..], userID)
  }

  /** The loop of `SendMessage` over the fetched member rows: every member other
      than the sender gets `IncrementUnreadCount`. */
  function IncrementOthers(rows: seq<Member>, conversationID: string, senderID: int, ms: seq<Member>)
    : (r: seq<Member>)
    decreases |ms|
  {
    if |ms| == 0 then rows
    else
      var rows' := if ms[0].userID != senderID then IncrementUnreadCount(rows, conversationID, ms[0].userID) else rows;
      IncrementOthers(rows', conversationID, senderID, ms[1..])
  }

  /** Each row of the conversation other than the sender's gains one unread
      message per time its user appears in the loop's list. */
  lemma {:induction false} IncrementOthersCounts(rows: seq<Member>, conversationID: string, senderID: int, ms: seq<Member>)
    ensures |IncrementOthers(rows, conversationID, senderID, ms)| == |rows|
    ensures forall i | 0 <= i < |rows| :: (IncrementOthers(rows, conversationID, senderID, ms)[i] ==
      rows[i].(unreadCount := rows[i].unreadCount +
        (if rows[i].conversationID == conversationID && rows[i].userID != senderID then Occurrences(ms, rows[i].userID) else 0)))
    decreases |ms|
  {
    if |ms| > 0 {
      var rows' := if ms[0].userID != senderID then IncrementUnreadCount(rows, conversationID, ms[0].userID) else rows;
      IncrementOthersCounts(rows', conversationID, senderID, ms[1..]);
    }
  }

  /** The conversation's member list names each of its members exactly as often
      as the table holds the pair. */
  lemma {:induction false} OccurrencesOfMembers(rows: seq<Member>, conversationID: string, userID: int)
    ensures Occurrences(ConversationMembers(rows, conversationID), userID) == KeyCount(rows, conversationID, userID)
    decreases |rows|
  {
    if |rows| > 0 {
      OccurrencesOfMembers(rows[1..], conversationID, userID);
      var tail := ConversationMembers(rows[1..], conversationID);
      MembersOfCons(rows, conversationID);
      if rows[0].conversationID == conversationID {
        OccurrencesOfCons(rows[0], tail, userID);
      } else {
        assert [] + tail == tail;
      }
    }
  }

  /** The conversation's rows of a table: its first row if it belongs, then the rest. */
  lemma MembersOfCons(rows: seq<Member>, conversationID: string)
    requires |rows| > 0
    ensures ConversationMembers(rows, conversationID)
         == (if rows[0].conversationID == conversationID then [rows[0]] else []) + ConversationMembers(rows[1..], conversationID)
  {
  }

  lemma OccurrencesOfCons(m: Member, tail: seq<Member>, userID: int)
    ensures Occurrences([m] + tail, userID) == (if m.userID == userID then 1 else 0) + Occurrences(tail, userID)
  {
    assert ([m] + tail)[1..] == tail;
  }

  /** With the primary key in place, the send loop adds exactly one unread
      message for every other member of the conversation and nothing elsewhere. */
  lemma NotifyOthersExactlyOnce(rows: seq<Member>, conversationID: string, senderID: int)
    requires KeysUnique(rows)
    ensures var r := IncrementOthers(rows, conversationID, senderID, ConversationMembers(rows, conversationID));
      && |r| == |rows|
      && forall i | 0 <= i < |rows| :: r[i] == rows[i].(unreadCount := rows[i].unreadCount +
           (if rows[i].conversationID == conversationID && rows[i].userID != senderID then 1 else 0))
  {
    var ms := ConversationMembers(rows, conversationID);
    IncrementOthersCounts(rows, conversationID, senderID, ms);
    forall i | 0 <= i < |rows| && rows[i].conversationID == conversationID
      ensures Occurrences(ms, rows[i].userID) == 1
    {
      OccurrencesOfMembers(rows, conversationID, rows[i].userID);
      KeyCountAtMostOne(rows, conversationID, rows[i].userID);
      assert IsKey(rows[i], conversationID, rows[i].userID);
    }
  }

  /** The member rows after `SendMessage`'s loop over the conversation's members. */
  function NotifyOthers(rows: seq<Member>, conversationID: string, senderID: int): (r: seq<Member>)
    ensures KeysUnique(rows) ==>
      && |r| == |rows|
      && forall i | 0 <= i < |rows| :: r[i] == rows[i].(unreadCount := rows[i].unreadCount +
           (if rows[i].conversationID == conversationID && rows[i].userID != senderID then 1 else 0))
  {
    var r := IncrementOthers(rows, conversationID, senderID, ConversationMembers(rows, conversationID));
    if KeysUnique(rows) then
      NotifyOthersExactlyOnce(rows, conversationID, senderID);
      r
    else r
  }

  /** After the notification loop the reader is still a member, and the reader's
      counter has moved by one unless the reader sent the message. */
  lemma RaisedCounter(rows: seq<Member>, rows': seq<Member>, conversationID: string, senderID: int, reader: int)
    requires KeysUnique(rows) && IsConversationMember(rows, conversationID, reader)
    requires rows' == NotifyOthers(rows, conversationID, senderID)
    ensures IsConversationMember(rows', conversationID, reader)
    ensures UnreadCountOf(rows', conversationID, reader) ==
      UnreadCountOf(rows, conversationID, reader) + (if reader != senderID then 1 else 0)
  {
    var i :| 0 <= i < |rows| && IsKey(rows[i], conversationID, reader);
    assert IsKey(rows'[i], conversationID, reader);
    assert KeysUnique(rows') by {
      forall a, b | 0 <= a < b < |rows'|
        ensures !(rows'[a].conversationID == rows'[b].conversationID && rows'[a].userID == rows'[b].userID)
      {
        assert rows'[a].conversationID == rows[a].conversationID && rows'[a].userID == rows[a].userID;
        assert rows'[b].conversationID == rows[b].conversationID && rows'[b].userID == rows[b].userID;
      }
    }
  }

  /** A message ID already in the table. */
  predicate MessageIDTaken(messages: seq<Message>, messageID: string) {
    exists i | 0 <= i < |messages| :: messages[i].messageID == messageID
  }

  /** `SendMessage`: members only, not into a closed conversation. The message is
      stored as sent, the conversation's last-message time moves to `now`, and
      every other member has one more unread message. A missing sender record is
      reported after those writes. */
  function SendMessage(st: Store, userID: int, conversationID: string, messageType: string, content: string,
                       messageID: string, now: int)
    : (r: (Store, Result<MessageView, string>))
    ensures !IsConversationMember(st.members, conversationID, userID) ==> r == (st, Failure(NotAMember))
    ensures IsConversationMember(st.members, conversationID, userID) && conversationID !in st.conversations ==>
      r == (st, Failure("conversation not found"))
    ensures IsConversationMember(st.members, conversationID, userID) && conversationID in st.conversations
            && st.conversations[conversationID].status == "closed" ==>
      r == (st, Failure("conversation is closed"))
    ensures r.1.Success? <==>
      && IsConversationMember(st.members, conversationID, userID)
      && conversationID in st.conversations && st.conversations[conversationID].status != "closed"
      && !MessageIDTaken(st.messages, messageID) && userID in st.users
    ensures r.1.Success? ==>
      && r.0.messages == st.messages + [Message(messageID, conversationID, userID, messageType, content, "sent", now)]
      && r.0.conversations == st.conversations[conversationID := st.conversations[conversationID].(lastMessageAt := Some(now))]
      && r.1.value == MessageView(r.0.messages[|st.messages|], Nickname(Some(st.users[userID])))
    ensures r.1.Success? && KeysUnique(st.members) ==>
      && |r.0.members| == |st.members|
      && forall i | 0 <= i < |st.members| :: r.0.members[i] == st.members[i].(unreadCount := st.members[i].unreadCount +
           (if st.members[i].conversationID == conversationID && st.members[i].userID != userID then 1 else 0))
  {
    if !IsConversationMember(st.members, conversationID, userID) then (st, Failure(NotAMember))
    else if conversationID !in st.conversations then (st, Failure("conversation not found"))
    else if st.conversations[conversationID].status == "closed" then (st, Failure("conversation is closed"))
    else if MessageIDTaken(st.messages, messageID) then (st, Failure("failed to create message: duplicate key"))
    else
      var msg := Message(messageID, conversationID, userID, messageType, content, "sent", now);
      var c := st.conversations[conversationID].(lastMessageAt := Some(now));
      var st' := st.(messages := st.messages + [msg], conversations := st.conversations[conversationID := c],
                     members := NotifyOthers(st.members, conversationID, userID));
      if userID !in st.users then (st', Failure("failed to get sender info: record not found"))
      else (st', Success(MessageView(msg, Nickname(Some(st.users[userID])))))
  }

  /** The display record of each message; an unknown sender shows as "Unknown". */
  function Views(users: map<int, Roles.User>, messages: seq<Message>): (r: seq<MessageView>)
    ensures |r| == |messages|
    ensures forall i | 0 <= i < |messages| :: (r[i].message == messages[i]
      && r[i].senderNickname == Nickname(if messages[i].senderID in users then Some(users[messages[i].senderID]) else None))
  {
    seq(|messages|, i requires 0 <= i < |messages| =>
      MessageView(messages[i], Nickname(if messages[i].senderID in users then Some(users[messages[i].senderID]) else None)))
  }

  /** `GetMessages` as written: one extra message is fetched to learn whether
      there are more, and the page keeps the first `limit` of the ascending list,
      which drops the newest message rather than the extra old one. */
  function GetMessagesAsWritten(st: Store, userID: int, conversationID: string, before: Option<int>, limit: nat)
    : (r: Result<(seq<MessageView>, bool), string>)
    ensures r.Success? <==> IsConversationMember(st.members, conversationID, userID)
    ensures r.Success? ==>
      var fetched := RepoGetMessages(st.messages, conversationID, before, limit + 1);
      && r.value.1 == (|fetched| > limit)
      && r.value.0 == Views(st.users, if |fetched| > limit then fetched[..limit] else fetched)
  {
    if !IsConversationMember(st.members, conversationID, userID) then Failure(NotAMember)
    else
      var fetched := RepoGetMessages(st.messages, conversationID, before, limit + 1);
      var hasMore := |fetched| > limit;
      var page := if hasMore then fetched[..limit] else fetched;
      Success((Views(st.users, page), hasMore))
  }

  /** `GetMessages` as evidently intended: the page is the newest `limit`
      messages, oldest first, and `hasMore` says whether older ones remain. */
  function GetMessages(st: Store, userID: int, conversationID: string, before: Option<int>, limit: nat)
    : (r: Result<(seq<MessageView>, bool), string>)
    ensures r.Success? <==> IsConversationMember(st.members, conversationID, userID)
    ensures r.Success? ==> var fetched := RepoGetMessages(st.messages, conversationID, before, limit + 1);
      && r.value.1 == (|fetched| > limit)
      && r.value.0 == Views(st.users, if |fetched| > limit then fetched[1..] else fetched)
  {
    if !IsConversationMember(st.members, conversationID, userID) then Failure(NotAMember)
    else
      var fetched := RepoGetMessages(st.messages, conversationID, before, limit + 1);
      var hasMore := |fetched| > limit;
      var page := if hasMore then fetched[1..] else fetched;
      Success((Views(st.users, page), hasMore))
  }

  /** Fetching one extra and dropping the oldest gives exactly the newest `limit`
      messages; `hasMore` holds iff more than `limit` messages are in range. */
  lemma GetMessagesIsNewestPage(st: Store, userID: int, conversationID: string, before: Option<int>, limit: nat)
    requires IsConversationMember(st.members, conversationID, userID)
    ensures var r := GetMessages(st, userID, conversationID, before, limit).value;
      && r.0 == Views(st.users, RepoGetMessages(st.messages, conversationID, before, limit))
      && r.1 == (|Candidates(st.messages, conversationID, before)| > limit)
  {
    ExtraFetchGivesPage(st.messages, conversationID, before, limit);
  }

  lemma ExtraFetchGivesPage(messages: seq<Message>, conversationID: string, before: Option<int>, limit: nat)
    ensures var fetched := RepoGetMessages(messages, conversationID, before, limit + 1);
      (if |fetched| > limit then fetched[1..] else fetched) == RepoGetMessages(messages, conversationID, before, limit)
  {
    RepoIsReversedNewest(messages, conversationID, before, limit + 1);
    RepoIsReversedNewest(messages, conversationID, before, limit);
    OneExtraThenDropOldest(Candidates(messages, conversationID, before), limit);
  }

  lemma RepoIsReversedNewest(messages: seq<Message>, conversationID: string, before: Option<int>, limit: nat)
    ensures RepoGetMessages(messages, conversationID, before, limit)
         == Reverse(Newest(Candidates(messages, conversationID, before), limit))
  {
  }

  /** Asking for one more than a page and dropping the oldest is asking for the
      page; when there is no more, the extra request changes nothing. */
  lemma OneExtraThenDropOldest(cands: seq<Message>, limit: nat)
    ensures |cands| > limit ==> Reverse(Newest(cands, limit + 1))[1..] == Reverse(Newest(cands, limit))
    ensures |cands| <= limit ==> Newest(cands, limit + 1) == Newest(cands, limit)
  {
    var sorted := Sorting.SortDescBy(cands, CreatedAt);
    var big := Newest(cands, limit + 1);
    var small := Newest(cands, limit);
    assert big == Sorting.Window(sorted, 0, limit + 1);
    assert small == Sorting.Window(sorted, 0, limit);
    assert forall i | 0 <= i < |small| :: big[i] == small[i];
    if |cands| > limit {
      ReverseDropFirst(big, small);
    }
  }

  /** Dropping the first element of a reversed list is reversing the list
      without its last element. */
  lemma ReverseDropFirst<T>(s: seq<T>, t: seq<T>)
    requires |s| == |t| + 1
    requires forall i | 0 <= i < |t| :: s[i] == t[i]
    ensures Reverse(s)[1..] == Reverse(t)
  {
    var r := Reverse(s)[1..];
    forall i | 0 <= i < |r|
      ensures r[i] == Reverse(t)[i]
    {
      assert r[i] == s[|t| - 1 - i];
    }
  }

  /** A message strictly newer than every other one in range is always the last
      entry of the repository's page, and appears nowhere else in it. */
  lemma NewestMessageEndsPage(messages: seq<Message>, conversationID: string, before: Option<int>, limit: nat, m: Message)
    requires limit > 0
    requires InPage(m, conversationID, before) && multiset(messages)[m] == 1
    requires forall x | x in messages && InPage(x, conversationID, before) && x != m :: x.createdAt < m.createdAt
    ensures var r := RepoGetMessages(messages, conversationID, before, limit);
      |r| > 0 && r[|r| - 1] == m && m !in r[..|r| - 1]
  {
    NewestMessageIsFetched(messages, conversationID, before, limit, m);
    UniqueNewestIsLast(RepoGetMessages(messages, conversationID, before, limit), Candidates(messages, conversationID, before), m);
  }

  lemma NewestMessageIsFetched(messages: seq<Message>, conversationID: string, before: Option<int>, limit: nat, m: Message)
    requires limit > 0
    requires InPage(m, conversationID, before) && multiset(messages)[m] == 1
    requires forall x | x in messages && InPage(x, conversationID, before) && x != m :: x.createdAt < m.createdAt
    ensures multiset(Candidates(messages, conversationID, before))[m] == 1
    ensures m in RepoGetMessages(messages, conversationID, before, limit)
  {
    var cands := Candidates(messages, conversationID, before);
    var r := RepoGetMessages(messages, conversationID, before, limit);
    assert m in cands;
    assert |r| > 0;
    assert r[0] in messages && InPage(r[0], conversationID, before);
  }

  /** In an oldest-first list drawn from `cands`, an element that is newer than
      every other and occurs once in `cands` sits at the end and only there. */
  lemma UniqueNewestIsLast(r: seq<Message>, cands: seq<Message>, m: Message)
    requires m in r && multiset(r) <= multiset(cands) && multiset(cands)[m] == 1
    requires forall i, j | 0 <= i < j < |r| :: r[i].createdAt <= r[j].createdAt
    requires forall x | x in r && x != m :: x.createdAt < m.createdAt
    ensures |r| > 0 && r[|r| - 1] == m && m !in r[..|r| - 1]
  {
    var k :| 0 <= k < |r| && r[k] == m;
    assert r[|r| - 1].createdAt >= m.createdAt;
    assert r[|r| - 1] == m;
    assert r == r[..|r| - 1] + [m];
    assert multiset(r) == multiset(r[..|r| - 1]) + multiset{m};
  }

  /** Whenever more messages are in range than fit on a page, the page as written
      misses the newest message, while the intended page ends with it. */
  lemma AsWrittenPageLosesNewest(st: Store, userID: int, conversationID: string, before: Option<int>, limit: nat, m: Message)
    requires limit > 0 && IsConversationMember(st.members, conversationID, userID)
    requires InPage(m, conversationID, before) && multiset(st.messages)[m] == 1
    requires forall x | x in st.messages && InPage(x, conversationID, before) && x != m :: x.createdAt < m.createdAt
    requires |Candidates(st.messages, conversationID, before)| > limit
    ensures var asWritten := GetMessagesAsWritten(st, userID, conversationID, before, limit).value.0;
      var intended := GetMessages(st, userID, conversationID, before, limit).value.0;
      && |asWritten| == limit && |intended| == limit
      && (forall i | 0 <= i < limit :: asWritten[i].message != m)
      && intended[limit - 1].message == m
  {
    var fetched := RepoGetMessages(st.messages, conversationID, before, limit + 1);
    NewestMessageEndsPage(st.messages, conversationID, before, limit + 1, m);
    PagesOfFetched(st.users, fetched, limit, m);
  }

  /** The two ways of cutting a fetched list whose last entry `m` is unique. */
  lemma PagesOfFetched(users: map<int, Roles.User>, fetched: seq<Message>, limit: nat, m: Message)
    requires |fetched| == limit + 1 && limit > 0 && fetched[limit] == m && m !in fetched[..limit]
    ensures |Views(users, fetched[..limit])| == limit && |Views(users, fetched[1..])| == limit
    ensures forall i | 0 <= i < limit :: Views(users, fetched[..limit])[i].message != m
    ensures Views(users, fetched[1..])[limit - 1].message == m
  {
    forall i | 0 <= i < limit
      ensures Views(users, fetched[..limit])[i].message != m
    {
      assert Views(users, fetched[..limit])[i].message == fetched[..limit][i];
    }
  }

  /** Three messages at 1, 2 and 3 ms and a page of two: as written the newest
      message is missing from the page; as intended it is the page's last entry. */
  lemma AsWrittenPageDropsNewest()
    ensures var m1 := Message("m1", "c", 7, "text", "a", "sent", 1);
      var m2 := Message("m2", "c", 7, "text", "b", "sent", 2);
      var m3 := Message("m3", "c", 7, "text", "c", "sent", 3);
      var st := Store(map["c" := Conversation("c", None, "general", None, None, "active", None)],
                      [Member("c", 7, "creator", 0, None)], [m1, m2, m3], map[]);
      var asWritten := GetMessagesAsWritten(st, 7, "c", None, 2);
      var intended := GetMessages(st, 7, "c", None, 2);
      && asWritten.Success? && intended.Success?
      && |asWritten.value.0| == 2 && |intended.value.0| == 2
      && (forall i | 0 <= i < 2 :: asWritten.value.0[i].message != m3)
      && intended.value.0[1].message == m3
  {
    var m1 := Message("m1", "c", 7, "text", "a", "sent", 1);
    var m2 := Message("m2", "c", 7, "text", "b", "sent", 2);
    var m3 := Message("m3", "c", 7, "text", "c", "sent", 3);
    var msgs := [m1, m2, m3];
    var st := Store(map["c" := Conversation("c", None, "general", None, None, "active", None)],
                    [Member("c", 7, "creator", 0, None)], msgs, map[]);
    assert IsKey(st.members[0], "c", 7);
    ThreeInRange(msgs);
    NewestOfThree(msgs);
    assert m3 == msgs[2];
    AsWrittenPageLosesNewest(st, 7, "c", None, 2, m3);
  }

  /** All three messages of the example are in range. */
  lemma ThreeInRange(msgs: seq<Message>)
    requires msgs == [Message("m1", "c", 7, "text", "a", "sent", 1), Message("m2", "c", 7, "text", "b", "sent", 2),
                      Message("m3", "c", 7, "text", "c", "sent", 3)]
    ensures |Candidates(msgs, "c", None)| == 3
  {
    AllInRange(msgs, "c", None);
  }

  /** The third message of the example is in range, newer than the others, and
      occurs once. */
  lemma NewestOfThree(msgs: seq<Message>)
    requires msgs == [Message("m1", "c", 7, "text", "a", "sent", 1), Message("m2", "c", 7, "text", "b", "sent", 2),
                      Message("m3", "c", 7, "text", "c", "sent", 3)]
    ensures multiset(msgs)[msgs[2]] == 1
    ensures InPage(msgs[2], "c", None)
    ensures forall x | x in msgs && InPage(x, "c", None) && x != msgs[2] :: x.createdAt < msgs[2].createdAt
  {
  }

  /** When every message is in range, every message is a candidate. */
  lemma AllInRange(messages: seq<Message>, conversationID: string, before: Option<int>)
    requires forall i | 0 <= i < |messages| :: InPage(messages[i], conversationID, before)
    ensures |Candidates(messages, conversationID, before)| == |messages|
  {
    var cands := Candidates(messages, conversationID, before);
    forall m
      ensures multiset(cands)[m] == multiset(messages)[m]
    {
      if !InPage(m, conversationID, before) {
        assert m !in messages;
      }
    }
    assert multiset(cands) == multiset(messages);
    assert |multiset(cands)| == |cands|;
  }

  /** The position of the last row with that key, or -1. */
  function LastKeyIndex(rows: seq<Member>, conversationID: string, userID: int): (r: int)
    ensures -1 <= r < |rows|
    ensures r == -1 <==> NoRow(rows, conversationID, userID)
    ensures r >= 0 ==> IsKey(rows[r], conversationID, userID)
    ensures forall j | r < j < |rows| :: !IsKey(rows[j], conversationID, userID)
    decreases |rows|
  {
    if |rows| == 0 then -1
    else if IsKey(rows[|rows| - 1], conversationID, userID) then |rows| - 1
    else LastKeyIndex(rows[..|rows| - 1], conversationID, userID)
  }

  /** `UnreadCount` of `GetConversation`: the counter of the pair's row (the last
      one should the key repeat), or 0 without a row. */
  function UnreadCountOf(rows: seq<Member>, conversationID: string, userID: int): (r: int)
    ensures NoRow(rows, conversationID, userID) ==> r == 0
    ensures KeysUnique(rows) ==> forall i | 0 <= i < |rows| && IsKey(rows[i], conversationID, userID) ::
      r == rows[i].unreadCount
    ensures (forall i | 0 <= i < |rows| && IsKey(rows[i], conversationID, userID) :: rows[i].unreadCount == 0) ==> r == 0
  {
    var i := LastKeyIndex(rows, conversationID, userID);
    if i < 0 then 0 else rows[i].unreadCount
  }

  /** `GetConversation`: members only; the conversation and the caller's own
      unread counter. */
  function GetConversation(st: Store, userID: int, conversationID: string): (r: Result<(Conversation, int), string>)
    ensures !IsConversationMember(st.members, conversationID, userID) ==> r == Failure(NotAMember)
    ensures r.Success? <==> IsConversationMember(st.members, conversationID, userID) && conversationID in st.conversations
    ensures r.Success? ==> r.value.0 == st.conversations[conversationID]
    ensures r.Success? && KeysUnique(st.members) ==> forall i | 0 <= i < |st.members| && IsKey(st.members[i], conversationID, userID) ::
      r.value.1 == st.members[i].unreadCount
  {
    if !IsConversationMember(st.members, conversationID, userID) then Failure(NotAMember)
    else if conversationID !in st.conversations then Failure("conversation not found")
    else Success((st.conversations[conversationID], UnreadCountOf(st.members, conversationID, userID)))
  }

  /** `MarkMessagesRead`: members only; the caller's counter goes back to zero. */
  function MarkMessagesRead(st: Store, userID: int, conversationID: string, now: int): (r: Result<Store, string>)
    ensures r.Success? <==> IsConversationMember(st.members, conversationID, userID)
    ensures r.Success? ==> r.value == st.(members := ResetUnreadCount(st.members, conversationID, userID, now))
  {
    if !IsConversationMember(st.members, conversationID, userID) then Failure(NotAMember)
    else Success(st.(members := ResetUnreadCount(st.members, conversationID, userID, now)))
  }

  /** After marking read the caller sees no unread messages, and nobody else's
      counter moved. */
  lemma MarkReadClearsOwnCount(st: Store, userID: int, conversationID: string, now: int)
    requires conversationID in st.conversations
    requires MarkMessagesRead(st, userID, conversationID, now).Success?
    ensures var st' := MarkMessagesRead(st, userID, conversationID, now).value;
      && GetConversation(st', userID, conversationID).Success?
      && GetConversation(st', userID, conversationID).value.1 == 0
      && forall i | 0 <= i < |st.members| && !IsKey(st.members[i], conversationID, userID) :: st'.members[i] == st.members[i]
  {
    var rows := MarkMessagesRead(st, userID, conversationID, now).value.members;
    var i :| 0 <= i < |st.members| && IsKey(st.members[i], conversationID, userID);
    assert IsKey(rows[i], conversationID, userID);
  }

  /** A message from one member raises every other member's unread count by one
      and leaves the sender's count alone. */
  lemma SendRaisesOthersUnread(st: Store, senderID: int, reader: int, conversationID: string, messageType: string,
                               content: string, messageID: string, now: int)
    requires KeysUnique(st.members)
    requires SendMessage(st, senderID, conversationID, messageType, content, messageID, now).1.Success?
    requires GetConversation(st, reader, conversationID).Success?
    ensures var st' := SendMessage(st, senderID, conversationID, messageType, content, messageID, now).0;
      && GetConversation(st', reader, conversationID).Success?
      && GetConversation(st', reader, conversationID).value.1 ==
           GetConversation(st, reader, conversationID).value.1 + (if reader != senderID then 1 else 0)
  {
    var st' := SendMessage(st, senderID, conversationID, messageType, content, messageID, now).0;
    SentStore(st, senderID, conversationID, messageType, content, messageID, now);
    NotifiedCounter(st, st', reader, conversationID, senderID);
    ConversationCounter(st, reader, conversationID);
  }

  /** The caller's counter as `GetConversation` reports it once the other members
      have been notified. */
  lemma NotifiedCounter(st: Store, st': Store, reader: int, conversationID: string, senderID: int)
    requires KeysUnique(st.members) && IsConversationMember(st.members, conversationID, reader)
    requires st'.members == NotifyOthers(st.members, conversationID, senderID) && conversationID in st'.conversations
    ensures GetConversation(st', reader, conversationID) == Success((st'.conversations[conversationID],
      UnreadCountOf(st.members, conversationID, reader) + (if reader != senderID then 1 else 0)))
  {
    RaisedCounter(st.members, st'.members, conversationID, senderID, reader);
    ConversationCounter(st', reader, conversationID);
  }

  /** A successful send keeps the conversation and passes the member rows
      through the notification loop. */
  lemma SentStore(st: Store, senderID: int, conversationID: string, messageType: string,
                  content: string, messageID: string, now: int)
    requires SendMessage(st, senderID, conversationID, messageType, content, messageID, now).1.Success?
    ensures var st' := SendMessage(st, senderID, conversationID, messageType, content, messageID, now).0;
      && st'.members == NotifyOthers(st.members, conversationID, senderID)
      && conversationID in st'.conversations
  {
  }

  /** What `GetConversation` reports for a member of an existing conversation. */
  lemma ConversationCounter(st: Store, userID: int, conversationID: string)
    requires conversationID in st.conversations && IsConversationMember(st.members, conversationID, userID)
    ensures GetConversation(st, userID, conversationID)
         == Success((st.conversations[conversationID], UnreadCountOf(st.members, conversationID, userID)))
  {
  }
}

=== FILE: crypto.dfy ===
/** The pure wallet helpers: the shape check for an Ethereum address (without
    the EIP-55 checksum) and the message a wallet is asked to sign. */
module Crypto {
  import opened Text

  predicate IsHexDigit(c: char) {
    '0' <= c <= '9' || 'a' <= c <= 'f' || 'A' <= c <= 'F'
  }

  /** Whether every character is a hex digit of either case. */
  function AllHex(s: string): (r: bool)
    ensures r <==> forall i | 0 <= i < |s| :: IsHexDigit(s[i])
    decreases |s|
  {
    if |s| == 0 then true
    else IsHexDigit(s[0]) && AllHex(s[1..])
  }

  const AddressLength: nat := 42

  /** `ValidateWalletAddress`: the pattern `^0x[a-fA-F0-9]{40}$`. */
  function ValidateWalletAddress(address: string): (r: bool)
    ensures r <==> |address| == AddressLength && StartsWith(address, "0x")
                   && forall i | 2 <= i < |address| :: IsHexDigit(address[i])
  {
    if |address| != AddressLength || address[0] != '0' || address[1] != 'x' then false
    else
      assert forall i | 2 <= i < |address| :: address[2..][i - 2] == address[i];
      AllHex(address[2..])
  }

  /** An address is `0x` and forty hex digits; the prefix must be lower case. */
  lemma AddressFromDigits(digits: string)
    requires |digits| == 40 && forall i | 0 <= i < |digits| :: IsHexDigit(digits[i])
    ensures ValidateWalletAddress("0x" + digits)
    ensures !ValidateWalletAddress("0X" + digits)
  {
    assert forall i | 2 <= i < |"0x" + digits| :: ("0x" + digits)[i] == digits[i - 2];
    assert ("0X" + digits)[..2] == "0X";
  }

  /** The address comparison ignores the case of the hex digits: lower-casing a `0x` string
      neither makes nor breaks an address. */
  lemma CaseOfDigitsIsIgnored(address: string)
    requires StartsWith(address, "0x")
    ensures ValidateWalletAddress(address) <==> ValidateWalletAddress(Lower(address))
  {
    var low := Lower(address);
    assert low[..2] == "0x" by {
      assert low[0] == LowerChar(address[0]) && low[1] == LowerChar(address[1]);
    }
    forall i | 2 <= i < |address|
      ensures IsHexDigit(address[i]) <==> IsHexDigit(low[i])
    {
      assert low[i] == LowerChar(address[i]);
    }
  }

  const SignMessagePrefix := "Welcome to Orbia!\n\nWallet: "
  const SignMessageMiddle := "\nTimestamp: "
  const SignMessageSuffix := "\n\nThis request will not trigger a blockchain transaction or cost any gas fees."

  /** `GenerateSignMessage`: the wallet and the decimal timestamp in the fixed text. */
  function GenerateSignMessage(walletAddress: string, timestamp: int): string {
    Fill(SignMessagePrefix, walletAddress, SignMessageMiddle, IntToString(timestamp), SignMessageSuffix)
  }

  /** The text around two holes. */
  function Fill(prefix: string, first: string, middle: string, second: string, suffix: string): string {
    prefix + first + middle + second + suffix
  }

  /** A template whose middle starts with a line break can be read back: for a
      first hole without line breaks, equal fillings mean equal holes. */
  lemma FillInjective(prefix: string, a1: string, a2: string, middle: string, n1: string, n2: string, suffix: string)
    requires '\n' !in a1 && '\n' !in a2
    requires |middle| > 0 && middle[0] == '\n'
    requires Fill(prefix, a1, middle, n1, suffix) == Fill(prefix, a2, middle, n2, suffix)
    ensures a1 == a2 && n1 == n2
  {
    var rest := middle[1..];
    var m := Fill(prefix, a1, middle, n1, suffix);
    assert m == prefix + (a1 + ['\n'] + (rest + n1 + suffix));
    assert m == prefix + (a2 + ['\n'] + (rest + n2 + suffix));
    assert m[|prefix|..] == a1 + ['\n'] + (rest + n1 + suffix);
    assert m[|prefix|..] == a2 + ['\n'] + (rest + n2 + suffix);
    CutAtFirst(a1, rest + n1 + suffix, a2, rest + n2 + suffix, '\n');
    var t1 := rest + n1 + suffix;
    assert t1[|rest|..] == n1 + suffix;
    assert (rest + n2 + suffix)[|rest|..] == n2 + suffix;
    assert n1 == (n1 + suffix)[..|n1|];
    assert n2 == (n2 + suffix)[..|n2|];
  }

  /** A message names exactly one wallet and one moment: for wallets without a
      line break, equal messages mean equal wallets and equal timestamps. */
  lemma SignMessageDeterminesInputs(a1: string, t1: int, a2: string, t2: int)
    requires '\n' !in a1 && '\n' !in a2
    requires GenerateSignMessage(a1, t1) == GenerateSignMessage(a2, t2)
    ensures a1 == a2 && t1 == t2
  {
    assert SignMessageMiddle[0] == '\n';
    FillInjective(SignMessagePrefix, a1, a2, SignMessageMiddle, IntToString(t1), IntToString(t2), SignMessageSuffix);
    IntToStringInjective(t1, t2);
  }
}

=== FILE: dashboard.dfy ===
/** The admin dashboard: showcase ad cases, the ranked content-trend board and
    the single platform statistics row. Tables are maps from row ID to row; the
    ID an insert would get is a parameter, and an insert whose ID is taken fails
    as the database would. Float columns are held as integers. */
module Dashboard {
  import opened Wrappers
  import Pagination
  import Arith

  /** A failed request: the response code and its message. */
  datatype ApiError = ApiError(code: int, message: string)

  datatype ExcellentCase = ExcellentCase(
    id: int,
    videoURL: string,
    coverURL: string,
    title: string,
    description: Option<string>,
    sortOrder: int,
    status: int)

  datatype ContentTrend = ContentTrend(
    id: int,
    ranking: int,
    hotKeyword: string,
    valueLevel: string,
    heat: int,
    growthRate: int,
    status: int)

  datatype PlatformStats = PlatformStats(
    activeKols: int,
    totalCoverage: int,
    totalAdImpressions: int,
    totalTransactionAmount: int,
    averageRoi: int,
    averageCpm: int,
    web3BrandCount: int)

  datatype Store = Store(
    cases: map<int, ExcellentCase>,
    trends: map<int, ContentTrend>,
    stats: Option<PlatformStats>)

  const CaseNotFound := ApiError(404, "优秀案例不存在")
  const TrendNotFound := ApiError(404, "内容趋势不存在")
  const BadValueLevel := ApiError(400, "价值等级必须是low、medium或high")
  const RankingTaken := ApiError(400, "该排名已存在")

  // ---------------------------------------------------------------- cases

  /** `CreateExcellentCase`: video URL, cover URL and title are required, in that
      order; the sort order defaults to 0 and a new case is enabled. */
  function CreateExcellentCase(st: Store, videoURL: string, coverURL: string, title: string,
                               description: Option<string>, sortOrder: Option<int>, id: int)
    : (r: Result<Store, ApiError>)
    ensures r.Success? <==> videoURL != "" && coverURL != "" && title != "" && id !in st.cases
    ensures videoURL == "" ==> r == Failure(ApiError(400, "视频URL不能为空"))
    ensures videoURL != "" && coverURL == "" ==> r == Failure(ApiError(400, "封面URL不能为空"))
    ensures videoURL != "" && coverURL != "" && title == "" ==> r == Failure(ApiError(400, "案例标题不能为空"))
    ensures r.Success? ==>
      && r.value.trends == st.trends && r.value.stats == st.stats
      && r.value.cases.Keys == st.cases.Keys + {id}
      && (forall k | k in st.cases :: r.value.cases[k] == st.cases[k])
      && var c := r.value.cases[id];
      && c.id == id && c.videoURL == videoURL && c.coverURL == coverURL && c.title == title
      && c.description == description && c.status == 1
      && c.sortOrder == (if sortOrder.Some? then sortOrder.value else 0)
  {
    if videoURL == "" then Failure(ApiError(400, "视频URL不能为空"))
    else if coverURL == "" then Failure(ApiError(400, "封面URL不能为空"))
    else if title == "" then Failure(ApiError(400, "案例标题不能为空"))
    else if id in st.cases then Failure(ApiError(500, "创建优秀案例失败"))
    else
      var order := if sortOrder.Some? then sortOrder.value else 0;
      Success(st.(cases := st.cases[id := ExcellentCase(id, videoURL, coverURL, title, description, order, 1)]))
  }

  /** The optional fields of `UpdateExcellentCaseReq`. */
  datatype CasePatch = CasePatch(
    videoURL: Option<string>,
    coverURL: Option<string>,
    title: Option<string>,
    description: Option<string>,
    sortOrder: Option<int>,
    status: Option<int>)

  const NoCaseChange := CasePatch(None, None, None, None, None, None)

  /** A field after a patch: the supplied value, or the old one. */
  function Patch<T>(current: T, given: Option<T>): (r: T)
    ensures given.None? ==> r == current
    ensures given.Some? ==> r == given.value
  {
    if given.Some? then given.value else current
  }

  /** The field updates of `UpdateExcellentCase`; no field is validated. */
  function ApplyCasePatch(c: ExcellentCase, p: CasePatch): (r: ExcellentCase)
    ensures r.id == c.id
    ensures p == NoCaseChange ==> r == c
  {
    c.(videoURL := Patch(c.videoURL, p.videoURL),
       coverURL := Patch(c.coverURL, p.coverURL),
       title := Patch(c.title, p.title),
       description := if p.description.Some? then p.description else c.description,
       sortOrder := Patch(c.sortOrder, p.sortOrder),
       status := Patch(c.status, p.status))
  }

  /** `UpdateExcellentCase`: 404 for an unknown case, otherwise only that case changes. */
  function UpdateExcellentCase(st: Store, id: int, p: CasePatch): (r: Result<Store, ApiError>)
    ensures r.Failure? <==> id !in st.cases
    ensures r.Failure? ==> r.error == CaseNotFound
    ensures r.Success? ==>
      && r.value == st.(cases := st.cases[id := ApplyCasePatch(st.cases[id], p)])
      && r.value.cases.Keys == st.cases.Keys
  {
    if id !in st.cases then Failure(CaseNotFound)
    else Success(st.(cases := st.cases[id := ApplyCasePatch(st.cases[id], p)]))
  }

  /** Applying the same patch twice is applying it once, and each supplied
      field ends up with the supplied value. */
  lemma CasePatchIdempotent(c: ExcellentCase, p: CasePatch)
    ensures ApplyCasePatch(ApplyCasePatch(c, p), p) == ApplyCasePatch(c, p)
    ensures var r := ApplyCasePatch(c, p);
      && (p.videoURL.Some? ==> r.videoURL == p.videoURL.value)
      && (p.coverURL.Some? ==> r.coverURL == p.coverURL.value)
      && (p.title.Some? ==> r.title == p.title.value)
      && (p.description.Some? ==> r.description == p.description)
      && (p.sortOrder.Some? ==> r.sortOrder == p.sortOrder.value)
      && (p.status.Some? ==> r.status == p.status.value)
      && (p.videoURL.None? ==> r.videoURL == c.videoURL)
      && (p.coverURL.None? ==> r.coverURL == c.coverURL)
      && (p.title.None? ==> r.title == c.title)
      && (p.description.None? ==> r.description == c.description)
      && (p.sortOrder.None? ==> r.sortOrder == c.sortOrder)
      && (p.status.None? ==> r.status == c.status)
  {
  }

  /** `DeleteExcellentCase`: 404 for an unknown case, otherwise it is removed. */
  function DeleteExcellentCase(st: Store, id: int): (r: Result<Store, ApiError>)
    ensures r.Failure? <==> id !in st.cases
    ensures r.Failure? ==> r.error == CaseNotFound
    ensures r.Success? ==>
      && r.value.cases.Keys == st.cases.Keys - {id}
      && (forall k | k in r.value.cases :: r.value.cases[k] == st.cases[k])
      && r.value.trends == st.trends && r.value.stats == st.stats
  {
    if id !in st.cases then Failure(CaseNotFound)
    else Success(st.(cases := st.cases - {id}))
  }

  /** Deleting a case just created restores the store. */
  lemma DeleteUndoesCreate(st: Store, videoURL: string, coverURL: string, title: string,
                           description: Option<string>, sortOrder: Option<int>, id: int)
    requires CreateExcellentCase(st, videoURL, coverURL, title, description, sortOrder, id).Success?
    ensures var st' := CreateExcellentCase(st, videoURL, coverURL, title, description, sortOrder, id).value;
      DeleteExcellentCase(st', id) == Success(st)
  {
    var st' := CreateExcellentCase(st, videoURL, coverURL, title, description, sortOrder, id).value;
    assert st'.cases - {id} == st.cases;
  }

  // --------------------------------------------------------------- trends

  /** The three value levels. */
  predicate ValidValueLevel(level: string) {
    level == "low" || level == "medium" || level == "high"
  }

  /** `CheckRankingExists`: some trend holds the ranking, not counting the
      trend `excludeID` when that is positive. */
  function RankingExists(trends: map<int, ContentTrend>, ranking: int, excludeID: int): (r: bool)
    ensures r <==> exists id | id in trends :: trends[id].ranking == ranking && !(excludeID > 0 && id == excludeID)
  {
    exists id | id in trends :: trends[id].ranking == ranking && !(excludeID > 0 && id == excludeID)
  }

  /** No two trends share a ranking. */
  predicate RankingsUnique(trends: map<int, ContentTrend>) {
    forall a, b | a in trends && b in trends && a != b :: trends[a].ranking != trends[b].ranking
  }

  /** Every trend carries a valid value level. */
  predicate LevelsValid(trends: map<int, ContentTrend>) {
    forall id | id in trends :: ValidValueLevel(trends[id].valueLevel)
  }

  /** `CreateContentTrend`: the keyword is required, then the value level is
      checked, then the ranking must be free; a new trend is enabled. */
  function CreateContentTrend(st: Store, ranking: int, hotKeyword: string, valueLevel: string,
                              heat: int, growthRate: int, id: int): (r: Result<Store, ApiError>)
    ensures r.Success? <==>
      hotKeyword != "" && ValidValueLevel(valueLevel) && !RankingExists(st.trends, ranking, 0) && id !in st.trends
    ensures hotKeyword == "" ==> r == Failure(ApiError(400, "热点词不能为空"))
    ensures hotKeyword != "" && !ValidValueLevel(valueLevel) ==> r == Failure(BadValueLevel)
    ensures hotKeyword != "" && ValidValueLevel(valueLevel) && RankingExists(st.trends, ranking, 0) ==> r == Failure(RankingTaken)
    ensures r.Success? ==>
      && r.value.cases == st.cases && r.value.stats == st.stats
      && r.value.trends == st.trends[id := ContentTrend(id, ranking, hotKeyword, valueLevel, heat, growthRate, 1)]
  {
    if hotKeyword == "" then Failure(ApiError(400, "热点词不能为空"))
    else if !ValidValueLevel(valueLevel) then Failure(BadValueLevel)
    else if RankingExists(st.trends, ranking, 0) then Failure(RankingTaken)
    else if id in st.trends then Failure(ApiError(500, "创建内容趋势失败"))
    else Success(st.(trends := st.trends[id := ContentTrend(id, ranking, hotKeyword, valueLevel, heat, growthRate, 1)]))
  }

  /** The optional fields of `UpdateContentTrendReq`. */
  datatype TrendPatch = TrendPatch(
    ranking: Option<int>,
    hotKeyword: Option<string>,
    valueLevel: Option<string>,
    heat: Option<int>,
    growthRate: Option<int>,
    status: Option<int>)

  const NoTrendChange := TrendPatch(None, None, None, None, None, None)

  /** The field updates of `UpdateContentTrend` once its checks have passed. */
  function ApplyTrendPatch(t: ContentTrend, p: TrendPatch): (r: ContentTrend)
    ensures r.id == t.id
    ensures p == NoTrendChange ==> r == t
  {
    t.(ranking := Patch(t.ranking, p.ranking),
       hotKeyword := Patch(t.hotKeyword, p.hotKeyword),
       valueLevel := Patch(t.valueLevel, p.valueLevel),
       heat := Patch(t.heat, p.heat),
       growthRate := Patch(t.growthRate, p.growthRate),
       status := Patch(t.status, p.status))
  }

  /** `UpdateContentTrend`: 404 for an unknown trend; a changed ranking must not
      be held by another trend; a supplied value level must be valid. */
  function UpdateContentTrend(st: Store, id: int, p: TrendPatch): (r: Result<Store, ApiError>)
    ensures id !in st.trends ==> r == Failure(TrendNotFound)
    ensures r.Success? <==>
      && id in st.trends
      && !(p.ranking.Some? && p.ranking.value != st.trends[id].ranking && RankingExists(st.trends, p.ranking.value, id))
      && (p.valueLevel.Some? ==> ValidValueLevel(p.valueLevel.value))
    ensures (id in st.trends && p.ranking.Some? && p.ranking.value != st.trends[id].ranking
             && RankingExists(st.trends, p.ranking.value, id)) ==> r == Failure(RankingTaken)
    ensures r.Failure? && id in st.trends && r.error != RankingTaken ==>
      r.error == BadValueLevel && p.valueLevel.Some? && !ValidValueLevel(p.valueLevel.value)
    ensures r.Success? ==>
      r.value == st.(trends := st.trends[id := ApplyTrendPatch(st.trends[id], p)])
  {
    if id !in st.trends then Failure(TrendNotFound)
    else
      var t := st.trends[id];
      if p.ranking.Some? && p.ranking.value != t.ranking && RankingExists(st.trends, p.ranking.value, id) then
        Failure(RankingTaken)
      else if p.valueLevel.Some? && !ValidValueLevel(p.valueLevel.value) then
        Failure(BadValueLevel)
      else Success(st.(trends := st.trends[id := ApplyTrendPatch(t, p)]))
  }

  /** `DeleteContentTrend`: 404 for an unknown trend, otherwise it is removed. */
  function DeleteContentTrend(st: Store, id: int): (r: Result<Store, ApiError>)
    ensures r.Failure? <==> id !in st.trends
    ensures r.Failure? ==> r.error == TrendNotFound
    ensures r.Success? ==>
      && r.value.trends.Keys == st.trends.Keys - {id}
      && (forall k | k in r.value.trends :: r.value.trends[k] == st.trends[k])
      && r.value.cases == st.cases && r.value.stats == st.stats
  {
    if id !in st.trends then Failure(TrendNotFound)
    else Success(st.(trends := st.trends - {id}))
  }

  /** Creating a trend keeps rankings unique and value levels valid. */
  lemma CreateKeepsBoardValid(st: Store, ranking: int, hotKeyword: string, valueLevel: string,
                              heat: int, growthRate: int, id: int)
    requires RankingsUnique(st.trends) && LevelsValid(st.trends)
    requires CreateContentTrend(st, ranking, hotKeyword, valueLevel, heat, growthRate, id).Success?
    ensures var t := CreateContentTrend(st, ranking, hotKeyword, valueLevel, heat, growthRate, id).value.trends;
      RankingsUnique(t) && LevelsValid(t)
  {
  }

  /** Updating a trend keeps rankings unique and value levels valid: a ranking
      that changes is checked against the other trends, and one that does not
      change was already unique. */
  lemma UpdateKeepsBoardValid(st: Store, id: int, p: TrendPatch)
    requires RankingsUnique(st.trends) && LevelsValid(st.trends)
    requires UpdateContentTrend(st, id, p).Success?
    ensures var t := UpdateContentTrend(st, id, p).value.trends;
      RankingsUnique(t) && LevelsValid(t)
  {
    var t := UpdateContentTrend(st, id, p).value.trends;
    var n := ApplyTrendPatch(st.trends[id], p);
    forall a, b | a in t && b in t && a != b
      ensures t[a].ranking != t[b].ranking
    {
      if a == id {
        assert t[b] == st.trends[b];
      } else if b == id {
        assert t[a] == st.trends[a];
      }
    }
  }

  /** Deleting a trend keeps rankings unique and value levels valid. */
  lemma DeleteKeepsBoardValid(st: Store, id: int)
    requires RankingsUnique(st.trends) && LevelsValid(st.trends)
    requires DeleteContentTrend(st, id).Success?
    ensures var t := DeleteContentTrend(st, id).value.trends;
      RankingsUnique(t) && LevelsValid(t)
  {
  }

  /** Resubmitting a trend's own ranking never fails the ranking check, even
      though the trend itself holds it. */
  lemma SameRankingIsNotAConflict(st: Store, id: int)
    requires id in st.trends
    ensures UpdateContentTrend(st, id, NoTrendChange.(ranking := Some(st.trends[id].ranking))) == Success(st)
  {
    assert st.trends[id := st.trends[id]] == st.trends;
  }

  // ---------------------------------------------------------------- lists

  /** The page metadata and the offset of `GetExcellentCaseList` and
      `GetContentTrendList`. */
  datatype ListPage = ListPage(info: Pagination.PageResp, offset: int)

  /** The list paging: page 1 and size 10 when not positive, no upper cap; the
      offset is the 32-bit product and the page count the 32-bit truncation of
      the 64-bit ceiling quotient. */
  function ListPageInfo(page: int, pageSize: int, total: nat): (r: ListPage)
    ensures var params := Pagination.DefaultsNoCap(page, pageSize);
      && r.info.page == params.page && r.info.pageSize == params.pageSize && r.info.total == total
    ensures Pagination.IsInt32(r.offset) && Pagination.IsInt32(r.info.totalPages)
  {
    var params := Pagination.DefaultsNoCap(page, pageSize);
    var offset := Pagination.Wrap32((params.page - 1) * params.pageSize);
    var totalPages := Pagination.Wrap32((total + params.pageSize - 1) / params.pageSize);
    ListPage(Pagination.PageResp(params.page, params.pageSize, total, totalPages), offset)
  }

  /** The page count is the ceiling of total over page size whenever that fits
      in 32 bits: the same count `BuildPageResp` gives. */
  lemma ListPagesAreCeiling(page: int, pageSize: int, total: nat)
    ensures var params := Pagination.DefaultsNoCap(page, pageSize);
      var n := ListPageInfo(page, pageSize, total).info.totalPages;
      Pagination.IsInt32((total + params.pageSize - 1) / params.pageSize) ==>
        && n >= 0 && n * params.pageSize >= total && (n == 0 || (n - 1) * params.pageSize < total)
        && n == Pagination.BuildPageResp(params, total).totalPages
  {
    var params := Pagination.DefaultsNoCap(page, pageSize);
    Pagination.TotalPagesIsCeiling(params, total);
    CeilingQuotient(total, params.pageSize);
  }

  /** `(total + ps - 1) / ps` is the quotient rounded up. */
  lemma CeilingQuotient(total: nat, ps: int)
    requires ps > 0
    ensures (total + ps - 1) / ps == total / ps + (if total % ps != 0 then 1 else 0)
  {
    var q := total / ps;
    var m := total % ps;
    assert total == q * ps + m;
    if m == 0 {
      Arith.DivAddSmall(q, ps, ps - 1);
    } else {
      assert (q + 1) * ps == q * ps + ps;
      Arith.DivAddSmall(q + 1, ps, m - 1);
    }
  }

  /** The offset is the number of rows before the page whenever the product fits in 32 bits. */
  lemma ListOffsetSkipsEarlierPages(page: int, pageSize: int, total: nat)
    ensures var params := Pagination.DefaultsNoCap(page, pageSize);
      var r := ListPageInfo(page, pageSize, total);
      Pagination.IsInt32((params.page - 1) * params.pageSize) ==>
        r.offset == (params.page - 1) * params.pageSize && r.offset >= 0
  {
    var params := Pagination.DefaultsNoCap(page, pageSize);
    Arith.MulNonNegative(params.page - 1, params.pageSize);
  }

  /** A subset is no larger. */
  lemma {:induction false} SubsetNoLarger<T>(a: set<T>, b: set<T>)
    requires a <= b
    ensures |a| <= |b|
    decreases |b|
  {
    if a != {} {
      var x :| x in a;
      SubsetNoLarger(a - {x}, b - {x});
    }
  }

  /** The keys of the rows a list counts: every row when no status is given,
      otherwise the rows with that status. */
  function Counted<T>(rows: map<int, T>, statusOf: T -> int, status: Option<int>): (ids: set<int>)
    ensures ids <= rows.Keys
    ensures forall id | id in rows :: id in ids <==> status.None? || statusOf(rows[id]) == status.value
  {
    set id | id in rows && (status.None? || statusOf(rows[id]) == status.value)
  }

  /** The number of rows a list counts, for cases and trends alike. */
  function StatusCount<T>(rows: map<int, T>, statusOf: T -> int, status: Option<int>): (n: nat)
    ensures n <= |rows|
    ensures status.None? ==> n == |rows|
    ensures status.Some? && (forall id | id in rows :: statusOf(rows[id]) != status.value) ==> n == 0
    ensures status.Some? && (forall id | id in rows :: statusOf(rows[id]) == status.value) ==> n == |rows|
  {
    var ids := Counted(rows, statusOf, status);
    SubsetNoLarger(ids, rows.Keys);
    assert status.None? || (forall id | id in rows :: statusOf(rows[id]) == status.value) ==> ids == rows.Keys;
    assert status.Some? && (forall id | id in rows :: statusOf(rows[id]) != status.value) ==> ids == {};
    |ids|
  }

  /** The count of two tables with no key in common is the sum of their counts. */
  lemma StatusCountAdds<T>(a: map<int, T>, b: map<int, T>, statusOf: T -> int, status: Option<int>)
    requires a.Keys !! b.Keys
    ensures StatusCount(a + b, statusOf, status) == StatusCount(a, statusOf, status) + StatusCount(b, statusOf, status)
  {
    var ia, ib := Counted(a, statusOf, status), Counted(b, statusOf, status);
    var iab := Counted(a + b, statusOf, status);
    forall id | id in iab ensures id in ia + ib {
      if id in a {
        assert (a + b)[id] == a[id];
      } else {
        assert (a + b)[id] == b[id];
      }
    }
    forall id | id in ia + ib ensures id in iab {
      if id in ia {
        assert (a + b)[id] == a[id];
      } else {
        assert (a + b)[id] == b[id];
      }
    }
    assert iab == ia + ib;
    assert ia * ib == {};
  }

  /** A single row counts once exactly when there is no filter or it has the
      requested status. Together with `StatusCountAdds` this fixes the count of
      every table: the rows with the requested status. */
  lemma StatusCountOne<T>(id: int, x: T, statusOf: T -> int, status: Option<int>)
    ensures StatusCount(map[id := x], statusOf, status) == if status.None? || statusOf(x) == status.value then 1 else 0
  {
    var ids := Counted(map[id := x], statusOf, status);
    if status.None? || statusOf(x) == status.value {
      assert ids == {id};
    } else {
      assert ids == {};
    }
  }

  /** `GetExcellentCaseList` and `GetContentTrendList`, page metadata only. */
  function GetExcellentCaseList(st: Store, status: Option<int>, page: int, pageSize: int): (r: ListPage)
    ensures r.info.total == StatusCount(st.cases, (c: ExcellentCase) => c.status, status)
    ensures r == ListPageInfo(page, pageSize, StatusCount(st.cases, (c: ExcellentCase) => c.status, status))
  {
    ListPageInfo(page, pageSize, StatusCount(st.cases, (c: ExcellentCase) => c.status, status))
  }

  function GetContentTrendList(st: Store, status: Option<int>, page: int, pageSize: int): (r: ListPage)
    ensures r.info.total == StatusCount(st.trends, (t: ContentTrend) => t.status, status)
    ensures r == ListPageInfo(page, pageSize, StatusCount(st.trends, (t: ContentTrend) => t.status, status))
  {
    ListPageInfo(page, pageSize, StatusCount(st.trends, (t: ContentTrend) => t.status, status))
  }

  // ---------------------------------------------------------------- stats

  const ZeroStats := PlatformStats(0, 0, 0, 0, 0, 0, 0)

  /** `GetOrCreatePlatformStats`: the row, created all zero when missing. */
  function GetOrCreatePlatformStats(st: Store): (r: (Store, PlatformStats))
    ensures r.0.stats == Some(r.1)
    ensures st.stats.Some? ==> r == (st, st.stats.value)
    ensures st.stats.None? ==> r.1 == ZeroStats && r.0 == st.(stats := Some(ZeroStats))
  {
    if st.stats.Some? then (st, st.stats.value)
    else (st.(stats := Some(ZeroStats)), ZeroStats)
  }

  /** The optional fields of `UpdatePlatformStatsReq`. */
  datatype StatsPatch = StatsPatch(
    activeKols: Option<int>,
    totalCoverage: Option<int>,
    totalAdImpressions: Option<int>,
    totalTransactionAmount: Option<int>,
    averageRoi: Option<int>,
    averageCpm: Option<int>,
    web3BrandCount: Option<int>)

  const NoStatsChange := StatsPatch(None, None, None, None, None, None, None)

  function ApplyStatsPatch(s: PlatformStats, p: StatsPatch): (r: PlatformStats)
    ensures p == NoStatsChange ==> r == s
  {
    PlatformStats(
      Patch(s.activeKols, p.activeKols),
      Patch(s.totalCoverage, p.totalCoverage),
      Patch(s.totalAdImpressions, p.totalAdImpressions),
      Patch(s.totalTransactionAmount, p.totalTransactionAmount),
      Patch(s.averageRoi, p.averageRoi),
      Patch(s.averageCpm, p.averageCpm),
      Patch(s.web3BrandCount, p.web3BrandCount))
  }

  /** `UpdatePlatformStats`: the stored row (or a zero row) with the supplied
      fields replaced; nothing else in the store changes. */
  function UpdatePlatformStats(st: Store, p: StatsPatch): (r: Store)
    ensures r.cases == st.cases && r.trends == st.trends && r.stats.Some?
    ensures var base := if st.stats.Some? then st.stats.value else ZeroStats;
      r.stats.value == ApplyStatsPatch(base, p)
  {
    var (st', stats) := GetOrCreatePlatformStats(st);
    st'.(stats := Some(ApplyStatsPatch(stats, p)))
  }

  /** Exactly the supplied fields change: each supplied field reads back as
      given, every other keeps the stored (or zero) value, and an empty request
      on an existing row changes nothing. */
  lemma UpdateStatsChangesOnlySupplied(st: Store, p: StatsPatch)
    ensures var base := if st.stats.Some? then st.stats.value else ZeroStats;
      var s := UpdatePlatformStats(st, p).stats.value;
      && s.activeKols == (if p.activeKols.Some? then p.activeKols.value else base.activeKols)
      && s.totalCoverage == (if p.totalCoverage.Some? then p.totalCoverage.value else base.totalCoverage)
      && s.totalAdImpressions == (if p.totalAdImpressions.Some? then p.totalAdImpressions.value else base.totalAdImpressions)
      && s.totalTransactionAmount == (if p.totalTransactionAmount.Some? then p.totalTransactionAmount.value else base.totalTransactionAmount)
      && s.averageRoi == (if p.averageRoi.Some? then p.averageRoi.value else base.averageRoi)
      && s.averageCpm == (if p.averageCpm.Some? then p.averageCpm.value else base.averageCpm)
      && s.web3BrandCount == (if p.web3BrandCount.Some? then p.web3BrandCount.value else base.web3BrandCount)
    ensures st.stats.Some? ==> UpdatePlatformStats(st, NoStatsChange) == st
  {
  }

  /** Repeating an update is the same as making it once. */
  lemma UpdateStatsIdempotent(st: Store, p: StatsPatch)
    ensures UpdatePlatformStats(UpdatePlatformStats(st, p), p) == UpdatePlatformStats(st, p)
  {
  }
}

=== FILE: dictionary.dfy ===
/** Dictionaries and their item trees: code validation and uniqueness, item
    level and path derivation, tree building from the flat parent-id list, and
    recursive deletion. Dictionaries are keyed by ID; items are the table's rows
    in insertion order, and a soft-deleted row is one that no longer appears. */
module Dictionary {
  import opened Wrappers
  import Text
  import Sorting
  import Pagination

  datatype Dict = Dict(id: int, code: string, name: string, description: Option<string>, status: int)

  datatype Item = Item(
    id: int,
    dictionaryID: int,
    parentID: int,
    code: string,
    name: string,
    description: Option<string>,
    iconURL: Option<string>,
    sortOrder: int,
    level: int,
    path: string,
    status: int)

  datatype Store = Store(dicts: map<int, Dict>, items: seq<Item>)

  predicate IsLetter(c: char) { 'a' <= c <= 'z' || 'A' <= c <= 'Z' }

  /** The pattern `^[a-zA-Z]+$`, matched one character at a time. */
  predicate MatchesLetters(s: string)
    decreases |s|
  {
    |s| > 0 && IsLetter(s[0]) && (|s| == 1 || MatchesLetters(s[1..]))
  }

  /** The matcher accepts exactly the non-empty all-letter strings. */
  lemma {:induction false} MatchesLettersIff(s: string)
    ensures MatchesLetters(s) <==> |s| > 0 && forall i | 0 <= i < |s| :: IsLetter(s[i])
    decreases |s|
  {
    if |s| > 1 {
      MatchesLettersIff(s[1..]);
      assert forall i | 1 <= i < |s| :: s[i] == s[1..][i - 1];
    }
  }

  /** `ValidateDictionaryCode`. */
  function ValidateDictionaryCode(code: string): (r: Result<(), string>)
    ensures r.Success? <==> |code| > 0 && forall i | 0 <= i < |code| :: IsLetter(code[i])
    ensures r.Failure? ==> r.error == "字典编码只能包含大小写字母"
  {
    MatchesLettersIff(code);
    if MatchesLetters(code) then Success(()) else Failure("字典编码只能包含大小写字母")
  }

  /** `CheckDictionaryCodeExists`: another dictionary holds the code; a positive
      `excludeID` leaves that dictionary out. */
  predicate DictionaryCodeExists(dicts: map<int, Dict>, code: string, excludeID: int) {
    exists id | id in dicts :: dicts[id].code == code && (excludeID <= 0 || id != excludeID)
  }

  /** `CheckDictionaryItemCodeExists`: scoped to one dictionary and one parent. */
  predicate ItemCodeExists(items: seq<Item>, dictionaryID: int, parentID: int, code: string, excludeID: int) {
    exists i | 0 <= i < |items| ::
      && items[i].dictionaryID == dictionaryID && items[i].parentID == parentID && items[i].code == code
      && (excludeID <= 0 || items[i].id != excludeID)
  }

  /** With no exclusion both checks are plain existence; excluding the only holder
      of a code finds nothing. */
  lemma ExcludeIDSemantics(dicts: map<int, Dict>, items: seq<Item>, code: string, dictionaryID: int,
                           parentID: int, self: int)
    ensures DictionaryCodeExists(dicts, code, 0) <==> exists id | id in dicts :: dicts[id].code == code
    ensures ItemCodeExists(items, dictionaryID, parentID, code, 0) <==>
      exists i | 0 <= i < |items| :: items[i].dictionaryID == dictionaryID && items[i].parentID == parentID && items[i].code == code
    ensures self > 0 && (forall id | id in dicts && dicts[id].code == code :: id == self) ==>
      !DictionaryCodeExists(dicts, code, self)
  {
  }

  /** No two dictionaries share a code. */
  predicate CodesUnique(dicts: map<int, Dict>) {
    forall a, b | a in dicts && b in dicts && a != b :: dicts[a].code != dicts[b].code
  }

  /** `CreateDictionary`: a valid, unused code; enabled (status 1). `newID` is the
      row ID the database assigns. */
  function CreateDictionary(st: Store, code: string, name: string, description: Option<string>, newID: int)
    : (r: Result<(Store, Dict), string>)
    ensures r.Success? <==> ValidateDictionaryCode(code).Success? && !DictionaryCodeExists(st.dicts, code, 0)
    ensures ValidateDictionaryCode(code).Failure? ==> r == Failure(ValidateDictionaryCode(code).error)
    ensures ValidateDictionaryCode(code).Success? && DictionaryCodeExists(st.dicts, code, 0) ==> r == Failure("字典编码已存在")
    ensures r.Success? ==> var (st', d) := r.value;
      && d == Dict(newID, code, name, description, 1)
      && st' == st.(dicts := st.dicts[newID := d])
  {
    match ValidateDictionaryCode(code)
    case Failure(e) => Failure(e)
    case Success(_) =>
      if DictionaryCodeExists(st.dicts, code, 0) then Failure("字典编码已存在")
      else
        var d := Dict(newID, code, name, description, 1);
        Success((st.(dicts := st.dicts[newID := d]), d))
  }

  /** `UpdateDictionary`: the name is always written, description and status only
      when given; the code never changes. */
  function UpdateDictionary(st: Store, id: int, name: string, description: Option<string>, status: Option<int>)
    : (r: Result<Store, string>)
    ensures r.Success? <==> id in st.dicts
    ensures id !in st.dicts ==> r == Failure("字典不存在")
    ensures r.Success? ==>
      && r.value.items == st.items && r.value.dicts.Keys == st.dicts.Keys
      && (forall k | k in st.dicts :: r.value.dicts[k].code == st.dicts[k].code)
      && (forall k | k in st.dicts && k != id :: r.value.dicts[k] == st.dicts[k])
      && r.value.dicts[id].name == name
      && r.value.dicts[id].description == (if description.Some? then description else st.dicts[id].description)
      && r.value.dicts[id].status == status.GetOr(st.dicts[id].status)
  {
    if id !in st.dicts then Failure("字典不存在")
    else
      var d := st.dicts[id];
      var d' := d.(name := name, description := if description.Some? then description else d.description,
                   status := status.GetOr(d.status));
      Success(st.(dicts := st.dicts[id := d']))
  }

  /** Creating and updating dictionaries keeps codes unique. */
  lemma DictionaryOpsKeepCodesUnique(st: Store, code: string, name: string, description: Option<string>, newID: int,
                                     id: int, status: Option<int>)
    requires CodesUnique(st.dicts)
    ensures CreateDictionary(st, code, name, description, newID).Success? ==>
      CodesUnique(CreateDictionary(st, code, name, description, newID).value.0.dicts)
    ensures UpdateDictionary(st, id, name, description, status).Success? ==>
      CodesUnique(UpdateDictionary(st, id, name, description, status).value.dicts)
  {
    if CreateDictionary(st, code, name, description, newID).Success? {
      var d' := CreateDictionary(st, code, name, description, newID).value.0.dicts;
      forall a, b | a in d' && b in d' && a != b ensures d'[a].code != d'[b].code {
        if a == newID {
          assert b in st.dicts && st.dicts[b].code != code;
        } else if b == newID {
          assert a in st.dicts && st.dicts[a].code != code;
        }
      }
    }
  }

  /** `DeleteDictionary`: the dictionary and every item of it disappear. */
  function DeleteDictionary(st: Store, id: int): (r: Result<Store, string>)
    ensures r.Success? <==> id in st.dicts
    ensures id !in st.dicts ==> r == Failure("字典不存在")
    ensures r.Success? ==>
      && r.value.dicts == st.dicts - {id}
      && (forall x | x in r.value.items :: x in st.items && x.dictionaryID != id)
      && (forall x | x in st.items && x.dictionaryID != id :: x in r.value.items)
  {
    if id !in st.dicts then Failure("字典不存在")
    else Success(Store(st.dicts - {id}, Sorting.Filter(st.items, (x: Item) => x.dictionaryID != id)))
  }

  /** The path of a new item below a parent path; an empty parent path gives the
      bare ID. */
  function ChildPath(parentPath: string, id: int): (r: string)
    ensures |r| > 0
    ensures parentPath == "" ==> r == Text.IntToString(id)
    ensures parentPath != "" ==> Text.StartsWith(r, parentPath + "/") && r[|parentPath| + 1..] == Text.IntToString(id)
  {
    if parentPath != "" then parentPath + "/" + Text.IntToString(id) else Text.IntToString(id)
  }

  /** `CreateDictionaryItem`: the dictionary must exist; a positive parent ID must
      name an item of the same dictionary; the code must be new among its
      siblings. A root item has level 1 and its own ID as path; a child one level
      more than its parent and the parent's path extended by its ID. */
  function CreateDictionaryItem(st: Store, dictionaryID: int, parentID: int, code: string, name: string,
                                description: Option<string>, iconURL: Option<string>, sortOrder: Option<int>, newID: int)
    : (r: Result<(Store, Item), string>)
    ensures dictionaryID !in st.dicts ==> r == Failure("字典不存在")
    ensures var parent := Sorting.FindFirst(st.items, (x: Item) => x.id == parentID);
      r.Success? <==>
        && dictionaryID in st.dicts
        && (parentID > 0 ==> parent.Some? && st.items[parent.value].dictionaryID == dictionaryID)
        && !ItemCodeExists(st.items, dictionaryID, parentID, code, 0)
    ensures r.Success? ==> var (st', it) := r.value;
      && st' == st.(items := st.items + [it])
      && it.id == newID && it.dictionaryID == dictionaryID && it.parentID == parentID && it.code == code
      && it.status == 1 && it.sortOrder == sortOrder.GetOr(0)
      && (parentID <= 0 ==> it.level == 1 && it.path == Text.IntToString(newID))
      && (parentID > 0 ==> exists j | 0 <= j < |st.items| ::
            st.items[j].id == parentID && it.level == st.items[j].level + 1 && it.path == ChildPath(st.items[j].path, newID))
  {
    if dictionaryID !in st.dicts then Failure("字典不存在")
    else
      var parent := Sorting.FindFirst(st.items, (x: Item) => x.id == parentID);
      if parentID > 0 && parent.None? then Failure("父节点不存在")
      else if parentID > 0 && st.items[parent.value].dictionaryID != dictionaryID then Failure("父节点不属于该字典")
      else if ItemCodeExists(st.items, dictionaryID, parentID, code, 0) then Failure("字典项编码在该父级下已存在")
      else
        var level := if parentID > 0 then st.items[parent.value].level + 1 else 1;
        var parentPath := if parentID > 0 then st.items[parent.value].path else "";
        var it := Item(newID, dictionaryID, parentID, code, name, description, iconURL, sortOrder.GetOr(0),
                       level, ChildPath(parentPath, newID), 1);
        Success((st.(items := st.items + [it]), it))
  }

  /** What every row of a well-formed table satisfies: a root sits at level 1 with
      its ID as path; a child names a row of the same dictionary as parent, sits
      one level below it, and extends its path. */
  predicate RowWellFormed(items: seq<Item>, x: Item) {
    && x.level >= 1
    && (x.parentID <= 0 ==> x.level == 1 && x.path == Text.IntToString(x.id))
    && (x.parentID > 0 ==> exists j | 0 <= j < |items| ::
          && items[j].id == x.parentID && items[j].dictionaryID == x.dictionaryID
          && x.level == items[j].level + 1 && x.path == ChildPath(items[j].path, x.id))
  }

  predicate WellFormed(items: seq<Item>) {
    forall i | 0 <= i < |items| :: RowWellFormed(items, items[i])
  }

  /** Creating an item keeps the table well formed. */
  lemma CreateItemPreservesWellFormed(st: Store, dictionaryID: int, parentID: int, code: string, name: string,
                                      description: Option<string>, iconURL: Option<string>, sortOrder: Option<int>, newID: int)
    requires WellFormed(st.items)
    requires CreateDictionaryItem(st, dictionaryID, parentID, code, name, description, iconURL, sortOrder, newID).Success?
    ensures WellFormed(CreateDictionaryItem(st, dictionaryID, parentID, code, name, description, iconURL, sortOrder, newID).value.0.items)
  {
    var it := CreateDictionaryItem(st, dictionaryID, parentID, code, name, description, iconURL, sortOrder, newID).value.1;
    if parentID > 0 {
      var p := Sorting.FindFirst(st.items, (x: Item) => x.id == parentID).value;
      assert RowWellFormed(st.items, st.items[p]);
      assert st.items[p].id == parentID && st.items[p].dictionaryID == it.dictionaryID;
    }
    assert RowWellFormed(st.items, it);
    AppendKeepsWellFormed(st.items, it);
  }

  /** Appending a row that is well formed against the table keeps it well formed. */
  lemma AppendKeepsWellFormed(items: seq<Item>, it: Item)
    requires WellFormed(items) && RowWellFormed(items, it)
    ensures WellFormed(items + [it])
  {
    var items' := items + [it];
    forall i | 0 <= i < |items'| ensures RowWellFormed(items', items'[i]) {
      var x := if i < |items| then items[i] else it;
      assert items'[i] == x;
      assert RowWellFormed(items, x);
      if x.parentID > 0 {
        var j :| 0 <= j < |items| && items[j].id == x.parentID && items[j].dictionaryID == x.dictionaryID
                 && x.level == items[j].level + 1 && x.path == ChildPath(items[j].path, x.id);
        assert items'[j] == items[j];
      }
    }
  }

  /** In a well-formed table an item's level is the number of path components:
      one more than the number of '/' in its path. */
  lemma {:induction false} LevelCountsPathComponents(items: seq<Item>, i: int)
    requires WellFormed(items) && 0 <= i < |items|
    ensures Text.Count(items[i].path, '/') + 1 == items[i].level
    decreases items[i].level
  {
    var x := items[i];
    assert RowWellFormed(items, x);
    Text.IntToStringAvoids(x.id, '/');
    Text.CountZeroIff(Text.IntToString(x.id), '/');
    if x.parentID > 0 {
      var j :| 0 <= j < |items| && items[j].id == x.parentID && items[j].dictionaryID == x.dictionaryID
               && x.level == items[j].level + 1 && x.path == ChildPath(items[j].path, x.id);
      assert RowWellFormed(items, items[j]);
      LevelCountsPathComponents(items, j);
      assert items[j].path != "";
      Text.CountConcat(items[j].path + "/", Text.IntToString(x.id), '/');
      Text.CountConcat(items[j].path, "/", '/');
    }
  }

  /** `UpdateDictionaryItem`: name, description, icon, sort order and status when
      given; the position in the tree never changes. */
  function UpdateDictionaryItem(st: Store, id: int, name: Option<string>, description: Option<string>,
                                iconURL: Option<string>, sortOrder: Option<int>, status: Option<int>)
    : (r: Result<Store, string>)
    ensures r.Success? <==> Sorting.FindFirst(st.items, (x: Item) => x.id == id).Some?
    ensures r.Failure? ==> r == Failure("字典项不存在")
    ensures r.Success? ==> var k := Sorting.FindFirst(st.items, (x: Item) => x.id == id).value;
      && r.value.dicts == st.dicts && |r.value.items| == |st.items|
      && (forall j | 0 <= j < |st.items| && j != k :: r.value.items[j] == st.items[j])
      && var x, x' := st.items[k], r.value.items[k];
      && (x'.id, x'.dictionaryID, x'.parentID, x'.code, x'.level, x'.path) == (x.id, x.dictionaryID, x.parentID, x.code, x.level, x.path)
      && x'.name == name.GetOr(x.name) && x'.sortOrder == sortOrder.GetOr(x.sortOrder) && x'.status == status.GetOr(x.status)
      && x'.description == (if description.Some? then description else x.description)
      && x'.iconURL == (if iconURL.Some? then iconURL else x.iconURL)
  {
    match Sorting.FindFirst(st.items, (x: Item) => x.id == id)
    case None => Failure("字典项不存在")
    case Some(k) =>
      var x := st.items[k];
      var x' := x.(name := name.GetOr(x.name), description := if description.Some? then description else x.description,
                   iconURL := if iconURL.Some? then iconURL else x.iconURL, sortOrder := sortOrder.GetOr(x.sortOrder),
                   status := status.GetOr(x.status));
      Success(st.(items := st.items[k := x']))
  }

  /** Updating an item keeps the table well formed. */
  lemma UpdateItemPreservesWellFormed(st: Store, id: int, name: Option<string>, description: Option<string>,
                                      iconURL: Option<string>, sortOrder: Option<int>, status: Option<int>)
    requires WellFormed(st.items)
    requires UpdateDictionaryItem(st, id, name, description, iconURL, sortOrder, status).Success?
    ensures WellFormed(UpdateDictionaryItem(st, id, name, description, iconURL, sortOrder, status).value.items)
  {
    var items' := UpdateDictionaryItem(st, id, name, description, iconURL, sortOrder, status).value.items;
    var k := Sorting.FindFirst(st.items, (x: Item) => x.id == id).value;
    forall i | 0 <= i < |items'| ensures SamePlace(st.items[i], items'[i]) {
      if i != k {
        assert items'[i] == st.items[i];
      }
    }
    SamePlacesKeepWellFormed(st.items, items');
  }

  /** Two rows sit at the same place in the tree. */
  predicate SamePlace(x: Item, y: Item) {
    x.id == y.id && x.dictionaryID == y.dictionaryID && x.parentID == y.parentID && x.level == y.level && x.path == y.path
  }

  /** Changing rows without moving any keeps the table well formed. */
  lemma SamePlacesKeepWellFormed(items: seq<Item>, items': seq<Item>)
    requires WellFormed(items) && |items'| == |items|
    requires forall i | 0 <= i < |items| :: SamePlace(items[i], items'[i])
    ensures WellFormed(items')
  {
    forall i | 0 <= i < |items'| ensures RowWellFormed(items', items'[i]) {
      assert RowWellFormed(items, items[i]);
      if items[i].parentID > 0 {
        var j :| 0 <= j < |items| && items[j].id == items[i].parentID
                 && items[j].dictionaryID == items[i].dictionaryID
                 && items[i].level == items[j].level + 1 && items[i].path == ChildPath(items[j].path, items[i].id);
        assert SamePlace(items[j], items'[j]);
      }
    }
  }

  /** A tree node: the item and its children. */
  datatype Node = Node(item: Item, children: seq<Node>)

  /** The rows whose parent is `parentID`, in input order. */
  function ChildRows(items: seq<Item>, parentID: int): (r: seq<Item>)
    ensures |r| <= |items|
    decreases |items|
  {
    if |items| == 0 then []
    else
      assert items == [items[0]] + items[1..];
      (if items[0].parentID == parentID then [items[0]] else []) + ChildRows(items[1..], parentID)
  }

  /** A row is a child row of `parentID` exactly when it is in the input with that
      parent. */
  lemma {:induction false} ChildRowsMembers(items: seq<Item>, parentID: int)
    ensures forall x | x in ChildRows(items, parentID) :: x in items && x.parentID == parentID
    ensures forall x | x in items && x.parentID == parentID :: x in ChildRows(items, parentID)
    decreases |items|
  {
    if |items| > 0 {
      ChildRowsMembers(items[1..], parentID);
      assert items == [items[0]] + items[1..];
    }
  }

  /** `buildTree(items, parentID)`: the rows whose parent is `parentID`, in input
      order, each with its own subtree. The source recurses without bound (and
      never returns on a parent cycle); `fuel` bounds the depth here. */
  function BuildTree(items: seq<Item>, parentID: int, fuel: nat): (r: seq<Node>)
    ensures fuel > 0 ==> var rows := ChildRows(items, parentID);
      |r| == |rows| && forall k | 0 <= k < |r| :: r[k].item == rows[k]
    ensures fuel == 0 ==> r == []
    decreases fuel
  {
    if fuel == 0 then []
    else
      var rows := ChildRows(items, parentID);
      seq(|rows|, k requires 0 <= k < |rows| => Node(rows[k], BuildTree(items, rows[k].id, fuel - 1)))
  }

  /** Node `k` of a built level is the `k`-th child row together with the subtree
      built one level further down from that row's ID. */
  lemma BuildTreeChildren(items: seq<Item>, parentID: int, fuel: nat, k: nat)
    requires fuel > 0 && k < |ChildRows(items, parentID)|
    ensures BuildTree(items, parentID, fuel)[k]
         == Node(ChildRows(items, parentID)[k], BuildTree(items, ChildRows(items, parentID)[k].id, fuel - 1))
  {
  }

  /** All items of a forest, in pre-order. */
  function Flatten(nodes: seq<Node>): (r: seq<Item>)
    decreases nodes
  {
    if |nodes| == 0 then []
    else [nodes[0].item] + Flatten(nodes[0].children) + Flatten(nodes[1..])
  }

  /** `x` hangs below `root` within `n` levels: its parent is `root`, or it hangs
      within `n - 1` levels below some row whose parent is `root`. */
  predicate Below(items: seq<Item>, x: Item, root: int, n: nat)
    decreases n
  {
    n > 0 && (x.parentID == root
              || exists j | 0 <= j < |items| :: items[j].parentID == root && Below(items, x, items[j].id, n - 1))
  }

  /** A row whose parent is neither `parentID` nor any row of the input never
      appears in the tree: an item whose parent is missing is dropped. */
  lemma OrphansAreDropped(items: seq<Item>, parentID: int, fuel: nat, x: Item)
    requires x.parentID != parentID && forall j | 0 <= j < |items| :: items[j].id != x.parentID
    ensures x !in Flatten(BuildTree(items, parentID, fuel))
  {
    OrphanIsNotBelow(items, x, parentID, fuel);
    BuildTreeContents(items, parentID, fuel, x);
  }

  /** A row whose parent is neither `root` nor any row of the input hangs below
      nothing. */
  lemma {:induction false} OrphanIsNotBelow(items: seq<Item>, x: Item, root: int, n: nat)
    requires x.parentID != root && forall j | 0 <= j < |items| :: items[j].id != x.parentID
    ensures !Below(items, x, root, n)
    decreases n
  {
    if n > 0 {
      forall j | 0 <= j < |items| ensures !Below(items, x, items[j].id, n - 1) {
        OrphanIsNotBelow(items, x, items[j].id, n - 1);
      }
    }
  }

  /** An item is in a forest exactly when it is some node's item or lies in some
      node's subtree. */
  lemma {:induction false} FlattenMember(nodes: seq<Node>, x: Item)
    ensures x in Flatten(nodes) <==>
      exists k | 0 <= k < |nodes| :: nodes[k].item == x || x in Flatten(nodes[k].children)
    decreases nodes
  {
    if |nodes| > 0 {
      var rest := nodes[1..];
      FlattenMember(rest, x);
      assert Flatten(nodes) == [nodes[0].item] + Flatten(nodes[0].children) + Flatten(rest);
      if x in Flatten(nodes) && x != nodes[0].item && x !in Flatten(nodes[0].children) {
        var k :| 0 <= k < |rest| && (rest[k].item == x || x in Flatten(rest[k].children));
        assert nodes[k + 1] == rest[k];
      }
      if exists k | 0 <= k < |nodes| :: nodes[k].item == x || x in Flatten(nodes[k].children) {
        var k :| 0 <= k < |nodes| && (nodes[k].item == x || x in Flatten(nodes[k].children));
        if k > 0 {
          assert rest[k - 1] == nodes[k];
        }
      }
    }
  }

  /** The tree holds exactly the rows that hang below `parentID` within `fuel`
      levels: every row whose chain of parents reaches `parentID` in time
      appears, and no other row does. */
  lemma BuildTreeContents(items: seq<Item>, parentID: int, fuel: nat, x: Item)
    ensures x in Flatten(BuildTree(items, parentID, fuel)) <==> x in items && Below(items, x, parentID, fuel)
  {
    if x in Flatten(BuildTree(items, parentID, fuel)) {
      BuildTreeSound(items, parentID, fuel, x);
    }
    if x in items && Below(items, x, parentID, fuel) {
      BuildTreeComplete(items, parentID, fuel, x);
    }
  }

  /** Every row of the tree is an input row hanging below `parentID`. */
  lemma BuildTreeSound(items: seq<Item>, parentID: int, fuel: nat, x: Item)
    requires x in Flatten(BuildTree(items, parentID, fuel))
    ensures x in items && Below(items, x, parentID, fuel)
  {
    InTreeSound(items, parentID, fuel, x);
  }

  /** `x` is somewhere in the tree built below `parentID`. */
  predicate InTree(items: seq<Item>, parentID: int, fuel: nat, x: Item) {
    x in Flatten(BuildTree(items, parentID, fuel))
  }

  lemma {:induction false} InTreeSound(items: seq<Item>, parentID: int, fuel: nat, x: Item)
    requires InTree(items, parentID, fuel, x)
    ensures x in items && Below(items, x, parentID, fuel)
    decreases fuel
  {
    var j, f, deeper := ChildHolding(items, parentID, fuel, x);
    if deeper {
      InTreeSound(items, items[j].id, f, x);
      BelowStep(items, x, parentID, f, j);
    }
  }

  /** One level up: hanging below a child row of `root` is hanging below `root`. */
  lemma BelowStep(items: seq<Item>, x: Item, root: int, m: nat, j: nat)
    requires j < |items| && items[j].parentID == root && Below(items, x, items[j].id, m)
    ensures Below(items, x, root, m + 1)
  {
  }

  /** A row in the tree is the child row `items[j]` of the root, or lies in that
      row's subtree (`deeper`), built with the `f` levels left below the root. */
  lemma ChildHolding(items: seq<Item>, parentID: int, fuel: nat, x: Item) returns (j: nat, f: nat, deeper: bool)
    requires InTree(items, parentID, fuel, x)
    ensures fuel == f + 1 && j < |items| && items[j].parentID == parentID
    ensures !deeper ==> items[j] == x
    ensures deeper ==> InTree(items, items[j].id, f, x)
  {
    f := fuel - 1;
    var r := BuildTree(items, parentID, fuel);
    FlattenMember(r, x);
    var k :| 0 <= k < |r| && (r[k].item == x || x in Flatten(r[k].children));
    BuildTreeChildren(items, parentID, fuel, k);
    var row := ChildRows(items, parentID)[k];
    deeper := row != x;
    ChildRowsMembers(items, parentID);
    assert row in ChildRows(items, parentID);
    j :| 0 <= j < |items| && items[j] == row;
  }

  lemma {:induction false} BuildTreeComplete(items: seq<Item>, parentID: int, fuel: nat, x: Item)
    requires x in items && Below(items, x, parentID, fuel)
    ensures x in Flatten(BuildTree(items, parentID, fuel))
    decreases fuel
  {
    var r := BuildTree(items, parentID, fuel);
    var rows := ChildRows(items, parentID);
    ChildRowsMembers(items, parentID);
    if x.parentID == parentID {
      assert x in rows;
      var k :| 0 <= k < |rows| && rows[k] == x;
      assert r[k].item == x;
      FlattenMember(r, x);
    } else {
      var j :| 0 <= j < |items| && items[j].parentID == parentID && Below(items, x, items[j].id, fuel - 1);
      assert items[j] in rows;
      var k :| 0 <= k < |rows| && rows[k] == items[j];
      BuildTreeComplete(items, items[j].id, fuel - 1, x);
      BuildTreeChildren(items, parentID, fuel, k);
      assert r[k] == Node(items[j], BuildTree(items, items[j].id, fuel - 1));
      FlattenMember(r, x);
    }
  }

  /** `id` is `root` or is reached from `root` by at most `n` parent links through
      rows of `items`. */
  predicate DescendsFrom(items: seq<Item>, id: int, root: int, n: nat)
    decreases n
  {
    id == root || (n > 0 && exists j | 0 <= j < |items| :: items[j].id == id && DescendsFrom(items, items[j].parentID, root, n - 1))
  }

  /** The rows left after deleting every row with the given ID. */
  function RemoveID(items: seq<Item>, id: int): (r: seq<Item>)
    ensures forall x | x in r :: x in items && x.id != id
    ensures forall x | x in items && x.id != id :: x in r
  {
    Sorting.Filter(items, (x: Item) => x.id != id)
  }

  /** The IDs of the given rows, in order. */
  function IDsOf(rows: seq<Item>): (r: seq<int>)
    ensures |r| == |rows| && forall k | 0 <= k < |r| :: r[k] == rows[k].id
  {
    seq(|rows|, k requires 0 <= k < |rows| => rows[k].id)
  }

  /** The IDs of the rows whose parent is `id`, as `GetChildrenByParentID` lists them. */
  function ChildIDs(items: seq<Item>, id: int): (r: seq<int>)
    ensures forall x | x in items && x.parentID == id :: x.id in r
    ensures forall k | 0 <= k < |r| :: exists j | 0 <= j < |items| :: items[j].id == r[k] && items[j].parentID == id
  {
    var kids := Sorting.Filter(items, (x: Item) => x.parentID == id);
    KidsIDs(items, id, kids);
    IDsOf(kids)
  }

  /** The IDs of exactly the rows with parent `id` name every such row and only such rows. */
  lemma KidsIDs(items: seq<Item>, id: int, kids: seq<Item>)
    requires forall x | x in kids :: x in items && x.parentID == id
    requires forall x | x in items && x.parentID == id :: x in kids
    ensures forall x | x in items && x.parentID == id :: x.id in IDsOf(kids)
    ensures forall k | 0 <= k < |IDsOf(kids)| ::
      exists j | 0 <= j < |items| :: items[j].id == IDsOf(kids)[k] && items[j].parentID == id
  {
    var r := IDsOf(kids);
    forall x | x in items && x.parentID == id ensures x.id in r {
      var k :| 0 <= k < |kids| && kids[k] == x;
      assert r[k] == x.id;
    }
    forall k | 0 <= k < |r| ensures exists j | 0 <= j < |items| :: items[j].id == r[k] && items[j].parentID == id {
      var row := kids[k];
      assert row in kids;
      var j :| 0 <= j < |items| && items[j] == row;
      assert items[j].id == r[k] && items[j].parentID == id;
    }
  }

  /** `deleteDictionaryItemRecursive`: the children (each with its subtree) first,
      then the item itself. `fuel` bounds the depth of the recursion. */
  function DeleteRecursive(items: seq<Item>, id: int, fuel: nat): (r: seq<Item>)
    ensures forall x | x in r :: x in items
    ensures fuel >= 1 ==> forall x | x in r :: x.id != id
    ensures fuel >= 2 ==> forall x | x in r :: x.parentID != id
    decreases fuel, 0, 0
  {
    if fuel == 0 then items else DeleteBelow(items, id, fuel - 1)
  }

  /** One level of `DeleteRecursive`: the children's subtrees, with `f` levels left
      for them, and then the item. */
  function DeleteBelow(items: seq<Item>, id: int, f: nat): (r: seq<Item>)
    ensures forall x | x in r :: x in items && x.id != id
    ensures f >= 1 ==> forall x | x in r :: x.parentID != id
    decreases f, 2, 0
  {
    var kids := ChildIDs(items, id);
    var rest := DeleteEach(items, kids, f);
    var r := RemoveID(rest, id);
    assert f >= 1 ==> forall x | x in r :: x.parentID != id by {
      if f >= 1 {
        forall x | x in r ensures x.parentID != id {
          assert x in rest && x in items;
          assert x.parentID == id ==> x.id in kids;
          assert forall k | 0 <= k < |kids| :: x.id != kids[k];
        }
      }
    }
    r
  }

  /** The loop over the children: each child's subtree is deleted from what the
      previous ones left. */
  function DeleteEach(items: seq<Item>, ids: seq<int>, fuel: nat): (r: seq<Item>)
    ensures forall x | x in r :: x in items
    ensures fuel >= 1 ==> forall x, k | x in r && 0 <= k < |ids| :: x.id != ids[k]
    decreases fuel, 1, |ids|
  {
    if |ids| == 0 then items
    else
      var once := DeleteRecursive(items, ids[0], fuel);
      var r := DeleteEach(once, ids[1..], fuel);
      assert forall k | 1 <= k < |ids| :: ids[k] == ids[1..][k - 1];
      r
  }

  /** Chains through fewer rows still exist among more rows. */
  lemma {:induction false} DescendsMonotone(small: seq<Item>, big: seq<Item>, id: int, root: int, n: nat)
    requires forall x | x in small :: x in big
    requires DescendsFrom(small, id, root, n)
    ensures DescendsFrom(big, id, root, n)
    decreases n
  {
    if id != root {
      var j :| 0 <= j < |small| && small[j].id == id && DescendsFrom(small, small[j].parentID, root, n - 1);
      DescendsMonotone(small, big, small[j].parentID, root, n - 1);
      assert small[j] in small;
      var b :| 0 <= b < |big| && big[b] == small[j];
      assert big[b].id == id && DescendsFrom(big, big[b].parentID, root, n - 1);
    }
  }

  /** A chain to a child extends by one link to the child's parent. */
  lemma {:induction false} DescendsExtend(items: seq<Item>, id: int, child: int, root: int, n: nat)
    requires exists j | 0 <= j < |items| :: items[j].id == child && items[j].parentID == root
    requires DescendsFrom(items, id, child, n)
    ensures DescendsFrom(items, id, root, n + 1)
    decreases n
  {
    if id == child {
      var j :| 0 <= j < |items| && items[j].id == child && items[j].parentID == root;
      assert DescendsFrom(items, items[j].parentID, root, n);
    } else if id != root {
      var j :| 0 <= j < |items| && items[j].id == id && DescendsFrom(items, items[j].parentID, child, n - 1);
      DescendsExtend(items, items[j].parentID, child, root, n - 1);
    }
  }

  /** Recursive deletion removes nothing but the item and rows descending from it. */
  lemma {:induction false} DeleteRecursiveSound(items: seq<Item>, id: int, fuel: nat, x: Item)
    requires x in items && x !in DeleteRecursive(items, id, fuel)
    ensures DescendsFrom(items, x.id, id, fuel)
    decreases fuel, 0, 0
  {
    assert fuel > 0;
    var f: nat := fuel - 1;
    DeleteRecursiveStep(items, id, f);
    var kids := ChildIDs(items, id);
    var rest := DeleteEach(items, kids, f);
    assert DeleteBelow(items, id, f) == RemoveID(rest, id);
    if x in rest {
      assert x.id == id;
    } else {
      var k := DeleteEachSound(items, kids, f, x);
      DescendsExtend(items, x.id, kids[k], id, f);
    }
  }

  /** One step of the recursion, with the `f` levels left for the children. */
  lemma DeleteRecursiveStep(items: seq<Item>, id: int, f: nat)
    ensures DeleteRecursive(items, id, f + 1) == DeleteBelow(items, id, f)
  {
  }

  /** One step of the loop over the children. */
  lemma DeleteEachStep(items: seq<Item>, ids: seq<int>, fuel: nat)
    requires |ids| > 0
    ensures DeleteEach(items, ids, fuel) == DeleteEach(DeleteRecursive(items, ids[0], fuel), ids[1..], fuel)
  {
  }

  lemma {:induction false} DeleteEachSound(items: seq<Item>, ids: seq<int>, fuel: nat, x: Item) returns (k: nat)
    requires x in items && x !in DeleteEach(items, ids, fuel)
    ensures k < |ids| && DescendsFrom(items, x.id, ids[k], fuel)
    decreases fuel, 1, |ids|
  {
    assert |ids| > 0;
    var once := DeleteRecursive(items, ids[0], fuel);
    DeleteEachStep(items, ids, fuel);
    if x !in once {
      DeleteRecursiveSound(items, ids[0], fuel, x);
      k := 0;
    } else {
      var k' := DeleteEachSound(once, ids[1..], fuel, x);
      DescendsMonotone(once, items, x.id, ids[1..][k'], fuel);
      k := k' + 1;
      assert ids[1..][k'] == ids[k];
    }
  }

  /** `DeleteDictionaryItem`: the item must exist; it is deleted with its subtree. */
  function DeleteDictionaryItem(st: Store, id: int, fuel: nat): (r: Result<Store, string>)
    ensures r.Success? <==> exists j | 0 <= j < |st.items| :: st.items[j].id == id
    ensures r.Failure? ==> r == Failure("字典项不存在")
    ensures r.Success? ==> r.value.dicts == st.dicts && (forall x | x in r.value.items :: x in st.items)
    ensures r.Success? && fuel >= 2 ==> forall x | x in r.value.items :: x.id != id && x.parentID != id
  {
    match Sorting.FindFirst(st.items, (x: Item) => x.id == id)
    case None => Failure("字典项不存在")
    case Some(_) => Success(st.(items := DeleteRecursive(st.items, id, fuel)))
  }

  /** `GetAllDictionariesWithItems` page parameters: the usual normalisation with
      the page size further capped at 20. */
  function AllWithItemsPageParams(page: int, pageSize: int): (r: Pagination.PageParams)
    requires Pagination.IsInt32(page) && Pagination.IsInt32(pageSize)
    ensures r.page >= 1 && 1 <= r.pageSize <= 20
    ensures pageSize <= 0 ==> r.pageSize == 10
    ensures 0 < pageSize <= 20 ==> r.pageSize == pageSize
    ensures pageSize > 20 ==> r.pageSize == 20
    ensures r.page == Pagination.NormalizePaginationValue(page, pageSize).page
  {
    var params := Pagination.NormalizePaginationValue(page, pageSize);
    if params.pageSize > 20 then params.(pageSize := 20) else params
  }

  /** The rows a dictionary's tree is built from: its enabled items, in table order. */
  function EnabledItems(st: Store, d: Dict): (r: seq<Item>)
    ensures forall x | x in r :: x in st.items && x.dictionaryID == d.id && x.status == 1
    ensures forall x | x in st.items && x.dictionaryID == d.id && x.status == 1 :: x in r
  {
    Sorting.Filter(st.items, (x: Item) => x.dictionaryID == d.id && x.status == 1)
  }

  /** The tree shown for one dictionary: built from its enabled items, from the root. */
  function EnabledTree(st: Store, d: Dict, fuel: nat): (r: seq<Node>)
    ensures forall x | x in Flatten(r) :: x in st.items && x.dictionaryID == d.id && x.status == 1
  {
    var rows := EnabledItems(st, d);
    var t := BuildTree(rows, 0, fuel);
    forall x | x in Flatten(t) ensures x in rows {
      BuildTreeSound(rows, 0, fuel, x);
    }
    t
  }

  /** A row is in a dictionary's tree exactly when it is an enabled item of that
      dictionary whose chain of enabled parents reaches the root within the bound. */
  lemma EnabledTreeContents(st: Store, d: Dict, fuel: nat, x: Item)
    ensures x in Flatten(EnabledTree(st, d, fuel)) <==>
      && x in st.items && x.dictionaryID == d.id && x.status == 1
      && Below(EnabledItems(st, d), x, 0, fuel)
  {
    BuildTreeContents(EnabledItems(st, d), 0, fuel, x);
  }
}

=== FILE: email.dfy ===
/** The e-mail helpers that are pure: the address shape check and the
    verification-code generator, whose random digits are supplied by the caller. */
module Email {
  import opened Text

  /** `ValidateEmail`: one `@`, a non-empty local part, and a non-empty domain
      containing a dot. */
  function ValidateEmail(email: string): (r: bool)
    ensures email == "" ==> !r
    ensures Count(email, '@') != 1 ==> !r
    ensures r ==> '.' in email
  {
    if email == "" then false
    else
      var parts := Split(email, '@');
      SplitCount(email, '@');
      if |parts| != 2 then false
      else if |parts[0]| == 0 || |parts[1]| == 0 then false
      else
        ContainsCharIff(parts[1], '.');
        JoinSplit(email, '@');
        assert email == parts[0] + ['@'] + parts[1];
        Contains(parts[1], ".")
  }

  /** An address built from an `@`-free local part and domain is accepted exactly
      when both are non-empty and the domain has a dot. */
  lemma ValidateEmailParts(local: string, domain: string)
    requires '@' !in local && '@' !in domain
    ensures ValidateEmail(local + "@" + domain) <==> local != "" && domain != "" && '.' in domain
  {
    var email := local + "@" + domain;
    SplitPrefix(local, domain, '@');
    SplitNoSep(domain, '@');
    assert email == local + ['@'] + domain;
    assert Split(email, '@') == [local, domain];
    ContainsCharIff(domain, '.');
    assert email != "" by {
      assert email[|local|] == '@';
    }
  }

  /** Every accepted address has that shape: it is its local part, `@`, and its domain. */
  lemma AcceptedEmailDecomposes(email: string)
    requires ValidateEmail(email)
    ensures var parts := Split(email, '@');
      && |parts| == 2 && email == parts[0] + "@" + parts[1]
      && parts[0] != "" && parts[1] != "" && '.' in parts[1]
  {
    var parts := Split(email, '@');
    SplitCount(email, '@');
    JoinSplit(email, '@');
    ContainsCharIff(parts[1], '.');
    assert Join(parts, '@') == parts[0] + ['@'] + Join(parts[1..], '@');
  }

  const DefaultCodeLength: int := 6

  /** The number of digits drawn: the requested length, or 6 when it is not positive. */
  function CodeLength(length: int): (n: nat)
    ensures length > 0 ==> n == length
    ensures length <= 0 ==> n == DefaultCodeLength
  {
    if length <= 0 then DefaultCodeLength else length
  }

  /** `GenerateVerificationCode`: one decimal digit per draw of `rand.Int(10)`,
      appended in drawing order. */
  method GenerateVerificationCode(length: int, draws: seq<nat>) returns (code: string)
    requires |draws| == CodeLength(length)
    requires forall i | 0 <= i < |draws| :: draws[i] < 10
    ensures |code| == CodeLength(length)
    ensures forall i | 0 <= i < |code| :: IsDigit(code[i]) && DigitValue(code[i]) == draws[i]
  {
    var n := CodeLength(length);
    code := "";
    var i := 0;
    while i < n
      invariant 0 <= i <= n
      invariant |code| == i
      invariant forall k | 0 <= k < i :: IsDigit(code[k]) && DigitValue(code[k]) == draws[k]
    {
      code := code + [DigitChar(draws[i])];
      i := i + 1;
    }
  }
}

=== FILE: id_generator.dfy ===
/** The Snowflake ID generator: a 63-bit ID packing a 41-bit millisecond
    timestamp (relative to 2024-01-01 UTC), a 10-bit worker ID and a 12-bit
    per-millisecond sequence number. The generator is a state record; the clock
    readings it takes are parameters. */
module IdGenerator {
  import opened Wrappers
  import Text
  import Arith

  const Epoch: int := 1704067200000
  const WorkerIDBits: nat := 10
  const SequenceBits: nat := 12
  const MaxWorkerID: int := 1023
  const MaxSequence: int := 4095
  const TimestampShift: nat := 22
  const WorkerIDShift: nat := 12

  /** 2^22 and 2^12: the multipliers that a left shift by the two shift widths amounts to. */
  const TimestampUnit: int := 4194304
  const WorkerUnit: int := 4096

  const Two63: int := 0x8000_0000_0000_0000
  const Two64: int := 0x1_0000_0000_0000_0000
  /** Timestamps that fit the 41 timestamp bits of a non-wrapping ID, as offsets from Epoch. */
  const Two41: int := 0x200_0000_0000

  predicate IsInt64(x: int) { -Two63 <= x < Two63 }

  /** Two's-complement wrap-around of Go's int64 arithmetic. */
  function Wrap64(x: int): (r: int)
    ensures IsInt64(r)
    ensures (r - x) % Two64 == 0
    ensures IsInt64(x) ==> r == x
  {
    (x + Two63) % Two64 - Two63
  }

  datatype Generator = Generator(workerID: int, sequence: int, lastMillis: int)

  /** The field ranges every generator keeps. */
  predicate Valid(g: Generator) {
    0 <= g.workerID <= MaxWorkerID && 0 <= g.sequence <= MaxSequence
  }

  /** The ID word: the shifted timestamp offset (wrapping as int64), OR-ed with the
      shifted worker ID and the sequence. The OR is an addition because the
      shifted timestamp has its low 22 bits clear and the other two fields
      occupy disjoint bits below them. */
  function Compose(millis: int, workerID: int, sequence: int): (id: int)
    requires 0 <= workerID <= MaxWorkerID && 0 <= sequence <= MaxSequence
    ensures IsInt64(id)
  {
    WrappedTimestampFits(millis - Epoch);
    Wrap64((millis - Epoch) * TimestampUnit) + workerID * WorkerUnit + sequence
  }

  /** A wrapped shifted timestamp keeps its low 22 bits clear, so it leaves room
      below 2^63 for the worker ID and the sequence. */
  lemma WrappedTimestampFits(d: int)
    ensures Wrap64(d * TimestampUnit) <= Two63 - TimestampUnit
  {
    var x := d * TimestampUnit;
    var q := (x + Two63) / Two64;
    assert (x + Two63) % Two64 == x + Two63 - q * Two64;
    var m := d - q * 0x400_0000_0000;
    assert Wrap64(x) == m * TimestampUnit;
    assert m < Two41;
  }

  /** Reading the fields back: an arithmetic right shift and the two masks. */
  function TimestampOf(id: int): int { id / TimestampUnit + Epoch }
  function WorkerOf(id: int): int { (id / WorkerUnit) % 1024 }
  function SequenceOf(id: int): int { id % WorkerUnit }

  /** Bit-packing round trip: every field decodes back exactly while the
      timestamp offset fits 41 bits (about 69 years either side of the epoch). */
  lemma ComposeRoundTrip(millis: int, workerID: int, sequence: int)
    requires 0 <= workerID <= MaxWorkerID && 0 <= sequence <= MaxSequence
    requires -Two41 <= millis - Epoch < Two41
    ensures TimestampOf(Compose(millis, workerID, sequence)) == millis
    ensures WorkerOf(Compose(millis, workerID, sequence)) == workerID
    ensures SequenceOf(Compose(millis, workerID, sequence)) == sequence
  {
    var d := millis - Epoch;
    var low := workerID * WorkerUnit + sequence;
    assert IsInt64(d * TimestampUnit);
    var id := d * TimestampUnit + low;
    assert Compose(millis, workerID, sequence) == id;
    assert 0 <= low < TimestampUnit;
    Arith.DivAddSmall(d, TimestampUnit, low);
    assert id == (d * 1024 + workerID) * WorkerUnit + sequence;
    Arith.DivAddSmall(d * 1024 + workerID, WorkerUnit, sequence);
    assert id / WorkerUnit == d * 1024 + workerID;
    Arith.DivAddSmall(d, 1024, workerID);
  }

  /** Without wrap-around, a later timestamp always gives a larger ID, whatever the
      other fields hold. */
  lemma ComposeMonotone(t1: int, w1: int, s1: int, t2: int, w2: int, s2: int)
    requires 0 <= w1 <= MaxWorkerID && 0 <= s1 <= MaxSequence
    requires 0 <= w2 <= MaxWorkerID && 0 <= s2 <= MaxSequence
    requires -Two41 <= t1 - Epoch < Two41 && -Two41 <= t2 - Epoch < Two41
    requires t1 < t2 || (t1 == t2 && w1 * WorkerUnit + s1 < w2 * WorkerUnit + s2)
    ensures Compose(t1, w1, s1) < Compose(t2, w2, s2)
  {
    assert IsInt64((t1 - Epoch) * TimestampUnit);
    assert IsInt64((t2 - Epoch) * TimestampUnit);
    if t1 < t2 {
      assert (t1 - Epoch) * TimestampUnit + TimestampUnit <= (t2 - Epoch) * TimestampUnit;
    }
  }

  /** `NextID` with the clock reading `now` and, for a sequence overflow, the first
      later reading `later` that the spin-wait ends on. */
  function NextID(g: Generator, now: int, later: int): (r: Result<(Generator, int), string>)
    requires Valid(g)
    requires later > g.lastMillis
    ensures r.Failure? <==> now < g.lastMillis
    ensures r.Failure? ==> r.error == "clock moved backwards"
    ensures r.Success? ==> var (g', id) := r.value;
      && Valid(g')
      && g'.workerID == g.workerID
      && g'.lastMillis >= g.lastMillis
      && (now == g.lastMillis ==> g'.sequence == (g.sequence + 1) % (MaxSequence + 1))
      && (now > g.lastMillis ==> g'.sequence == 0 && g'.lastMillis == now)
      && (g'.sequence == 0 && now == g.lastMillis ==> g'.lastMillis > g.lastMillis)
      && (g'.sequence != 0 ==> g'.lastMillis == now)
      && id == Compose(g'.lastMillis, g.workerID, g'.sequence)
  {
    if now < g.lastMillis then
      Failure("clock moved backwards")
    else
      var nextSeq := if now == g.lastMillis then (g.sequence + 1) % (MaxSequence + 1) else 0;
      var stamp := if now == g.lastMillis && nextSeq == 0 then later else now;
      var g' := Generator(g.workerID, nextSeq, stamp);
      Success((g', Compose(stamp, g.workerID, nextSeq)))
  }

  /** A clock that moved backwards changes nothing: the caller keeps its generator. */
  lemma ClockBackwardsKeepsState(g: Generator, now: int, later: int)
    requires Valid(g) && later > g.lastMillis
    requires now < g.lastMillis
    ensures NextID(g, now, later) == Failure("clock moved backwards")
  {
  }

  /** Two successful calls in a row give strictly increasing IDs while the
      timestamps stay inside the 41-bit window after the epoch. */
  lemma NextIDStrictlyIncreasing(g: Generator, now1: int, later1: int, now2: int, later2: int)
    requires Valid(g) && later1 > g.lastMillis
    requires NextID(g, now1, later1).Success?
    requires later2 > NextID(g, now1, later1).value.0.lastMillis
    requires NextID(NextID(g, now1, later1).value.0, now2, later2).Success?
    requires Epoch <= now1
    requires NextID(NextID(g, now1, later1).value.0, now2, later2).value.0.lastMillis < Epoch + Two41
    ensures NextID(g, now1, later1).value.1
          < NextID(NextID(g, now1, later1).value.0, now2, later2).value.1
  {
    var (g1, id1) := NextID(g, now1, later1).value;
    var (g2, id2) := NextID(g1, now2, later2).value;
    assert g1.lastMillis >= now1;
    if g2.lastMillis == g1.lastMillis {
      assert now2 == g1.lastMillis && g2.sequence != 0;
      assert g2.sequence == g1.sequence + 1;
    }
    ComposeMonotone(g1.lastMillis, g.workerID, g1.sequence, g2.lastMillis, g.workerID, g2.sequence);
  }

  /** The process-wide default generator: unset until the first valid initialisation. */
  datatype Registry = Registry(default: Option<Generator>)

  const Uninitialised := Registry(None)

  /** `InitIDGenerator`: rejects a worker ID outside [0, 1023]; only the first
      valid call installs a generator, later ones leave it as it is. */
  function InitIDGenerator(reg: Registry, workerID: int): (r: Result<Registry, string>)
    ensures r.Failure? <==> workerID < 0 || workerID > MaxWorkerID
    ensures r.Failure? ==> r.error == "worker ID must be between 0 and 1023"
    ensures r.Success? && reg.default.Some? ==> r.value == reg
    ensures r.Success? && reg.default.None? ==>
      r.value.default == Some(Generator(workerID, 0, 0))
  {
    if workerID < 0 || workerID > MaxWorkerID then
      Failure("worker ID must be between 0 and 1023")
    else if reg.default.None? then
      Success(Registry(Some(Generator(workerID, 0, 0))))
    else
      Success(reg)
  }

  /** A registry whose generator (if any) is well formed. */
  predicate RegistryValid(reg: Registry) {
    reg.default.Some? ==> Valid(reg.default.value)
  }

  /** `GetDefaultGenerator`: worker ID 1 when nothing was initialised. */
  function GetDefaultGenerator(reg: Registry): (r: (Registry, Generator))
    requires RegistryValid(reg)
    ensures r.0.default == Some(r.1) && Valid(r.1)
    ensures reg.default.Some? ==> r.1 == reg.default.value
    ensures reg.default.None? ==> r.1 == Generator(1, 0, 0)
  {
    if reg.default.None? then
      var reg' := InitIDGenerator(reg, 1).value;
      (reg', reg'.default.value)
    else
      (reg, reg.default.value)
  }

  /** Draws one ID from the default generator, storing its new state. */
  function NextDefaultID(reg: Registry, now: int, later: int): (r: Result<(Registry, int), string>)
    requires RegistryValid(reg)
    requires later > GetDefaultGenerator(reg).1.lastMillis
    ensures r.Success? ==> RegistryValid(r.value.0) && r.value.0.default.Some?
    ensures r.Success? ==> var g := GetDefaultGenerator(reg).1;
      NextID(g, now, later) == Success((r.value.0.default.value, r.value.1))
    ensures r.Failure? ==> r.error == "clock moved backwards"
  {
    var (reg1, g) := GetDefaultGenerator(reg);
    var (g', id) :- NextID(g, now, later);
    Success((Registry(Some(g')), id))
  }

  /** `GenerateOrderID`: "ORD" followed by the decimal ID. */
  function GenerateOrderID(reg: Registry, now: int, later: int): (r: Result<(Registry, string), string>)
    requires RegistryValid(reg)
    requires later > GetDefaultGenerator(reg).1.lastMillis
    ensures r.Success? <==> NextDefaultID(reg, now, later).Success?
    ensures r.Success? ==>
      && r.value.0 == NextDefaultID(reg, now, later).value.0
      && Text.StartsWith(r.value.1, "ORD")
      && r.value.1[3..] == Text.IntToString(NextDefaultID(reg, now, later).value.1)
  {
    var (reg', id) :- NextDefaultID(reg, now, later);
    Success((reg', "ORD" + Text.IntToString(id)))
  }

  /** `GenerateID` / `NextIDString`: the decimal ID. */
  function GenerateID(reg: Registry, now: int, later: int): (r: Result<(Registry, string), string>)
    requires RegistryValid(reg)
    requires later > GetDefaultGenerator(reg).1.lastMillis
    ensures r.Success? <==> NextDefaultID(reg, now, later).Success?
    ensures r.Success? ==>
      && r.value.0 == NextDefaultID(reg, now, later).value.0
      && r.value.1 == Text.IntToString(NextDefaultID(reg, now, later).value.1)
  {
    var (reg', id) :- NextDefaultID(reg, now, later);
    Success((reg', Text.IntToString(id)))
  }

  /** Distinct IDs give distinct order IDs, so uniqueness carries over to the strings. */
  lemma OrderIDsDistinct(id1: int, id2: int)
    requires id1 != id2
    ensures "ORD" + Text.IntToString(id1) != "ORD" + Text.IntToString(id2)
  {
    if "ORD" + Text.IntToString(id1) == "ORD" + Text.IntToString(id2) {
      assert ("ORD" + Text.IntToString(id1))[3..] == Text.IntToString(id1);
      assert ("ORD" + Text.IntToString(id2))[3..] == Text.IntToString(id2);
      Text.IntToStringInjective(id1, id2);
    }
  }
}

=== FILE: kol_orders.dfy ===
/** The KOL-order service, the second variant over the same order table: orders
    start awaiting payment, the buyer confirms payment, the KOL moves the order
    through a shorter table, and the buyer may cancel until it is finished. */
module KolOrders {
  import opened Wrappers
  import Kols
  import OrderStore
  import Orders

  /** `validTransitions`: no entry for `completed`, `cancelled`, `refunded` or
      `pending_payment`. */
  const Transitions: map<string, set<string>> := map[
    "pending" := {"confirmed", "cancelled"},
    "confirmed" := {"in_progress", "cancelled"},
    "in_progress" := {"completed", "cancelled"}]

  /** The table is the order service's table without the refund move. */
  lemma KolTableIsOrderTableWithoutRefund(cur: string, next: string)
    ensures (cur in Transitions && next in Transitions[cur]) <==> Orders.Step(cur, next) && cur != "completed"
  {
  }

  /** `strPtrToOptional`: a null or empty string is absent. */
  function StrPtrToOptional(s: Option<string>): (r: Option<string>)
    ensures r.None? <==> s.None? || s.value == ""
    ensures r.Some? ==> r == s
  {
    if s.None? || s.value == "" then None else s
  }

  /** Applying the conversion twice is the same as once. */
  lemma StrPtrToOptionalIdempotent(s: Option<string>)
    ensures StrPtrToOptional(StrPtrToOptional(s)) == StrPtrToOptional(s)
  {
  }

  /** `CreateKolOrder`: the same checks as the plain order service; the order waits
      for payment. `orderID` is the fresh KOL-order ID. */
  function CreateKolOrder(orders: map<string, OrderStore.KolOrder>, st: Kols.KolStore, userID: int, kolID: int,
                          planID: int, teamID: Option<int>, title: string, requirement: string, orderID: string)
    : (r: Result<(map<string, OrderStore.KolOrder>, string), string>)
    ensures Kols.KolByID(st, kolID).None? ==> r == Failure(Orders.KolNotFound)
    ensures r.Success? <==>
      && Kols.KolByID(st, kolID).Some? && Kols.KolByID(st, kolID).value.status == "approved"
      && planID in st.plans && st.plans[planID].kolID == kolID
    ensures r.Success? ==> var (orders', id) := r.value; var p := st.plans[planID];
      && id == orderID && id in orders' && orders' == orders[id := orders'[id]]
      && var o := orders'[id];
      && o.orderID == id && o.userID == userID && o.teamID == teamID && o.kolID == kolID && o.planID == planID
      && o.planTitle == p.title && o.planDescription == p.description && o.planPrice == p.price
      && o.planType == p.planType
      && o.title == title && o.requirement == requirement && o.description == ""
      && o.status == "pending_payment" && o.rejectReason.None?
      && o.confirmedAt.None? && o.completedAt.None? && o.cancelledAt.None?
  {
    match Kols.KolByID(st, kolID)
    case None => Failure(Orders.KolNotFound)
    case Some(k) =>
      if k.status != "approved" then Failure("该 KOL 尚未通过审核")
      else if planID !in st.plans then Failure("报价计划不存在")
      else if st.plans[planID].kolID != kolID then Failure("报价计划不属于该 KOL")
      else
        var p := st.plans[planID];
        var o := OrderStore.KolOrder(orderID, userID, teamID, kolID, planID, p.title, p.description, p.price, p.planType,
                                     "", title, requirement, "pending_payment", None, None, None, None);
        Success((orders[orderID := o], orderID))
  }

  /** Both services create an order under the same conditions (given an ID). */
  lemma CreateAgreesWithOrderService(orders: map<string, OrderStore.KolOrder>, st: Kols.KolStore, userID: int,
                                     kolID: int, planID: int, teamID: Option<int>, orderID: string)
    ensures CreateKolOrder(orders, st, userID, kolID, planID, teamID, "", "", orderID).Success?
        <==> Orders.CreateOrder(orders, st, userID, kolID, planID, teamID, "", Success(orderID)).Success?
  {
  }

  /** `GetKolOrder`: the same viewing rule as `GetOrder`. */
  function GetKolOrder(orders: map<string, OrderStore.KolOrder>, st: Kols.KolStore, userID: int, orderID: string)
    : (r: Result<OrderStore.KolOrder, string>)
    ensures r.Success? <==> orderID in orders && Orders.CanView(st, userID, orders[orderID])
    ensures r.Success? ==> r.value == orders[orderID]
    ensures r == Orders.GetOrder(orders, st, userID, orderID)
  {
    if orderID !in orders then Failure(Orders.OrderNotFound)
    else
      var o := orders[orderID];
      var userKol := Kols.KolOfUser(st, userID);
      var isKolOwner := userKol.Some? && userKol.value.id == o.kolID;
      var isOrderOwner := o.userID == userID;
      if !isOrderOwner && !isKolOwner then Failure(Orders.NoPermissionToView)
      else Success(o)
  }

  /** `UpdateKolOrderStatus`: the KOL is resolved first, then the order. */
  function UpdateKolOrderStatus(orders: map<string, OrderStore.KolOrder>, st: Kols.KolStore, userID: int, orderID: string,
                                status: string, rejectReason: Option<string>, now: int)
    : (r: Result<map<string, OrderStore.KolOrder>, string>)
    ensures Kols.KolOfUser(st, userID).None? ==> r == Failure("您还不是 KOL，无法操作订单")
    ensures Kols.KolOfUser(st, userID).Some? && orderID !in orders ==> r == Failure(Orders.OrderNotFound)
    ensures Kols.KolOfUser(st, userID).Some? && orderID in orders && orders[orderID].kolID != Kols.KolOfUser(st, userID).value.id ==>
      r == Failure(Orders.NoPermissionToOperate)
    ensures Kols.KolOfUser(st, userID).Some? && orderID in orders && orders[orderID].kolID == Kols.KolOfUser(st, userID).value.id
            && orders[orderID].status !in Transitions ==>
      r == Failure("当前订单状态无法变更")
    ensures r.Success? <==>
      && Kols.KolOfUser(st, userID).Some? && orderID in orders
      && orders[orderID].kolID == Kols.KolOfUser(st, userID).value.id
      && orders[orderID].status in Transitions && status in Transitions[orders[orderID].status]
    ensures r.Success? ==> r.value == OrderStore.UpdateOrderStatus(orders, orderID, status, rejectReason, now)
  {
    match Kols.KolOfUser(st, userID)
    case None => Failure("您还不是 KOL，无法操作订单")
    case Some(k) =>
      if orderID !in orders then Failure(Orders.OrderNotFound)
      else
        var o := orders[orderID];
        if o.kolID != k.id then Failure(Orders.NoPermissionToOperate)
        else if o.status !in Transitions then Failure("当前订单状态无法变更")
        else if status !in Transitions[o.status] then Failure("不允许从 " + o.status + " 状态转换到 " + status + " 状态")
        else Success(OrderStore.UpdateOrderStatus(orders, orderID, status, rejectReason, now))
  }

  /** `ConfirmKolOrderPayment`: the buyer moves an order awaiting payment to pending;
      no timestamp or reason is written. */
  function ConfirmKolOrderPayment(orders: map<string, OrderStore.KolOrder>, userID: int, orderID: string, now: int)
    : (r: Result<map<string, OrderStore.KolOrder>, string>)
    ensures orderID !in orders ==> r == Failure(Orders.OrderNotFound)
    ensures orderID in orders && orders[orderID].userID != userID ==> r == Failure(Orders.NoPermissionToOperate)
    ensures r.Success? <==>
      orderID in orders && orders[orderID].userID == userID && orders[orderID].status == "pending_payment"
    ensures r.Success? ==> r.value == orders[orderID := orders[orderID].(status := "pending")]
  {
    if orderID !in orders then Failure(Orders.OrderNotFound)
    else if orders[orderID].userID != userID then Failure(Orders.NoPermissionToOperate)
    else if orders[orderID].status != "pending_payment" then Failure("订单状态不是待支付，无法确认支付")
    else
      OrderStore.PlainStatusWritesStatusOnly(orders[orderID], "pending", None, now);
      Success(OrderStore.UpdateOrderStatus(orders, orderID, "pending", None, now))
  }

  const NotCancellable: set<string> := {"completed", "cancelled", "refunded"}

  /** `CancelKolOrder`: the buyer may cancel anything not yet finished, including an
      order awaiting payment or already in progress. */
  function CancelKolOrder(orders: map<string, OrderStore.KolOrder>, userID: int, orderID: string, reason: string, now: int)
    : (r: Result<map<string, OrderStore.KolOrder>, string>)
    ensures orderID !in orders ==> r == Failure(Orders.OrderNotFound)
    ensures orderID in orders && orders[orderID].userID != userID ==> r == Failure(Orders.NoPermissionToOperate)
    ensures r.Success? <==>
      orderID in orders && orders[orderID].userID == userID && orders[orderID].status !in NotCancellable
    ensures r.Success? ==> r.value == OrderStore.UpdateOrderStatus(orders, orderID, "cancelled", Some(reason), now)
  {
    if orderID !in orders then Failure(Orders.OrderNotFound)
    else if orders[orderID].userID != userID then Failure(Orders.NoPermissionToOperate)
    else if orders[orderID].status in NotCancellable then Failure("该订单无法取消")
    else Success(OrderStore.UpdateOrderStatus(orders, orderID, "cancelled", Some(reason), now))
  }

  /** Once an order is finished no operation of this service changes it. */
  lemma FinishedOrdersAreFrozen(orders: map<string, OrderStore.KolOrder>, st: Kols.KolStore, userID: int,
                                orderID: string, status: string, rejectReason: Option<string>, reason: string, now: int)
    requires orderID in orders && orders[orderID].status in NotCancellable
    ensures UpdateKolOrderStatus(orders, st, userID, orderID, status, rejectReason, now).Failure?
    ensures ConfirmKolOrderPayment(orders, userID, orderID, now).Failure?
    ensures CancelKolOrder(orders, userID, orderID, reason, now).Failure?
  {
  }
}

=== FILE: kols.dfy ===
/** KOL (key opinion leader) profiles: application, self-service edits, review,
    and the plans and videos a KOL owns. Languages and tags are held on the
    profile; stats rows are not modelled. */
module Kols {
  import opened Wrappers
  import Sorting
  import Roles
  import Pagination
  import Arith

  datatype Language = Language(code: string, name: string)

  datatype Kol = Kol(
    id: int,
    userID: int,
    avatarURL: Option<string>,
    displayName: Option<string>,
    description: Option<string>,
    country: Option<string>,
    tiktokURL: Option<string>,
    youtubeURL: Option<string>,
    xURL: Option<string>,
    discordURL: Option<string>,
    status: string,
    rejectReason: Option<string>,
    approvedAt: Option<int>,
    languages: seq<Language>,
    tags: seq<string>)

  datatype KolPlan = KolPlan(id: int, kolID: int, title: string, description: Option<string>, price: int, planType: string)

  datatype KolVideo = KolVideo(
    id: int, kolID: int, title: string, content: Option<string>, coverURL: Option<string>,
    videoURL: Option<string>, platform: string, platformVideoID: Option<string>,
    likesCount: int, viewsCount: int, commentsCount: int, sharesCount: int, publishedAt: Option<int>)

  /** Users by ID, KOL rows in ID order, plans and videos by ID. */
  datatype KolStore = KolStore(
    users: map<int, Roles.User>,
    kols: seq<Kol>,
    plans: map<int, KolPlan>,
    videos: map<int, KolVideo>)

  function ByUser(userID: int): Kol -> bool { (k: Kol) => k.userID == userID }
  function ByID(kolID: int): Kol -> bool { (k: Kol) => k.id == kolID }

  /** `GetKolByUserID`. */
  function KolOfUser(st: KolStore, userID: int): (r: Option<Kol>)
    ensures r.Some? ==> r.value in st.kols && r.value.userID == userID
    ensures r.None? <==> forall i | 0 <= i < |st.kols| :: st.kols[i].userID != userID
    ensures r.Some? <==> Sorting.FindFirst(st.kols, ByUser(userID)).Some?
    ensures r.Some? ==> r.value == st.kols[Sorting.FindFirst(st.kols, ByUser(userID)).value]
  {
    match Sorting.FindFirst(st.kols, ByUser(userID))
    case None => None
    case Some(i) => Some(st.kols[i])
  }

  /** `GetKolByID`. */
  function KolByID(st: KolStore, kolID: int): (r: Option<Kol>)
    ensures r.Some? ==> r.value in st.kols && r.value.id == kolID
    ensures r.None? <==> forall i | 0 <= i < |st.kols| :: st.kols[i].id != kolID
  {
    match Sorting.FindFirst(st.kols, ByID(kolID))
    case None => None
    case Some(i) => Some(st.kols[i])
  }

  /** `UpdateKol` (a save by primary key): every row with that ID becomes `k`. */
  function SaveKol(kols: seq<Kol>, k: Kol): (r: seq<Kol>)
    ensures |r| == |kols|
    ensures forall i | 0 <= i < |kols| :: r[i] == if kols[i].id == k.id then k else kols[i]
  {
    seq(|kols|, i requires 0 <= i < |kols| => if kols[i].id == k.id then k else kols[i])
  }

  /** Pairs the i-th code with the i-th name. */
  function Zip(codes: seq<string>, names: seq<string>): (r: seq<Language>)
    requires |codes| == |names|
    ensures |r| == |codes|
    ensures forall i | 0 <= i < |r| :: r[i] == Language(codes[i], names[i])
  {
    seq(|codes|, i requires 0 <= i < |codes| => Language(codes[i], names[i]))
  }

  /** `ApplyKol`: a user with no KOL yet becomes a pending KOL carrying one language
      per (code, name) pair and the given tags; `newID` is the ID the database
      assigns. */
  function ApplyKol(st: KolStore, userID: int, displayName: string, description: string, country: string,
                    avatarURL: Option<string>, tiktokURL: Option<string>, youtubeURL: Option<string>,
                    xURL: Option<string>, discordURL: Option<string>,
                    languageCodes: seq<string>, languageNames: seq<string>, tags: seq<string>, newID: int)
    : (r: Result<(KolStore, int), string>)
    ensures userID !in st.users ==> r == Failure("user not found")
    ensures userID in st.users && KolOfUser(st, userID).Some? ==> r == Failure("user has already applied for KOL")
    ensures r.Success? <==>
      userID in st.users && KolOfUser(st, userID).None? && |languageCodes| == |languageNames|
    ensures r.Success? ==> var (st', id) := r.value;
      && id == newID
      && |st'.kols| == |st.kols| + 1 && st'.kols[..|st.kols|] == st.kols
      && var k := st'.kols[|st.kols|];
      && k.userID == userID && k.status == "pending" && k.id == newID
      && k.displayName == Some(displayName) && k.description == Some(description) && k.country == Some(country)
      && k.avatarURL == avatarURL && k.tiktokURL == tiktokURL && k.youtubeURL == youtubeURL
      && k.xURL == xURL && k.discordURL == discordURL
      && k.rejectReason.None? && k.approvedAt.None?
      && |k.languages| == |languageCodes|
      && (forall i | 0 <= i < |languageCodes| :: k.languages[i] == Language(languageCodes[i], languageNames[i]))
      && k.tags == tags
      && st'.users == st.users[userID := st.users[userID].(kolID := Some(newID))]
      && st'.plans == st.plans && st'.videos == st.videos
  {
    if userID !in st.users then Failure("user not found")
    else if KolOfUser(st, userID).Some? then Failure("user has already applied for KOL")
    else if |languageCodes| != |languageNames| then Failure("language codes and names must have the same length")
    else
      var k := Kol(newID, userID, avatarURL, Some(displayName), Some(description), Some(country),
                   tiktokURL, youtubeURL, xURL, discordURL, "pending", None, None,
                   Zip(languageCodes, languageNames), tags);
      Success((st.(kols := st.kols + [k], users := st.users[userID := st.users[userID].(kolID := Some(newID))]), newID))
  }

  /** After a successful application the user has exactly one KOL, the new one. */
  lemma ApplyKolThenLookup(st: KolStore, userID: int, displayName: string, description: string, country: string,
                           avatarURL: Option<string>, tiktokURL: Option<string>, youtubeURL: Option<string>,
                           xURL: Option<string>, discordURL: Option<string>,
                           codes: seq<string>, names: seq<string>, tags: seq<string>, newID: int)
    requires ApplyKol(st, userID, displayName, description, country, avatarURL, tiktokURL, youtubeURL,
                      xURL, discordURL, codes, names, tags, newID).Success?
    ensures var st' := ApplyKol(st, userID, displayName, description, country, avatarURL, tiktokURL, youtubeURL,
                                xURL, discordURL, codes, names, tags, newID).value.0;
      && KolOfUser(st', userID).Some? && KolOfUser(st', userID).value.id == newID
      && ApplyKol(st', userID, displayName, description, country, avatarURL, tiktokURL, youtubeURL,
                  xURL, discordURL, codes, names, tags, newID).Failure?
  {
    var st' := ApplyKol(st, userID, displayName, description, country, avatarURL, tiktokURL, youtubeURL,
                        xURL, discordURL, codes, names, tags, newID).value.0;
    var n := |st.kols|;
    assert st'.kols[n].userID == userID;
    var f := Sorting.FindFirst(st'.kols, ByUser(userID));
    assert forall i | 0 <= i < n :: st'.kols[i] == st.kols[i];
    assert f.Some?;
    assert f.value == n;
  }

  /** Replaces the present fields only. */
  function Override(cur: Option<string>, given: Option<string>): (r: Option<string>)
    ensures given.Some? ==> r == given
    ensures given.None? ==> r == cur
  {
    if given.Some? then given else cur
  }

  /** `UpdateKolInfo`. The basic fields are saved before the language lists are
      compared, so a length mismatch reports an error after that save; the state
      is returned with the outcome. */
  function UpdateKolInfo(st: KolStore, userID: int,
                         displayName: Option<string>, description: Option<string>, country: Option<string>,
                         avatarURL: Option<string>, tiktokURL: Option<string>, youtubeURL: Option<string>,
                         xURL: Option<string>, discordURL: Option<string>,
                         languageCodes: Option<seq<string>>, languageNames: Option<seq<string>>,
                         tags: Option<seq<string>>)
    : (r: (KolStore, Result<(), string>))
    ensures KolOfUser(st, userID).None? ==> r == (st, Failure("KOL not found"))
    ensures r.1.Success? <==>
      KolOfUser(st, userID).Some?
      && (languageCodes.Some? && languageNames.Some? ==> |languageCodes.value| == |languageNames.value|)
    ensures KolOfUser(st, userID).Some? ==>
      var i := Sorting.FindFirst(st.kols, ByUser(userID)).value;
      && |r.0.kols| == |st.kols| && i < |st.kols|
      && (forall j | 0 <= j < |st.kols| && j != i :: r.0.kols[j] == st.kols[j])
      && var k := st.kols[i]; var k' := r.0.kols[i];
      && r.0.users == st.users && r.0.plans == st.plans && r.0.videos == st.videos
      && k'.id == k.id && k'.userID == k.userID && k'.status == k.status
      && k'.displayName == Override(k.displayName, displayName)
      && k'.description == Override(k.description, description)
      && k'.country == Override(k.country, country)
      && k'.avatarURL == Override(k.avatarURL, avatarURL)
      && k'.tiktokURL == Override(k.tiktokURL, tiktokURL)
      && k'.youtubeURL == Override(k.youtubeURL, youtubeURL)
      && k'.xURL == Override(k.xURL, xURL)
      && k'.discordURL == Override(k.discordURL, discordURL)
      && k'.rejectReason == k.rejectReason && k'.approvedAt == k.approvedAt
      && (r.1.Success? && languageCodes.Some? && languageNames.Some? ==>
            k'.languages == Zip(languageCodes.value, languageNames.value))
      && (languageCodes.None? || languageNames.None? || r.1.Failure? ==> k'.languages == k.languages)
      && (r.1.Success? && tags.Some? ==> k'.tags == tags.value)
      && (tags.None? || r.1.Failure? ==> k'.tags == k.tags)
  {
    match Sorting.FindFirst(st.kols, ByUser(userID))
    case None => (st, Failure("KOL not found"))
    case Some(i) =>
      var k := st.kols[i];
      var basic := k.(displayName := Override(k.displayName, displayName),
                      description := Override(k.description, description),
                      country := Override(k.country, country),
                      avatarURL := Override(k.avatarURL, avatarURL),
                      tiktokURL := Override(k.tiktokURL, tiktokURL),
                      youtubeURL := Override(k.youtubeURL, youtubeURL),
                      xURL := Override(k.xURL, xURL),
                      discordURL := Override(k.discordURL, discordURL));
      if languageCodes.Some? && languageNames.Some? && |languageCodes.value| != |languageNames.value| then
        (st.(kols := st.kols[i := basic]), Failure("language codes and names must have the same length"))
      else
        var withLanguages :=
          if languageCodes.Some? && languageNames.Some? then basic.(languages := Zip(languageCodes.value, languageNames.value))
          else basic;
        var k' := if tags.Some? then withLanguages.(tags := tags.value) else withLanguages;
        (st.(kols := st.kols[i := k']), Success(()))
  }

  /** An update that gives no field changes nothing and succeeds. */
  lemma EmptyKolInfoUpdateIsIdentity(st: KolStore, userID: int)
    requires KolOfUser(st, userID).Some?
    ensures UpdateKolInfo(st, userID, None, None, None, None, None, None, None, None, None, None, None) == (st, Success(()))
  {
    var i := Sorting.FindFirst(st.kols, ByUser(userID)).value;
    assert st.kols[i := st.kols[i]] == st.kols;
  }

  const ReviewStatuses: set<string> := {"approved", "rejected"}

  /** `ReviewKol` (KOL service): approval stamps `approvedAt` and leaves an old
      rejection reason in place; rejection records a non-empty reason. */
  function ReviewKol(st: KolStore, kolID: int, status: string, rejectReason: string, now: int)
    : (r: Result<KolStore, string>)
    ensures status !in ReviewStatuses ==> r == Failure("invalid status, must be approved or rejected")
    ensures r.Success? <==> status in ReviewStatuses && KolByID(st, kolID).Some?
    ensures r.Success? ==> var k := KolByID(st, kolID).value;
      && var k' := k.(status := status,
                      rejectReason := if status == "rejected" && rejectReason != "" then Some(rejectReason) else k.rejectReason,
                      approvedAt := if status == "approved" then Some(now) else k.approvedAt);
      && r.value == st.(kols := SaveKol(st.kols, k'))
  {
    if status !in ReviewStatuses then Failure("invalid status, must be approved or rejected")
    else match KolByID(st, kolID)
      case None => Failure("KOL not found")
      case Some(k) =>
        var k' := k.(status := status,
                     rejectReason := if status == "rejected" && rejectReason != "" then Some(rejectReason) else k.rejectReason,
                     approvedAt := if status == "approved" then Some(now) else k.approvedAt);
        Success(st.(kols := SaveKol(st.kols, k')))
  }

  /** A review touches only the reviewed KOL's rows. */
  lemma ReviewKolTouchesOnlyTarget(st: KolStore, kolID: int, status: string, rejectReason: string, now: int, i: int)
    requires ReviewKol(st, kolID, status, rejectReason, now).Success?
    requires 0 <= i < |st.kols| && st.kols[i].id != kolID
    ensures ReviewKol(st, kolID, status, rejectReason, now).value.kols[i] == st.kols[i]
    ensures |ReviewKol(st, kolID, status, rejectReason, now).value.kols| == |st.kols|
  {
  }

  const PlanTypes: set<string> := {"basic", "standard", "premium"}

  /** `SaveKolPlan`: a positive `planID` updates that plan, which must belong to the
      caller's KOL; otherwise a plan is created under `newID`. */
  function SaveKolPlan(st: KolStore, userID: int, planID: Option<int>, title: string, description: string,
                       price: int, planType: string, newID: int)
    : (r: Result<(KolStore, int), string>)
    ensures planType !in PlanTypes ==> r == Failure("invalid plan type, must be basic, standard, or premium")
    ensures planType in PlanTypes && KolOfUser(st, userID).None? ==> r == Failure("KOL not found")
    ensures r.Success? ==> var (st', id) := r.value; var k := KolOfUser(st, userID).value;
      && planType in PlanTypes
      && id in st'.plans && st'.plans == st.plans[id := st'.plans[id]]
      && var p := st'.plans[id];
      && p.kolID == k.id && p.title == title && p.description == Some(description)
      && p.price == price && p.planType == planType
      && st'.kols == st.kols && st'.users == st.users && st'.videos == st.videos
    ensures planID.Some? && planID.value > 0 && planType in PlanTypes && KolOfUser(st, userID).Some? ==>
      && (planID.value !in st.plans ==> r == Failure("plan not found"))
      && (planID.value in st.plans && st.plans[planID.value].kolID != KolOfUser(st, userID).value.id ==>
            r == Failure("plan does not belong to this KOL"))
      && (r.Success? ==> r.value.1 == planID.value)
    ensures (planID.None? || planID.value <= 0) && planType in PlanTypes && KolOfUser(st, userID).Some? ==>
      r.Success? && r.value.1 == newID
  {
    if planType !in PlanTypes then Failure("invalid plan type, must be basic, standard, or premium")
    else match KolOfUser(st, userID)
      case None => Failure("KOL not found")
      case Some(k) =>
        if planID.Some? && planID.value > 0 then
          var id := planID.value;
          if id !in st.plans then Failure("plan not found")
          else if st.plans[id].kolID != k.id then Failure("plan does not belong to this KOL")
          else
            var p := st.plans[id].(title := title, description := Some(description), price := price, planType := planType);
            Success((st.(plans := st.plans[id := p]), id))
        else
          Success((st.(plans := st.plans[newID := KolPlan(newID, k.id, title, Some(description), price, planType)]), newID))
  }

  /** `DeleteKolPlan`: only the owning KOL may delete. */
  function DeleteKolPlan(st: KolStore, userID: int, planID: int): (r: Result<KolStore, string>)
    ensures r.Success? <==>
      KolOfUser(st, userID).Some? && planID in st.plans && st.plans[planID].kolID == KolOfUser(st, userID).value.id
    ensures r.Success? ==> r.value == st.(plans := st.plans - {planID})
    ensures KolOfUser(st, userID).None? ==> r == Failure("KOL not found")
    ensures KolOfUser(st, userID).Some? && planID !in st.plans ==> r == Failure("plan not found")
    ensures KolOfUser(st, userID).Some? && planID in st.plans && st.plans[planID].kolID != KolOfUser(st, userID).value.id ==>
      r == Failure("plan does not belong to this KOL")
  {
    match KolOfUser(st, userID)
    case None => Failure("KOL not found")
    case Some(k) =>
      if planID !in st.plans then Failure("plan not found")
      else if st.plans[planID].kolID != k.id then Failure("plan does not belong to this KOL")
      else Success(st.(plans := st.plans - {planID}))
  }

  /** No KOL can edit or delete another KOL's plan. */
  lemma ForeignPlanUntouchable(st: KolStore, userID: int, planID: int, title: string, description: string,
                               price: int, planType: string, newID: int)
    requires KolOfUser(st, userID).Some? && planID > 0 && planID in st.plans
    requires st.plans[planID].kolID != KolOfUser(st, userID).value.id
    ensures DeleteKolPlan(st, userID, planID).Failure?
    ensures SaveKolPlan(st, userID, Some(planID), title, description, price, planType, newID).Failure?
  {
  }

  /** `GetKolPlans` / `GetKolVideos` KOL resolution: the KOL ID wins over the user ID. */
  function ResolveKol(st: KolStore, kolID: Option<int>, userID: Option<int>): (r: Result<Kol, string>)
    ensures kolID.None? && userID.None? ==> r == Failure("either kol_id or user_id must be provided")
    ensures kolID.Some? ==> (r.Success? <==> KolByID(st, kolID.value).Some?)
    ensures kolID.Some? && r.Success? ==> r.value.id == kolID.value
    ensures kolID.None? && userID.Some? ==> (r.Success? <==> KolOfUser(st, userID.value).Some?)
    ensures kolID.None? && userID.Some? && r.Success? ==> r.value.userID == userID.value
  {
    var found := if kolID.Some? then KolByID(st, kolID.value)
                 else if userID.Some? then KolOfUser(st, userID.value)
                 else None;
    if kolID.None? && userID.None? then Failure("either kol_id or user_id must be provided")
    else if found.None? then Failure("KOL not found")
    else Success(found.value)
  }

  /** The plans of a KOL. */
  function GetKolPlans(st: KolStore, kolID: Option<int>, userID: Option<int>): (r: Result<set<KolPlan>, string>)
    ensures r.Success? <==> ResolveKol(st, kolID, userID).Success?
    ensures r.Success? ==> forall p :: p in r.value <==>
      exists id | id in st.plans :: st.plans[id] == p && p.kolID == ResolveKol(st, kolID, userID).value.id
  {
    match ResolveKol(st, kolID, userID)
    case Failure(e) => Failure(e)
    case Success(k) => Success(set id | id in st.plans && st.plans[id].kolID == k.id :: st.plans[id])
  }

  const Platforms: set<string> := {"tiktok", "youtube"}

  /** `CreateKolVideo`. `publishedAt` is the outcome of parsing the optional
      RFC 3339 timestamp: `None` when absent or empty. Absent counts are 0. */
  function CreateKolVideo(st: KolStore, userID: int, title: string, content: string, coverURL: string,
                          videoURL: string, platform: string, platformVideoID: Option<string>,
                          likes: Option<int>, views: Option<int>, comments: Option<int>, shares: Option<int>,
                          publishedAt: Option<Result<int, string>>, newID: int)
    : (r: Result<(KolStore, int), string>)
    ensures platform !in Platforms ==> r == Failure("invalid platform, must be tiktok or youtube")
    ensures platform in Platforms && KolOfUser(st, userID).None? ==> r == Failure("KOL not found")
    ensures r.Success? <==>
      platform in Platforms && KolOfUser(st, userID).Some? && (publishedAt.Some? ==> publishedAt.value.Success?)
    ensures r.Success? ==> var (st', id) := r.value;
      && id == newID && newID in st'.videos
      && var v := st'.videos[newID];
      && st'.videos == st.videos[newID := v]
      && v.id == newID && v.kolID == KolOfUser(st, userID).value.id && v.platform == platform && v.title == title
      && v.content == Some(content) && v.coverURL == Some(coverURL) && v.videoURL == Some(videoURL)
      && v.platformVideoID == platformVideoID
      && v.likesCount == likes.GetOr(0) && v.viewsCount == views.GetOr(0)
      && v.commentsCount == comments.GetOr(0) && v.sharesCount == shares.GetOr(0)
      && v.publishedAt == (if publishedAt.Some? then Some(publishedAt.value.value) else None)
      && st'.kols == st.kols && st'.plans == st.plans && st'.users == st.users
  {
    if platform !in Platforms then Failure("invalid platform, must be tiktok or youtube")
    else match KolOfUser(st, userID)
      case None => Failure("KOL not found")
      case Some(k) =>
        if publishedAt.Some? && publishedAt.value.Failure? then
          Failure("invalid published_at format, must be RFC3339: " + publishedAt.value.error)
        else
          var v := KolVideo(newID, k.id, title, Some(content), Some(coverURL), Some(videoURL), platform, platformVideoID,
                            likes.GetOr(0), views.GetOr(0), comments.GetOr(0), shares.GetOr(0),
                            if publishedAt.Some? then Some(publishedAt.value.value) else None);
          Success((st.(videos := st.videos[newID := v]), newID))
  }

  /** The ownership guard shared by video update and delete. */
  function OwnedVideo(st: KolStore, userID: int, videoID: int): (r: Result<KolVideo, string>)
    ensures r.Success? <==>
      KolOfUser(st, userID).Some? && videoID in st.videos && st.videos[videoID].kolID == KolOfUser(st, userID).value.id
    ensures r.Success? ==> r.value == st.videos[videoID]
    ensures KolOfUser(st, userID).Some? && videoID !in st.videos ==> r == Failure("video not found")
    ensures KolOfUser(st, userID).Some? && videoID in st.videos && st.videos[videoID].kolID != KolOfUser(st, userID).value.id ==>
      r == Failure("video does not belong to this KOL")
  {
    match KolOfUser(st, userID)
    case None => Failure("KOL not found")
    case Some(k) =>
      if videoID !in st.videos then Failure("video not found")
      else if st.videos[videoID].kolID != k.id then Failure("video does not belong to this KOL")
      else Success(st.videos[videoID])
  }

  /** `UpdateKolVideo`: the present fields replace the stored ones. */
  function UpdateKolVideo(st: KolStore, userID: int, videoID: int, title: Option<string>, content: Option<string>,
                          coverURL: Option<string>, videoURL: Option<string>,
                          likes: Option<int>, views: Option<int>, comments: Option<int>, shares: Option<int>)
    : (r: Result<KolStore, string>)
    ensures r.Success? <==> OwnedVideo(st, userID, videoID).Success?
    ensures r.Success? ==> videoID in st.videos && videoID in r.value.videos
    ensures r.Success? ==> var v := st.videos[videoID]; var v' := r.value.videos[videoID];
      && r.value.videos == st.videos[videoID := v']
      && v'.id == v.id && v'.kolID == v.kolID && v'.platform == v.platform
      && v'.title == (if title.Some? then title.value else v.title)
      && v'.content == Override(v.content, content)
      && v'.coverURL == Override(v.coverURL, coverURL)
      && v'.videoURL == Override(v.videoURL, videoURL)
      && v'.likesCount == likes.GetOr(v.likesCount) && v'.viewsCount == views.GetOr(v.viewsCount)
      && v'.commentsCount == comments.GetOr(v.commentsCount) && v'.sharesCount == shares.GetOr(v.sharesCount)
      && v'.platformVideoID == v.platformVideoID && v'.publishedAt == v.publishedAt
      && r.value.kols == st.kols && r.value.plans == st.plans && r.value.users == st.users
  {
    match OwnedVideo(st, userID, videoID)
    case Failure(e) => Failure(e)
    case Success(v) =>
      var v' := v.(title := if title.Some? then title.value else v.title,
                   content := Override(v.content, content), coverURL := Override(v.coverURL, coverURL),
                   videoURL := Override(v.videoURL, videoURL),
                   likesCount := likes.GetOr(v.likesCount), viewsCount := views.GetOr(v.viewsCount),
                   commentsCount := comments.GetOr(v.commentsCount), sharesCount := shares.GetOr(v.sharesCount));
      Success(st.(videos := st.videos[videoID := v']))
  }

  /** An update with nothing supplied leaves the store as it was. */
  lemma UpdateKolVideoNothingIsIdentity(st: KolStore, userID: int, videoID: int)
    requires OwnedVideo(st, userID, videoID).Success?
    ensures UpdateKolVideo(st, userID, videoID, None, None, None, None, None, None, None, None) == Success(st)
  {
    var v := st.videos[videoID];
    assert st.videos[videoID := v] == st.videos;
  }

  /** `DeleteKolVideo`. */
  function DeleteKolVideo(st: KolStore, userID: int, videoID: int): (r: Result<KolStore, string>)
    ensures r.Success? <==> OwnedVideo(st, userID, videoID).Success?
    ensures r.Success? ==> r.value == st.(videos := st.videos - {videoID})
  {
    match OwnedVideo(st, userID, videoID)
    case Failure(e) => Failure(e)
    case Success(_) => Success(st.(videos := st.videos - {videoID}))
  }

  /** A video just created under a fresh ID belongs to its creator, and deleting it
      restores the store. */
  lemma DeleteUndoesCreateKolVideo(st: KolStore, userID: int, title: string, content: string, coverURL: string,
                                   videoURL: string, platform: string, platformVideoID: Option<string>,
                                   likes: Option<int>, views: Option<int>, comments: Option<int>, shares: Option<int>,
                                   publishedAt: Option<Result<int, string>>, newID: int)
    requires newID !in st.videos
    requires CreateKolVideo(st, userID, title, content, coverURL, videoURL, platform, platformVideoID,
                            likes, views, comments, shares, publishedAt, newID).Success?
    ensures var st' := CreateKolVideo(st, userID, title, content, coverURL, videoURL, platform, platformVideoID,
                                      likes, views, comments, shares, publishedAt, newID).value.0;
      && OwnedVideo(st', userID, newID).Success?
      && DeleteKolVideo(st', userID, newID) == Success(st)
  {
    var st' := CreateKolVideo(st, userID, title, content, coverURL, videoURL, platform, platformVideoID,
                              likes, views, comments, shares, publishedAt, newID).value.0;
    assert KolOfUser(st', userID) == KolOfUser(st, userID);
    assert st'.videos - {newID} == st.videos;
  }

  /** The status `GetKolList` filters on: the one given, or `approved` when it is
      missing or empty. */
  function ListStatus(status: Option<string>): (r: string)
    ensures status.Some? && status.value != "" ==> r == status.value
    ensures status.None? || status.value == "" ==> r == "approved"
  {
    if status.Some? && status.value != "" then status.value else "approved"
  }

  /** The `WHERE` clause of the KOL list: the status, and the country and tag
      when they are given and non-empty. */
  function Listed(status: Option<string>, country: Option<string>, tag: Option<string>): Kol -> bool {
    (k: Kol) =>
      && k.status == ListStatus(status)
      && (country.None? || country.value == "" || k.country == country)
      && (tag.None? || tag.value == "" || tag.value in k.tags)
  }

  /** The KOLs the list query selects, in row order. */
  function ListedKols(st: KolStore, status: Option<string>, country: Option<string>, tag: Option<string>)
    : (r: seq<Kol>)
    ensures forall k | k in r :: k in st.kols && Listed(status, country, tag)(k)
    ensures forall k | k in st.kols && Listed(status, country, tag)(k) :: k in r
  {
    Sorting.Filter(st.kols, Listed(status, country, tag))
  }

  /** `GetKolList`: page 1 and size 10 when not positive, no upper cap; the page
      is the window at `(page - 1) * pageSize` and the total counts every
      selected KOL. */
  function GetKolList(st: KolStore, status: Option<string>, country: Option<string>, tag: Option<string>,
                      page: int, pageSize: int): (r: (seq<Kol>, nat))
    ensures r.1 == |ListedKols(st, status, country, tag)|
    ensures |r.0| <= Pagination.DefaultsNoCap(page, pageSize).pageSize
    ensures forall k | k in r.0 :: k in st.kols && k.status == ListStatus(status)
    ensures forall k | k in r.0 :: Listed(status, country, tag)(k)
  {
    var params := Pagination.DefaultsNoCap(page, pageSize);
    Arith.MulNonNegative(params.page - 1, params.pageSize);
    var rows := ListedKols(st, status, country, tag);
    (Sorting.Window(rows, (params.page - 1) * params.pageSize, params.pageSize), |rows|)
  }

  /** The pages tile the selection: the KOL at position `i` of the selection is
      row `i % pageSize` of page `i / pageSize + 1`. */
  lemma EveryListedKolIsOnItsPage(st: KolStore, status: Option<string>, country: Option<string>, tag: Option<string>,
                                  pageSize: int, i: nat)
    requires pageSize > 0 && i < |ListedKols(st, status, country, tag)|
    ensures var page := GetKolList(st, status, country, tag, i / pageSize + 1, pageSize).0;
      i % pageSize < |page| && page[i % pageSize] == ListedKols(st, status, country, tag)[i]
  {
    var rows := ListedKols(st, status, country, tag);
    Arith.PagePosition(i, pageSize);
    var off: nat := (i / pageSize) * pageSize;
    KolListPage(st, status, country, tag, i / pageSize + 1, pageSize, off);
    Sorting.WindowAt(rows, off, pageSize, i % pageSize);
  }

  /** For a positive page and size the list is the window the page selects. */
  lemma KolListPage(st: KolStore, status: Option<string>, country: Option<string>, tag: Option<string>,
                    page: int, pageSize: int, offset: nat)
    requires page > 0 && pageSize > 0 && offset == (page - 1) * pageSize
    ensures GetKolList(st, status, country, tag, page, pageSize).0
         == Sorting.Window(ListedKols(st, status, country, tag), offset, pageSize)
  {
  }
}

=== FILE: order_store.dfy ===
/** The KOL-order and ad-order tables and their status updates: each status
    change writes the status plus the timestamp (and reason) that status calls
    for, on the one row whose order ID matches. */
module OrderStore {
  import opened Wrappers

  /** A KOL order, with the plan snapshot taken when it was placed. `title` and
      `requirement` are the brief of the KOL-order variant; `description` that of
      the plain order. */
  datatype KolOrder = KolOrder(
    orderID: string,
    userID: int,
    teamID: Option<int>,
    kolID: int,
    planID: int,
    planTitle: string,
    planDescription: Option<string>,
    planPrice: int,
    planType: string,
    description: string,
    title: string,
    requirement: string,
    status: string,
    rejectReason: Option<string>,
    confirmedAt: Option<int>,
    completedAt: Option<int>,
    cancelledAt: Option<int>)

  datatype AdOrder = AdOrder(
    orderID: string,
    userID: int,
    teamID: Option<int>,
    title: string,
    description: string,
    budget: int,
    adType: string,
    targetAudience: string,
    startDate: string,
    endDate: string,
    status: string,
    rejectReason: Option<string>,
    approvedAt: Option<int>,
    completedAt: Option<int>,
    cancelledAt: Option<int>)

  /** The columns a status update never writes. */
  function KolOrderCore(o: KolOrder): (string, int, Option<int>, int, int, string, Option<string>, int, string, string, string, string) {
    (o.orderID, o.userID, o.teamID, o.kolID, o.planID, o.planTitle, o.planDescription, o.planPrice, o.planType,
     o.description, o.title, o.requirement)
  }

  function AdOrderCore(o: AdOrder): (string, int, Option<int>, string, string, int, string, string, string, string) {
    (o.orderID, o.userID, o.teamID, o.title, o.description, o.budget, o.adType, o.targetAudience, o.startDate, o.endDate)
  }

  /** The per-status side effects of `orderRepository.UpdateOrderStatus` on one row. */
  function StampKolOrder(o: KolOrder, status: string, reason: Option<string>, now: int): (r: KolOrder)
    ensures r.status == status
    ensures KolOrderCore(r) == KolOrderCore(o)
    ensures r.confirmedAt == (if status == "confirmed" then Some(now) else o.confirmedAt)
    ensures r.completedAt == (if status == "completed" then Some(now) else o.completedAt)
    ensures r.cancelledAt == (if status in {"cancelled", "refunded"} then Some(now) else o.cancelledAt)
    ensures r.rejectReason == (if status in {"cancelled", "refunded"} && reason.Some? then reason else o.rejectReason)
  {
    var o1 := o.(status := status);
    if status == "confirmed" then o1.(confirmedAt := Some(now))
    else if status == "completed" then o1.(completedAt := Some(now))
    else if status == "cancelled" || status == "refunded" then
      o1.(cancelledAt := Some(now), rejectReason := if reason.Some? then reason else o.rejectReason)
    else o1
  }

  /** `UpdateOrderStatus`: updates the row with a matching order ID; with no such
      row the update matches nothing and the table is unchanged. */
  function UpdateOrderStatus(orders: map<string, KolOrder>, orderID: string, status: string,
                             reason: Option<string>, now: int): (r: map<string, KolOrder>)
    ensures r.Keys == orders.Keys
    ensures orderID in orders ==> r[orderID] == StampKolOrder(orders[orderID], status, reason, now)
    ensures forall id | id in orders && id != orderID :: r[id] == orders[id]
  {
    if orderID in orders then orders[orderID := StampKolOrder(orders[orderID], status, reason, now)] else orders
  }

  /** Repeating a status update at the same instant changes nothing more. */
  lemma UpdateOrderStatusIdempotent(orders: map<string, KolOrder>, orderID: string, status: string,
                                    reason: Option<string>, now: int)
    ensures var once := UpdateOrderStatus(orders, orderID, status, reason, now);
      UpdateOrderStatus(once, orderID, status, reason, now) == once
  {
  }

  /** A status that carries no side effect (such as `pending`) writes the status
      alone: every timestamp and the reason survive. */
  lemma PlainStatusWritesStatusOnly(o: KolOrder, status: string, reason: Option<string>, now: int)
    requires status !in {"confirmed", "completed", "cancelled", "refunded"}
    ensures StampKolOrder(o, status, reason, now) == o.(status := status)
  {
  }

  /** The per-status side effects of `adOrderRepository.UpdateAdOrderStatus`. */
  function StampAdOrder(o: AdOrder, status: string, reason: Option<string>, now: int): (r: AdOrder)
    ensures r.status == status
    ensures AdOrderCore(r) == AdOrderCore(o)
    ensures r.approvedAt == (if status == "approved" then Some(now) else o.approvedAt)
    ensures r.completedAt == (if status == "completed" then Some(now) else o.completedAt)
    ensures r.cancelledAt == (if status == "cancelled" then Some(now) else o.cancelledAt)
    ensures r.rejectReason == (if status == "cancelled" && reason.Some? then reason else o.rejectReason)
  {
    var o1 := o.(status := status);
    if status == "approved" then o1.(approvedAt := Some(now))
    else if status == "completed" then o1.(completedAt := Some(now))
    else if status == "cancelled" then
      o1.(cancelledAt := Some(now), rejectReason := if reason.Some? then reason else o.rejectReason)
    else o1
  }

  /** `UpdateAdOrderStatus`: only the matching row changes. */
  function UpdateAdOrderStatus(orders: map<string, AdOrder>, orderID: string, status: string,
                               reason: Option<string>, now: int): (r: map<string, AdOrder>)
    ensures r.Keys == orders.Keys
    ensures orderID in orders ==> r[orderID] == StampAdOrder(orders[orderID], status, reason, now)
    ensures forall id | id in orders && id != orderID :: r[id] == orders[id]
  {
    if orderID in orders then orders[orderID := StampAdOrder(orders[orderID], status, reason, now)] else orders
  }

  /** Unlike the KOL-order table, `refunded` carries no side effect on an ad order. */
  lemma AdRefundedIsPlain(o: AdOrder, reason: Option<string>, now: int)
    ensures StampAdOrder(o, "refunded", reason, now) == o.(status := "refunded")
  {
  }
}

=== FILE: orders.dfy ===
/** The order service: placing an order with a KOL, who may see it, the user's
    cancellation, and the KOL's status changes through the transition table.
    Error messages are the service's own (Chinese) strings. */
module Orders {
  import opened Wrappers
  import Kols
  import OrderStore
  import Pagination

  /** `allowedTransitions`: each known status and the statuses it may move to. */
  const Transitions: map<string, set<string>> := map[
    "pending" := {"confirmed", "cancelled"},
    "confirmed" := {"in_progress", "cancelled"},
    "in_progress" := {"completed", "cancelled"},
    "completed" := {"refunded"},
    "cancelled" := {},
    "refunded" := {}]

  /** The same table written as the list of permitted moves. */
  predicate Step(cur: string, next: string) {
    || (cur == "pending" && next == "confirmed")
    || (cur == "pending" && next == "cancelled")
    || (cur == "confirmed" && next == "in_progress")
    || (cur == "confirmed" && next == "cancelled")
    || (cur == "in_progress" && next == "completed")
    || (cur == "in_progress" && next == "cancelled")
    || (cur == "completed" && next == "refunded")
  }

  /** `validateStatusTransition`. */
  function ValidateStatusTransition(cur: string, next: string): (r: Result<(), string>)
    ensures cur !in Transitions ==> r == Failure("无效的当前状态: " + cur)
    ensures cur in Transitions && next !in Transitions[cur] ==> r == Failure("不允许从 " + cur + " 转换到 " + next)
    ensures r.Success? <==> cur in Transitions && next in Transitions[cur]
  {
    if cur !in Transitions then Failure("无效的当前状态: " + cur)
    else if next in Transitions[cur] then Success(())
    else Failure("不允许从 " + cur + " 转换到 " + next)
  }

  /** The validator accepts exactly the listed moves: no self-loops, nothing out
      of `cancelled` or `refunded`, and only `refunded` out of `completed`. */
  lemma ValidateIsStep(cur: string, next: string)
    ensures ValidateStatusTransition(cur, next).Success? <==> Step(cur, next)
    ensures Step(cur, next) ==> cur != next
    ensures cur in {"cancelled", "refunded"} ==> ValidateStatusTransition(cur, next).Failure?
  {
  }

  const KolNotFound := "KOL 不存在"
  const OrderNotFound := "订单不存在"
  const NoPermissionToOperate := "无权操作该订单"
  const NoPermissionToView := "无权查看该订单"

  /** `CreateOrder`: the KOL must be approved and own the plan; the plan is
      snapshotted into a pending order. `genID` is the outcome of `GenerateOrderID`. */
  function CreateOrder(orders: map<string, OrderStore.KolOrder>, st: Kols.KolStore, userID: int, kolID: int,
                       planID: int, teamID: Option<int>, description: string, genID: Result<string, string>)
    : (r: Result<(map<string, OrderStore.KolOrder>, string), string>)
    ensures Kols.KolByID(st, kolID).None? ==> r == Failure(KolNotFound)
    ensures Kols.KolByID(st, kolID).Some? && Kols.KolByID(st, kolID).value.status != "approved" ==>
      r == Failure("该 KOL 尚未通过审核")
    ensures r.Success? <==>
      && Kols.KolByID(st, kolID).Some? && Kols.KolByID(st, kolID).value.status == "approved"
      && planID in st.plans && st.plans[planID].kolID == kolID && genID.Success?
    ensures r.Success? ==> var (orders', id) := r.value; var p := st.plans[planID];
      && id == genID.value && id in orders' && orders' == orders[id := orders'[id]]
      && var o := orders'[id];
      && o.orderID == id && o.userID == userID && o.kolID == kolID && o.planID == planID && o.teamID == teamID
      && o.planTitle == p.title && o.planDescription == p.description && o.planPrice == p.price
      && o.planType == p.planType && o.description == description
      && o.status == "pending" && o.rejectReason.None?
      && o.confirmedAt.None? && o.completedAt.None? && o.cancelledAt.None?
  {
    match Kols.KolByID(st, kolID)
    case None => Failure(KolNotFound)
    case Some(k) =>
      if k.status != "approved" then Failure("该 KOL 尚未通过审核")
      else if planID !in st.plans then Failure("报价计划不存在")
      else if st.plans[planID].kolID != kolID then Failure("报价计划不属于该 KOL")
      else match genID
        case Failure(e) => Failure("生成订单ID失败: " + e)
        case Success(id) =>
          var p := st.plans[planID];
          var o := OrderStore.KolOrder(id, userID, teamID, kolID, planID, p.title, p.description, p.price, p.planType,
                                       description, "", "", "pending", None, None, None, None);
          Success((orders[id := o], id))
  }

  /** The caller may see an order they placed or one addressed to their KOL. */
  predicate CanView(st: Kols.KolStore, userID: int, o: OrderStore.KolOrder) {
    o.userID == userID || (Kols.KolOfUser(st, userID).Some? && Kols.KolOfUser(st, userID).value.id == o.kolID)
  }

  /** `GetOrder`. */
  function GetOrder(orders: map<string, OrderStore.KolOrder>, st: Kols.KolStore, userID: int, orderID: string)
    : (r: Result<OrderStore.KolOrder, string>)
    ensures orderID !in orders ==> r == Failure(OrderNotFound)
    ensures r.Success? <==> orderID in orders && CanView(st, userID, orders[orderID])
    ensures r.Success? ==> r.value == orders[orderID]
  {
    if orderID !in orders then Failure(OrderNotFound)
    else
      var o := orders[orderID];
      var kol := Kols.KolOfUser(st, userID);
      if o.userID != userID && (kol.None? || o.kolID != kol.value.id) then Failure(NoPermissionToView)
      else Success(o)
  }

  /** A user who is neither the buyer nor the KOL can never read the order. */
  lemma StrangerCannotView(orders: map<string, OrderStore.KolOrder>, st: Kols.KolStore, userID: int, orderID: string)
    requires orderID in orders && orders[orderID].userID != userID
    requires forall i | 0 <= i < |st.kols| && st.kols[i].userID == userID :: st.kols[i].id != orders[orderID].kolID
    ensures GetOrder(orders, st, userID, orderID) == Failure(NoPermissionToView)
  {
  }

  /** Which orders a `GetOrderList` call selects. */
  datatype ListScope = OfKol(kolID: int) | OfTeam(teamID: int) | OfUser(userID: int)

  /** `GetOrderList` scope and access: a KOL filter wins over a team filter, and
      listing a KOL's orders is restricted to that KOL's user. */
  function OrderListScope(st: Kols.KolStore, userID: int, kolID: Option<int>, teamID: Option<int>)
    : (r: Result<ListScope, string>)
    ensures kolID.Some? ==> (r.Success? <==>
      Kols.KolByID(st, kolID.value).Some? && Kols.KolByID(st, kolID.value).value.userID == userID)
    ensures kolID.Some? && r.Success? ==> r.value == OfKol(kolID.value)
    ensures kolID.None? && teamID.Some? ==> r == Success(OfTeam(teamID.value))
    ensures kolID.None? && teamID.None? ==> r == Success(OfUser(userID))
  {
    if kolID.Some? then
      match Kols.KolByID(st, kolID.value)
      case None => Failure(KolNotFound)
      case Some(k) => if k.userID != userID then Failure("无权查看该 KOL 的订单") else Success(OfKol(kolID.value))
    else if teamID.Some? then Success(OfTeam(teamID.value))
    else Success(OfUser(userID))
  }

  /** `GetOrderList` paging: page 1 and size 10 only when absent (no lower bound
      or cap), and the offset product taken in int32. */
  function OrderListWindow(page: Option<int>, pageSize: Option<int>): (r: (int, int))
    requires Pagination.OptInt32(page) && Pagination.OptInt32(pageSize)
    ensures page.None? && pageSize.None? ==> r == (0, 10)
    ensures pageSize.Some? ==> r.1 == pageSize.value
    ensures pageSize.None? ==> r.1 == 10
    ensures Pagination.IsInt32(r.0)
    ensures var p := page.GetOr(1); var ps := pageSize.GetOr(10);
      Pagination.IsInt32((p - 1) * ps) ==> r.0 == (p - 1) * ps
  {
    var p := page.GetOr(1);
    var ps := pageSize.GetOr(10);
    Pagination.WrapFactor(p - 1, ps);
    (Pagination.Wrap32(Pagination.Wrap32(p - 1) * ps), ps)
  }

  /** `CancelOrder`: only the buyer, only while pending. */
  function CancelOrder(orders: map<string, OrderStore.KolOrder>, userID: int, orderID: string, reason: string, now: int)
    : (r: Result<map<string, OrderStore.KolOrder>, string>)
    ensures orderID !in orders ==> r == Failure(OrderNotFound)
    ensures orderID in orders && orders[orderID].userID != userID ==> r == Failure("无权取消该订单")
    ensures r.Success? <==> orderID in orders && orders[orderID].userID == userID && orders[orderID].status == "pending"
    ensures r.Success? ==>
      && r.value.Keys == orders.Keys
      && r.value[orderID].status == "cancelled" && r.value[orderID].cancelledAt == Some(now)
      && r.value[orderID].rejectReason == Some(reason)
      && r.value == OrderStore.UpdateOrderStatus(orders, orderID, "cancelled", Some(reason), now)
  {
    if orderID !in orders then Failure(OrderNotFound)
    else if orders[orderID].userID != userID then Failure("无权取消该订单")
    else if orders[orderID].status != "pending" then Failure("订单状态不允许取消")
    else Success(OrderStore.UpdateOrderStatus(orders, orderID, "cancelled", Some(reason), now))
  }

  /** `UpdateOrderStatus` (KOL side): the caller's KOL must own the order before
      the transition is checked. */
  function UpdateOrderStatus(orders: map<string, OrderStore.KolOrder>, st: Kols.KolStore, userID: int, orderID: string,
                             status: string, rejectReason: Option<string>, now: int)
    : (r: Result<map<string, OrderStore.KolOrder>, string>)
    ensures orderID !in orders ==> r == Failure(OrderNotFound)
    ensures orderID in orders && Kols.KolOfUser(st, userID).None? ==> r == Failure("您还不是 KOL")
    ensures orderID in orders && Kols.KolOfUser(st, userID).Some? && orders[orderID].kolID != Kols.KolOfUser(st, userID).value.id ==>
      r == Failure(NoPermissionToOperate)
    ensures r.Success? <==>
      && orderID in orders && Kols.KolOfUser(st, userID).Some?
      && orders[orderID].kolID == Kols.KolOfUser(st, userID).value.id
      && Step(orders[orderID].status, status)
    ensures r.Success? ==> r.value == OrderStore.UpdateOrderStatus(orders, orderID, status, rejectReason, now)
  {
    ValidateIsStep(if orderID in orders then orders[orderID].status else "", status);
    if orderID !in orders then Failure(OrderNotFound)
    else match Kols.KolOfUser(st, userID)
      case None => Failure("您还不是 KOL")
      case Some(k) =>
        var o := orders[orderID];
        if o.kolID != k.id then Failure(NoPermissionToOperate)
        else match ValidateStatusTransition(o.status, status)
          case Failure(e) => Failure(e)
          case Success(_) => Success(OrderStore.UpdateOrderStatus(orders, orderID, status, rejectReason, now))
  }

  /** Every order that leaves a successful status change has moved one step of the
      table, and no other order has moved. */
  lemma UpdateOrderStatusFollowsTable(orders: map<string, OrderStore.KolOrder>, st: Kols.KolStore, userID: int,
                                      orderID: string, status: string, rejectReason: Option<string>, now: int, other: string)
    requires UpdateOrderStatus(orders, st, userID, orderID, status, rejectReason, now).Success?
    requires other in orders
    ensures var orders' := UpdateOrderStatus(orders, st, userID, orderID, status, rejectReason, now).value;
      && other in orders'
      && (other == orderID ==> Step(orders[other].status, orders'[other].status))
      && (other != orderID ==> orders'[other] == orders[other])
  {
  }
}

=== FILE: pagination.dfy ===
/** Paging parameters shared by the list endpoints: defaults, the size cap, the
    row offset and the page count. Page numbers and sizes arrive as Go `int32`. */
module Pagination {
  import opened Wrappers
  import Arith

  const DefaultPage: int := 1
  const DefaultPageSize: int := 10
  const MaxPageSize: int := 100

  const Two31: int := 0x8000_0000
  const Two32: int := 0x1_0000_0000

  predicate IsInt32(x: int) { -Two31 <= x < Two31 }

  predicate OptInt32(x: Option<int>) { x.Some? ==> IsInt32(x.value) }

  /** Two's-complement wrap-around of Go's int32 arithmetic. */
  function Wrap32(x: int): (r: int)
    ensures IsInt32(r)
    ensures IsInt32(x) ==> r == x
  {
    (x + Two31) % Two32 - Two31
  }

  /** Wrapping a factor before multiplying wraps to the same int32 as wrapping
      the exact product. */
  lemma WrapFactor(a: int, b: int)
    ensures Wrap32(Wrap32(a) * b) == Wrap32(a * b)
  {
    var q := (a + Two31) / Two32;
    assert Wrap32(a) == a - q * Two32;
    assert (a - q * Two32) * b == a * b - (q * b) * Two32;
    WrapShift(a * b, q * b);
  }

  /** Wrapping ignores multiples of 2^32. */
  lemma WrapShift(x: int, k: int)
    ensures Wrap32(x - k * Two32) == Wrap32(x)
  {
    var y := x + Two31;
    assert y == (y / Two32) * Two32 + y % Two32;
    assert y - k * Two32 == (y / Two32 - k) * Two32 + y % Two32;
    Arith.DivAddSmall(y / Two32 - k, Two32, y % Two32);
  }

  /** Go's `/` on integers: truncates toward zero. */
  function GoDiv(a: int, b: int): int
    requires b != 0
  {
    if (a >= 0) == (b > 0) then
      (if a >= 0 then a / b else (-a) / (-b))
    else
      -(if a >= 0 then a / (-b) else (-a) / b)
  }

  /** Go's `%` on integers: takes the sign of the dividend. */
  function GoMod(a: int, b: int): int
    requires b != 0
  {
    a - GoDiv(a, b) * b
  }

  datatype PageParams = PageParams(page: int, pageSize: int)

  /** `NormalizePagination`: a missing or non-positive page becomes 1; a missing or
      non-positive size becomes 10 and a size above 100 becomes 100. */
  function NormalizePagination(page: Option<int>, pageSize: Option<int>): (r: PageParams)
    requires OptInt32(page) && OptInt32(pageSize)
    ensures r.page >= 1 && 1 <= r.pageSize <= MaxPageSize
    ensures IsInt32(r.page) && IsInt32(r.pageSize)
    ensures page.Some? && page.value > 0 ==> r.page == page.value
    ensures page.None? || page.value <= 0 ==> r.page == DefaultPage
    ensures pageSize.None? || pageSize.value <= 0 ==> r.pageSize == DefaultPageSize
    ensures pageSize.Some? && pageSize.value > MaxPageSize ==> r.pageSize == MaxPageSize
    ensures pageSize.Some? && 0 < pageSize.value <= MaxPageSize ==> r.pageSize == pageSize.value
  {
    var p := if page.None? || page.value <= 0 then DefaultPage else page.value;
    var ps := if pageSize.None? || pageSize.value <= 0 then DefaultPageSize
              else if pageSize.value > MaxPageSize then MaxPageSize
              else pageSize.value;
    PageParams(p, ps)
  }

  /** `NormalizePaginationValue`: the same rules on plain values. */
  function NormalizePaginationValue(page: int, pageSize: int): (r: PageParams)
    requires IsInt32(page) && IsInt32(pageSize)
    ensures r == NormalizePagination(Some(page), Some(pageSize))
    ensures r.page >= 1 && 1 <= r.pageSize <= MaxPageSize
  {
    NormalizePagination(Some(page), Some(pageSize))
  }

  /** Normalising is idempotent: normalised parameters are a fixed point. */
  lemma NormalizeIdempotent(page: Option<int>, pageSize: Option<int>)
    requires OptInt32(page) && OptInt32(pageSize)
    ensures var r := NormalizePagination(page, pageSize);
      NormalizePaginationValue(r.page, r.pageSize) == r
  {
  }

  datatype PageResp = PageResp(page: int, pageSize: int, total: int, totalPages: int)

  /** `BuildPageResp`: the page count is the quotient, truncated to `int32`, plus
      one (again in `int32`) for a partial last page. */
  function BuildPageResp(params: PageParams, total: int): (r: PageResp)
    requires params.pageSize != 0
    ensures r.page == params.page && r.pageSize == params.pageSize && r.total == total
    ensures IsInt32(r.totalPages)
  {
    var q := Wrap32(GoDiv(total, params.pageSize));
    var pages := if GoMod(total, params.pageSize) != 0 then Wrap32(q + 1) else q;
    PageResp(params.page, params.pageSize, total, pages)
  }

  /** The number of pages a ceiling division gives, before any truncation. */
  function PagesNeeded(total: nat, pageSize: int): nat
    requires pageSize > 0
  {
    total / pageSize + (if total % pageSize != 0 then 1 else 0)
  }

  /** Whenever the ceiling fits `int32`, the page count is that ceiling: zero for
      no rows, and the least number of pages that holds every row. */
  lemma {:induction false} TotalPagesIsCeiling(params: PageParams, total: nat)
    requires params.pageSize > 0
    ensures var n := BuildPageResp(params, total).totalPages;
      IsInt32(PagesNeeded(total, params.pageSize)) ==>
        && n == PagesNeeded(total, params.pageSize)
        && n >= 0
        && n * params.pageSize >= total
        && (n == 0 || (n - 1) * params.pageSize < total)
        && (total == 0 ==> n == 0)
  {
    var ps := params.pageSize;
    var q := total / ps;
    assert GoDiv(total, ps) == q;
    assert total == q * ps + total % ps;
    if IsInt32(PagesNeeded(total, ps)) {
      assert Wrap32(q) == q;
      if total % ps != 0 {
        assert (q + 1) * ps == q * ps + ps;
      }
    }
  }

  /** With 2^31 rows on pages of one the truncated count wraps to the most
      negative `int32`. */
  lemma PageCountWraps()
    ensures BuildPageResp(PageParams(1, 1), Two31).totalPages == -Two31
  {
    assert GoDiv(Two31, 1) == Two31;
    assert GoMod(Two31, 1) == 0;
  }

  /** `GetPaginationInfo` as the repository writes it: the offset product is taken in
      int32 before widening, so it wraps for very large page numbers. */
  function GetPaginationInfoAsWritten(page: Option<int>, pageSize: Option<int>): (r: (PageParams, int))
    requires OptInt32(page) && OptInt32(pageSize)
    ensures r.0 == NormalizePagination(page, pageSize)
    ensures IsInt32(r.1)
    ensures IsInt32((r.0.page - 1) * r.0.pageSize) ==> r.1 == (r.0.page - 1) * r.0.pageSize
  {
    var params := NormalizePagination(page, pageSize);
    WrapFactor(params.page - 1, params.pageSize);
    (params, Wrap32(Wrap32(params.page - 1) * params.pageSize))
  }

  /** Page 21474838 of size 100 wraps the int32 offset product to a negative offset. */
  lemma AsWrittenOffsetGoesNegative()
    ensures GetPaginationInfoAsWritten(Some(21474838), Some(100)).1 == -2147483596
    ensures GetPaginationInfoAsWritten(Some(21474838), Some(100)).1 < 0
  {
    var params := NormalizePagination(Some(21474838), Some(100));
    assert params == PageParams(21474838, 100);
    assert Wrap32(21474837) == 21474837;
    assert Wrap32(2147483700) == -2147483596;
  }

  /** `GetPaginationInfo` with the offset computed at full width: the number of rows on
      the pages before the requested one, never negative. */
  function GetPaginationInfo(page: Option<int>, pageSize: Option<int>): (r: (PageParams, int))
    requires OptInt32(page) && OptInt32(pageSize)
    ensures r.0 == NormalizePagination(page, pageSize)
    ensures r.1 >= 0
    ensures r.1 % r.0.pageSize == 0 && r.1 / r.0.pageSize == r.0.page - 1
  {
    var params := NormalizePagination(page, pageSize);
    OffsetOfPage(params.page, params.pageSize);
    (params, (params.page - 1) * params.pageSize)
  }

  lemma OffsetOfPage(page: int, pageSize: int)
    requires page >= 1 && pageSize >= 1
    ensures (page - 1) * pageSize >= 0
    ensures ((page - 1) * pageSize) % pageSize == 0
    ensures ((page - 1) * pageSize) / pageSize == page - 1
  {
    Arith.MulNonNegative(page - 1, pageSize);
    Arith.DivAddSmall(page - 1, pageSize, 0);
  }

  /** `GetPageParams`: defaults 1 and 10, with sizes above 100 capped. */
  function GetPageParams(page: Option<int>, pageSize: Option<int>): (r: (int, int))
    requires OptInt32(page) && OptInt32(pageSize)
    ensures r.0 >= 1 && 1 <= r.1 <= MaxPageSize
  {
    var p := if page.Some? && page.value > 0 then page.value else DefaultPage;
    var ps := if pageSize.Some? && pageSize.value > 0 then
                (if pageSize.value > MaxPageSize then MaxPageSize else pageSize.value)
              else DefaultPageSize;
    (p, ps)
  }

  /** The two helpers agree: `GetPageParams` is `NormalizePagination` unpacked. */
  lemma GetPageParamsAgrees(page: Option<int>, pageSize: Option<int>)
    requires OptInt32(page) && OptInt32(pageSize)
    ensures GetPageParams(page, pageSize).0 == NormalizePagination(page, pageSize).page
    ensures GetPageParams(page, pageSize).1 == NormalizePagination(page, pageSize).pageSize
  {
  }

  /** The defaults used by the list endpoints that do not cap the size
      (KOL list, dashboard lists): non-positive values become 1 and 10. */
  function DefaultsNoCap(page: int, pageSize: int): (r: PageParams)
    ensures r.page >= 1 && r.pageSize >= 1
    ensures page > 0 ==> r.page == page
    ensures pageSize > 0 ==> r.pageSize == pageSize
    ensures page <= 0 ==> r.page == DefaultPage
    ensures pageSize <= 0 ==> r.pageSize == DefaultPageSize
  {
    PageParams(if page <= 0 then DefaultPage else page,
               if pageSize <= 0 then DefaultPageSize else pageSize)
  }
}

=== FILE: recharge_orders.dfy ===
/** Recharge orders: a user's request to top up a wallet, which an admin confirms
    (crediting the wallet) or rejects. The order moves pending -> confirmed | failed
    and never leaves a terminal status. */
module RechargeOrders {
  import opened Wrappers
  import Text
  import Wallet
  import Pagination

  datatype PaymentSetting = PaymentSetting(network: string, address: string, displayLabel: string, status: int)

  datatype RechargeOrder = RechargeOrder(
    orderID: string,
    userID: int,
    amount: int,
    paymentType: string,
    paymentSettingID: Option<int>,
    paymentNetwork: Option<string>,
    paymentAddress: Option<string>,
    paymentLabel: Option<string>,
    userCryptoAddress: Option<string>,
    cryptoTxHash: Option<string>,
    onlinePlatform: Option<string>,
    status: string,
    remark: Option<string>,
    failedReason: Option<string>,
    confirmedBy: Option<int>,
    confirmedAt: Option<int>)

  /** Orders keyed by order ID, the payment settings they snapshot, and the wallets. */
  datatype Store = Store(orders: map<string, RechargeOrder>, settings: map<int, PaymentSetting>, ledger: Wallet.Ledger)

  /** `RCHORD_<unix seconds>_<generator id>`: after the prefix, splitting at the
      underscore gives back the seconds and the generator ID in decimal. */
  function RechargeOrderID(unixSeconds: int, id: int): (r: string)
    ensures |r| > 7 && r[..7] == "RCHORD_"
    ensures Text.Split(r[7..], '_') == [Text.IntToString(unixSeconds), Text.IntToString(id)]
  {
    var parts := [Text.IntToString(unixSeconds), Text.IntToString(id)];
    Text.IntToStringAvoids(unixSeconds, '_');
    Text.IntToStringAvoids(id, '_');
    Text.SplitJoin(parts, '_');
    assert Text.Join(parts, '_') == parts[0] + "_" + parts[1];
    var r := "RCHORD_" + parts[0] + "_" + parts[1];
    assert r[7..] == Text.Join(parts, '_');
    r
  }

  /** Two orders made in the same second with different generator IDs get different order IDs. */
  lemma RechargeOrderIDDistinct(unixSeconds: int, id1: int, id2: int)
    requires id1 != id2
    ensures RechargeOrderID(unixSeconds, id1) != RechargeOrderID(unixSeconds, id2)
  {
    if RechargeOrderID(unixSeconds, id1) == RechargeOrderID(unixSeconds, id2) {
      Text.IntToStringInjective(id1, id2);
    }
  }

  function NewOrder(orderID: string, userID: int, amount: int, paymentType: string): RechargeOrder {
    RechargeOrder(orderID, userID, amount, paymentType, None, None, None, None, None, None, None,
                  "pending", None, None, None, None)
  }

  /** `CreateCryptoRechargeOrder`; `genID` is the outcome of the ID generator. */
  function CreateCryptoRechargeOrder(s: Store, userID: int, amount: int, settingID: int, userCryptoAddress: string,
                                     cryptoTxHash: Option<string>, remark: Option<string>,
                                     unixSeconds: int, genID: Result<int, string>)
    : (r: Result<(Store, RechargeOrder), string>)
    ensures amount <= 0 ==> r == Failure("invalid amount")
    ensures amount > 0 && userCryptoAddress == "" ==> r == Failure("user crypto address is required")
    ensures amount > 0 && userCryptoAddress != "" && settingID !in s.settings ==>
      r == Failure("payment setting not found")
    ensures amount > 0 && userCryptoAddress != "" && settingID in s.settings && s.settings[settingID].status != 1 ==>
      r == Failure("payment setting is not active")
    ensures r.Success? <==>
      amount > 0 && userCryptoAddress != "" && settingID in s.settings && s.settings[settingID].status == 1
      && genID.Success?
    ensures r.Success? ==> var (s', o) := r.value; var ps := s.settings[settingID];
      && o.orderID == RechargeOrderID(unixSeconds, genID.value)
      && s'.orders == s.orders[o.orderID := o]
      && s'.settings == s.settings && s'.ledger == s.ledger
      && o.status == "pending" && o.paymentType == "crypto"
      && o.userID == userID && o.amount == amount
      && o.paymentSettingID == Some(settingID)
      && o.paymentNetwork == Some(ps.network) && o.paymentAddress == Some(ps.address)
      && o.paymentLabel == Some(ps.displayLabel)
      && o.userCryptoAddress == Some(userCryptoAddress)
      && o.cryptoTxHash == cryptoTxHash && o.remark == remark
  {
    if amount <= 0 then Failure("invalid amount")
    else if userCryptoAddress == "" then Failure("user crypto address is required")
    else if settingID !in s.settings then Failure("payment setting not found")
    else if s.settings[settingID].status != 1 then Failure("payment setting is not active")
    else if genID.Failure? then Failure("failed to generate order ID: " + genID.error)
    else
      var ps := s.settings[settingID];
      var o := NewOrder(RechargeOrderID(unixSeconds, genID.value), userID, amount, "crypto").(
        paymentSettingID := Some(settingID), paymentNetwork := Some(ps.network),
        paymentAddress := Some(ps.address), paymentLabel := Some(ps.displayLabel),
        userCryptoAddress := Some(userCryptoAddress), cryptoTxHash := cryptoTxHash, remark := remark);
      Success((s.(orders := s.orders[o.orderID := o]), o))
  }

  /** `CreateOnlineRechargeOrder`: also returns the (always empty) payment URL. */
  function CreateOnlineRechargeOrder(s: Store, userID: int, amount: int, platform: string,
                                     unixSeconds: int, genID: Result<int, string>)
    : (r: Result<(Store, RechargeOrder, string), string>)
    ensures amount <= 0 ==> r == Failure("invalid amount")
    ensures r.Success? <==> amount > 0 && genID.Success?
    ensures r.Success? ==> var (s', o, url) := r.value;
      && o.orderID == RechargeOrderID(unixSeconds, genID.value)
      && s'.orders == s.orders[o.orderID := o]
      && s'.settings == s.settings && s'.ledger == s.ledger
      && o.status == "pending" && o.paymentType == "online"
      && o.userID == userID && o.amount == amount
      && o.onlinePlatform == Some(platform)
      && url == ""
  {
    if amount <= 0 then Failure("invalid amount")
    else if genID.Failure? then Failure("failed to generate order ID: " + genID.error)
    else
      var o := NewOrder(RechargeOrderID(unixSeconds, genID.value), userID, amount, "online").(
        onlinePlatform := Some(platform));
      Success((s.(orders := s.orders[o.orderID := o]), o, ""))
  }

  /** The page clamp of `GetMyRechargeOrders` and `GetAllRechargeOrders`. */
  function ClampPage(page: int, pageSize: int): (r: (int, int))
    ensures r.0 >= 1 && 1 <= r.1 <= 100
    ensures page >= 1 ==> r.0 == page
    ensures 1 <= pageSize <= 100 ==> r.1 == pageSize
  {
    var p := if page < 1 then 1 else page;
    var ps := if pageSize < 1 then 10 else pageSize;
    (p, if ps > 100 then 100 else ps)
  }

  /** The clamp is the shared pagination normalisation. */
  lemma ClampPageIsNormalize(page: int, pageSize: int)
    requires Pagination.IsInt32(page) && Pagination.IsInt32(pageSize)
    ensures ClampPage(page, pageSize).0 == Pagination.NormalizePaginationValue(page, pageSize).page
    ensures ClampPage(page, pageSize).1 == Pagination.NormalizePaginationValue(page, pageSize).pageSize
  {
  }

  /** `GetRechargeOrderDetail`: admins see every order, users only their own. */
  function GetRechargeOrderDetail(s: Store, userID: int, orderID: string, isAdmin: bool): (r: Result<RechargeOrder, string>)
    ensures r.Success? <==> orderID in s.orders && (isAdmin || s.orders[orderID].userID == userID)
    ensures r.Success? ==> r.value == s.orders[orderID]
    ensures orderID !in s.orders ==> r == Failure("recharge order not found")
    ensures orderID in s.orders && !isAdmin && s.orders[orderID].userID != userID ==>
      r == Failure("permission denied")
  {
    if orderID !in s.orders then Failure("recharge order not found")
    else if !isAdmin && s.orders[orderID].userID != userID then Failure("permission denied")
    else Success(s.orders[orderID])
  }

  /** The admin remark is appended on its own line, prefixed "[Admin]: ". */
  function MergeRemark(prior: Option<string>, remark: Option<string>): (r: Option<string>)
    ensures remark.None? || remark.value == "" ==> r == prior
    ensures remark.Some? && remark.value != "" ==>
      r.Some? && Text.EndsWith(r.value, "[Admin]: " + remark.value)
    ensures remark.Some? && remark.value != "" && prior.Some? && prior.value != "" ==>
      Text.StartsWith(r.value, prior.value + "\n")
    ensures remark.Some? && remark.value != "" && (prior.None? || prior.value == "") ==>
      r.value == "[Admin]: " + remark.value
  {
    if remark.Some? && remark.value != "" then
      if prior.Some? && prior.value != "" then
        var merged := prior.value + "\n[Admin]: " + remark.value;
        assert merged[|prior.value + "\n"|..] == "[Admin]: " + remark.value;
        assert merged[..|prior.value + "\n"|] == prior.value + "\n";
        Some(merged)
      else Some("[Admin]: " + remark.value)
    else prior
  }

  function NotPendingError(status: string): string {
    "recharge order is not in pending status, current status: " + status
  }

  /** The order fields a confirmation writes. */
  function Confirmed(o: RechargeOrder, adminUserID: int, cryptoTxHash: Option<string>, remark: Option<string>, now: int)
    : RechargeOrder
  {
    o.(status := "confirmed", confirmedBy := Some(adminUserID), confirmedAt := Some(now),
       cryptoTxHash := if cryptoTxHash.Some? && cryptoTxHash.value != "" then cryptoTxHash else o.cryptoTxHash,
       remark := MergeRemark(o.remark, remark))
  }

  /** `ConfirmRechargeOrder` as the service writes it: the order is saved as
      confirmed before the wallet is looked up, and those writes do not go through
      the transaction that is rolled back, so a missing wallet leaves a confirmed
      order with no credit. The state is returned with the outcome. */
  function ConfirmRechargeOrderAsWritten(s: Store, adminUserID: int, orderID: string,
                                         cryptoTxHash: Option<string>, remark: Option<string>, now: int)
    : (r: (Store, Result<RechargeOrder, string>))
    ensures orderID !in s.orders ==> r == (s, Failure("recharge order not found"))
    ensures orderID in s.orders && s.orders[orderID].status != "pending" ==>
      r == (s, Failure(NotPendingError(s.orders[orderID].status)))
    ensures r.1.Success? <==>
      orderID in s.orders && s.orders[orderID].status == "pending" && s.orders[orderID].userID in s.ledger.wallets
    ensures orderID in s.orders && s.orders[orderID].status == "pending" ==>
      r.0.orders == s.orders[orderID := Confirmed(s.orders[orderID], adminUserID, cryptoTxHash, remark, now)]
  {
    if orderID !in s.orders then (s, Failure("recharge order not found"))
    else
      var o := s.orders[orderID];
      if o.status != "pending" then (s, Failure(NotPendingError(o.status)))
      else
        var o' := Confirmed(o, adminUserID, cryptoTxHash, remark, now);
        var s1 := s.(orders := s.orders[orderID := o']);
        if o.userID !in s.ledger.wallets then (s1, Failure("failed to get user wallet: record not found"))
        else (s1.(ledger := Credit(s.ledger, o.userID, o.amount)), Success(o'))
  }

  /** The plain read-modify-write of the wallet: balance and total recharge both rise. */
  function Credit(l: Wallet.Ledger, userID: int, amount: int): (r: Wallet.Ledger)
    requires userID in l.wallets
    ensures r.txs == l.txs && r.wallets.Keys == l.wallets.Keys
    ensures r.wallets[userID].balance == l.wallets[userID].balance + amount
    ensures r.wallets[userID].totalRecharge == l.wallets[userID].totalRecharge + amount
    ensures r.wallets[userID].frozenBalance == l.wallets[userID].frozenBalance
    ensures r.wallets[userID].totalConsume == l.wallets[userID].totalConsume
    ensures forall u | u in l.wallets && u != userID :: r.wallets[u] == l.wallets[u]
  {
    var w := l.wallets[userID];
    l.(wallets := l.wallets[userID := w.(balance := w.balance + amount, totalRecharge := w.totalRecharge + amount)])
  }

  /** A pending order whose owner has no wallet: the as-written confirmation fails,
      yet the order is left confirmed. */
  lemma AsWrittenConfirmLeavesOrderConfirmed()
    ensures var o := NewOrder("RCHORD_1_1", 7, 100, "online");
      var s := Store(map["RCHORD_1_1" := o], map[], Wallet.Ledger(map[], []));
      var r := ConfirmRechargeOrderAsWritten(s, 1, "RCHORD_1_1", None, None, 0);
      && r.1.Failure?
      && r.0.orders["RCHORD_1_1"].status == "confirmed"
  {
  }

  /** `ConfirmRechargeOrder` with the wallet looked up before anything is written,
      so every failure leaves the store as it was. */
  function ConfirmRechargeOrder(s: Store, adminUserID: int, orderID: string,
                                cryptoTxHash: Option<string>, remark: Option<string>, now: int)
    : (r: Result<(Store, RechargeOrder), string>)
    ensures orderID !in s.orders ==> r == Failure("recharge order not found")
    ensures orderID in s.orders && s.orders[orderID].status != "pending" ==>
      r == Failure(NotPendingError(s.orders[orderID].status))
    ensures r.Success? <==>
      orderID in s.orders && s.orders[orderID].status == "pending" && s.orders[orderID].userID in s.ledger.wallets
    ensures r.Success? ==> var (s', o') := r.value; var o := s.orders[orderID];
      && s'.orders == s.orders[orderID := o']
      && o'.status == "confirmed" && o'.confirmedBy == Some(adminUserID) && o'.confirmedAt == Some(now)
      && o'.amount == o.amount && o'.userID == o.userID && o'.orderID == o.orderID
      && (cryptoTxHash.Some? && cryptoTxHash.value != "" ==> o'.cryptoTxHash == cryptoTxHash)
      && (cryptoTxHash.None? || cryptoTxHash.value == "" ==> o'.cryptoTxHash == o.cryptoTxHash)
      && o'.remark == MergeRemark(o.remark, remark)
      && s'.settings == s.settings
      && s'.ledger.wallets.Keys == s.ledger.wallets.Keys
      && s'.ledger.wallets[o.userID].balance == s.ledger.wallets[o.userID].balance + o.amount
      && s'.ledger.wallets[o.userID].totalRecharge == s.ledger.wallets[o.userID].totalRecharge + o.amount
      && (forall u | u in s.ledger.wallets && u != o.userID :: s'.ledger.wallets[u] == s.ledger.wallets[u])
    ensures r.Success? ==> var (s', o') := r.value; var o := s.orders[orderID];
      && s'.ledger.txs == s.ledger.txs
      && s'.ledger.wallets[o.userID].frozenBalance == s.ledger.wallets[o.userID].frozenBalance
      && s'.ledger.wallets[o.userID].totalConsume == s.ledger.wallets[o.userID].totalConsume
      && o' == o.(status := "confirmed", confirmedBy := Some(adminUserID), confirmedAt := Some(now),
                  cryptoTxHash := o'.cryptoTxHash, remark := o'.remark)
  {
    if orderID !in s.orders then Failure("recharge order not found")
    else
      var o := s.orders[orderID];
      if o.status != "pending" then Failure(NotPendingError(o.status))
      else if o.userID !in s.ledger.wallets then Failure("failed to get user wallet: record not found")
      else
        var o' := Confirmed(o, adminUserID, cryptoTxHash, remark, now);
        Success((Store(s.orders[orderID := o'], s.settings, Credit(s.ledger, o.userID, o.amount)), o'))
  }

  /** On every input where the as-written confirmation succeeds, the corrected one
      reaches the same state. */
  lemma ConfirmAgreesWhenWalletExists(s: Store, adminUserID: int, orderID: string,
                                      cryptoTxHash: Option<string>, remark: Option<string>, now: int)
    requires ConfirmRechargeOrderAsWritten(s, adminUserID, orderID, cryptoTxHash, remark, now).1.Success?
    ensures ConfirmRechargeOrder(s, adminUserID, orderID, cryptoTxHash, remark, now).Success?
    ensures ConfirmRechargeOrder(s, adminUserID, orderID, cryptoTxHash, remark, now).value.0
         == ConfirmRechargeOrderAsWritten(s, adminUserID, orderID, cryptoTxHash, remark, now).0
  {
  }

  /** `RejectRechargeOrder`: a reason is required before the order is even looked up. */
  function RejectRechargeOrder(s: Store, adminUserID: int, orderID: string, failedReason: string)
    : (r: Result<(Store, RechargeOrder), string>)
    ensures failedReason == "" ==> r == Failure("failed reason is required")
    ensures failedReason != "" && orderID !in s.orders ==> r == Failure("recharge order not found")
    ensures failedReason != "" && orderID in s.orders && s.orders[orderID].status != "pending" ==>
      r == Failure(NotPendingError(s.orders[orderID].status))
    ensures r.Success? <==> failedReason != "" && orderID in s.orders && s.orders[orderID].status == "pending"
    ensures r.Success? ==> var (s', o') := r.value;
      && o' == s.orders[orderID].(status := "failed", failedReason := Some(failedReason))
      && s'.orders == s.orders[orderID := o']
      && s'.settings == s.settings && s'.ledger == s.ledger
  {
    if failedReason == "" then Failure("failed reason is required")
    else if orderID !in s.orders then Failure("recharge order not found")
    else
      var o := s.orders[orderID];
      if o.status != "pending" then Failure(NotPendingError(o.status))
      else
        var o' := o.(status := "failed", failedReason := Some(failedReason));
        Success((s.(orders := s.orders[orderID := o']), o'))
  }

  /** Terminal orders are frozen: neither confirm nor reject touches an order that
      is no longer pending, and the one that succeeds leaves it non-pending. */
  lemma TerminalOrdersNeverChange(s: Store, adminUserID: int, orderID: string,
                                  cryptoTxHash: Option<string>, remark: Option<string>, reason: string, now: int)
    requires orderID in s.orders && s.orders[orderID].status != "pending"
    ensures ConfirmRechargeOrder(s, adminUserID, orderID, cryptoTxHash, remark, now).Failure?
    ensures ConfirmRechargeOrderAsWritten(s, adminUserID, orderID, cryptoTxHash, remark, now).0 == s
    ensures RejectRechargeOrder(s, adminUserID, orderID, reason).Failure?
  {
  }

  /** Every stored order carries a positive amount: the create guards ensure it. */
  predicate PositiveAmounts(s: Store) {
    forall k | k in s.orders :: s.orders[k].amount > 0
  }

  /** Creating orders keeps every amount positive. */
  lemma CreatePreservesPositiveAmounts(s: Store, userID: int, amount: int, settingID: int, addr: string,
                                       hash: Option<string>, remark: Option<string>, platform: string,
                                       unixSeconds: int, genID: Result<int, string>)
    requires PositiveAmounts(s)
    ensures CreateCryptoRechargeOrder(s, userID, amount, settingID, addr, hash, remark, unixSeconds, genID).Success? ==>
      PositiveAmounts(CreateCryptoRechargeOrder(s, userID, amount, settingID, addr, hash, remark, unixSeconds, genID).value.0)
    ensures CreateOnlineRechargeOrder(s, userID, amount, platform, unixSeconds, genID).Success? ==>
      PositiveAmounts(CreateOnlineRechargeOrder(s, userID, amount, platform, unixSeconds, genID).value.0)
  {
  }

  /** With positive order amounts, confirming never makes a wallet negative even
      though it bypasses the conditional update. */
  lemma ConfirmPreservesNonNegative(s: Store, adminUserID: int, orderID: string,
                                    cryptoTxHash: Option<string>, remark: Option<string>, now: int)
    requires PositiveAmounts(s) && Wallet.NonNegative(s.ledger)
    requires ConfirmRechargeOrder(s, adminUserID, orderID, cryptoTxHash, remark, now).Success?
    ensures Wallet.NonNegative(ConfirmRechargeOrder(s, adminUserID, orderID, cryptoTxHash, remark, now).value.0.ledger)
    ensures PositiveAmounts(ConfirmRechargeOrder(s, adminUserID, orderID, cryptoTxHash, remark, now).value.0)
  {
    var o := s.orders[orderID];
    var o' := Confirmed(o, adminUserID, cryptoTxHash, remark, now);
    var l' := Credit(s.ledger, o.userID, o.amount);
    var s' := Store(s.orders[orderID := o'], s.settings, l');
    assert ConfirmRechargeOrder(s, adminUserID, orderID, cryptoTxHash, remark, now).value.0 == s';
    forall u | u in l'.wallets ensures l'.wallets[u].balance >= 0 && l'.wallets[u].frozenBalance >= 0 {
      assert u in s.ledger.wallets;
    }
    forall k | k in s'.orders ensures s'.orders[k].amount > 0 {
      assert k == orderID || s'.orders[k] == s.orders[k];
    }
  }
}

=== FILE: roles.dfy ===
/** User roles, and the user row as the services read it. */
module Roles {
  import opened Wrappers

  /** `UserRole` is an open string type: any string is a role value, only two are valid. */
  const RoleNormal: string := "normal"
  const RoleAdmin: string := "admin"

  /** `String`: the role's underlying string. */
  function RoleString(role: string): (r: string)
    ensures |r| == |role| && forall i | 0 <= i < |r| :: r[i] == role[i]
  {
    role
  }

  predicate IsValid(role: string) {
    role == RoleNormal || role == RoleAdmin
  }

  predicate IsAdmin(role: string) {
    role == RoleAdmin
  }

  predicate IsNormal(role: string) {
    role == RoleNormal
  }

  /** `AllRoles`: normal then admin. */
  function AllRoles(): (r: seq<string>)
    ensures |r| == 2 && r[0] == RoleNormal && r[1] == RoleAdmin
    ensures forall x | x in r :: IsValid(x)
    ensures forall x :: IsValid(x) <==> x in r
  {
    [RoleNormal, RoleAdmin]
  }

  /** The three predicates partition the strings: a role is valid exactly when it
      is admin or normal, and never both. */
  lemma RolePredicatesPartition(role: string)
    ensures IsValid(role) <==> IsAdmin(role) || IsNormal(role)
    ensures !(IsAdmin(role) && IsNormal(role))
    ensures IsValid(RoleString(role)) <==> IsValid(role)
  {
  }

  /** The user columns the modelled services read and write. */
  datatype User = User(
    email: Option<string>,
    walletAddress: Option<string>,
    nickname: Option<string>,
    role: string,
    status: string,
    kolID: Option<int>)
}

=== FILE: sorting.dfy ===
/** Ordering rows by a timestamp column, as the repositories' `ORDER BY ... DESC`
    clauses do, and keeping the rows that satisfy a `WHERE` predicate. */
module Sorting {
  import opened Wrappers

  predicate SortedDescBy<T>(s: seq<T>, key: T -> int) {
    forall i, j | 0 <= i < j < |s| :: key(s[i]) >= key(s[j])
  }

  /** Inserts `x` before the first element whose key is strictly smaller, so it
      lands after every element whose key equals its own. */
  function InsertDescBy<T>(x: T, s: seq<T>, key: T -> int): (r: seq<T>)
    requires SortedDescBy(s, key)
    ensures SortedDescBy(r, key)
    ensures multiset(r) == multiset(s) + multiset{x}
    ensures |r| == |s| + 1
    ensures forall y | y in r :: y == x || y in s
    decreases |s|
  {
    if |s| == 0 || key(x) > key(s[0]) then
      [x] + s
    else
      var tail := InsertDescBy(x, s[1..], key);
      InsertBelowHead(x, s, tail, key);
      [s[0]] + tail
  }

  /** Putting the head of `s` back in front of `x` inserted into the rest keeps
      the order and adds exactly `x`. */
  lemma InsertBelowHead<T>(x: T, s: seq<T>, tail: seq<T>, key: T -> int)
    requires SortedDescBy(s, key) && |s| > 0 && key(x) <= key(s[0])
    requires SortedDescBy(tail, key) && forall y | y in tail :: y == x || y in s[1..]
    requires multiset(tail) == multiset(s[1..]) + multiset{x}
    ensures SortedDescBy([s[0]] + tail, key)
    ensures multiset([s[0]] + tail) == multiset(s) + multiset{x}
    ensures forall y | y in [s[0]] + tail :: y == x || y in s
  {
    assert s == [s[0]] + s[1..];
    forall k | 0 <= k < |tail|
      ensures key(s[0]) >= key(tail[k])
    {
      assert tail[k] in tail;
      if tail[k] != x {
        var j :| 0 <= j < |s[1..]| && s[1..][j] == tail[k];
        assert s[j + 1] == tail[k];
      }
    }
    var r := [s[0]] + tail;
    forall i, j | 0 <= i < j < |r|
      ensures key(r[i]) >= key(r[j])
    {
      assert r[j] == tail[j - 1];
      if i > 0 {
        assert r[i] == tail[i - 1];
      }
    }
  }

  /** An insertion sort on the key, descending. Rows with equal keys come out in
      the reverse of their input order; `ORDER BY` leaves their order open. */
  function SortDescBy<T>(s: seq<T>, key: T -> int): (r: seq<T>)
    ensures SortedDescBy(r, key)
    ensures multiset(r) == multiset(s)
    ensures |r| == |s|
    ensures forall x | x in r :: x in s
    decreases |s|
  {
    if |s| == 0 then []
    else
      var rest := SortDescBy(s[1..], key);
      assert s == [s[0]] + s[1..];
      InsertDescBy(s[0], rest, key)
  }

  /** The elements satisfying `p`, in their original order. */
  function Filter<T>(s: seq<T>, p: T -> bool): (r: seq<T>)
    ensures |r| <= |s|
    ensures forall x | x in r :: p(x) && x in s
    ensures forall x | x in s && p(x) :: x in r
    ensures multiset(r) <= multiset(s)
    decreases |s|
  {
    if |s| == 0 then []
    else
      assert s == [s[0]] + s[1..];
      (if p(s[0]) then [s[0]] else []) + Filter(s[1..], p)
  }

  /** The filtered multiset is exactly the matching part of the original. */
  lemma {:induction false} FilterCount<T>(s: seq<T>, p: T -> bool, x: T)
    ensures multiset(Filter(s, p))[x] == if p(x) then multiset(s)[x] else 0
    decreases |s|
  {
    if |s| > 0 {
      assert s == [s[0]] + s[1..];
      FilterCount(s[1..], p, x);
    }
  }

  /** `FilterCount` for every element at once. */
  lemma FilterMultiset<T>(s: seq<T>, p: T -> bool)
    ensures forall x :: multiset(Filter(s, p))[x] == if p(x) then multiset(s)[x] else 0
  {
    forall x
      ensures multiset(Filter(s, p))[x] == if p(x) then multiset(s)[x] else 0
    {
      FilterCount(s, p, x);
    }
  }

  /** The rows `[offset, offset + limit)` of a list, as SQL `OFFSET`/`LIMIT` select them. */
  function Window<T>(rows: seq<T>, offset: nat, limit: nat): (r: seq<T>)
    ensures |r| <= limit
    ensures offset <= |rows| ==> |r| == if offset + limit <= |rows| then limit else |rows| - offset
    ensures forall i | 0 <= i < |r| :: offset + i < |rows| && r[i] == rows[offset + i]
    ensures forall x | x in r :: x in rows
  {
    if offset >= |rows| then []
    else if offset + limit >= |rows| then rows[offset..]
    else rows[offset..offset + limit]
  }

  /** Each row inside a window's bounds is in the window, at its offset. */
  lemma WindowAt<T>(rows: seq<T>, offset: nat, limit: nat, k: nat)
    requires k < limit && offset + k < |rows|
    ensures k < |Window(rows, offset, limit)| && Window(rows, offset, limit)[k] == rows[offset + k]
  {
  }

  /** A window of a sorted list is sorted. */
  lemma WindowSorted<T>(rows: seq<T>, offset: nat, limit: nat, key: T -> int)
    requires SortedDescBy(rows, key)
    ensures SortedDescBy(Window(rows, offset, limit), key)
  {
    var w := Window(rows, offset, limit);
    forall i, j | 0 <= i < j < |w| ensures key(w[i]) >= key(w[j]) {
      assert w[i] == rows[offset + i] && w[j] == rows[offset + j];
    }
  }

  /** The index of the first element satisfying `p`, as a `First()` query over rows
      in primary-key order finds it. */
  function FindFirst<T>(s: seq<T>, p: T -> bool): (r: Option<nat>)
    ensures r.Some? ==> r.value < |s| && p(s[r.value])
    ensures r.Some? ==> forall j | 0 <= j < r.value :: !p(s[j])
    ensures r.None? <==> forall j | 0 <= j < |s| :: !p(s[j])
    decreases |s|
  {
    if |s| == 0 then None
    else if p(s[0]) then Some(0)
    else
      match FindFirst(s[1..], p)
      case None => None
      case Some(i) => Some(i + 1)
  }
}

=== FILE: teams.dfy ===
/** The team service: creating and editing teams, and the invitation life cycle
    `pending -> accepted | rejected`. Membership is a table from (team, user) to
    a role string; invitations are found by their code. Times are integers in
    seconds; the clock reading is a parameter. */
module Teams {
  import opened Wrappers
  import Text
  import Roles
  import UrlWhitelist
  import Upload

  /** The API's role enumeration; `OtherRole` stands for any other enum value. */
  datatype TeamRole = Creator | Owner | Member | OtherRole

  /** `convertRoleToString`: unknown roles are stored as `member`. */
  function RoleToString(role: TeamRole): (r: string)
    ensures r in {"creator", "owner", "member"}
    ensures role == OtherRole ==> r == "member"
  {
    match role
    case Creator => "creator"
    case Owner => "owner"
    case Member => "member"
    case OtherRole => "member"
  }

  /** `convertStringToRole`: unknown strings read as `member`. */
  function StringToRole(s: string): (r: TeamRole)
    ensures r != OtherRole
    ensures s !in {"creator", "owner"} ==> r == Member
  {
    if s == "creator" then Creator
    else if s == "owner" then Owner
    else Member
  }

  /** The two converters are inverse on the three named roles, and every stored
      role string survives a read and a write. */
  lemma RoleRoundTrip(role: TeamRole, s: string)
    ensures role != OtherRole ==> StringToRole(RoleToString(role)) == role
    ensures StringToRole(RoleToString(OtherRole)) == Member
    ensures s in {"creator", "owner", "member"} ==> RoleToString(StringToRole(s)) == s
  {
  }

  /** The invitation statuses of the API. */
  datatype InvitationStatus = Pending | Accepted | Rejected | Expired

  /** The stored name of each status. */
  function StatusName(status: InvitationStatus): (r: string)
    ensures r in {"pending", "accepted", "rejected", "expired"}
  {
    match status
    case Pending => "pending"
    case Accepted => "accepted"
    case Rejected => "rejected"
    case Expired => "expired"
  }

  /** `convertStringToInvitationStatus`: unknown strings read as pending. */
  function StringToInvitationStatus(s: string): (r: InvitationStatus)
    ensures s !in {"accepted", "rejected", "expired"} ==> r == Pending
  {
    if s == "accepted" then Accepted
    else if s == "rejected" then Rejected
    else if s == "expired" then Expired
    else Pending
  }

  lemma StatusRoundTrip(status: InvitationStatus)
    ensures StringToInvitationStatus(StatusName(status)) == status
  {
  }

  datatype Team = Team(id: int, name: string, iconURL: Option<string>, creatorID: int)

  datatype Invitation = Invitation(
    teamID: int,
    inviterID: int,
    inviteeEmail: Option<string>,
    inviteeWallet: Option<string>,
    role: string,
    status: string,
    code: string,
    expiresAt: int)

  /** The team tables and the user table they consult. */
  datatype Store = Store(
    teams: map<int, Team>,
    members: map<(int, int), string>,
    invitations: map<string, Invitation>,
    users: map<int, Roles.User>)

  const MaxTeamNameLength := 20
  const NameTooLong := "team name cannot exceed 20 characters"

  /** Seven days, in seconds. */
  const InvitationLifetime := 7 * 24 * 60 * 60

  /** Inserting a member row. The table has no uniqueness constraint on the pair
      and lookups read the oldest row, so a second row for a pair is invisible. */
  function AddMember(members: map<(int, int), string>, teamID: int, userID: int, role: string)
    : (r: map<(int, int), string>)
    ensures (teamID, userID) in r
    ensures (teamID, userID) !in members ==> r[(teamID, userID)] == role
    ensures forall k | k in members :: k in r && r[k] == members[k]
    ensures forall k | k in r :: k in members || k == (teamID, userID)
  {
    if (teamID, userID) in members then members else members[(teamID, userID) := role]
  }

  /** `checkTeamEditPermission`: creators and owners may edit; a non-member simply
      may not. */
  function CanEdit(st: Store, teamID: int, userID: int): (r: bool)
    ensures r ==> (teamID, userID) in st.members
    ensures r <==> (teamID, userID) in st.members && StringToRole(st.members[(teamID, userID)]) in {Creator, Owner}
  {
    (teamID, userID) in st.members && st.members[(teamID, userID)] in {"creator", "owner"}
  }

  /** The key is unused, both in the team table and in member rows. */
  predicate FreshTeamID(st: Store, teamID: int) {
    teamID !in st.teams && forall k | k in st.members :: k.0 != teamID
  }

  /** `CreateTeam`: names longer than 20 bytes are refused; the caller joins as
      creator. `teamID` is the row's fresh auto-increment key. */
  function CreateTeam(st: Store, userID: int, name: string, iconURL: Option<string>, teamID: int)
    : (r: Result<(Store, Team), string>)
    requires FreshTeamID(st, teamID)
    ensures |name| > MaxTeamNameLength ==> r == Failure(NameTooLong)
    ensures r.Success? <==> |name| <= MaxTeamNameLength
    ensures r.Success? ==> var (st', t) := r.value;
      && t == Team(teamID, name, iconURL, userID)
      && st'.teams == st.teams[teamID := t]
      && st'.members == st.members[(teamID, userID) := "creator"]
      && st'.invitations == st.invitations && st'.users == st.users
  {
    if |name| > MaxTeamNameLength then Failure(NameTooLong)
    else
      var t := Team(teamID, name, iconURL, userID);
      Success((st.(teams := st.teams[teamID := t], members := AddMember(st.members, teamID, userID, "creator")), t))
  }

  /** The creator of a new team may edit it, and nobody else may yet. */
  lemma CreatorCanEdit(st: Store, userID: int, name: string, iconURL: Option<string>, teamID: int, other: int)
    requires FreshTeamID(st, teamID)
    requires CreateTeam(st, userID, name, iconURL, teamID).Success?
    ensures CanEdit(CreateTeam(st, userID, name, iconURL, teamID).value.0, teamID, userID)
    ensures other != userID ==> !CanEdit(CreateTeam(st, userID, name, iconURL, teamID).value.0, teamID, other)
  {
  }

  /** What a panicking slice expression becomes in the model. */
  const SlicePanic := "runtime error: slice bounds out of range"

  /** The team-icon check of `UpdateTeam` as written: after validation and the
      existence probe, the path is cut off at the length of the public prefix,
      even for a whitelisted URL that does not carry that prefix. */
  function TeamIconCheckAsWritten(publicURL: string, whitelist: seq<string>, url: string, iconExists: bool)
    : (r: Result<(), string>)
    ensures r.Success? ==> Upload.ValidateImageURL(publicURL, whitelist, url).0 && iconExists
    ensures r.Success? ==> (|UrlWhitelist.PublicPrefix(publicURL)| <= |url|
      && Upload.GetImageTypeFromPath(url[|UrlWhitelist.PublicPrefix(publicURL)|..]) == Upload.TeamIcon)
  {
    var (ok, msg) := Upload.ValidateImageURL(publicURL, whitelist, url);
    if !ok then Failure("invalid icon URL: " + msg)
    else if !iconExists then Failure("icon image does not exist or is not accessible")
    else
      var n := |Upload.GeneratePublicURL(publicURL, "")|;
      if n > |url| then Failure(SlicePanic)
      else if Upload.GetImageTypeFromPath(url[n..]) != Upload.TeamIcon then Failure("image type must be team icon")
      else Success(())
  }

  /** A whitelisted icon shorter than the public prefix passes validation and then
      crashes the slice: with an R2-style public URL and a GitHub raw URL. */
  lemma AsWrittenWhitelistedIconPanics()
    ensures var publicURL := "https://pub-0123456789abcdef0123456789abcdef.r2.dev";
      var url := "https://raw.githubusercontent.com/o/r/main/icon.png";
      && Upload.ValidateImageURL(publicURL, UrlWhitelist.DefaultWhitelist, url).0
      && TeamIconCheckAsWritten(publicURL, UrlWhitelist.DefaultWhitelist, url, true) == Failure(SlicePanic)
      && TeamIconCheck(publicURL, UrlWhitelist.DefaultWhitelist, url, true) == Success(())
  {
    var publicURL := "https://pub-0123456789abcdef0123456789abcdef.r2.dev";
    var url := "https://raw.githubusercontent.com/o/r/main/icon.png";
    var w := UrlWhitelist.DefaultWhitelist;
    assert Text.StartsWith(url, w[0]);
    assert Text.TrimRight(publicURL, '/') == publicURL;
    assert |UrlWhitelist.PublicPrefix(publicURL)| == 52 && |url| == 51;
  }

  /** The team-icon check as evidently intended: only a URL under the public
      prefix names a stored path whose directory can be inspected; whitelisted
      external URLs are accepted as `ValidateImageURL` accepts them. */
  function TeamIconCheck(publicURL: string, whitelist: seq<string>, url: string, iconExists: bool)
    : (r: Result<(), string>)
    ensures r.Success? <==>
      && Upload.ValidateImageURL(publicURL, whitelist, url).0 && iconExists
      && (publicURL != "" && Text.StartsWith(url, UrlWhitelist.PublicPrefix(publicURL)) ==>
            Text.StartsWith(url[|UrlWhitelist.PublicPrefix(publicURL)|..], "team-icons/"))
  {
    var (ok, msg) := Upload.ValidateImageURL(publicURL, whitelist, url);
    if !ok then Failure("invalid icon URL: " + msg)
    else if !iconExists then Failure("icon image does not exist or is not accessible")
    else
      var prefix := UrlWhitelist.PublicPrefix(publicURL);
      if publicURL != "" && Text.StartsWith(url, prefix)
         && Upload.GetImageTypeFromPath(url[|prefix|..]) != Upload.TeamIcon
      then Failure("image type must be team icon")
      else Success(())
  }

  /** The two checks agree on URLs under the public prefix, where the slice is
      exactly the stored path. */
  lemma IconChecksAgreeUnderPublicPrefix(publicURL: string, whitelist: seq<string>, url: string, iconExists: bool)
    requires publicURL != "" && Text.StartsWith(url, UrlWhitelist.PublicPrefix(publicURL))
    ensures TeamIconCheckAsWritten(publicURL, whitelist, url, iconExists).Success?
        <==> TeamIconCheck(publicURL, whitelist, url, iconExists).Success?
  {
  }

  /** `UpdateTeam`: the name bound, edit permission, the team's existence and, for
      a non-empty icon URL, the icon checks; an empty icon URL clears the icon.
      The icon check is the corrected `TeamIconCheck`, not `TeamIconCheckAsWritten`. */
  function UpdateTeam(st: Store, userID: int, teamID: int, name: Option<string>, iconURL: Option<string>,
                      publicURL: string, whitelist: seq<string>, iconExists: bool)
    : (r: Result<(Store, Team), string>)
    ensures name.Some? && |name.value| > MaxTeamNameLength ==> r == Failure(NameTooLong)
    ensures r.Success? ==> CanEdit(st, teamID, userID) && teamID in st.teams
    ensures (name.None? || |name.value| <= MaxTeamNameLength) && !CanEdit(st, teamID, userID) ==>
      r == Failure("access denied: insufficient permissions")
    ensures r.Success? <==>
      && (name.None? || |name.value| <= MaxTeamNameLength)
      && CanEdit(st, teamID, userID) && teamID in st.teams
      && (iconURL.Some? && iconURL.value != "" ==>
            TeamIconCheck(publicURL, whitelist, iconURL.value, iconExists).Success?)
    ensures r.Success? ==> var (st', t) := r.value;
      && t.id == st.teams[teamID].id && t.creatorID == st.teams[teamID].creatorID
      && t.name == name.GetOr(st.teams[teamID].name)
      && t.iconURL == (if iconURL.Some? then iconURL else st.teams[teamID].iconURL)
      && st' == st.(teams := st.teams[teamID := t])
  {
    if name.Some? && |name.value| > MaxTeamNameLength then Failure(NameTooLong)
    else if !CanEdit(st, teamID, userID) then Failure("access denied: insufficient permissions")
    else if teamID !in st.teams then Failure("team not found")
    else
      var t := st.teams[teamID];
      var t1 := if name.Some? then t.(name := name.value) else t;
      var check := if iconURL.Some? && iconURL.value != "" then TeamIconCheck(publicURL, whitelist, iconURL.value, iconExists)
                   else Success(());
      if check.Failure? then Failure(check.error)
      else
        var t2 := if iconURL.Some? then t1.(iconURL := iconURL) else t1;
        Success((st.(teams := st.teams[teamID := t2]), t2))
  }

  /** Emails and wallet addresses are unique among users (unique indexes). */
  predicate UniqueContacts(users: map<int, Roles.User>) {
    && (forall a, b | a in users && b in users && users[a].email.Some? && users[a].email == users[b].email :: a == b)
    && (forall a, b | a in users && b in users && users[a].walletAddress.Some?
          && users[a].walletAddress == users[b].walletAddress :: a == b)
  }

  /** `GetUserByEmail`. */
  function UserByEmail(users: map<int, Roles.User>, email: string): (r: Option<int>)
    requires UniqueContacts(users)
    ensures r.Some? <==> exists id | id in users :: users[id].email == Some(email)
    ensures r.Some? ==> r.value in users && users[r.value].email == Some(email)
  {
    if exists id | id in users :: users[id].email == Some(email) then
      var id :| id in users && users[id].email == Some(email);
      Some(id)
    else None
  }

  /** `GetUserByWalletAddress`. */
  function UserByWallet(users: map<int, Roles.User>, wallet: string): (r: Option<int>)
    requires UniqueContacts(users)
    ensures r.Some? <==> exists id | id in users :: users[id].walletAddress == Some(wallet)
    ensures r.Some? ==> r.value in users && users[r.value].walletAddress == Some(wallet)
  {
    if exists id | id in users :: users[id].walletAddress == Some(wallet) then
      var id :| id in users && users[id].walletAddress == Some(wallet);
      Some(id)
    else None
  }

  /** `generateInvitationCode`: `inv_` and the clock in nanoseconds. */
  function InvitationCode(nanos: int): (r: string)
    ensures Text.StartsWith(r, "inv_")
    ensures r[4..] == Text.IntToString(nanos)
  {
    "inv_" + Text.IntToString(nanos)
  }

  /** Distinct clock readings give distinct codes. */
  lemma InvitationCodeInjective(a: int, b: int)
    requires InvitationCode(a) == InvitationCode(b)
    ensures a == b
  {
    assert InvitationCode(a)[4..] == InvitationCode(b)[4..];
    Text.IntToStringInjective(a, b);
  }

  /** Who an invitation is for: an email wins over a wallet address. */
  function ResolveInvitee(users: map<int, Roles.User>, email: Option<string>, wallet: Option<string>)
    : (r: Result<int, string>)
    requires UniqueContacts(users)
    ensures r.Success? ==> r.value in users
    ensures email.Some? ==> (r.Success? <==> UserByEmail(users, email.value).Some?)
    ensures email.Some? && r.Success? ==> users[r.value].email == email
    ensures email.None? && wallet.Some? ==> (r.Success? <==> UserByWallet(users, wallet.value).Some?)
    ensures email.None? && wallet.Some? && r.Success? ==> users[r.value].walletAddress == wallet
    ensures email.None? && wallet.None? ==> r == Failure("either email or wallet address must be provided")
  {
    if email.Some? then
      match UserByEmail(users, email.value)
      case None => Failure("user not found with this email")
      case Some(id) => Success(id)
    else if wallet.Some? then
      match UserByWallet(users, wallet.value)
      case None => Failure("user not found with this wallet address")
      case Some(id) => Success(id)
    else Failure("either email or wallet address must be provided")
  }

  /** Inserting an invitation row: a lookup by code reads the oldest row. */
  function AddInvitation(invitations: map<string, Invitation>, inv: Invitation): (r: map<string, Invitation>)
    ensures inv.code in r
    ensures inv.code !in invitations ==> r == invitations[inv.code := inv]
    ensures inv.code in invitations ==> r == invitations
  {
    if inv.code in invitations then invitations else invitations[inv.code := inv]
  }

  /** `InviteUser`: the inviter must be able to edit the team, the invitee must
      exist and not be a member yet; the invitation is pending for seven days. */
  function InviteUser(st: Store, userID: int, teamID: int, email: Option<string>, wallet: Option<string>,
                      role: TeamRole, nanos: int, now: int)
    : (r: Result<(Store, Invitation), string>)
    requires UniqueContacts(st.users)
    ensures !CanEdit(st, teamID, userID) ==> r == Failure("access denied: insufficient permissions to invite users")
    ensures r.Success? <==>
      && CanEdit(st, teamID, userID)
      && ResolveInvitee(st.users, email, wallet).Success?
      && (teamID, ResolveInvitee(st.users, email, wallet).value) !in st.members
    ensures r.Success? ==> var (st', inv) := r.value;
      && inv == Invitation(teamID, userID, email, wallet, RoleToString(role), "pending", InvitationCode(nanos),
                           now + InvitationLifetime)
      && st' == st.(invitations := AddInvitation(st.invitations, inv))
  {
    if !CanEdit(st, teamID, userID) then Failure("access denied: insufficient permissions to invite users")
    else match ResolveInvitee(st.users, email, wallet)
      case Failure(e) => Failure(e)
      case Success(invitee) =>
        if (teamID, invitee) in st.members then Failure("user is already a team member")
        else
          var inv := Invitation(teamID, userID, email, wallet, RoleToString(role), "pending", InvitationCode(nanos),
                                now + InvitationLifetime);
          Success((st.(invitations := AddInvitation(st.invitations, inv)), inv))
  }

  /** An invitation's email and wallet, when given, must be the user's own. */
  predicate IdentityMatches(inv: Invitation, user: Roles.User) {
    && (inv.inviteeEmail.Some? ==> user.email == inv.inviteeEmail)
    && (inv.inviteeWallet.Some? ==> user.walletAddress == inv.inviteeWallet)
  }

  /** `AcceptInvitation`: pending, not past its expiry, and addressed to the
      caller; the caller joins with the invitation's role. */
  function AcceptInvitation(st: Store, userID: int, code: string, now: int): (r: Result<Store, string>)
    ensures code !in st.invitations ==> r == Failure("invitation not found")
    ensures code in st.invitations && st.invitations[code].status != "pending" ==>
      r == Failure("invitation is not pending")
    ensures code in st.invitations && st.invitations[code].status == "pending" && now > st.invitations[code].expiresAt ==>
      r == Failure("invitation has expired")
    ensures r.Success? <==>
      && code in st.invitations && st.invitations[code].status == "pending"
      && now <= st.invitations[code].expiresAt
      && userID in st.users && IdentityMatches(st.invitations[code], st.users[userID])
    ensures r.Success? ==> var inv := st.invitations[code];
      && r.value.members == AddMember(st.members, inv.teamID, userID, inv.role)
      && r.value.invitations == st.invitations[code := inv.(status := "accepted")]
      && r.value.teams == st.teams && r.value.users == st.users
  {
    if code !in st.invitations then Failure("invitation not found")
    else
      var inv := st.invitations[code];
      if inv.status != "pending" then Failure("invitation is not pending")
      else if now > inv.expiresAt then Failure("invitation has expired")
      else if userID !in st.users then Failure("failed to get user: record not found")
      else
        var user := st.users[userID];
        if inv.inviteeEmail.Some? && (user.email.None? || user.email.value != inv.inviteeEmail.value) then
          Failure("invitation email does not match user email")
        else if inv.inviteeWallet.Some? && (user.walletAddress.None? || user.walletAddress.value != inv.inviteeWallet.value) then
          Failure("invitation wallet address does not match user wallet address")
        else
          Success(st.(members := AddMember(st.members, inv.teamID, userID, inv.role),
                      invitations := st.invitations[code := inv.(status := "accepted")]))
  }

  /** `RejectInvitation`: only from pending; the caller is not checked against the
      invitee. */
  function RejectInvitation(st: Store, code: string): (r: Result<Store, string>)
    ensures code !in st.invitations ==> r == Failure("invitation not found")
    ensures r.Success? <==> code in st.invitations && st.invitations[code].status == "pending"
    ensures r.Success? ==>
      r.value == st.(invitations := st.invitations[code := st.invitations[code].(status := "rejected")])
  {
    if code !in st.invitations then Failure("invitation not found")
    else if st.invitations[code].status != "pending" then Failure("invitation is not pending")
    else Success(st.(invitations := st.invitations[code := st.invitations[code].(status := "rejected")]))
  }

  /** An invitation is answered at most once: after an acceptance or a rejection
      neither operation succeeds on it again. */
  lemma InvitationAnsweredOnce(st: Store, userID: int, other: int, code: string, now: int, later: int)
    ensures AcceptInvitation(st, userID, code, now).Success? ==>
      && AcceptInvitation(AcceptInvitation(st, userID, code, now).value, other, code, later).Failure?
      && RejectInvitation(AcceptInvitation(st, userID, code, now).value, code).Failure?
    ensures RejectInvitation(st, code).Success? ==>
      && AcceptInvitation(RejectInvitation(st, code).value, other, code, later).Failure?
      && RejectInvitation(RejectInvitation(st, code).value, code).Failure?
  {
  }

  /** An invitation sent by email is accepted by that user within seven days,
      who then belongs to the team with the invited role (or their earlier one). */
  lemma InviteThenAccept(st: Store, userID: int, teamID: int, email: string, role: TeamRole, nanos: int,
                         now: int, later: int)
    requires UniqueContacts(st.users)
    requires InvitationCode(nanos) !in st.invitations
    requires InviteUser(st, userID, teamID, Some(email), None, role, nanos, now).Success?
    requires now <= later <= now + InvitationLifetime
    ensures var invitee := UserByEmail(st.users, email).value;
      var st1 := InviteUser(st, userID, teamID, Some(email), None, role, nanos, now).value.0;
      && AcceptInvitation(st1, invitee, InvitationCode(nanos), later).Success?
      && var st2 := AcceptInvitation(st1, invitee, InvitationCode(nanos), later).value;
      && (teamID, invitee) in st2.members && st2.members[(teamID, invitee)] == RoleToString(role)
  {
  }
}

=== FILE: text.dfy ===
/** String helpers standing in for Go's `strings`, `strconv` and `fmt` calls.
    Strings are sequences of characters; the repository's inputs are treated as
    ASCII, so a Go byte length equals the sequence length here. */
module Text {

  predicate StartsWith(s: string, prefix: string) {
    |prefix| <= |s| && s[..|prefix|] == prefix
  }

  predicate EndsWith(s: string, suffix: string) {
    |suffix| <= |s| && s[|s| - |suffix|..] == suffix
  }

  /** `strings.Contains(s, sub)`. */
  predicate Contains(s: string, sub: string)
    decreases |s|
  {
    StartsWith(s, sub) || (|s| > 0 && Contains(s[1..], sub))
  }

  /** A witness position makes `Contains` true. */
  lemma {:induction false} ContainsAt(s: string, sub: string, i: nat)
    requires i + |sub| <= |s| && s[i..i + |sub|] == sub
    ensures Contains(s, sub)
    decreases i
  {
    if i == 0 {
      assert s[..|sub|] == sub;
    } else {
      assert s[1..][i - 1..i - 1 + |sub|] == s[i..i + |sub|];
      ContainsAt(s[1..], sub, i - 1);
    }
  }

  /** A single character occurs iff the one-character string is contained. */
  lemma {:induction false} ContainsCharIff(s: string, c: char)
    ensures Contains(s, [c]) <==> c in s
    decreases |s|
  {
    if |s| > 0 {
      ContainsCharIff(s[1..], c);
      assert c in s <==> s[0] == c || c in s[1..] by {
        assert s == [s[0]] + s[1..];
      }
    }
  }

  /** `strings.TrimRight(s, cutset)` for a one-character cutset. */
  function TrimRight(s: string, c: char): (r: string)
    ensures StartsWith(s, r)
    ensures |r| > 0 ==> r[|r| - 1] != c
    ensures forall i | |r| <= i < |s| :: s[i] == c
    decreases |s|
  {
    if |s| > 0 && s[|s| - 1] == c then TrimRight(s[..|s| - 1], c) else s
  }

  function LowerChar(c: char): char {
    if 'A' <= c <= 'Z' then (c as int - 'A' as int + 'a' as int) as char else c
  }

  /** `strings.ToLower`, restricted to ASCII letters. */
  function Lower(s: string): (r: string)
    ensures |r| == |s|
    ensures forall i | 0 <= i < |s| :: r[i] == LowerChar(s[i])
  {
    seq(|s|, i requires 0 <= i < |s| => LowerChar(s[i]))
  }

  predicate IsDigit(c: char) { '0' <= c <= '9' }

  function DigitChar(d: nat): char
    requires d < 10
  {
    ('0' as int + d) as char
  }

  function DigitValue(c: char): nat
    requires IsDigit(c)
  {
    c as int - '0' as int
  }

  /** Decimal rendering of a natural number, as `%d` prints it. */
  function NatToString(n: nat): (r: string)
    ensures |r| > 0
    ensures forall i | 0 <= i < |r| :: IsDigit(r[i])
    ensures |r| > 1 ==> r[0] != '0'
    decreases n
  {
    if n < 10 then [DigitChar(n)] else NatToString(n / 10) + [DigitChar(n % 10)]
  }

  /** Decimal rendering of an integer, with a leading '-' when negative. */
  function IntToString(i: int): (r: string)
    ensures |r| > 0
    ensures i >= 0 <==> r[0] != '-'
  {
    if i >= 0 then NatToString(i) else "-" + NatToString(-i)
  }

  /** The value of a string of decimal digits. */
  function ParseDigits(s: string): nat
    requires forall i | 0 <= i < |s| :: IsDigit(s[i])
    decreases |s|
  {
    if |s| == 0 then 0 else ParseDigits(s[..|s| - 1]) * 10 + DigitValue(s[|s| - 1])
  }

  /** Reading the decimal rendering back gives the number. */
  lemma {:induction false} ParseNatToString(n: nat)
    ensures ParseDigits(NatToString(n)) == n
    decreases n
  {
    if n >= 10 {
      var r := NatToString(n);
      assert r[..|r| - 1] == NatToString(n / 10);
      ParseNatToString(n / 10);
    }
  }

  /** Distinct numbers render differently. */
  lemma NatToStringInjective(a: nat, b: nat)
    requires NatToString(a) == NatToString(b)
    ensures a == b
  {
    ParseNatToString(a);
    ParseNatToString(b);
  }

  /** Distinct integers render differently. */
  lemma IntToStringInjective(a: int, b: int)
    requires IntToString(a) == IntToString(b)
    ensures a == b
  {
    if a >= 0 && b >= 0 {
      NatToStringInjective(a, b);
    } else if a < 0 && b < 0 {
      assert IntToString(a)[1..] == NatToString(-a);
      assert IntToString(b)[1..] == NatToString(-b);
      NatToStringInjective(-a, -b);
    }
  }

  /** `strings.Split(s, sep)` for a one-character separator: always at least one part. */
  function Split(s: string, sep: char): (parts: seq<string>)
    ensures |parts| >= 1
    ensures forall k | 0 <= k < |parts| :: sep !in parts[k]
    decreases |s|
  {
    if |s| == 0 then [""]
    else
      var rest := Split(s[1..], sep);
      if s[0] == sep then [""] + rest
      else [[s[0]] + rest[0]] + rest[1..]
  }

  /** `strings.Join(parts, sep)`. */
  function Join(parts: seq<string>, sep: char): string
    decreases |parts|
  {
    if |parts| == 0 then ""
    else if |parts| == 1 then parts[0]
    else parts[0] + [sep] + Join(parts[1..], sep)
  }

  function Count(s: string, c: char): nat
    decreases |s|
  {
    if |s| == 0 then 0 else (if s[0] == c then 1 else 0) + Count(s[1..], c)
  }

  /** Splitting and re-joining with the same separator gives back the input. */
  lemma {:induction false} JoinSplit(s: string, sep: char)
    ensures Join(Split(s, sep), sep) == s
    decreases |s|
  {
    if |s| > 0 {
      var rest := Split(s[1..], sep);
      JoinSplit(s[1..], sep);
      if s[0] == sep {
        assert Split(s, sep) == [""] + rest;
        assert ([""] + rest)[1..] == rest;
      } else {
        var parts := [[s[0]] + rest[0]] + rest[1..];
        assert Split(s, sep) == parts;
        if |rest| == 1 {
          assert Join(parts, sep) == [s[0]] + rest[0];
        } else {
          assert parts[1..] == rest[1..];
          assert Join(rest, sep) == rest[0] + [sep] + Join(rest[1..], sep);
        }
      }
    }
  }

  /** There is one more part than there are separators. */
  lemma {:induction false} SplitCount(s: string, sep: char)
    ensures |Split(s, sep)| == Count(s, sep) + 1
    decreases |s|
  {
    if |s| > 0 {
      SplitCount(s[1..], sep);
    }
  }

  lemma {:induction false} CountZeroIff(s: string, c: char)
    ensures Count(s, c) == 0 <==> c !in s
    decreases |s|
  {
    if |s| > 0 {
      CountZeroIff(s[1..], c);
      assert c in s <==> s[0] == c || c in s[1..] by {
        assert s == [s[0]] + s[1..];
      }
    }
  }
  /** Splitting a string with no separator in it gives the string alone. */
  lemma {:induction false} SplitNoSep(x: string, sep: char)
    requires sep !in x
    ensures Split(x, sep) == [x]
    decreases |x|
  {
    if |x| > 0 {
      SplitNoSep(x[1..], sep);
      assert [x[0]] + x[1..] == x;
    }
  }

  /** Splitting peels off a leading separator-free part. */
  lemma {:induction false} SplitPrefix(x: string, y: string, sep: char)
    requires sep !in x
    ensures Split(x + [sep] + y, sep) == [x] + Split(y, sep)
    decreases |x|
  {
    var s := x + [sep] + y;
    if |x| == 0 {
      assert s[1..] == y;
    } else {
      assert s[1..] == x[1..] + [sep] + y;
      SplitPrefix(x[1..], y, sep);
      assert [x[0]] + x[1..] == x;
    }
  }

  /** Joining separator-free parts and splitting again gives the parts back. */
  lemma {:induction false} SplitJoin(parts: seq<string>, sep: char)
    requires |parts| >= 1
    requires forall k | 0 <= k < |parts| :: sep !in parts[k]
    ensures Split(Join(parts, sep), sep) == parts
    decreases |parts|
  {
    if |parts| == 1 {
      SplitNoSep(parts[0], sep);
    } else {
      SplitPrefix(parts[0], Join(parts[1..], sep), sep);
      SplitJoin(parts[1..], sep);
      assert [parts[0]] + parts[1..] == parts;
    }
  }

  /** The text after the last `c` (all of `s` when there is none). */
  function LastSegment(s: string, c: char): (r: string)
    ensures c !in r
    ensures EndsWith(s, r)
    ensures |r| < |s| ==> s[|s| - |r| - 1] == c
    decreases |s|
  {
    if |s| == 0 || s[|s| - 1] == c then "" else LastSegment(s[..|s| - 1], c) + [s[|s| - 1]]
  }

  /** Go's `filepath.Base` with `/` as separator: trailing slashes are dropped, an
      empty path is ".", and a path of slashes alone is "/". */
  function PathBase(path: string): (r: string)
    ensures |r| > 0
    ensures r == "/" || '/' !in r
    ensures path == "" ==> r == "."
    ensures path != "" && r != "/" ==> r == LastSegment(TrimRight(path, '/'), '/')
  {
    if path == "" then "."
    else
      var t := TrimRight(path, '/');
      if t == "" then "/" else LastSegment(t, '/')
  }

  /** Go's `filepath.Ext`: the suffix from the final '.' of the last path
      element, or "" when that element has no '.'. */
  function PathExt(path: string): (r: string)
    ensures r == "" <==> '.' !in LastSegment(path, '/')
    ensures r != "" ==> r[0] == '.' && '.' !in r[1..] && '/' !in r && EndsWith(LastSegment(path, '/'), r)
  {
    var b := LastSegment(path, '/');
    if '.' in b then
      var e := LastSegment(b, '.');
      DotBeforeLastSegment(b, e);
      "." + e
    else ""
  }

  /** When `b` holds a '.', its last '.'-segment sits right after a '.'. */
  lemma DotBeforeLastSegment(b: string, e: string)
    requires '.' in b && e == LastSegment(b, '.')
    ensures ("." + e)[0] == '.' && ("." + e)[1..] == e
    ensures EndsWith(b, "." + e)
  {
    assert |e| < |b|;
    assert b[|b| - |e| - 1..] == [b[|b| - |e| - 1]] + b[|b| - |e|..];
  }

  /** A decimal rendering holds only digits and a leading '-', so any other
      character is absent from it. */
  lemma IntToStringAvoids(i: int, c: char)
    requires !IsDigit(c) && c != '-'
    ensures c !in IntToString(i)
  {
    var s := IntToString(i);
    if i >= 0 {
      assert forall k | 0 <= k < |s| :: IsDigit(s[k]);
    } else {
      var n := NatToString(-i);
      assert s == "-" + n;
      assert forall k | 0 <= k < |n| :: IsDigit(n[k]);
    }
  }

  /** Counting distributes over concatenation. */
  lemma {:induction false} CountConcat(a: string, b: string, c: char)
    ensures Count(a + b, c) == Count(a, c) + Count(b, c)
    decreases |a|
  {
    if |a| == 0 {
      assert a + b == b;
    } else {
      assert (a + b)[0] == a[0];
      assert (a + b)[1..] == a[1..] + b;
      CountConcat(a[1..], b, c);
    }
  }

  /** The first part of a split is `t`, with more parts after it, exactly when
      the string starts with `t` followed by the separator. */
  lemma SplitHeadIff(s: string, t: string, sep: char)
    requires sep !in t
    ensures (|Split(s, sep)| >= 2 && Split(s, sep)[0] == t) <==> StartsWith(s, t + [sep])
  {
    var parts := Split(s, sep);
    if |parts| >= 2 && parts[0] == t {
      JoinSplit(s, sep);
      assert s == parts[0] + [sep] + Join(parts[1..], sep);
      assert s[..|t| + 1] == t + [sep];
    }
    if StartsWith(s, t + [sep]) {
      var y := s[|t| + 1..];
      assert s == t + [sep] + y;
      SplitPrefix(t, y, sep);
    }
  }

  /** The position of the first `c` in `s`, or `|s|` when there is none. */
  function FirstIndex(s: string, c: char): (i: nat)
    ensures i <= |s|
    ensures c !in s[..i]
    ensures i < |s| ==> s[i] == c
    decreases |s|
  {
    if |s| == 0 || s[0] == c then 0
    else
      var j := FirstIndex(s[1..], c);
      assert s[..j + 1] == [s[0]] + s[1..][..j];
      j + 1
  }

  /** A string cut at its first `c` comes apart uniquely: equal strings with
      `c`-free heads have equal heads and equal tails. */
  lemma CutAtFirst(a: string, x: string, b: string, y: string, c: char)
    requires c !in a && c !in b
    requires a + [c] + x == b + [c] + y
    ensures a == b && x == y
  {
    var s := a + [c] + x;
    assert s[|a|] == c && s[..|a|] == a;
    assert (b + [c] + y)[|b|] == c && (b + [c] + y)[..|b|] == b;
    assert FirstIndex(s, c) == |a|;
    assert FirstIndex(b + [c] + y, c) == |b|;
    assert s[|a| + 1..] == x;
    assert (b + [c] + y)[|b| + 1..] == y;
  }
}

=== FILE: upload.dfy ===
/** Image upload helpers: the accepted extensions, the shape of a stored image
    path, the public URL of a stored image and the validation of an image URL
    given by a client. The configured public URL and the whitelist are
    parameters. */
module Upload {
  import opened Text
  import UrlWhitelist

  const SupportedImageExtensions: set<string> := {".jpg", ".jpeg", ".png", ".gif", ".svg"}

  /** `ImageType`: 1 is an avatar, 2 a team icon. */
  datatype ImageType = Avatar | TeamIcon

  /** `ValidateImageExtension`: lower-cased, with a leading dot added when missing. */
  function ValidateImageExtension(extension: string): (r: bool)
    ensures r <==> Lower(extension) in SupportedImageExtensions || "." + Lower(extension) in SupportedImageExtensions
  {
    var e := Lower(extension);
    var dotted := if StartsWith(e, ".") then e else "." + e;
    assert StartsWith(e, ".") ==> ("." + e)[1] == '.';
    dotted in SupportedImageExtensions
  }

  /** The extension test ignores letter case and the leading dot. */
  lemma ExtensionCheckIgnoresCaseAndDot(extension: string)
    requires '.' !in extension
    ensures ValidateImageExtension(extension) == ValidateImageExtension("." + extension)
    ensures ValidateImageExtension(extension) == ValidateImageExtension(Lower(extension))
  {
    assert Lower("." + extension) == "." + Lower(extension);
    assert Lower(Lower(extension)) == Lower(extension);
    assert '.' !in Lower(extension) by {
      assert forall i | 0 <= i < |extension| :: Lower(extension)[i] != '.';
    }
    assert Lower(extension) !in SupportedImageExtensions by {
      if |Lower(extension)| > 0 {
        assert Lower(extension)[0] != '.';
      }
    }
  }

  /** `GeneratePublicURL`: the stored path appended to the public prefix. */
  function GeneratePublicURL(publicURL: string, imagePath: string): (r: string)
    ensures StartsWith(r, UrlWhitelist.PublicPrefix(publicURL))
    ensures r[|UrlWhitelist.PublicPrefix(publicURL)|..] == imagePath
  {
    UrlWhitelist.PublicPrefix(publicURL) + imagePath
  }

  const ImageDirectories: set<string> := {"avatars", "team-icons", "images"}

  /** `isValidImagePath`: no `..` or `//`, at least three `/`-separated parts,
      and a known first directory. */
  function IsValidImagePath(path: string): (r: bool)
    ensures r <==> (
      && !Contains(path, "..") && !Contains(path, "//")
      && Count(path, '/') >= 2
      && (StartsWith(path, "avatars/") || StartsWith(path, "team-icons/") || StartsWith(path, "images/")))
  {
    var parts := Split(path, '/');
    ImagePathShape(path);
    if Contains(path, "..") || Contains(path, "//") then false
    else if |parts| < 3 then false
    else parts[0] in ImageDirectories
  }

  /** At least three parts under a known first directory, read off the text. */
  lemma ImagePathShape(path: string)
    ensures (|Split(path, '/')| >= 3 && Split(path, '/')[0] in ImageDirectories) <==>
      (Count(path, '/') >= 2 && (StartsWith(path, "avatars/") || StartsWith(path, "team-icons/") || StartsWith(path, "images/")))
  {
    SplitCount(path, '/');
    DirectoryLiterals();
    SplitHeadIff(path, "avatars", '/');
    SplitHeadIff(path, "team-icons", '/');
    SplitHeadIff(path, "images", '/');
  }

  lemma DirectoryLiterals()
    ensures '/' !in "avatars" && '/' !in "team-icons" && '/' !in "images"
    ensures "avatars" + ['/'] == "avatars/" && "team-icons" + ['/'] == "team-icons/" && "images" + ['/'] == "images/"
  {
  }

  /** `GetImageTypeFromPath`: a team icon exactly under `team-icons/`, an avatar
      otherwise (the fallback included). */
  function GetImageTypeFromPath(imagePath: string): (r: ImageType)
    ensures r == TeamIcon <==> StartsWith(imagePath, "team-icons/")
  {
    if StartsWith(imagePath, "avatars/") then
      assert imagePath[0] == "avatars/"[0] != "team-icons/"[0];
      Avatar
    else if StartsWith(imagePath, "team-icons/") then TeamIcon
    else Avatar
  }

  /** `ValidateImageURL`: the verdict and, when rejected, the reason. */
  function ValidateImageURL(publicURL: string, whitelist: seq<string>, imageURL: string): (r: (bool, string))
    ensures imageURL == "" ==> r == (false, "image URL cannot be empty")
    ensures imageURL != "" && UrlWhitelist.IsWhitelistedURL(whitelist, imageURL) ==> r == (true, "")
    ensures r.0 <==> (
      || (imageURL != "" && UrlWhitelist.IsWhitelistedURL(whitelist, imageURL))
      || (&& publicURL != "" && StartsWith(imageURL, UrlWhitelist.PublicPrefix(publicURL))
          && var p := imageURL[|UrlWhitelist.PublicPrefix(publicURL)|..];
          && p != "" && IsValidImagePath(p) && ValidateImageExtension(PathExt(p))))
    ensures r.0 ==> r.1 == ""
  {
    if imageURL == "" then (false, "image URL cannot be empty")
    else
      var (ok, msg) := UrlWhitelist.ValidateURLPrefix(publicURL, whitelist, imageURL);
      if !ok then (false, msg)
      else if UrlWhitelist.IsWhitelistedURL(whitelist, imageURL) then (true, "")
      else
        var prefix := UrlWhitelist.PublicPrefix(publicURL);
        if StartsWith(imageURL, prefix) then
          var imagePath := imageURL[|prefix|..];
          if imagePath == "" then (false, "invalid image path")
          else if !IsValidImagePath(imagePath) then (false, "invalid image path format")
          else if !ValidateImageExtension(PathExt(imagePath)) then (false, "unsupported image format")
          else (true, "")
        else (true, "")
  }

  /** Every accepted image URL also passes the general prefix check. */
  lemma ImageURLCheckIsStricter(publicURL: string, whitelist: seq<string>, imageURL: string)
    requires ValidateImageURL(publicURL, whitelist, imageURL).0
    ensures UrlWhitelist.ValidateURLPrefix(publicURL, whitelist, imageURL).0
  {
  }

  /** The public URL of a well-formed stored image is accepted. */
  lemma GeneratedURLIsAccepted(publicURL: string, whitelist: seq<string>, imagePath: string)
    requires publicURL != ""
    requires IsValidImagePath(imagePath) && ValidateImageExtension(PathExt(imagePath))
    ensures ValidateImageURL(publicURL, whitelist, GeneratePublicURL(publicURL, imagePath)).0
  {
    assert imagePath != "" by {
      assert StartsWith(imagePath, "avatars/") || StartsWith(imagePath, "team-icons/") || StartsWith(imagePath, "images/");
    }
  }

  /** A path escaping its directory is never valid, whatever follows. */
  lemma DotDotPathsAreRejected(a: string, b: string)
    ensures !IsValidImagePath(a + ".." + b)
  {
    ContainsAt(a + ".." + b, "..", |a|);
  }
}

=== FILE: url_whitelist.dfy ===
/** The URL prefix policy: a URL is allowed when it lies under the configured
    public storage URL or under one of the entries of a mutable whitelist. The
    configured public URL and the whitelist are passed in explicitly. */
module UrlWhitelist {
  import opened Text

  /** The whitelist the program starts with. */
  const DefaultWhitelist: seq<string> := ["https://raw.githubusercontent.com/"]

  /** The prefix every public-storage URL carries: the configured URL with its
      trailing slashes replaced by exactly one. */
  function PublicPrefix(publicURL: string): (r: string)
    ensures |r| > 0 && r[|r| - 1] == '/'
    ensures |r| >= 2 ==> r[|r| - 2] != '/'
    ensures StartsWith(publicURL, r[..|r| - 1])
  {
    TrimRight(publicURL, '/') + "/"
  }

  /** Whether some entry of the whitelist is a prefix of `url` (the loop shared
      by `ValidateURLPrefix` and `IsWhitelistedURL`). */
  function AnyPrefix(whitelist: seq<string>, url: string): (r: bool)
    ensures r <==> exists i | 0 <= i < |whitelist| :: StartsWith(url, whitelist[i])
    decreases |whitelist|
  {
    if |whitelist| == 0 then false
    else StartsWith(url, whitelist[0]) || AnyPrefix(whitelist[1..], url)
  }

  /** `IsWhitelistedURL`. */
  function IsWhitelistedURL(whitelist: seq<string>, url: string): (r: bool)
    ensures r <==> exists i | 0 <= i < |whitelist| :: StartsWith(url, whitelist[i])
  {
    AnyPrefix(whitelist, url)
  }

  /** `ValidateURLPrefix`: the verdict and, when rejected, the reason. */
  function ValidateURLPrefix(publicURL: string, whitelist: seq<string>, url: string): (r: (bool, string))
    ensures url == "" ==> r == (false, "URL cannot be empty")
    ensures r.0 <==> (url != "" &&
      ((publicURL != "" && StartsWith(url, PublicPrefix(publicURL))) || IsWhitelistedURL(whitelist, url)))
    ensures r.0 ==> r.1 == ""
    ensures url != "" && !r.0 ==> r.1 == "URL domain not allowed"
  {
    if url == "" then (false, "URL cannot be empty")
    else if publicURL != "" && StartsWith(url, PublicPrefix(publicURL)) then (true, "")
    else if AnyPrefix(whitelist, url) then (true, "")
    else (false, "URL domain not allowed")
  }

  /** The whitelist's normal form of an entry: it ends with a slash. */
  function WithSlash(url: string): (r: string)
    ensures EndsWith(r, "/")
    ensures EndsWith(url, "/") ==> r == url
    ensures !EndsWith(url, "/") ==> r == url + "/"
  {
    if EndsWith(url, "/") then url else url + "/"
  }

  /** No entry occurs twice. */
  predicate NoDuplicates(whitelist: seq<string>) {
    forall i, j | 0 <= i < j < |whitelist| :: whitelist[i] != whitelist[j]
  }

  /** `AddURLToWhitelist`: the normalised entry is appended unless present. */
  function AddURLToWhitelist(whitelist: seq<string>, url: string): (r: seq<string>)
    ensures WithSlash(url) in r
    ensures forall u | u in whitelist :: u in r
    ensures forall u | u in r :: u in whitelist || u == WithSlash(url)
    ensures |whitelist| <= |r| <= |whitelist| + 1
    ensures r[..|whitelist|] == whitelist
  {
    var entry := WithSlash(url);
    if entry in whitelist then whitelist else whitelist + [entry]
  }

  /** Adding the same URL twice is the same as adding it once. */
  lemma AddIsIdempotent(whitelist: seq<string>, url: string)
    ensures AddURLToWhitelist(AddURLToWhitelist(whitelist, url), url) == AddURLToWhitelist(whitelist, url)
  {
  }

  /** Adding never introduces a duplicate. */
  lemma AddKeepsNoDuplicates(whitelist: seq<string>, url: string)
    requires NoDuplicates(whitelist)
    ensures NoDuplicates(AddURLToWhitelist(whitelist, url))
  {
  }

  /** After adding `url`, every URL under it is whitelisted. */
  lemma AddedURLIsWhitelisted(whitelist: seq<string>, url: string, candidate: string)
    requires StartsWith(candidate, WithSlash(url))
    ensures IsWhitelistedURL(AddURLToWhitelist(whitelist, url), candidate)
  {
    var r := AddURLToWhitelist(whitelist, url);
    var i :| 0 <= i < |r| && r[i] == WithSlash(url);
    assert StartsWith(candidate, r[i]);
  }

  /** The position of the first `entry`, or the length when there is none. */
  function IndexOf(whitelist: seq<string>, entry: string): (i: nat)
    ensures i <= |whitelist|
    ensures i < |whitelist| ==> whitelist[i] == entry
    ensures entry !in whitelist[..i]
    decreases |whitelist|
  {
    if |whitelist| == 0 || whitelist[0] == entry then 0
    else
      var j := IndexOf(whitelist[1..], entry);
      assert whitelist[..j + 1] == [whitelist[0]] + whitelist[1..][..j];
      j + 1
  }

  /** `RemoveURLFromWhitelist`: the normalised entry's first occurrence goes. */
  function RemoveURLFromWhitelist(whitelist: seq<string>, url: string): (r: seq<string>)
    ensures WithSlash(url) !in whitelist ==> r == whitelist
    ensures WithSlash(url) in whitelist ==> |r| == |whitelist| - 1
    ensures multiset(r) + (if WithSlash(url) in whitelist then multiset{WithSlash(url)} else multiset{}) == multiset(whitelist)
  {
    var entry := WithSlash(url);
    var i := IndexOf(whitelist, entry);
    if i == |whitelist| then
      assert whitelist[..i] == whitelist;
      whitelist
    else
      assert whitelist == whitelist[..i] + [entry] + whitelist[i + 1..];
      whitelist[..i] + whitelist[i + 1..]
  }

  /** Removal takes out the first occurrence of the normalised entry, and every
      other entry keeps its place in the order. */
  lemma RemoveKeepsOrder(whitelist: seq<string>, url: string)
    ensures WithSlash(url) in whitelist ==>
      var i := IndexOf(whitelist, WithSlash(url));
      var r := RemoveURLFromWhitelist(whitelist, url);
      && i < |whitelist| && whitelist[i] == WithSlash(url) && WithSlash(url) !in whitelist[..i]
      && |r| == |whitelist| - 1
      && forall k | 0 <= k < |r| :: r[k] == if k < i then whitelist[k] else whitelist[k + 1]
  {
    var entry := WithSlash(url);
    var i := IndexOf(whitelist, entry);
    if entry in whitelist {
      var r := RemoveURLFromWhitelist(whitelist, url);
      assert r == whitelist[..i] + whitelist[i + 1..];
    }
  }

  /** Removing what was just added restores a whitelist that lacked it. */
  lemma RemoveUndoesAdd(whitelist: seq<string>, url: string)
    requires WithSlash(url) !in whitelist
    ensures RemoveURLFromWhitelist(AddURLToWhitelist(whitelist, url), url) == whitelist
  {
    var entry := WithSlash(url);
    var added := whitelist + [entry];
    assert forall k | 0 <= k < |whitelist| :: added[k] == whitelist[k] && added[k] != entry;
    assert added[|whitelist|] == entry;
    assert IndexOf(added, entry) == |whitelist|;
    assert added[..|whitelist|] == whitelist;
  }

  /** On a duplicate-free whitelist, removing a URL means it is no longer listed. */
  lemma RemoveDropsEntry(whitelist: seq<string>, url: string)
    requires NoDuplicates(whitelist)
    ensures WithSlash(url) !in RemoveURLFromWhitelist(whitelist, url)
  {
    var entry := WithSlash(url);
    var i := IndexOf(whitelist, entry);
    if i < |whitelist| {
      var r := whitelist[..i] + whitelist[i + 1..];
      forall k | 0 <= k < |r|
        ensures r[k] != entry
      {
        if k < i {
          assert r[k] == whitelist[k];
        } else {
          assert r[k] == whitelist[k + 1];
        }
      }
    } else {
      assert whitelist[..i] == whitelist;
    }
  }
}

=== FILE: verification_codes.dfy ===
/** The verification-code table: codes mailed to users, each `unused` until it
    is used or swept as `expired`. Rows are kept in insertion (primary key)
    order; times are integers and the clock reading is a parameter. */
module VerificationCodes {
  import opened Wrappers

  datatype Code = Code(
    id: int,
    email: string,
    code: string,
    codeType: string,
    status: string,
    usedAt: Option<int>,
    expiresAt: int,
    createdAt: int)

  /** The `WHERE` clause of `GetValidVerificationCode`: a match that is unused
      and strictly before its expiry. */
  predicate Valid(c: Code, email: string, code: string, codeType: string, now: int) {
    c.email == email && c.code == code && c.codeType == codeType && c.status == "unused" && c.expiresAt > now
  }

  /** `GetValidVerificationCode`: the position of the newest valid row, the
      lowest key among rows created at the same time; `None` is "record not found". */
  function GetValidVerificationCode(codes: seq<Code>, email: string, code: string, codeType: string, now: int)
    : (r: Option<nat>)
    ensures r.None? <==> forall j | 0 <= j < |codes| :: !Valid(codes[j], email, code, codeType, now)
    ensures r.Some? ==> r.value < |codes| && Valid(codes[r.value], email, code, codeType, now)
    ensures r.Some? ==> forall j | 0 <= j < |codes| && Valid(codes[j], email, code, codeType, now) ::
      codes[j].createdAt <= codes[r.value].createdAt
    ensures r.Some? ==> forall j | 0 <= j < r.value && Valid(codes[j], email, code, codeType, now) ::
      codes[j].createdAt < codes[r.value].createdAt
    decreases |codes|
  {
    if |codes| == 0 then None
    else
      var last := |codes| - 1;
      var best := GetValidVerificationCode(codes[..last], email, code, codeType, now);
      if Valid(codes[last], email, code, codeType, now)
         && (best.None? || codes[last].createdAt > codes[best.value].createdAt)
      then Some(last)
      else best
  }

  /** `MarkAsUsed`: the row with that key becomes used at `now`. */
  function MarkAsUsed(codes: seq<Code>, id: int, now: int): (r: seq<Code>)
    ensures |r| == |codes|
    ensures forall i | 0 <= i < |codes| && codes[i].id == id ::
      r[i].status == "used" && r[i].usedAt == Some(now) && r[i].(status := codes[i].status, usedAt := codes[i].usedAt) == codes[i]
    ensures forall i | 0 <= i < |codes| && codes[i].id != id :: r[i] == codes[i]
  {
    seq(|codes|, i requires 0 <= i < |codes| =>
      if codes[i].id == id then codes[i].(status := "used", usedAt := Some(now)) else codes[i])
  }

  /** `CleanExpiredCodes`: unused rows strictly past their expiry become expired. */
  function CleanExpiredCodes(codes: seq<Code>, now: int): (r: seq<Code>)
    ensures |r| == |codes|
    ensures forall i | 0 <= i < |codes| :: r[i] == codes[i].(status := r[i].status)
    ensures forall i | 0 <= i < |codes| ::
      r[i].status == (if codes[i].status == "unused" && codes[i].expiresAt < now then "expired" else codes[i].status)
  {
    seq(|codes|, i requires 0 <= i < |codes| =>
      if codes[i].status == "unused" && codes[i].expiresAt < now then codes[i].(status := "expired") else codes[i])
  }

  /** Row keys are unique. */
  predicate UniqueIDs(codes: seq<Code>) {
    forall i, j | 0 <= i < j < |codes| :: codes[i].id != codes[j].id
  }

  /** A code works once: after the found row is marked used it is no longer
      valid, and a later lookup can only find a different row. */
  lemma CodeIsSingleUse(codes: seq<Code>, email: string, code: string, codeType: string, now: int, later: int)
    requires UniqueIDs(codes)
    requires GetValidVerificationCode(codes, email, code, codeType, now).Some?
    ensures var i := GetValidVerificationCode(codes, email, code, codeType, now).value;
      var codes' := MarkAsUsed(codes, codes[i].id, now);
      && !Valid(codes'[i], email, code, codeType, later)
      && (GetValidVerificationCode(codes', email, code, codeType, later).Some? ==>
            GetValidVerificationCode(codes', email, code, codeType, later).value != i)
  {
  }

  /** The lookup depends only on which rows are valid and when they were created. */
  lemma {:induction false} LookupCongruence(a: seq<Code>, b: seq<Code>, email: string, code: string, codeType: string, now: int)
    requires |a| == |b|
    requires forall i | 0 <= i < |a| :: a[i].createdAt == b[i].createdAt
    requires forall i | 0 <= i < |a| :: Valid(a[i], email, code, codeType, now) == Valid(b[i], email, code, codeType, now)
    ensures GetValidVerificationCode(a, email, code, codeType, now) == GetValidVerificationCode(b, email, code, codeType, now)
    decreases |a|
  {
    if |a| > 0 {
      LookupCongruence(a[..|a| - 1], b[..|b| - 1], email, code, codeType, now);
    }
  }

  /** Sweeping expired rows never changes what a lookup at the same moment finds:
      a row expiring exactly now is neither valid nor swept. */
  lemma CleaningPreservesLookup(codes: seq<Code>, email: string, code: string, codeType: string, now: int)
    ensures GetValidVerificationCode(CleanExpiredCodes(codes, now), email, code, codeType, now)
         == GetValidVerificationCode(codes, email, code, codeType, now)
  {
    LookupCongruence(CleanExpiredCodes(codes, now), codes, email, code, codeType, now);
  }

  /** Sweeping twice is sweeping once, and used or expired rows are never touched. */
  lemma CleaningIsIdempotent(codes: seq<Code>, now: int)
    ensures CleanExpiredCodes(CleanExpiredCodes(codes, now), now) == CleanExpiredCodes(codes, now)
    ensures forall i | 0 <= i < |codes| && codes[i].status != "unused" :: CleanExpiredCodes(codes, now)[i] == codes[i]
  {
  }

  /** The status changes the writes can make: an unused row may become used or
      expired, and `MarkAsUsed` marks a row used whatever its status. */
  predicate StatusStep(before: string, after: string) {
    before == after || (before == "unused" && after in {"used", "expired"}) || after == "used"
  }

  /** Both writes move each row's status along those changes, and the sweep leaves
      used and expired rows alone. */
  lemma WritesFollowLifeCycle(codes: seq<Code>, id: int, now: int)
    ensures forall i | 0 <= i < |codes| :: StatusStep(codes[i].status, CleanExpiredCodes(codes, now)[i].status)
    ensures forall i | 0 <= i < |codes| :: StatusStep(codes[i].status, MarkAsUsed(codes, id, now)[i].status)
    ensures forall i | 0 <= i < |codes| && codes[i].status in {"used", "expired"} ::
      CleanExpiredCodes(codes, now)[i].status == codes[i].status
  {
  }
}

=== FILE: wallet.dfy ===
/** The wallet ledger: one wallet per user and an append-only table of
    transactions, with the repository's conditional balance update and the
    wallet service's recharge operations. Amounts are integer minor units. */
module Wallet {
  import opened Wrappers
  import Text
  import Sorting
  import Pagination
  import Arith

  datatype WalletRow = WalletRow(balance: int, frozenBalance: int, totalRecharge: int, totalConsume: int)

  datatype Transaction = Transaction(
    transactionID: string,
    userID: int,
    txType: string,
    amount: int,
    balanceBefore: int,
    balanceAfter: int,
    status: string,
    paymentMethod: Option<string>,
    cryptoCurrency: Option<string>,
    cryptoChain: Option<string>,
    cryptoAddress: Option<string>,
    cryptoTxHash: Option<string>,
    onlinePlatform: Option<string>,
    onlineOrderID: Option<string>,
    onlineURL: Option<string>,
    relatedOrderType: Option<string>,
    relatedOrderID: Option<string>,
    remark: Option<string>,
    createdAt: int,
    completedAt: Option<int>)

  /** Wallets keyed by user ID; transactions in insertion order. */
  datatype Ledger = Ledger(wallets: map<int, WalletRow>, txs: seq<Transaction>)

  const InsufficientOrMissing := "insufficient balance or wallet not found"

  /** The invariant the conditional update protects: no wallet goes negative. */
  predicate NonNegative(l: Ledger) {
    forall u | u in l.wallets :: l.wallets[u].balance >= 0 && l.wallets[u].frozenBalance >= 0
  }

  /** `UpdateBalance`: one guarded UPDATE that matches the user's wallet only when
      neither balance would drop below zero. */
  function UpdateBalance(l: Ledger, userID: int, balanceDelta: int, frozenDelta: int): (r: Result<Ledger, string>)
    ensures r.Success? <==>
      && userID in l.wallets
      && l.wallets[userID].balance + balanceDelta >= 0
      && l.wallets[userID].frozenBalance + frozenDelta >= 0
    ensures r.Failure? ==> r.error == InsufficientOrMissing
    ensures r.Success? ==>
      && r.value.txs == l.txs
      && r.value.wallets.Keys == l.wallets.Keys
      && r.value.wallets[userID].balance == l.wallets[userID].balance + balanceDelta
      && r.value.wallets[userID].frozenBalance == l.wallets[userID].frozenBalance + frozenDelta
      && r.value.wallets[userID].totalRecharge == l.wallets[userID].totalRecharge
      && r.value.wallets[userID].totalConsume == l.wallets[userID].totalConsume
      && (forall u | u in l.wallets && u != userID :: r.value.wallets[u] == l.wallets[u])
  {
    if userID in l.wallets
       && l.wallets[userID].balance + balanceDelta >= 0
       && l.wallets[userID].frozenBalance + frozenDelta >= 0
    then
      var w := l.wallets[userID];
      Success(l.(wallets := l.wallets[userID := w.(balance := w.balance + balanceDelta,
                                                   frozenBalance := w.frozenBalance + frozenDelta)]))
    else
      Failure(InsufficientOrMissing)
  }

  /** Whatever the deltas, a successful update keeps every wallet non-negative. */
  lemma UpdateBalancePreservesNonNegative(l: Ledger, userID: int, balanceDelta: int, frozenDelta: int)
    requires NonNegative(l)
    ensures UpdateBalance(l, userID, balanceDelta, frozenDelta).Success? ==>
      NonNegative(UpdateBalance(l, userID, balanceDelta, frozenDelta).value)
  {
  }

  /** A transaction row matches the list filters: its owner, and the type and
      status filters when they are given and non-empty. */
  predicate MatchesFilter(t: Transaction, userID: int, txType: Option<string>, status: Option<string>) {
    && t.userID == userID
    && (txType.None? || txType.value == "" || t.txType == txType.value)
    && (status.None? || status.value == "" || t.status == status.value)
  }

  function CreatedAt(t: Transaction): int { t.createdAt }

  function Matching(l: Ledger, userID: int, txType: Option<string>, status: Option<string>): seq<Transaction> {
    Sorting.Filter(l.txs, t => MatchesFilter(t, userID, txType, status))
  }

  /** The filtered rows newest first, as `ORDER BY created_at DESC` lists them. */
  function NewestFirst(l: Ledger, userID: int, txType: Option<string>, status: Option<string>): (r: seq<Transaction>)
    ensures Sorting.SortedDescBy(r, CreatedAt)
    ensures multiset(r) == multiset(Matching(l, userID, txType, status))
  {
    Sorting.SortDescBy(Matching(l, userID, txType, status), CreatedAt)
  }

  /** `GetTransactionsByUserID`: the filtered count, and the requested page of the
      filtered rows newest first. The only caller passes a page and a size of at
      least 1. */
  function GetTransactionsByUserID(l: Ledger, userID: int, txType: Option<string>, status: Option<string>,
                                   page: int, pageSize: int): (r: (seq<Transaction>, int))
    requires page >= 1 && pageSize >= 1
    ensures r.1 == |Matching(l, userID, txType, status)|
    ensures |r.0| <= pageSize
    ensures forall t | t in r.0 :: t in l.txs && MatchesFilter(t, userID, txType, status)
    ensures Sorting.SortedDescBy(r.0, CreatedAt)
  {
    var rows := Matching(l, userID, txType, status);
    var ordered := NewestFirst(l, userID, txType, status);
    Pagination.OffsetOfPage(page, pageSize);
    var window := Sorting.Window(ordered, (page - 1) * pageSize, pageSize);
    Sorting.WindowSorted(ordered, (page - 1) * pageSize, pageSize, CreatedAt);
    (window, |rows|)
  }

  /** For a page and size of at least 1 the page is the window of the newest-first
      rows that starts after the earlier pages. */
  lemma TransactionListPage(l: Ledger, userID: int, txType: Option<string>, status: Option<string>,
                            page: int, pageSize: int, offset: nat)
    requires page >= 1 && pageSize >= 1 && offset == (page - 1) * pageSize
    ensures GetTransactionsByUserID(l, userID, txType, status, page, pageSize).0
         == Sorting.Window(NewestFirst(l, userID, txType, status), offset, pageSize)
  {
  }

  /** The pages tile the newest-first rows: the row at position `i` is row
      `i % pageSize` of page `i / pageSize + 1`. */
  lemma EveryMatchingTxIsOnItsPage(l: Ledger, userID: int, txType: Option<string>, status: Option<string>,
                                   pageSize: int, i: nat)
    requires pageSize >= 1 && i < |NewestFirst(l, userID, txType, status)|
    ensures var page := GetTransactionsByUserID(l, userID, txType, status, i / pageSize + 1, pageSize).0;
      i % pageSize < |page| && page[i % pageSize] == NewestFirst(l, userID, txType, status)[i]
  {
    var rows := NewestFirst(l, userID, txType, status);
    Arith.PagePosition(i, pageSize);
    var off: nat := (i / pageSize) * pageSize;
    TransactionListPage(l, userID, txType, status, i / pageSize + 1, pageSize, off);
    Sorting.WindowAt(rows, off, pageSize, i % pageSize);
  }

  /** The total does not depend on which page was asked for. */
  lemma TotalIndependentOfPage(l: Ledger, userID: int, txType: Option<string>, status: Option<string>,
                               p1: int, s1: int, p2: int, s2: int)
    requires p1 >= 1 && s1 >= 1 && p2 >= 1 && s2 >= 1
    ensures GetTransactionsByUserID(l, userID, txType, status, p1, s1).1
         == GetTransactionsByUserID(l, userID, txType, status, p2, s2).1
  {
  }

  /** An empty filter string is the same as no filter. */
  lemma EmptyFilterIsNoFilter(l: Ledger, userID: int, page: int, pageSize: int)
    requires page >= 1 && pageSize >= 1
    ensures GetTransactionsByUserID(l, userID, Some(""), Some(""), page, pageSize)
         == GetTransactionsByUserID(l, userID, None, None, page, pageSize)
  {
    assert Matching(l, userID, Some(""), Some("")) == Matching(l, userID, None, None) by {
      FilterSame(l.txs, t => MatchesFilter(t, userID, Some(""), Some("")), t => MatchesFilter(t, userID, None, None));
    }
  }

  lemma {:induction false} FilterSame(s: seq<Transaction>, p: Transaction -> bool, q: Transaction -> bool)
    requires forall t :: p(t) == q(t)
    ensures Sorting.Filter(s, p) == Sorting.Filter(s, q)
    decreases |s|
  {
    if |s| > 0 {
      FilterSame(s[1..], p, q);
    }
  }

  // ---- wallet service ----

  /** `CreateWallet`: a no-op when the user already has a wallet, otherwise a wallet
      with all four amounts zero. */
  function CreateWallet(l: Ledger, userID: int): (r: Ledger)
    ensures userID in r.wallets
    ensures userID in l.wallets ==> r == l
    ensures userID !in l.wallets ==>
      && r.wallets == l.wallets[userID := WalletRow(0, 0, 0, 0)]
      && r.txs == l.txs
  {
    if userID in l.wallets then l else l.(wallets := l.wallets[userID := WalletRow(0, 0, 0, 0)])
  }

  /** Creating a wallet twice is the same as creating it once. */
  lemma CreateWalletIdempotent(l: Ledger, userID: int)
    ensures CreateWallet(CreateWallet(l, userID), userID) == CreateWallet(l, userID)
  {
  }

  /** `GetWalletInfo`. */
  function GetWalletInfo(l: Ledger, userID: int): (r: Result<WalletRow, string>)
    ensures r.Success? <==> userID in l.wallets
    ensures r.Success? ==> r.value == l.wallets[userID]
    ensures r.Failure? ==> r.error == "wallet not found"
  {
    if userID in l.wallets then Success(l.wallets[userID]) else Failure("wallet not found")
  }

  /** The transaction ID as written: `fmt.Sprintf("TX%d", id)` with a string
      argument, which Go renders as a bad-verb marker around the value. */
  function TransactionIDAsWritten(id: string): string {
    "TX%!d(string=" + id + ")"
  }

  /** The as-written ID never has the intended shape "TX" + digits. */
  lemma AsWrittenTransactionIDIsNotTXDigits(n: nat)
    ensures TransactionIDAsWritten(Text.NatToString(n)) != "TX" + Text.NatToString(n)
    ensures TransactionIDAsWritten("42") == "TX%!d(string=42)"
  {
    var a := TransactionIDAsWritten(Text.NatToString(n));
    assert a[2] == '%';
    assert ("TX" + Text.NatToString(n))[2] == Text.NatToString(n)[0];
  }

  /** The intended transaction ID: "TX" followed by the generated decimal ID. */
  function TransactionIDFor(id: string): (r: string)
    ensures Text.StartsWith(r, "TX") && r[2..] == id
  {
    "TX" + id
  }

  /** The intended payment order ID: "PAY" followed by the generated decimal ID. */
  function PaymentOrderIDFor(id: string): (r: string)
    ensures Text.StartsWith(r, "PAY") && r[3..] == id
  {
    "PAY" + id
  }

  /** The intended IDs read back to the generator's number, so distinct numbers
      give distinct transaction IDs. */
  lemma TransactionIDRoundTrip(n: nat)
    ensures Text.ParseDigits(TransactionIDFor(Text.NatToString(n))[2..]) == n
    ensures Text.ParseDigits(PaymentOrderIDFor(Text.NatToString(n))[3..]) == n
  {
    Text.ParseNatToString(n);
  }

  /** The simulated payment page for an online recharge. */
  function PaymentURL(platform: string, paymentOrderID: string): (r: string)
    ensures Text.StartsWith(r, "https://payment.example.com/")
    ensures r[|"https://payment.example.com/"|..] == platform + "/" + paymentOrderID
  {
    "https://payment.example.com/" + platform + "/" + paymentOrderID
  }

  /** A fresh pending recharge row whose before and after balances are the current one. */
  function PendingRecharge(id: string, userID: int, amount: int, balance: int, now: int): Transaction {
    Transaction(TransactionIDFor(id), userID, "recharge", amount, balance, balance, "pending",
                None, None, None, None, None, None, None, None, None, None, None, now, None)
  }

  /** `CryptoRecharge`: `genID` is the outcome of the ID generator. */
  function CryptoRecharge(l: Ledger, userID: int, amount: int, currency: string, chain: string, address: string,
                          genID: Result<string, string>, now: int): (r: Result<(Ledger, Transaction), string>)
    ensures amount <= 0 ==> r == Failure("invalid amount")
    ensures amount > 0 && userID !in l.wallets ==> r == Failure("failed to get wallet: record not found")
    ensures r.Success? <==> amount > 0 && userID in l.wallets && genID.Success?
    ensures r.Success? ==> var (l', t) := r.value;
      && l'.wallets == l.wallets
      && l'.txs == l.txs + [t]
      && t.transactionID == TransactionIDFor(genID.value)
      && t.userID == userID && t.amount == amount
      && t.txType == "recharge" && t.status == "pending"
      && t.balanceBefore == t.balanceAfter == l.wallets[userID].balance
      && t.paymentMethod == Some("crypto")
      && t.cryptoCurrency == Some(currency) && t.cryptoChain == Some(chain) && t.cryptoAddress == Some(address)
  {
    if amount <= 0 then Failure("invalid amount")
    else if userID !in l.wallets then Failure("failed to get wallet: record not found")
    else if genID.Failure? then Failure("failed to generate transaction ID: " + genID.error)
    else
      var t := PendingRecharge(genID.value, userID, amount, l.wallets[userID].balance, now).(
        paymentMethod := Some("crypto"), cryptoCurrency := Some(currency),
        cryptoChain := Some(chain), cryptoAddress := Some(address));
      Success((l.(txs := l.txs + [t]), t))
  }

  /** `OnlineRecharge`: also returns the payment URL. */
  function OnlineRecharge(l: Ledger, userID: int, amount: int, platform: string,
                          genID: Result<string, string>, now: int): (r: Result<(Ledger, Transaction, string), string>)
    ensures amount <= 0 ==> r == Failure("invalid amount")
    ensures amount > 0 && userID !in l.wallets ==> r == Failure("failed to get wallet: record not found")
    ensures r.Success? <==> amount > 0 && userID in l.wallets && genID.Success?
    ensures r.Success? ==> var (l', t, url) := r.value;
      && l'.wallets == l.wallets
      && l'.txs == l.txs + [t]
      && t.transactionID == TransactionIDFor(genID.value)
      && t.userID == userID && t.amount == amount
      && t.txType == "recharge" && t.status == "pending"
      && t.balanceBefore == t.balanceAfter == l.wallets[userID].balance
      && t.paymentMethod == Some("online")
      && t.onlinePlatform == Some(platform)
      && t.onlineOrderID == Some(PaymentOrderIDFor(genID.value))
      && url == PaymentURL(platform, PaymentOrderIDFor(genID.value))
      && t.onlineURL == Some(url)
  {
    if amount <= 0 then Failure("invalid amount")
    else if userID !in l.wallets then Failure("failed to get wallet: record not found")
    else if genID.Failure? then Failure("failed to generate transaction ID: " + genID.error)
    else
      var orderID := PaymentOrderIDFor(genID.value);
      var url := PaymentURL(platform, orderID);
      var t := PendingRecharge(genID.value, userID, amount, l.wallets[userID].balance, now).(
        paymentMethod := Some("online"), onlinePlatform := Some(platform),
        onlineOrderID := Some(orderID), onlineURL := Some(url));
      Success((l.(txs := l.txs + [t]), t, url))
  }

  /** `GetTransactionByID`: the first row with that ID. */
  function FindTx(txs: seq<Transaction>, id: string): (r: Option<nat>)
    ensures r.Some? ==> r.value < |txs| && txs[r.value].transactionID == id
    ensures r.Some? ==> forall k | 0 <= k < r.value :: txs[k].transactionID != id
    ensures r.None? ==> forall k | 0 <= k < |txs| :: txs[k].transactionID != id
    decreases |txs|
  {
    if |txs| == 0 then None
    else if txs[0].transactionID == id then Some(0)
    else
      match FindTx(txs[1..], id)
      case None => None
      case Some(k) => Some(k + 1)
  }

  /** `ConfirmCryptoRecharge`: the guards in order, then the credit through the
      conditional update and the completed row. */
  function ConfirmCryptoRecharge(l: Ledger, userID: int, transactionID: string, cryptoTxHash: string, now: int)
    : (r: Result<(Ledger, Transaction), string>)
    ensures FindTx(l.txs, transactionID).None? ==> r == Failure("transaction not found")
    ensures FindTx(l.txs, transactionID).Some? ==> var t := l.txs[FindTx(l.txs, transactionID).value];
      && (t.userID != userID ==> r == Failure("transaction does not belong to this user"))
      && (t.userID == userID && t.status != "pending" ==> r == Failure("transaction is not in pending status"))
      && (t.userID == userID && t.status == "pending" && t.txType != "recharge" ==>
            r == Failure("transaction is not a recharge"))
      && (t.userID == userID && t.status == "pending" && t.txType == "recharge" ==>
            (r.Success? <==> UpdateBalance(l, userID, t.amount, 0).Success?))
    ensures r.Success? ==> var (l', t') := r.value; var i := FindTx(l.txs, transactionID).value;
      && var t := l.txs[i];
      && t.userID == userID && t.status == "pending" && t.txType == "recharge"
      && userID in l.wallets && l'.wallets.Keys == l.wallets.Keys
      && l'.wallets[userID].balance == l.wallets[userID].balance + t.amount
      && l'.wallets[userID].totalRecharge == l.wallets[userID].totalRecharge
      && (forall u | u in l.wallets && u != userID :: l'.wallets[u] == l.wallets[u])
      && |l'.txs| == |l.txs|
      && l'.txs[i] == t'
      && (forall k | 0 <= k < |l.txs| && k != i :: l'.txs[k] == l.txs[k])
      && t' == t.(status := "completed", cryptoTxHash := Some(cryptoTxHash),
                  balanceAfter := l'.wallets[userID].balance, completedAt := Some(now))
  {
    match FindTx(l.txs, transactionID)
    case None => Failure("transaction not found")
    case Some(i) =>
      var t := l.txs[i];
      if t.userID != userID then Failure("transaction does not belong to this user")
      else if t.status != "pending" then Failure("transaction is not in pending status")
      else if t.txType != "recharge" then Failure("transaction is not a recharge")
      else
        match UpdateBalance(l, userID, t.amount, 0)
        case Failure(e) => Failure("failed to update balance: " + e)
        case Success(l1) =>
          var w := l1.wallets[userID];
          var t' := t.(status := "completed", cryptoTxHash := Some(cryptoTxHash),
                       balanceAfter := w.balance, completedAt := Some(now));
          Success((l1.(txs := l1.txs[i := t']), t'))
  }

  /** A confirmed recharge cannot be confirmed again: the row is no longer pending. */
  lemma ConfirmTwiceFails(l: Ledger, userID: int, transactionID: string, hash: string, now: int, hash2: string, now2: int)
    requires ConfirmCryptoRecharge(l, userID, transactionID, hash, now).Success?
    ensures ConfirmCryptoRecharge(ConfirmCryptoRecharge(l, userID, transactionID, hash, now).value.0,
                                  userID, transactionID, hash2, now2)
         == Failure("transaction is not in pending status")
  {
    var (l', t') := ConfirmCryptoRecharge(l, userID, transactionID, hash, now).value;
    var i := FindTx(l.txs, transactionID).value;
    assert FindTx(l'.txs, transactionID) == Some(i) by {
      assert l'.txs[i].transactionID == transactionID;
      assert forall k | 0 <= k < i :: l'.txs[k] == l.txs[k];
      FindTxFirst(l'.txs, transactionID, i);
    }
  }

  lemma {:induction false} FindTxFirst(txs: seq<Transaction>, id: string, i: nat)
    requires i < |txs| && txs[i].transactionID == id
    requires forall k | 0 <= k < i :: txs[k].transactionID != id
    ensures FindTx(txs, id) == Some(i)
    decreases i
  {
    if i > 0 {
      FindTxFirst(txs[1..], id, i - 1);
    }
  }

  /** Confirming keeps the ledger free of negative balances. */
  lemma ConfirmPreservesNonNegative(l: Ledger, userID: int, transactionID: string, hash: string, now: int)
    requires NonNegative(l)
    requires ConfirmCryptoRecharge(l, userID, transactionID, hash, now).Success?
    ensures NonNegative(ConfirmCryptoRecharge(l, userID, transactionID, hash, now).value.0)
  {
    var t := l.txs[FindTx(l.txs, transactionID).value];
    UpdateBalancePreservesNonNegative(l, userID, t.amount, 0);
  }

  /** `GetTransactionDetail`: only the owner may read a transaction. */
  function GetTransactionDetail(l: Ledger, userID: int, transactionID: string): (r: Result<Transaction, string>)
    ensures r.Success? <==> FindTx(l.txs, transactionID).Some? && l.txs[FindTx(l.txs, transactionID).value].userID == userID
    ensures r.Success? ==> r.value.transactionID == transactionID && r.value.userID == userID && r.value in l.txs
    ensures FindTx(l.txs, transactionID).None? ==> r == Failure("transaction not found")
    ensures r.Failure? && FindTx(l.txs, transactionID).Some? ==>
      r.error == "transaction does not belong to this user"
  {
    match FindTx(l.txs, transactionID)
    case None => Failure("transaction not found")
    case Some(i) =>
      if l.txs[i].userID != userID then Failure("transaction does not belong to this user")
      else Success(l.txs[i])
  }
}

=== FILE: wrappers.dfy ===
/** Failure-compatible wrappers used for the Go code's `(value, error)` returns
    and its nil-able pointers. */
module Wrappers {

  /** A nil-able value: Go's `*T`. */
  datatype Option<+T> = None | Some(value: T) {
    predicate IsFailure() { None? }

    function PropagateFailure<U>(): Option<U>
      requires None?
    {
      None
    }

    function Extract(): T
      requires Some?
    {
      value
    }

    function GetOr(default: T): T {
      match this
      case Some(v) => v
      case None => default
    }
  }

  /** A value or an error message: Go's `(T, error)`. */
  datatype Result<+R, +E> = Success(value: R) | Failure(error: E) {
    predicate IsFailure() { Failure? }

    function PropagateFailure<U>(): Result<U, E>
      requires Failure?
    {
      Failure(error)
    }

    function Extract(): R
      requires Success?
    {
      value
    }
  }
}
